=== FILE: README.md ===
# Storefront and back-office decision logic, in Dafny

This project models the client-side logic of an Angular e-commerce
application: a storefront (catalogue, product page, cart, checkout, orders,
account pages, FAQ) and an administrators' back-office (products, orders,
users, categories and reviews). Almost every component of the application
calls a REST server; the model keeps the decisions the components take
around those calls and drops the plumbing.

- Each HTTP request becomes an `Outcome` value (success with a payload, or an
  error with a status and an optional server message), and each response
  handler becomes one pure transition function from the old component state
  and that outcome to the new state.
- The loose JSON shapes the server may send are `Option`-heavy datatypes, and
  the JavaScript truthiness and `||`/`??` fallback chains the code relies on
  are written out once in the `Js` module (`TruthyStr`, `OrStr`, `OrNum`,
  `Coalesce`, ...), together with the string built-ins the components use
  (`trim`, `split`, `includes`, `toLowerCase`, `repeat`, `join`).
- Dates and clocks are replaced by whole day counts passed in as arguments.
- Money and ratings are integers, except where a star row depends on a
  fractional rating (`Stars.Halves`), which uses `real`.

Modules follow the source files: `CartStore` the cart service, `CartPage`,
`CartItemView` and `CartSummary` the cart page, `Checkout`, `ShippingForm` and
`OrderReview` the checkout, `Orders`, `OrderTracking`, `ViewDetails`,
`AccountOrders` and `UserService` the order lifecycle, `ProductFilter` and
`ProductListing` the catalogue, `ProductApi` and `AdminApi` the response
normalisers of the two API services, `Home`, `ProductDetails`, `ProductInfo`,
`ProductImages`, `ProductReviews` and `ProductCard` the product pages,
`Profile`, `AccountAddresses`, `WishlistCount` and `WishlistPage` the account,
`FaqPage`, the `Admin*` modules the back-office pages, and `AdminSidebar` and
`AdminHeader` the back-office frame. `Catalog`, `AddressRecord`, `LineItems`,
`Stars` and `Images` hold the shapes and the small rules several pages share.

Most operations are paired with something that pins them down: an inverse
(next/previous, toggle twice, up then down), an invariant they preserve (the
cart store's flags, the gallery index, "at most one menu open", "a hidden
password panel holds an empty form"), or an independent reference definition
(one filter by both tests against the page's two-stage filter, the shared
image normaliser against each page's copy of it, the part-by-part join
against `filter(Boolean).join`, marking then squeezing hyphens against the
run-by-run slug replacement). The remaining ones, mostly lookups, display
texts and fallback chains, are stated case by case for every input; the
"states" column says which.

## Model

| member | source | states |
|---|---|---|
| CartStore.ItemsOf | src/app/core/services/cart.ts:165-186 | a present item list is kept; a missing or null one reads as the empty list |
| CartStore.FromFields | src/app/core/services/cart.ts:165-186 | the cart built from one response body: its items, every missing or zero amount read as 0, shipping from `shippingCost` then `shipping`, no coupon |
| CartStore.Extract | src/app/core/services/cart.ts:165-187 | a wrapped response (truthy `success` and a `data` body) is read from `data`; otherwise a body whose `items` is not undefined is read directly; anything else is the empty cart |
| CartStore.WrappedTakesPriority | src/app/core/services/cart.ts:166-174 | once a response is wrapped, the bare fields beside `data` never affect the cart |
| CartStore.ShippingFallback | src/app/core/services/cart.ts:165-186 | in both shapes shipping is `shippingCost`, else `shipping`, else 0 |
| CartStore.ExtractRoundTrip | src/app/core/services/cart.ts:165-187 | normalising the wrapped or the bare response a server sends for a cart gives that cart back, and a falsy `success` falls through to the bare fields |
| CartStore.UnknownShapeIsEmpty | src/app/core/services/cart.ts:176-186 | an unwrapped response whose items are undefined yields the empty cart |
| CartStore.ItemsCount | src/app/core/services/cart.ts:28-31 | the item count is 0 for an empty cart and non-negative when every quantity is |
| CartStore.ItemsCountAppend | src/app/core/services/cart.ts:28-31 | adding a line to the cart adds exactly its quantity to the item count |
| CartStore.LoadCart | src/app/core/services/cart.ts:44-66 | a load is a no-op while loading or once loaded; otherwise it ends with nothing loading, the cart marked loaded, and the normalised response or, on failure, the empty cart |
| CartStore.LoadCartRequests | src/app/core/services/cart.ts:44-49 | a request is sent exactly when nothing is loading and the cart is not yet loaded |
| CartStore.Mutate | src/app/core/services/cart.ts:68-140 | add, update, remove and coupon requests end with nothing loading; success installs the normalised response and hands it to the caller, and only adding marks the cart loaded; failure leaves the cart as it was and passes the error on |
| CartStore.ClearCart | src/app/core/services/cart.ts:142-159 | clearing leaves the empty cart (item count 0) and nothing loading whatever the outcome; only a success forgets that the cart was loaded |
| CartStore.ClearThenLoad | src/app/core/services/cart.ts:42-159 | after a successful clear the next load fetches again; after a failed clear of a loaded cart it does not |
| CartPage.TrackByItemId | src/app/features/cart/cart.ts:25-27 | list rows are tracked by the line's `_id` |
| CartPage.OnQuantityChange | src/app/features/cart/cart.ts:29-36 | a quantity change is forwarded to the store under the line's own `_id`, with the quantity unchanged |
| CartPage.OnRemoveItem | src/app/features/cart/cart.ts:38-45 | a removal is forwarded to the store under the line's own `_id` |
| CartPage.ProceedToCheckout | src/app/features/cart/cart.ts:58-73 | checkout proceeds exactly when the cart has items and none has a changed price; an empty cart is refused as empty, and a price refusal names a changed line |
| CartPage.EmptyStoreCannotCheckOut | src/app/features/cart/cart.ts:61-64 | the store's initial cart and the cart after a clear are both refused as empty |
| CartItemView.IncreaseQuantity | src/app/features/cart/components/cart-item/cart-item.ts:31-40 | the stepper emits `quantity + 1` unless a truthy stock is exceeded; a zero or missing stock sets no cap |
| CartItemView.IncreaseStaysWithinStock | src/app/features/cart/components/cart-item/cart-item.ts:34-37 | with a positive stock, a quantity within stock stays within stock, and a quantity at stock cannot grow |
| CartItemView.ZeroStockIsUncapped | src/app/features/cart/components/cart-item/cart-item.ts:34 | a stock of 0, like a missing stock, never stops the stepper |
| CartItemView.DecreaseQuantity | src/app/features/cart/components/cart-item/cart-item.ts:42-47 | the stepper emits `quantity - 1` only above 1, so never a value below 1 |
| CartItemView.StepsAreInverse | src/app/features/cart/components/cart-item/cart-item.ts:31-47 | stepping down undoes stepping up, and stepping up undoes stepping down unless the quantity was already above the stock |
| CartItemView.ItemTotal | src/app/features/cart/components/cart-item/cart-item.ts:71-73 | the line total is the unit price times the quantity (its behaviour is stated by `CartItemView.ItemTotalStep`) |
| CartItemView.ItemTotalStep | src/app/features/cart/components/cart-item/cart-item.ts:71-73 | each extra unit adds one unit price to the line total, and a line of no units totals 0 |
| CartItemView.ProductImage | src/app/features/cart/components/cart-item/cart-item.ts:76-91 | a line without a product or images shows the placeholder; otherwise its first image as an absolute URL |
| CartItemView.ProductName | src/app/features/cart/components/cart-item/cart-item.ts:94-96 | the product's name when it has one, never an empty string |
| CartItemView.Size | src/app/features/cart/components/cart-item/cart-item.ts:102-104 | `size`, then `selectedSize`, then `-`, never empty |
| CartItemView.Color | src/app/features/cart/components/cart-item/cart-item.ts:106-108 | `color`, then `selectedColor`, then `-`, never empty |
| CartSummary.OnApplyDiscount | src/app/features/cart/components/cart-summary/cart-summary.ts:34-53 | a code is emitted exactly when it is not blank and differs from the applied coupon, and then in trimmed form |
| Js.TrimOfPadded | src/app/features/cart/components/cart-summary/cart-summary.ts:35 | `trim()` removes any white space added before and after a string, whatever the string |
| CartSummary.ApplyDiscountIgnoresPadding | src/app/features/cart/components/cart-summary/cart-summary.ts:35-48 | any white space before and after the typed code never changes what is emitted |
| CartSummary.ShippingText | src/app/features/cart/components/cart-summary/cart-summary.ts:59-64 | the text is `Free` exactly for zero shipping, otherwise the amount followed by ` EGP` |
| CartSummary.ShippingInfoFor | src/app/features/cart/components/cart-summary/cart-summary.ts:66-72 | a subtotal of 500 or more qualifies for free shipping; below that the remaining amount is positive and brings the subtotal to exactly 500 |
| Checkout.LoadCheckoutData | src/app/features/checkout/checkout.ts:44-57 | the page copies the cart's lines and totals and sends the shopper back to the cart exactly when it has no lines |
| Checkout.NewAddressData | src/app/features/checkout/checkout.ts:68-79 | the address record built for a new address: the type lower-cased with "home" as fallback, the address line from `address` else `addressLine`, and the default flag set when either `setAsDefault` or `isDefault` is truthy |
| Checkout.OnShippingSubmit | src/app/features/checkout/checkout.ts:59-86 | a chosen saved address keeps its id; a new address gets a `temp-` id stamped with the clock and the record to be saved; either way the page moves to step 2 and nothing else changes |
| Checkout.OnPaymentSelect | src/app/features/checkout/checkout.ts:88-93 | choosing a payment method records it and moves to step 3, leaving the address and busy flag alone |
| Checkout.GoToStep | src/app/features/checkout/checkout.ts:176-181 | the step only ever moves backwards; a forward or same step request changes nothing |
| Checkout.Payload | src/app/features/checkout/checkout.ts:134-138 | the order request carries the shipping address id, the fixed payment method "cash", and the notes only when they are not empty |
| Checkout.OnPlaceOrder | src/app/features/checkout/checkout.ts:99-129 | a busy page refuses; a page without an address returns to step 1; otherwise it turns busy and either saves a `temp-` address first or submits the order payload directly |
| Checkout.OnAddressSaved | src/app/features/checkout/checkout.ts:116-125 | a saved address replaces the temporary id and the order is submitted with the new id; a success without `data` throws, so nothing is submitted and the page stays busy; a failed save clears the busy flag and submits nothing |
| Checkout.PlacedOrder | src/app/features/checkout/checkout.ts:142 | the order is read from `data.order`, else from `data`, else from the response itself |
| Checkout.PlaceOrderError | src/app/features/checkout/checkout.ts:161-172 | the failure message is the server's, else the error's own, else the fixed fallback; it is never empty |
| Checkout.OnOrderPlaced | src/app/features/checkout/checkout.ts:140-173 | the busy flag is always cleared; the cart is cleared and the tracking page opened exactly when the placed order has an `_id` or `orderId`, and a failure reports the failure message |
| Checkout.SavedAddressFlow | src/app/features/checkout/checkout.ts:99-174 | with a saved address, placing an order submits that address's id and the result always releases the busy flag |
| Checkout.NewAddressFlow | src/app/features/checkout/checkout.ts:59-125 | with a new address, placing an order first saves it, and the order then goes out with the id the server assigned; a save whose response lacks `data` leaves the page busy with no order sent |
| Checkout.ProductImage | src/app/features/checkout/checkout.ts:187-203 | a line's image is the first image of its product, else of the line itself, normalised like every other image |
| Checkout.ProductName | src/app/features/checkout/checkout.ts:205-207 | a line's name is the product's, else the line's, else "Unknown Product", and never empty |
| Checkout.ProductPrice | src/app/features/checkout/checkout.ts:209-211 | a line's price prefers the product's current price over the line's, else 0 |
| ShippingForm.SavedList | src/app/features/checkout/components/shipping-form/shipping-form.ts:48 | the saved addresses are read from `data`, else `addresses`, else the bare response |
| ShippingForm.FirstDefault | src/app/features/checkout/components/shipping-form/shipping-form.ts:51 | the position of the first address marked default, and none exactly when no address is marked |
| ShippingForm.DefaultSelection | src/app/features/checkout/components/shipping-form/shipping-form.ts:51-52 | the preselected id is the first default address's id when that is non-empty; the first address's id when there is no default or the default's id is missing or empty |
| ShippingForm.OnAddressesLoaded | src/app/features/checkout/components/shipping-form/shipping-form.ts:43-71 | a non-empty list preselects the default and hides the new-address form; an empty list, a 401 or a 404 opens the form; any other error leaves the form as it was apart from loading |
| ShippingForm.SelectAddress | src/app/features/checkout/components/shipping-form/shipping-form.ts:73-76 | picking an address selects its id and closes the new-address form |
| ShippingForm.ToggleNewAddressForm | src/app/features/checkout/components/shipping-form/shipping-form.ts:78-88 | opening the form drops the selection; closing it reselects the default when addresses exist |
| ShippingForm.ToggleTwiceReselects | src/app/features/checkout/components/shipping-form/shipping-form.ts:78-88 | opening and closing the form again leaves it closed with the default address selected |
| ShippingForm.IsFormValid | src/app/features/checkout/components/shipping-form/shipping-form.ts:130-144 | a selected address is always valid; otherwise all seven fields must be non-blank after trimming, and that is also sufficient |
| ShippingForm.FindById | src/app/features/checkout/components/shipping-form/shipping-form.ts:94 | the position of the first saved address with the selected id, and none exactly when no address has it |
| ShippingForm.NewAddressFrom | src/app/features/checkout/components/shipping-form/shipping-form.ts:112-124 | the new address carries trimmed fields, the line under both `address` and `addressLine`, the lower-cased type, and the default flag under both names, and has no id |
| ShippingForm.OnSubmit | src/app/features/checkout/components/shipping-form/shipping-form.ts:90-128 | a selected id emits that saved address with `addressId` set to its `_id`, or nothing when the id is unknown; without a selection a new address is emitted exactly when the form is valid |
| ShippingForm.NewAddressReachesCheckout | src/app/features/checkout/components/shipping-form/shipping-form.ts:112-126 | a new address from the form reaches checkout under a temporary id with its trimmed line and default flag preserved |
| ShippingForm.FullAddress | src/app/features/checkout/components/shipping-form/shipping-form.ts:146-153 | for every address, the one-line address is the line (`addressLine`, else `address`), city and state with missing or empty parts skipped and the rest joined by ", " (stated against the part-by-part reference `Js.JoinKept`); it is empty exactly when all three are missing or empty |
| Js.CompactJoinSnoc | src/app/features/checkout/components/shipping-form/shipping-form.ts:146-153 | `filter(Boolean).join(sep)` with one more part: an empty or missing part changes nothing, a present part stands alone after nothing and follows the separator otherwise |
| Js.CompactJoinIsJoinKept | src/app/features/checkout/components/shipping-form/shipping-form.ts:146-153 | for every list of parts, filtering out the falsy ones and joining the rest equals appending the present parts one by one with the separator between them |
| ShippingForm.FullAddressOfComplete | src/app/features/checkout/components/shipping-form/shipping-form.ts:146-153 | a complete address reads "line, city, state" |
| ShippingForm.AddressTypeLabel | src/app/features/checkout/components/shipping-form/shipping-form.ts:155-162 | "office" and "other" in any case get their labels, and everything else, including a missing type, reads "Home" |
| OrderReview.PaymentMethodName | src/app/features/checkout/components/order-review/order-review.ts:37-44 | the three known methods get their display names, and any other value is shown as given |
| OrderReview.OnPlaceOrder | src/app/features/checkout/components/order-review/order-review.ts:46-63 | the confirmation opens exactly when there is an address, a payment method and a non-empty cart, and the refusals come in that order |
| OrderReview.OnConfirmOrder | src/app/features/checkout/components/order-review/order-review.ts:65-68 | confirming closes the dialog and emits the place-order event |
| OrderReview.OnCancelOrder | src/app/features/checkout/components/order-review/order-review.ts:70-72 | cancelling closes the dialog without emitting anything |
| OrderReview.PlaceOrder | src/app/features/checkout/components/order-review/order-review.ts:46-63 | pressing "place order" opens the dialog exactly when the three checks pass, and never emits the order itself |
| OrderReview.Review | src/app/features/checkout/components/order-review/order-review.ts:46-72 | from a closed dialog, "place order" then the shopper's answer emits the order exactly when there is an address, a payment method and a non-empty cart and the shopper confirms; the dialog ends closed |
| OrderReview.ProductName | src/app/features/checkout/components/order-review/order-review.ts:100-102 | a line's name is the product's, else `productName`, else `name`, and never empty |
| OrderReview.ProductPrice | src/app/features/checkout/components/order-review/order-review.ts:104-106 | a line's price prefers the line's own price over the product's, else 0 |
| Orders.OrderNumberOf | src/app/core/services/order.ts:54 | the displayed order number is `orderId`, else `orderNumber`, else the database `_id` |
| Orders.NormaliseListed | src/app/core/services/order.ts:52-56 | a listed order gets its order number filled in and a missing line list replaced by the empty list, and no other field changes |
| Orders.NormaliseListedIdempotent | src/app/core/services/order.ts:52-56 | normalising a listed order twice gives the same order as normalising it once |
| Orders.GetOrders | src/app/core/services/order.ts:47-59 | the order list is read from `data`, else `orders`, else empty, and every order in it is normalised in place and in order |
| Orders.PlaceholderProduct | src/app/core/services/order.ts:81-85 | a line without a product gets a stand-in with an empty id, no images, and the line's product name, else "Product" |
| Orders.MapItem | src/app/core/services/order.ts:79-93 | a fetched line always has a product (its own or the stand-in), a product id taken from that product or empty, and a subtotal that falls back to price times quantity; nothing else changes |
| Orders.GetOrderById | src/app/core/services/order.ts:67-97 | a response without `success` or `data` is the "Invalid response format" error; otherwise the order gets its order number and has every line mapped, in order, and every other field is passed through unchanged |
| Orders.FetchedLinesComplete | src/app/core/services/order.ts:79-93 | every line of a fetched order has a product and a subtotal |
| Orders.CanCancel | src/app/core/services/order.ts:127-129 | an order can be cancelled exactly when it is pending or confirmed |
| Orders.DaysSinceDelivery | src/app/core/services/order.ts:140-143 | the whole days between delivery and today |
| Orders.CanReturn | src/app/core/services/order.ts:131-146 | a return is possible exactly when none was requested, the order is delivered with a delivery date, and at most 14 days have passed |
| Orders.DaysRemaining | src/app/core/services/order.ts:148-157 | the days left to return are never negative, 0 without a delivery date, and otherwise complete the 14-day window |
| Orders.RemainingImpliesReturnable | src/app/core/services/order.ts:131-157 | days remaining imply a returnable order; on day 14 the order is still returnable although 0 days remain |
| Orders.ReturnWindowCloses | src/app/core/services/order.ts:131-146 | once a delivered order can no longer be returned, it cannot be returned on any later day |
| Orders.StatusClass | src/app/core/services/order.ts:159-173 | an unknown status gets "status-default" and a known one never does |
| Orders.StatusClassOfKnown | src/app/core/services/order.ts:159-173 | each of the ten known statuses gets the class "status-" followed by the status |
| Orders.StatusClassEarly | src/app/core/services/order.ts:161-165 | the first five statuses get "status-" followed by the status |
| Orders.StatusClassLate | src/app/core/services/order.ts:166-170 | the last five statuses get "status-" followed by the status |
| Orders.StatusClassReturns | src/app/core/services/order.ts:169-170 | the two return statuses get "status-" followed by the status |
| Orders.StatusLabel | src/app/core/services/order.ts:175-189 | each known status is shown title-cased with hyphens as spaces ("return-requested" reads "Return Requested"), except "ready", which reads "Ready for Shipment"; a status is shown as given exactly when it is not one of the ten known statuses |
| Orders.KnownTitles | src/app/core/services/order.ts:175-189 | the title-casing of each of the ten statuses is the label the lookup table holds, "Ready" for "ready" aside |
| Orders.RecentOrders | src/app/core/services/order.ts:61-65 | the recent orders are a prefix of the list, at most `limit` long and the whole list when shorter; a negative limit drops that many orders from the end |
| Orders.EstimatedDelivery | src/app/core/services/order.ts:207-221 | the delivery date is the actual one, else the stored estimate, else five days after creation |
| Orders.EstimateAfterCreation | src/app/core/services/order.ts:216-220 | a computed estimate is always later than the order's creation |
| OrderTracking.IsStatusCompleted | src/app/features/order-tracking/order-tracking.ts:124-132 | no order and an off-sequence order status complete nothing; for an order on the sequence, a check status off the sequence counts as completed |
| OrderTracking.StepsDistinct | src/app/features/order-tracking/order-tracking.ts:127 | the six tracking steps are pairwise different |
| OrderTracking.CompletedExactlyUpTo | src/app/features/order-tracking/order-tracking.ts:127-131 | for an order at step j, step i is completed exactly when i is at most j |
| OrderTracking.CompletedIsMonotone | src/app/features/order-tracking/order-tracking.ts:127-131 | a completed step implies that every earlier step is completed |
| OrderTracking.IsStatusActive | src/app/features/order-tracking/order-tracking.ts:134-136 | a step is active exactly when the order exists and is at that status |
| OrderTracking.ActiveIsLastCompleted | src/app/features/order-tracking/order-tracking.ts:124-136 | the active step is completed and the step after it is not |
| OrderTracking.ProductImage | src/app/features/order-tracking/order-tracking.ts:84-100 | a line's image is its product's first image normalised, and the placeholder without a product or images |
| OrderTracking.ProductName | src/app/features/order-tracking/order-tracking.ts:102-104 | a line's name is the product's, else `productName`, else "Unknown Product", and never empty |
| OrderTracking.ProductPrice | src/app/features/order-tracking/order-tracking.ts:106-108 | a line's price is its own when non-zero, else the product's, else 0 |
| OrderTracking.MappedLineHasName | src/app/features/order-tracking/order-tracking.ts:102-104 | a fetched line without a product still shows its own product name through the stand-in product |
| OrderTracking.CheckReturnReason | src/app/features/order-tracking/order-tracking.ts:185-193 | a blank reason and one shorter than 10 characters after trimming are refused; an accepted reason is the trimmed text |
| OrderTracking.ReasonCheckStable | src/app/features/order-tracking/order-tracking.ts:185-198 | any white space before and after the reason does not change the verdict, and an accepted reason is accepted again unchanged |
| OrderTracking.LoadErrorMessage | src/app/features/order-tracking/order-tracking.ts:63-75 | the load error is "Order not found" for a 404, else the server's message, else the fixed fallback |
| OrderTracking.MissingOrderId | src/app/features/order-tracking/order-tracking.ts:43-48 | a route without an id stops loading with "Order ID is required" |
| OrderTracking.OnOrderLoaded | src/app/features/order-tracking/order-tracking.ts:53-82 | a loaded order is shown and clears the error; a 401 redirects to login and leaves the page loading; any other error stops loading and shows its message |
| OrderTracking.OnSubmitReturn | src/app/features/order-tracking/order-tracking.ts:182-198 | a return is requested exactly when there is an order and the reason is accepted, with the trimmed reason; a refusal changes nothing |
| OrderTracking.OnReturnRequested | src/app/features/order-tracking/order-tracking.ts:199-208 | after the request, success or failure, the reason field is cleared |
| ViewDetails.CanReviewOrder | src/app/features/view-details/view-details.ts:114-116 | an order can be reviewed exactly when it exists and is delivered |
| ViewDetails.CanRequestReturn | src/app/features/view-details/view-details.ts:118-120 | without an order no return can be requested; with one the service's return rule decides |
| ViewDetails.ReturnableIsReviewable | src/app/features/view-details/view-details.ts:114-120 | every order that can be returned can also be reviewed |
| ViewDetails.SubmitReturn | src/app/features/view-details/view-details.ts:195-211 | a return goes out exactly when there is an order and the trimmed reason has at least 10 characters, carrying the order id and the trimmed reason |
| ViewDetails.SameReturnRules | src/app/features/view-details/view-details.ts:195-211 | the order page and the tracking page accept the same return reasons and send the same trimmed text |
| ViewDetails.SubmitReview | src/app/features/view-details/view-details.ts:248-280 | a review is sent exactly when there is a line and an order, the comment is not blank, the rating is 1 to 5 and the line has a product id; the payload has the trimmed comment and the order's id; a missing product id resets the busy flag |
| ViewDetails.OnCancelled | src/app/features/view-details/view-details.ts:160-174 | a successful cancel marks the local order cancelled and changes nothing else; a failure leaves it as it was |
| ViewDetails.CancelIsFinal | src/app/features/view-details/view-details.ts:163-168 | a cancelled order can no longer be cancelled, returned or reviewed |
| AccountOrders.FilteredOrders | src/app/features/account/components/orders/orders.ts:66-72 | "all" shows every order; any other selection shows exactly the orders with that status, in their order |
| AccountOrders.HasOrders | src/app/features/account/components/orders/orders.ts:146-148 | there are orders to show exactly when some order matches the selection |
| AccountOrders.ItemCount | src/app/features/account/components/orders/orders.ts:142-144 | the item count is 0 without lines and never negative for non-negative quantities |
| AccountOrders.ItemCountAppend | src/app/features/account/components/orders/orders.ts:142-144 | one more line adds exactly its quantity to the count |
| AccountOrders.OrderTotal | src/app/features/account/components/orders/orders.ts:150-152 | the total is `finalAmount`, else `totalAmount`, else 0 |
| UserService.GetUserStats | src/app/core/services/user.ts:65-85 | no data or an empty list gives all zeros; the order count is the list's length, the wishlist count is 0, and pending plus completed never exceed the total |
| UserService.Tally | src/app/core/services/user.ts:65-85 | an order-by-order count: each order adds one to the total, one to pending or completed by its status, and a delivered order adds its amount to the spending; the total is the list's length and the wishlist count 0 |
| UserService.StatsAreTally | src/app/core/services/user.ts:65-85 | for every list of orders, the filtered counts and the delivered-only sum of `getUserStats` equal the order-by-order count |
| UserService.PendingAndDeliveredDisjoint | src/app/core/services/user.ts:78-79 | no order is counted both as pending and as completed |
| UserService.StatsAppend | src/app/core/services/user.ts:68-82 | one more order adds one to the total, one to pending or completed according to its status, and its total to the amount spent only when delivered |
| UserService.Initials | src/app/core/services/user.ts:87-91 | no user gives ""; with both names the upper-cased first letters of first and last name; with one name empty just the other name's upper-cased first letter; with both empty "" |
| UserService.FullName | src/app/core/services/user.ts:93-97 | no user gives ""; otherwise the first name, then one space, then the last name, both unchanged |
| UserService.FullNameSplits | src/app/core/services/user.ts:93-97 | splitting the full name at spaces gives back the first and last names when neither contains a space |
| ProductFilter.OptionsFor | src/app/features/products/components/product-filter/product-filter.ts:54-60 | the men's page offers five sizes up to XXL and the women's five sizes from XS, each with five colours |
| ProductFilter.LoadCategories | src/app/features/products/components/product-filter/product-filter.ts:65-83 | the shown categories are, in order, exactly those of the response (`data`, else `categories`) with no gender, the page's gender, "unisex" or "all" |
| ProductFilter.FindCategory | src/app/features/products/components/product-filter/product-filter.ts:101 | a category with the id is found exactly when one is listed, and the found one has that id |
| ProductFilter.SubcategoryIds | src/app/features/products/components/product-filter/product-filter.ts:102-105 | the ids removed on deselecting a category are exactly its subcategories' ids |
| ProductFilter.ToggleCategory | src/app/features/products/components/product-filter/product-filter.ts:97-111 | selecting adds the category and leaves subcategories alone; deselecting removes it together with every subcategory of the listed category; nothing else changes |
| ProductFilter.DeselectCascades | src/app/features/products/components/product-filter/product-filter.ts:97-106 | after deselecting a category neither it nor any of its subcategories remains selected |
| ProductFilter.ToggleSubcategory | src/app/features/products/components/product-filter/product-filter.ts:113-120 | the subcategory's membership flips and nothing else changes |
| ProductFilter.ToggleSize | src/app/features/products/components/product-filter/product-filter.ts:122-129 | the size's membership flips and nothing else changes |
| ProductFilter.ToggleColor | src/app/features/products/components/product-filter/product-filter.ts:131-138 | the colour's membership flips and nothing else changes |
| ProductFilter.ToggleExpansion | src/app/features/products/components/product-filter/product-filter.ts:85-91 | the category's expanded state flips and nothing else changes |
| ProductFilter.TogglesAreInvolutions | src/app/features/products/components/product-filter/product-filter.ts:85-138 | toggling a size, colour, subcategory or expansion twice restores the panel |
| ProductFilter.CategoryToggleTwice | src/app/features/products/components/product-filter/product-filter.ts:97-111 | selecting and deselecting a category restores the selected categories and can only shrink the selected subcategories |
| ProductFilter.ClearAll | src/app/features/products/components/product-filter/product-filter.ts:144-153 | clearing empties every selection and the expansions and resets the price range to 0..5000, keeping the loaded categories |
| ProductFilter.Emit | src/app/features/products/components/product-filter/product-filter.ts:155-165 | the emitted filters carry exactly the panel's selections and price range |
| ProductFilter.ClearedFiltersAreDefault | src/app/features/products/components/product-filter/product-filter.ts:144-165 | after clearing, the emitted filters are the defaults: nothing selected and 0..5000 |
| ProductFilter.SubcategoriesCount | src/app/features/products/components/product-filter/product-filter.ts:183-185 | the count is the number of subcategories, 0 when they are missing |
| ProductListing.SearchProducts | src/app/features/products/products.ts:76-81 | an empty query keeps every product; otherwise exactly the products whose name or description contains the query, ignoring case, in order |
| ProductListing.CategoryIdOf | src/app/features/products/products.ts:146-148 | a product's category id is the object's `_id` or the string itself, and missing when there is no category |
| ProductListing.RefIdIfSet | src/app/features/products/products.ts:158-165 | a reference yields the string itself, or the object's `_id` only when that is set |
| ProductListing.SubcategoryIdOf | src/app/features/products/products.ts:156-166 | the subcategory id is read from `subCategory` first and from `subcategory` otherwise |
| ProductListing.ApplyFilters | src/app/features/products/products.ts:144-203 | the kept products are a subsequence within the price range that meets every non-empty category, subcategory, size and colour selection, and every product that meets them all is kept |
| ProductListing.DefaultFiltersKeepPriceRange | src/app/features/products/products.ts:173-176 | with the default filters every product priced 0..5000 is kept |
| ProductListing.SortKey | src/app/features/products/products.ts:115-141 | each sort mode as a key compared in order: price up, price down, date down (missing as 0), rating down (missing as 0), else featured first then rating down |
| ProductListing.SortProducts | src/app/features/products/products.ts:115-141 | the result is a permutation, ordered by price up or down, by date or rating down, or featured first and then by rating for any other mode |
| ProductListing.SortProductsIsStable | src/app/features/products/products.ts:115-141 | products the comparator ranks equal keep the order they had before the sort |
| ProductListing.TotalPages | src/app/features/products/products.ts:209 | the page count is the ceiling of the count over 12: enough pages, no empty last page, and 0 only for no products |
| ProductListing.PageOf | src/app/features/products/products.ts:210-212 | a page is the slice of up to 12 products starting at its offset; every page up to the count is non-empty and every page before the last is full |
| ProductListing.PagesCover | src/app/features/products/products.ts:208-213 | every product appears on page k/12+1 at position k%12 |
| ProductListing.PageNumbers | src/app/features/products/products.ts:307-309 | the page numbers are 1 to the page count, in order |
| ProductListing.UpdateDisplayed | src/app/features/products/products.ts:208-213 | the page count and shown products are recomputed from the filtered list and the current page, and nothing else changes |
| ProductListing.ApplyFiltersAsWritten | src/app/features/products/products.ts:143-206 | the filter step as written keeps a subsequence of the loaded products, in loaded order |
| ProductListing.FilterChangeLosesSort | src/app/features/products/products.ts:143-206 | two products sorted by ascending price come back in descending order from the filter step as written |
| ProductListing.ApplyFiltersAndSort | src/app/features/products/products.ts:143-206 | the filtered products, as a permutation of the filter result, sorted by the current mode and within the price range |
| ProductListing.OnLoaded | src/app/features/products/products.ts:72-93 | as written, loaded products pass the search and are then re-filtered in loaded order (the sort made just before is overwritten), and the current page is shown |
| ProductListing.SortModeIgnored | src/app/features/products/products.ts:72-106 | as written, for the same server response the list shown after a load or a filter change is the same whatever sort mode is chosen (the mode is still sent to the server as `sort`, products.ts:68) |
| ProductListing.SortThenFilterChangeUnsorts | src/app/features/products/products.ts:102-113 | for any two products passing the filters, a price-ascending sort followed by a filter change shows them in loaded order again |
| ProductListing.OnLoadedIntended | src/app/features/products/products.ts:72-93 | as intended, loaded products pass the search, are filtered and then sorted by the current mode, and the current page is shown |
| ProductListing.OnFilterChange | src/app/features/products/products.ts:102-106 | as written, new filters return to page 1 and re-filter the loaded products, keeping their loaded order |
| ProductListing.OnFilterChangeIntended | src/app/features/products/products.ts:102-106 | as intended, new filters return to page 1 and the filtered products stay in the current sort order |
| ProductListing.IntendedIsReordering | src/app/features/products/products.ts:102-206 | the intended and the written filter change show the same products, only in a different order |
| ProductListing.OnSortChange | src/app/features/products/products.ts:108-113 | a new sort returns to page 1 and reorders the same filtered products |
| ProductListing.GoToPage | src/app/features/products/products.ts:215-221 | a page within 1..totalPages is shown; any other request changes nothing |
| ProductListing.Stars | src/app/features/products/products.ts:223-225 | the star string has as many stars as the rating, and a negative rating is a range error |
| ProductListing.CategoryName | src/app/features/products/products.ts:311-319 | the category label is a string category itself, else the object's name, else "Casual", never empty |
| ProductListing.FirstOf | src/app/features/products/products.ts:267-273 | the default option is the first one when the list is not empty |
| ProductListing.StartAddToCart | src/app/features/products/products.ts:249-275 | a cart request starts exactly when the product has an id that is not already being added and is not out of stock; it marks the id busy and carries the first size and colour |
| ProductListing.AddErrorMessage | src/app/features/products/products.ts:283-295 | 401 and 404 get fixed messages, otherwise the server's message, else the generic one |
| ProductListing.FinishAddToCart | src/app/features/products/products.ts:276-282 | finishing a request clears that id and only that id |
| ProductListing.AddToCartRestoresBusy | src/app/features/products/products.ts:265-281 | starting and finishing an add leaves the busy set as it was |
| ProductListing.NoDoubleAdd | src/app/features/products/products.ts:256-258 | a second add of the same product while the first is running is refused |
| ProductListing.ImageUrl | src/app/features/products/products.ts:227-237 | an empty path is the placeholder; any other path is made absolute |
| AdminProducts.RefField | src/app/layouts/admin/products/products.ts:268-273 | opening the edit form keeps only the id of a populated category or subcategory, and a missing one stays missing |
| AdminProducts.CategoriesForGender | src/app/layouts/admin/products/products.ts:120-131 | the offered categories are, in order, exactly those without a gender or for that gender, "unisex" or "all" |
| AdminProducts.OnGenderChange | src/app/layouts/admin/products/products.ts:99-118 | after a gender change the chosen category is always one that is offered or empty; without a gender nothing is offered and the category is cleared; a still-offered category is kept; no other field changes |
| AdminProducts.FindCategory | src/app/layouts/admin/products/products.ts:158 | a category with the id is found exactly when one is offered, and the found one has that id |
| AdminProducts.SubcategoriesFor | src/app/layouts/admin/products/products.ts:157-165 | the offered subcategories are exactly the chosen category's subcategories not marked inactive, in order, and none for an unknown category |
| AdminProducts.OnCategoryChange | src/app/layouts/admin/products/products.ts:133-155 | after a category change the chosen subcategory is always one that is offered or empty; without a category nothing is offered; no other field changes |
| AdminProducts.CascadeIsConsistent | src/app/layouts/admin/products/products.ts:99-155 | a gender change followed by a category change leaves both choices consistent with what is offered and touches nothing else |
| AdminProducts.DropSeparators | src/app/layouts/admin/products/products.ts:344-345 | leading characters that are not letters or digits are dropped, and only those |
| AdminProducts.Hyphenate | src/app/layouts/admin/products/products.ts:344 | every run of characters other than lower-case letters and digits becomes one hyphen, so no two hyphens are adjacent |
| AdminProducts.MarkSeparators | src/app/layouts/admin/products/products.ts:344 | reference step one: each character outside lower-case letters and digits becomes a hyphen, position by position |
| AdminProducts.Squeeze | src/app/layouts/admin/products/products.ts:344 | reference step two: adjacent hyphens collapse to one, and the result is never longer |
| AdminProducts.HyphenateIsReference | src/app/layouts/admin/products/products.ts:344 | the run-by-run replacement equals the reference: mark every separator, then squeeze the hyphens, for every input |
| AdminProducts.SqueezeLeadingHyphen | src/app/layouts/admin/products/products.ts:344 | a hyphen in front of marked text swallows the separator run after it |
| AdminProducts.SlugTextUnchanged | src/app/layouts/admin/products/products.ts:344 | text of letters and digits only passes through the replacement unchanged |
| AdminProducts.SlugPrefixCopied | src/app/layouts/admin/products/products.ts:344 | letters and digits in front are copied through the replacement as they are |
| AdminProducts.DropSeparatorRun | src/app/layouts/admin/products/products.ts:344 | dropping a separator run in front of a word leaves exactly the word |
| AdminProducts.HyphenateSeparatorStep | src/app/layouts/admin/products/products.ts:344 | a leading separator becomes one hyphen and the separators after it are swallowed |
| AdminProducts.SeparatorRunThenWord | src/app/layouts/admin/products/products.ts:344 | a separator run followed by a word becomes one hyphen and the word |
| AdminProducts.SeparatorRunIsOneHyphen | src/app/layouts/admin/products/products.ts:344 | a separator run of any length between two words becomes exactly one hyphen |
| AdminProducts.StripHyphens | src/app/layouts/admin/products/products.ts:345 | removing a leading and a trailing hyphen leaves a slug |
| AdminProducts.Slugify | src/app/layouts/admin/products/products.ts:341-346 | a generated slug has only lower-case letters, digits and single inner hyphens, and is no longer than the name |
| AdminProducts.SlugOfTwoWords | src/app/layouts/admin/products/products.ts:341-346 | two lower-case words joined by any run of characters that lower-case to separators give the slug "word-word" |
| AdminProducts.DropSeparatorsKeepsLetters | src/app/layouts/admin/products/products.ts:344-345 | dropping separators keeps every letter and digit, in order |
| AdminProducts.HyphenateKeepsLetters | src/app/layouts/admin/products/products.ts:344 | the replacement keeps every letter and digit, in order |
| AdminProducts.HyphenateFixesShape | src/app/layouts/admin/products/products.ts:344 | text already in hyphenated shape is left unchanged by the replacement |
| AdminProducts.SlugifyFixesSlugs | src/app/layouts/admin/products/products.ts:341-346 | a slug is its own slug |
| AdminProducts.SlugifyIdempotent | src/app/layouts/admin/products/products.ts:341-346 | slugifying twice gives the same slug as slugifying once |
| AdminProducts.SlugifyKeepsLetters | src/app/layouts/admin/products/products.ts:341-346 | the slug keeps exactly the lower-cased name's letters and digits, in order |
| AdminProducts.StripHyphensKeepsLetters | src/app/layouts/admin/products/products.ts:345 | removing the edge hyphens keeps every letter and digit |
| AdminProducts.SkuFor | src/app/layouts/admin/products/products.ts:348-351 | a generated SKU is "PRD-" followed by the last one to six digits of the clock |
| AdminProducts.Invalid | src/app/layouts/admin/products/products.ts:321-339 | a product is accepted exactly when it has a name, a description, a category, a positive price and a stock that is either non-negative or `null` (a missing or negative stock is refused), and each refusal is one of the four warnings in that order |
| AdminProducts.Complete | src/app/layouts/admin/products/products.ts:341-355 | a missing slug or SKU is generated from the name and the clock, missing lists become empty lists, and nothing else changes |
| AdminProducts.CompleteIdempotent | src/app/layouts/admin/products/products.ts:341-355 | completing an already completed product changes nothing, whatever the clock says |
| AdminProducts.PayloadOf | src/app/layouts/admin/products/products.ts:357-361 | a set subcategory is sent under `subCategory` instead of `subcategory`; nothing else changes |
| AdminProducts.SaveProduct | src/app/layouts/admin/products/products.ts:318-386 | without a product nothing happens; an invalid product is refused with its warning; a valid one, including one whose stock is `null`, is completed and sent, as an update exactly when it has an id |
| AdminProducts.NullStockIsSaved | src/app/layouts/admin/products/products.ts:336-339 | a product whose stock box was cleared to `null` is saved, while the same product with no stock or a negative stock is refused with the stock warning |
| AdminProducts.AddUnique | src/app/layouts/admin/products/products.ts:493-498 | the value is appended only when it is not already present, so a list without duplicates keeps none |
| AdminProducts.AddSize | src/app/layouts/admin/products/products.ts:483-501 | the trimmed, upper-cased size is appended when new, with the input cleared; a duplicate is refused with a warning; a blank input does nothing |
| AdminProducts.AddColor | src/app/layouts/admin/products/products.ts:503-521 | the trimmed colour is appended when new, with the input cleared; a duplicate is refused with a warning; a blank input does nothing |
| AdminProducts.AddingKeepsListsDistinct | src/app/layouts/admin/products/products.ts:483-521 | adding a size or colour never creates a duplicate, and adding the same size again is refused |
| AdminProducts.RemoveAt | src/app/layouts/admin/products/products.ts:523-539 | an index outside the list changes nothing; otherwise exactly that element is removed and the rest keep their order |
| AdminProducts.RemoveAtUndoesInsert | src/app/layouts/admin/products/products.ts:523-539 | removing the element just inserted at a position gives the list back |
| AdminProducts.SpliceOne | src/app/layouts/admin/products/products.ts:476 | a splice of one element removes the element at the index, counting from the end for a negative index and removing the first for one below the length |
| AdminProducts.RemoveImage | src/app/layouts/admin/products/products.ts:465-481 | a confirmed image removal splices that position out of an existing image list and changes nothing else |
| AdminProducts.SelectImages | src/app/layouts/admin/products/products.ts:427-437 | no files do nothing, more than five are refused, and one to five start an upload |
| AdminProducts.OnUploaded | src/app/layouts/admin/products/products.ts:445-456 | the returned URLs (`data`, else `imageUrls`) are appended in order to an existing image list, and the notice counts them |
| AdminProducts.IfSet | src/app/layouts/admin/products/products.ts:174-176 | a filter is sent only when it is not empty |
| AdminProducts.QueryOf | src/app/layouts/admin/products/products.ts:167-178 | the request carries the current page and the limit, and each of search, category and gender exactly when it is set |
| AdminProducts.ResetPage | src/app/layouts/admin/products/products.ts:192-209 | searching and filtering return to page 1; clearing also removes every filter from the request |
| AdminProducts.NextPage | src/app/layouts/admin/products/products.ts:211-217 | the next page is taken exactly when one exists, and the pager stays within bounds |
| AdminProducts.PrevPage | src/app/layouts/admin/products/products.ts:219-225 | the previous page is taken exactly when the current page is not the first, and the pager stays within bounds |
| AdminProducts.GoToPage | src/app/layouts/admin/products/products.ts:228-234 | a jump happens exactly to a different page within range, and the pager stays within bounds |
| AdminProducts.NextPrevInverse | src/app/layouts/admin/products/products.ts:211-234 | next then previous, and previous then next, return to the same table; jumping to the current page does nothing |
| AdminProducts.Run | src/app/layouts/admin/products/products.ts:243-245 | the consecutive page numbers from lo to hi |
| AdminProducts.PageButtons | src/app/layouts/admin/products/products.ts:237-263 | up to five pages are all listed; otherwise a window of five around the current page, shifted at the ends, always containing the current page |
| AdminProducts.OnProductsLoaded | src/app/layouts/admin/products/products.ts:179-184 | products come from `products`, else `data`, else none; the page count is the top-level count when truthy, else the nested `pagination.totalPages` when truthy, else 1; the total is the top-level total when truthy, else the nested `pagination.total` when truthy, else the number of products |
| AdminProducts.LoadedAsStated | src/app/layouts/admin/products/products.ts:179-184 | a response with a positive page count and total is taken as stated |
| AdminOrders.CustomerName | src/app/layouts/admin/orders/orders.ts:248-257 | the customer is the user's first and last name when both are set, else the user's `name`, else "Unknown"; without a user it is `customer`, else "Unknown"; never empty |
| AdminOrders.LinesOf | src/app/layouts/admin/orders/orders.ts:259-267 | the row's lines are a non-empty `items` list, else a non-empty `itemsData` list, else none |
| AdminOrders.Quantity | src/app/layouts/admin/orders/orders.ts:264 | a line counts its quantity, a missing or zero quantity as 0 |
| AdminOrders.ItemCount | src/app/layouts/admin/orders/orders.ts:259-272 | the item count sums the quantities of the chosen lines; without lines it is `itemsCount`, else a numeric `items`, else 0 |
| AdminOrders.ItemListTakesPriority | src/app/layouts/admin/orders/orders.ts:262-264 | a non-empty `items` list decides both the lines and the count, whatever `itemsData` and `itemsCount` say |
| AdminOrders.FormatAddress | src/app/layouts/admin/orders/orders.ts:302-313 | a text address is shown as given, an object as its non-empty line, city and state joined by commas, and "-" when nothing is left or there is no address |
| AdminOrders.FormatCompleteAddress | src/app/layouts/admin/orders/orders.ts:302-313 | a complete address object reads "line, city, state" |
| AdminOrders.ToRow | src/app/layouts/admin/orders/orders.ts:274-289 | a table row carries the customer, line count and lines; the order number and total fall back through their fields; the email is the user's, else the order's, else "-"; the phone likewise; the address is the formatted shipping address when not empty, else the order's `address`, else "-"; the payment method defaults to "Cash"; status, id and return request are copied |
| AdminOrders.AddressFallbackOnlyForEmptyText | src/app/layouts/admin/orders/orders.ts:285-313 | the order's own `address` is read only when the shipping address is an empty string; a missing shipping address shows "-" |
| AdminOrders.LoadOrders | src/app/layouts/admin/orders/orders.ts:246-291 | every order of the response (`data`, else `orders`) becomes one row, in order |
| AdminOrders.ComputeStats | src/app/layouts/admin/orders/orders.ts:319-326 | the statistics count all orders, the pending ones and the return requests, and sum the totals of the delivered ones |
| AdminOrders.RowTotal | src/app/layouts/admin/orders/orders.ts:325 | a row contributes its total to the revenue |
| AdminOrders.StatsAdd | src/app/layouts/admin/orders/orders.ts:319-326 | the statistics of two lists of rows put together are the sums of their statistics |
| AdminOrders.PendingAndReturnsBounded | src/app/layouts/admin/orders/orders.ts:321-322 | pending orders and return requests together never outnumber the orders |
| AdminOrders.Cards | src/app/layouts/admin/orders/orders.ts:327-332 | exactly four cards in order: "Total Orders" with the order count in blue, "Pending" with the pending count in yellow, "Returns" with the return-request count in orange, and "Revenue" with the revenue, ".00" and "EGP" in green |
| AdminOrders.MatchesSearch | src/app/layouts/admin/orders/orders.ts:337-339 | a row matches when its customer, its order number (missing as empty) or its email contains the term, ignoring ASCII case |
| AdminOrders.MatchesStatus | src/app/layouts/admin/orders/orders.ts:341-342 | a row matches the status filter "all" or its own status |
| AdminOrders.FilteredOrders | src/app/layouts/admin/orders/orders.ts:335-347 | the shown rows are exactly those whose customer, order number or email contains the search term, ignoring case, and that match the status filter, in order |
| AdminOrders.EmptySearchShowsAll | src/app/layouts/admin/orders/orders.ts:335-347 | an empty search with the "all" status shows every row |
| AdminOrders.SearchIgnoresCase | src/app/layouts/admin/orders/orders.ts:337-340 | an upper-cased search term selects the same rows |
| AdminOrders.StatusText | src/app/layouts/admin/orders/orders.ts:349-363 | each of the ten known statuses is shown title-cased with hyphens as spaces ("ready" reads "Ready"); a status is shown as given exactly when it is not one of them |
| AdminOrders.StatusTextMatchesLabels | src/app/layouts/admin/orders/orders.ts:349-363 | the admin labels agree with the storefront's labels except for "ready", which reads "Ready" here and "Ready for Shipment" there |
| AdminOrders.ActionWord | src/app/layouts/admin/orders/orders.ts:382 | the two return actions are sent as "approve" and "reject" |
| AdminOrders.ReturnDecision | src/app/layouts/admin/orders/orders.ts:399-405 | as written: a decision is sent exactly when an order with an id and an action are chosen; the response is the trimmed text, else "Return " + the action word + "d by admin" |
| AdminOrders.RejectNoteMisspelled | src/app/layouts/admin/orders/orders.ts:404 | as written, a rejection with no typed response sends "Return rejectd by admin"; an approval sends "Return approved by admin" |
| AdminOrders.ReturnDecisionIntended | src/app/layouts/admin/orders/orders.ts:399-405 | corrected: the same decision, but the default response is "Return approved by admin" or "Return rejected by admin" |
| AdminOrders.IntendedDiffersOnlyForRejectNote | src/app/layouts/admin/orders/orders.ts:399-405 | the corrected and the as-written decisions differ exactly for a rejection of an order with an id and no typed response |
| AdminOrders.IntendedDecisionIgnoresPadding | src/app/layouts/admin/orders/orders.ts:404 | white space around the typed response does not change the corrected decision |
| AdminOrders.DecisionIgnoresPadding | src/app/layouts/admin/orders/orders.ts:404 | any white space before and after the admin's response does not change the decision |
| AdminUsers.DisplayName | src/app/layouts/admin/users/users.ts:96 | the shown name is `name`, else the first and last names joined by a space and trimmed |
| AdminUsers.FirstNameAlone | src/app/layouts/admin/users/users.ts:96 | a user with only an unpadded first name is shown by that first name, without a trailing space |
| AdminUsers.Normalise | src/app/layouts/admin/users/users.ts:93-100 | a loaded user gets `id` from `_id`, the display name, zero for missing totals, and "-" for a missing join date; nothing else changes |
| AdminUsers.NormaliseIdempotent | src/app/layouts/admin/users/users.ts:93-100 | normalising a user with a name again changes nothing |
| AdminUsers.LoadUsers | src/app/layouts/admin/users/users.ts:88-100 | every user of the response (`data`, else `users`) is normalised, in order |
| AdminUsers.ComputeStats | src/app/layouts/admin/users/users.ts:115-119 | the statistics count all users, the active ones and the admins, and sum what every user spent |
| AdminUsers.StatsAdd | src/app/layouts/admin/users/users.ts:115-119 | the statistics of two lists of users put together are the sums of their statistics |
| AdminUsers.StatCards | src/app/layouts/admin/users/users.ts:115-143 | four cards in order: "Total Users" in blue, "Active Users" in green and "Admins" in purple with their counts, and "Total Revenue" in orange with the sum and two decimals followed by " EGP" |
| AdminUsers.NoUsersZeroCards | src/app/layouts/admin/users/users.ts:115-143 | with no users loaded the cards read 0, 0, 0 and "0.00 EGP" |
| AdminUsers.MatchesSearch | src/app/layouts/admin/users/users.ts:147-155 | a user matches when the name, email or phone (missing ones as empty) contains the term, ignoring ASCII case |
| AdminUsers.MatchesFilters | src/app/layouts/admin/users/users.ts:147-164 | a user matches the search, the role filter ("all" or the user's role) and the status filter ("all" or the user's status) |
| AdminUsers.FilteredUsers | src/app/layouts/admin/users/users.ts:145-165 | the shown users are exactly those whose name, email or phone contains the search term, ignoring case, and that match the role and status filters, in order |
| AdminUsers.NoFilterShowsAll | src/app/layouts/admin/users/users.ts:145-165 | an empty search with both filters at "all" shows every user |
| AdminUsers.RoleFilterNarrows | src/app/layouts/admin/users/users.ts:157-158 | choosing a role only ever removes users from the list shown for "all" roles |
| AdminUsers.ColorOf | src/app/layouts/admin/users/users.ts:167-182 | a badge colour is the table's entry for the key, and "" for any other key |
| AdminUsers.ColorsCoverKnownKeys | src/app/layouts/admin/users/users.ts:167-182 | exactly the three statuses and the two roles have colours |
| AdminUsers.OpenEdit | src/app/layouts/admin/users/users.ts:197-203 | the edit form is the user with the password cleared and nothing else changed |
| AdminUsers.DropDerived | src/app/layouts/admin/users/users.ts:230-235 | the id, database id, join date, totals and creation date are removed before saving |
| AdminUsers.UpdatePayload | src/app/layouts/admin/users/users.ts:226-235 | an update sends the editable fields unchanged, the password only when one was typed, and none of the derived fields |
| AdminUsers.CreatePayload | src/app/layouts/admin/users/users.ts:248-256 | a creation sends the editable fields and password, without the derived fields or first and last names |
| AdminUsers.PayloadsArePruned | src/app/layouts/admin/users/users.ts:226-256 | pruning a payload a second time changes nothing |
| AdminUsers.SaveUser | src/app/layouts/admin/users/users.ts:210-279 | a missing name or email is refused first; a new user without a password is refused; otherwise an existing user is updated under its `_id`, else `id`, and a new one is created with its password |
| AdminUsers.EditKeepsPassword | src/app/layouts/admin/users/users.ts:197-237 | saving an opened existing user without typing a password sends an update without a password |
| AdminUsers.NewFormNeedsInput | src/app/layouts/admin/users/users.ts:184-221 | the empty new-user form is refused for the missing name and email, and with them for the missing password |
| AdminUsers.CreateErrorMessage | src/app/layouts/admin/users/users.ts:264-273 | a failed creation reports the server's non-empty message; else, when field errors are present, "Validation failed: " followed by each error as "field: message" joined by ", " in order; else "Failed to create user" |
| AdminUsers.FieldMessages | src/app/layouts/admin/users/users.ts:269-270 | one "field: message" text per validation error, in order |
| AdminUsers.CreateErrorOfTwoFields | src/app/layouts/admin/users/users.ts:264-273 | two field errors read "Validation failed: f: m, g: n"; an empty error list leaves the prefix alone |
| AdminUsers.DeleteErrorMessage | src/app/layouts/admin/users/users.ts:323-329 | a failed deletion reports the 404 text, else the server's message, else the generic message |
| AdminUsers.UpdateErrorMessage | src/app/layouts/admin/users/users.ts:243-245 | a failed update reports "Failed to update user: " followed by the server's message, else the error's own message, else "undefined" |
| AdminUsers.NextStatus | src/app/layouts/admin/users/users.ts:341-348 | active becomes inactive, inactive becomes suspended, and anything else becomes active |
| AdminUsers.StatusCycle | src/app/layouts/admin/users/users.ts:341-348 | the next status is always one of the three, and three steps return to the start |
| AdminUsers.StatusVerb | src/app/layouts/admin/users/users.ts:350-354 | the confirmation uses "activate", "deactivate" or "suspend" for the new status |
| AdminUsers.ToggleStatus | src/app/layouts/admin/users/users.ts:337-366 | a user without an id cannot be toggled; otherwise the request names the `_id`, else `id`, and the next status |
| AdminUsers.OnStatusChanged | src/app/layouts/admin/users/users.ts:368-394 | a successful change sets the new status and nothing else; a failure leaves the user as it was |
| AdminCategories.Key | src/app/layouts/admin/categories/categories.ts:184 | a category is known by its `_id`, else by `id` |
| AdminCategories.Normalise | src/app/layouts/admin/categories/categories.ts:102-108 | a loaded category gets `id` from `_id`, a product count from `productCount`, else `productsCount`, else 0, a subcategory count defaulting to 0, and is collapsed; nothing else changes |
| AdminCategories.ZeroCountIsKept | src/app/layouts/admin/categories/categories.ts:105 | a product count of 0 is kept rather than replaced, and only a missing count falls back to `productsCount` |
| AdminCategories.LoadCategories | src/app/layouts/admin/categories/categories.ts:97-108 | every category of the response (`data`, else `categories`) is normalised and collapsed, in order |
| AdminCategories.ComputeStats | src/app/layouts/admin/categories/categories.ts:134-161 | the cards count all categories, the active and the inactive ones, and the subcategories |
| AdminCategories.ActiveInactivePartition | src/app/layouts/admin/categories/categories.ts:135-136 | active and inactive categories add up to the total |
| AdminCategories.MatchesSearch | src/app/layouts/admin/categories/categories.ts:165-168 | a category matches when its name, slug or description contains the term, ignoring ASCII case |
| AdminCategories.MatchesStatus | src/app/layouts/admin/categories/categories.ts:170-173 | "all" matches every category; "active" and "inactive" only a flag that is exactly true or false |
| AdminCategories.FilteredCategories | src/app/layouts/admin/categories/categories.ts:163-181 | the shown categories are exactly those whose name, slug or description contains the search term, ignoring case, with the chosen status and gender, in order |
| AdminCategories.StatusViewsMatchCards | src/app/layouts/admin/categories/categories.ts:135-136 | the "active" view shows as many categories as the active card counts; the "inactive" view shows at most the inactive count, and exactly that when every category has a status |
| AdminCategories.ParentId | src/app/layouts/admin/categories/categories.ts:186 | a subcategory's parent is a string category itself or the object's `_id` |
| AdminCategories.SubcategoriesOf | src/app/layouts/admin/categories/categories.ts:183-189 | a category's subcategories are exactly those whose parent is the category's key, in order |
| AdminCategories.DistinctKeysShareNothing | src/app/layouts/admin/categories/categories.ts:183-189 | two categories with different keys never list the same subcategory |
| AdminCategories.ToggleExpanded | src/app/layouts/admin/categories/categories.ts:191-193 | expanding flips the flag and changes nothing else |
| AdminCategories.ToggleTwice | src/app/layouts/admin/categories/categories.ts:191-193 | expanding twice restores the category |
| AdminCategories.SaveCategory | src/app/layouts/admin/categories/categories.ts:226-261 | a category with a key is updated under that key and one without is created; a missing slug is generated from the name, and nothing else changes |
| AdminCategories.SaveCategoryStable | src/app/layouts/admin/categories/categories.ts:226-234 | saving the saved category again sends the same request |
| AdminCategories.SaveSubcategory | src/app/layouts/admin/categories/categories.ts:347-383 | nothing is saved without a parent; a subcategory with `_id` is updated, one without is created under the parent's key; a missing slug is the slug of the name, and a given slug (or a missing name) leaves the slug as it was; nothing else changes |
| AdminCategories.FindIndex | src/app/layouts/admin/categories/categories.ts:304 | the position of the first category with the key, and -1 exactly when none has it |
| AdminCategories.ToggleStatusRequest | src/app/layouts/admin/categories/categories.ts:292-300 | a category without a key cannot be toggled; otherwise the request names its key and the opposite of its status |
| AdminCategories.OnStatusToggled | src/app/layouts/admin/categories/categories.ts:303-308 | a successful toggle sets the status of the first category with the key and changes no other category |
| AdminCategories.ToggleBackRestores | src/app/layouts/admin/categories/categories.ts:292-315 | toggling a category's status and toggling it back restores the list |
| AdminReviews.Without | src/app/layouts/admin/reviews/reviews.ts:121 | removing a review keeps, in order, exactly the reviews with a different id |
| AdminReviews.WithoutAbsent | src/app/layouts/admin/reviews/reviews.ts:121 | removing an id that is not listed changes nothing |
| AdminReviews.WithoutIdempotent | src/app/layouts/admin/reviews/reviews.ts:121 | removing the same id twice is the same as removing it once |
| AdminReviews.Start | src/app/layouts/admin/reviews/reviews.ts:116 | starting an action marks the review as processing and changes nothing else |
| AdminReviews.Finish | src/app/layouts/admin/reviews/reviews.ts:115-215 | finishing always clears the processing mark; success or a 404 removes the review from the pending list for approve and reject, and from the current tab's list for delete; any other failure keeps both lists |
| AdminReviews.FinishToast | src/app/layouts/admin/reviews/reviews.ts:115-215 | success gives "Review approved/rejected/deleted successfully!"; a 404 warns "Review not found - it may have already been deleted" for a delete and "... processed" otherwise; any other error gives "Failed to approve/reject/delete review" |
| AdminReviews.ProcessingDiscipline | src/app/layouts/admin/reviews/reviews.ts:115-134 | a review is marked while its action runs and the marks are back to what they were afterwards; an approved review is gone from the pending list |
| AdminReviews.RetryIsHarmless | src/app/layouts/admin/reviews/reviews.ts:115-215 | once a review is removed, finishing the same action again leaves both lists as they are |
| AdminReviews.RejectPrompt | src/app/layouts/admin/reviews/reviews.ts:136-152 | a cancelled prompt does nothing; otherwise the rejection carries the reason as typed and the confirmation quotes it when it is not empty |
| AdminReviews.SwitchTab | src/app/layouts/admin/reviews/reviews.ts:70-77 | switching tabs records the tab and asks for that tab's list |
| AdminReviews.StarsOf | src/app/layouts/admin/reviews/reviews.ts:217-219 | a rating from 0 to 5 gives five symbols, filled up to the rating; any other rating is a range error |
| ProductApi.SetStr | src/app/core/services/product.ts:32-34 | a text parameter is set exactly when it is non-empty |
| ProductApi.SetNum | src/app/core/services/product.ts:30-31 | a numeric parameter is set, as its decimal text, exactly when it is non-zero |
| ProductApi.ProductsQuery | src/app/core/services/product.ts:16-42 | no parameters send an empty query, and the query only ever holds the nine known keys |
| ProductApi.ProductsQueryNumbers | src/app/core/services/product.ts:30-36 | page, limit, minimum and maximum price are sent exactly when non-zero |
| ProductApi.ProductsQueryCategories | src/app/core/services/product.ts:32-34 | category, subcategory and gender are sent exactly when non-empty |
| ProductApi.ProductsQuerySearch | src/app/core/services/product.ts:37-38 | search and sort are sent exactly when non-empty |
| ProductApi.ProductsQueryValues | src/app/core/services/product.ts:30-36 | a sent page, limit, minimum or maximum price is the caller's number as decimal text; a minimum price of 0 is not sent |
| ProductApi.ProductsQueryTextValues | src/app/core/services/product.ts:32-38 | a sent category, subcategory, gender, search or sort is the caller's text unchanged; an empty search is not sent |
| ProductApi.PageSent | src/app/core/services/product.ts:30 | the page is in the query exactly when truthy, and then as its decimal text |
| ProductApi.PricesSent | src/app/core/services/product.ts:35-36 | each price bound is in the query exactly when truthy, and then as its decimal text |
| ProductApi.SingleProduct | src/app/core/services/product.ts:44-54 | a single product is read from `product`, else `data`, else the response itself; a null response is an error |
| ProductApi.SingleProductUnwraps | src/app/core/services/product.ts:44-54 | a product wrapped under `product` or `data`, or sent bare, comes back unchanged |
| ProductApi.ListOf | src/app/core/services/product.ts:76-85 | a list is read from an array `products`, else an array `data`, else a bare array, else empty |
| ProductApi.DataListOf | src/app/core/services/product.ts:61-67 | a list is read from an array `data`, else a bare array, else empty |
| ProductApi.ListShapes | src/app/core/services/product.ts:61-102 | a list sent under `products`, under `data` or bare comes back unchanged, except that the `data`-only readers ignore `products`, and a non-array is empty |
| ProductApi.BestSellersQuery | src/app/core/services/product.ts:56-59 | the best-sellers request always sends gender ("all" by default) and limit (8 by default) |
| ProductApi.FeaturedQuery | src/app/core/services/product.ts:70-74 | the featured request always sends `isFeatured=true` and the gender only when given |
| ProductApi.NewArrivalsQuery | src/app/core/services/product.ts:88-92 | the new-arrivals request always sends the limit (8 by default) and the gender only when given and not "all" |
| ProductApi.AllGenderHandling | src/app/core/services/product.ts:56-92 | "all" is sent by best sellers, dropped by new arrivals and passed through by featured products |
| AdminApi.SalesReportQuery | src/app/core/services/admin.ts:70-76 | the sales report sends each date exactly when it is given |
| AdminApi.ProductsQuery | src/app/core/services/admin.ts:104-115 | page and limit are always sent; every non-empty filter is added under its own key and nothing else is added |
| AdminApi.EmptyFiltersAddNothing | src/app/core/services/admin.ts:109-115 | filters that are all empty send the same query as no filters |
| AdminApi.ProductsPageOf | src/app/core/services/admin.ts:117-124 | the page's products are `data`, else `products`, else empty; the page count is the nested count when truthy, else the top-level count when truthy, else 1; the total is the nested total, else 0; the page is the nested page when truthy, else the requested one; a nullish body gives nothing |
| AdminApi.TotalPagesChain | src/app/core/services/admin.ts:120 | a non-zero nested page count wins over the top-level one, and zero everywhere gives 1 |
| AdminApi.SavedProduct | src/app/core/services/admin.ts:127-137 | a saved product is read from `data`, else `product`, else the response itself |
| AdminApi.SaveOrderDiffersFromStorefront | src/app/core/services/admin.ts:129 | with both fields present the admin service reads `data` while the product service reads `product` |
| AdminApi.UploadOf | src/app/core/services/admin.ts:143-151 | an upload result keeps `success` and `message` and reads the URLs from `data`, else `imageUrls`, else empty |
| AdminApi.UploadUrls | src/app/core/services/admin.ts:147 | URLs under `data` or `imageUrls` come back unchanged, and an empty `data` array still wins over `imageUrls` |
| Home.Highlights | src/app/features/home/home.ts:70-73 | the shown reviews are the first six of those rated 4 or more, in order |
| Home.FewHighlightsAllKept | src/app/features/home/home.ts:71-73 | with at most six well-rated reviews, all of them are shown |
| Home.OnReviewsLoaded | src/app/features/home/home.ts:65-85 | a successful response replaces the reviews with the highlights and starts rotation when there are any; anything else only stops loading |
| Home.Next | src/app/features/home/home.ts:114-116 | the next index stays within the reviews; with no reviews the index is not a number |
| Home.Prev | src/app/features/home/home.ts:118-121 | the previous index stays within the reviews; with no reviews the index is not a number |
| Home.NextPrevInverse | src/app/features/home/home.ts:114-121 | next then previous, and previous then next, return to the same review |
| Home.Tick | src/app/features/home/home.ts:87-93 | a rotation tick advances the index when there are reviews and does nothing otherwise |
| Home.Ring | src/app/features/home/home.ts:101-103 | the three reviews from the current index on, wrapping around |
| Home.FirstByIdDraws | src/app/features/home/home.ts:101-109 | the deduplicated reviews are drawn from the three candidates and start with the first |
| Home.FirstByIdDistinct | src/app/features/home/home.ts:99-109 | the deduplicated reviews have distinct ids and cover every candidate id |
| Home.VisibleReviews | src/app/features/home/home.ts:95-112 | no reviews show nothing; otherwise one to three reviews with distinct ids, starting at the current one, drawn from the next three and covering all of their ids |
| Home.StarsOf | src/app/features/home/home.ts:123-125 | a rating from 0 to 5 gives five stars, filled up to the rating; any other rating is a range error |
| Home.UserName | src/app/features/home/home.ts:127-134 | for an author object, the trimmed "first last" (a missing name read as empty) when that is not blank, else "Anonymous"; "Anonymous" for any other author; never empty |
| Home.UserNameTrimmed | src/app/features/home/home.ts:127-134 | the shown name never starts or ends with white space |
| Home.UserNameIgnoresPadding | src/app/features/home/home.ts:127-134 | any white space before the first name or after the last name is not shown |
| Home.Initials | src/app/features/home/home.ts:136-143 | the first letters of the first two space-separated words, else of the name, at most two |
| Home.UserNameOfNamedUser | src/app/features/home/home.ts:127-134 | an author with both names is shown as "first last" |
| Home.InitialsOfTwoWords | src/app/features/home/home.ts:136-143 | a two-word name gives its two first letters, and "Anonymous" gives "A" |
| Home.ProductName | src/app/features/home/home.ts:145-150 | the reviewed product's name, else "Product" |
| Home.ProductImageUrl | src/app/features/home/home.ts:152-161 | no first image gives the placeholder; a first image starting with "http" is kept; any other is appended to the server address without adding a slash |
| Home.ProductImageAgreesOnRootedPaths | src/app/features/home/home.ts:152-161 | for a path starting with "/" the home page and the shared image rule agree |
| Home.Search | src/app/features/home/home.ts:163-174 | a blank query is refused; otherwise the trimmed query is searched |
| Home.OnSearchInput | src/app/features/home/home.ts:176-190 | fewer than two characters after trimming clear the suggestions; otherwise five suggestions are asked for the trimmed query |
| Home.SearchIgnoresPadding | src/app/features/home/home.ts:163-190 | any white space before and after the query changes neither the search nor the suggestions |
| ProductDetails.OnProductLoaded | src/app/features/product-details/product-details.ts:57-63 | a loaded product preselects its first size and first colour; a product without one keeps the earlier choice |
| ProductDetails.RefIdOf | src/app/features/product-details/product-details.ts:75-93 | a category reference gives its object id or the string itself, and no reference gives none |
| ProductDetails.RelatedSource | src/app/features/product-details/product-details.ts:75-93 | related products are looked for by subcategory when it has an id, else by category, else not at all |
| ProductDetails.ProductsOf | src/app/features/product-details/product-details.ts:110-164 | the related list is the bare array, else the object's data, else its products, else empty |
| ProductDetails.Related | src/app/features/product-details/product-details.ts:110-164 | the kept related products are at most four, in the response's order, each with an id other than the current product's, and exactly the first four such |
| ProductDetails.CurrentId | src/app/features/product-details/product-details.ts:110-164 | the current product is known by its own id, else by the route's id |
| ProductDetails.OnSubcategoryResult | src/app/features/product-details/product-details.ts:110-164 | the subcategory result fills the panel (empty on an error) and asks the category exactly when nothing was kept and the category has an id |
| ProductDetails.StartByCategory | src/app/features/product-details/product-details.ts:166-172 | a category request starts unless one is loading with products shown |
| ProductDetails.FallbackIsNeverBlocked | src/app/features/product-details/product-details.ts:110-172 | the category fallback after a subcategory result always starts |
| ProductDetails.OnCategoryResult | src/app/features/product-details/product-details.ts:166-203 | the category result fills the panel, empty on an error, and ends loading |
| ProductDetails.NeverRelatedToItself | src/app/features/product-details/product-details.ts:110-203 | a product with an id is never among its own related products |
| ProductDetails.AddedMessage | src/app/features/product-details/product-details.ts:217-249 | the cart toast is "name added to cart!", followed by "\nSize: " and the size when one was chosen, and "\nColor: " and the colour when one was chosen, in that order |
| ProductDetails.AddedMessageLines | src/app/features/product-details/product-details.ts:217-249 | with no line breaks in the name, size or colour, the toast splits into the greeting line, then a "Size: " line and a "Color: " line exactly for the chosen ones |
| ProductDetails.CartErrorMessage | src/app/features/product-details/product-details.ts:217-249 | the cart error toast is the server's message, else the 401 or 404 text, else a generic one |
| ProductDetails.WishlistErrorAsWritten | src/app/features/product-details/product-details.ts:251-276 | the wishlist error toast as written: the server's message, else the 401 text, else a generic one |
| ProductDetails.DuplicateBranchUnreachable | src/app/features/product-details/product-details.ts:263-271 | the duplicate text appears only when the server sent it, and a 400 saying "already" shows the server's own words |
| ProductDetails.WishlistError | src/app/features/product-details/product-details.ts:251-276 | with the duplicate case tested first, a 400 mentioning "already" gives the duplicate text, and every other error is unchanged |
| ProductDetails.DuplicateIsReported | src/app/features/product-details/product-details.ts:263-271 | a 400 whose message mentions "already" is reported as a duplicate |
| ProductDetails.StarsOf | src/app/features/product-details/product-details.ts:287-292 | a missing or zero rating gives five empty stars; a rating from 1 to 5 gives five stars, filled up to the rating and empty after it; any other rating is a range error |
| ProductDetails.ProductImage | src/app/features/product-details/product-details.ts:294-307 | no product or no images give the placeholder; otherwise the first image made absolute |
| ProductInfo.ReviewCount | src/app/features/product-details/components/product-info/product-info.ts:44-50 | the review count is the product's count when present (even 0), else the number of listed reviews, else 0 |
| ProductInfo.Calculate | src/app/features/product-details/components/product-info/product-info.ts:41-64 | the cached rating is the product's rating or 0, the count as above, and the stars are those of the cached rating |
| ProductInfo.MissingRatingIsZero | src/app/features/product-details/components/product-info/product-info.ts:41-53 | a missing rating is cached exactly like a rating of 0 |
| ProductInfo.IsInStock | src/app/features/product-details/components/product-info/product-info.ts:74-76 | a product is in stock exactly when its stock is present and above 0 |
| ProductInfo.Level | src/app/features/product-details/components/product-info/product-info.ts:78-88 | a missing or zero stock is out, up to five is low with that number, above five is plenty |
| ProductInfo.StockStatus | src/app/features/product-details/components/product-info/product-info.ts:78-82 | the stock wording for each of the three levels, with the count when low |
| ProductInfo.StockClass | src/app/features/product-details/components/product-info/product-info.ts:84-88 | the stock style follows the same three levels |
| ProductInfo.StockWordsAgree | src/app/features/product-details/components/product-info/product-info.ts:74-88 | for a non-negative stock, being in stock and not being worded out of stock coincide; a stock of -1 is worded low while not in stock |
| ProductInfo.Increase | src/app/features/product-details/components/product-info/product-info.ts:100-107 | the quantity grows by one unless it has reached a truthy stock |
| ProductInfo.Decrease | src/app/features/product-details/components/product-info/product-info.ts:109-114 | the quantity shrinks by one but never below 1 |
| ProductInfo.StepperBounded | src/app/features/product-details/components/product-info/product-info.ts:100-107 | a quantity within a positive stock stays within it, and the panel's stepper agrees with the cart line's |
| ProductInfo.UpThenDown | src/app/features/product-details/components/product-info/product-info.ts:100-114 | an accepted increase followed by a decrease returns to the same quantity |
| ProductImages.At | src/app/features/product-details/components/product-images/product-images.ts:28-40 | reading an image outside the list gives nothing, inside gives that image |
| ProductImages.Init | src/app/features/product-details/components/product-images/product-images.ts:17-21 | with images the gallery starts valid on the first; without images the selection stays empty |
| ProductImages.Select | src/app/features/product-details/components/product-images/product-images.ts:23-26 | selecting sets image and index as given, and a matching pair keeps the gallery valid |
| ProductImages.Next | src/app/features/product-details/components/product-images/product-images.ts:28-33 | next moves one on and shows that image unless on the last, and keeps the gallery valid |
| ProductImages.Prev | src/app/features/product-details/components/product-images/product-images.ts:35-40 | previous moves one back and shows that image unless on the first, and keeps the gallery valid |
| ProductImages.NextPrevInverse | src/app/features/product-details/components/product-images/product-images.ts:28-40 | away from the ends, next and previous undo each other |
| ProductImages.ImageUrl | src/app/features/product-details/components/product-images/product-images.ts:43-55 | an empty path gives the placeholder; any other path is normalised by the shared `Images.Absolutize` into an absolute address |
| ProductReviews.Shown | src/app/features/product-details/components/product-reviews/product-reviews.ts:11-19 | the kept reviews are exactly those with a rating and a non-blank comment, in order; none are kept from a missing list |
| ProductReviews.ShownIdempotent | src/app/features/product-details/components/product-reviews/product-reviews.ts:11-19 | filtering an already filtered list changes nothing |
| ProductReviews.UserName | src/app/features/product-details/components/product-reviews/product-reviews.ts:35-47 | for an author object, the trimmed "first last" when that is not blank, else "Anonymous User"; otherwise the review's truthy `userName`, else "Anonymous User"; never empty |
| ProductReviews.UserNameTrimmed | src/app/features/product-details/components/product-reviews/product-reviews.ts:35-47 | an author object's name and the placeholder never start or end with white space |
| ProductReviews.UserNameIgnoresPadding | src/app/features/product-details/components/product-reviews/product-reviews.ts:35-47 | any white space before the first name or after the last name is not shown |
| ProductReviews.Initials | src/app/features/product-details/components/product-reviews/product-reviews.ts:49-58 | at most two letters, and a one-word name gives its first letter upper-cased |
| ProductReviews.InitialsOfTwoWords | src/app/features/product-details/components/product-reviews/product-reviews.ts:49-58 | a two-word name gives both first letters upper-cased |
| ProductReviews.RelativeTime | src/app/features/product-details/components/product-reviews/product-reviews.ts:76-93 | each day difference falls in exactly one bucket and the count is the whole number of weeks, months or years |
| ProductReviews.Unit | src/app/features/product-details/components/product-reviews/product-reviews.ts:86-92 | the length of each bucket in days, growing from today to years |
| ProductReviews.Render | src/app/features/product-details/components/product-reviews/product-reviews.ts:86-92 | "Today", "Yesterday", or the count followed by " days ago", " weeks ago", " months ago" or " years ago" for each bucket |
| ProductReviews.RelativeText | src/app/features/product-details/components/product-reviews/product-reviews.ts:76-93 | a review 0 days old reads "Today", 1 day "Yesterday", under 7 days "n days ago", under 30 "n/7 weeks ago", under 365 "n/30 months ago", otherwise "n/365 years ago" |
| ProductReviews.UnitsGrowWithAge | src/app/features/product-details/components/product-reviews/product-reviews.ts:86-92 | an older review never gets a finer unit than a newer one |
| ProductReviews.StarParts | src/app/features/product-details/components/product-reviews/product-reviews.ts:27-33 | the filled part is `rating` copies of the filled star and fails for a negative rating; the empty part is `5 - rating` copies of the empty star and fails above 5; together they make five |
| ProductReviews.Average | src/app/features/product-details/components/product-reviews/product-reviews.ts:95-99 | no reviews give 0; otherwise the mean: the result times the number of reviews is the sum of the ratings; ratings from 1 to 5 give a mean from 1 to 5 |
| ProductReviews.SumOfCopies | src/app/features/product-details/components/product-reviews/product-reviews.ts:95-99 | k reviews of one rating sum to k times it |
| ProductReviews.AverageOfCopies | src/app/features/product-details/components/product-reviews/product-reviews.ts:95-99 | reviews that all give the same rating average to exactly that rating |
| ProductReviews.BoundedSum | src/app/features/product-details/components/product-reviews/product-reviews.ts:95-99 | ratings from 1 to 5 sum to between n and 5n |
| ProductReviews.Distribution | src/app/features/product-details/components/product-reviews/product-reviews.ts:101-105 | no reviews give 0; otherwise the share of reviews with that star, times 100, over the number of reviews; always from 0 to 100 |
| ProductReviews.StarCountsCoverAll | src/app/features/product-details/components/product-reviews/product-reviews.ts:101-105 | with ratings from 1 to 5, the counts of the five stars add up to the number of reviews |
| ProductReviews.DistributionSumsToHundred | src/app/features/product-details/components/product-reviews/product-reviews.ts:101-105 | with ratings from 1 to 5, the five bars add up to exactly 100 percent |
| ProductCard.ProductImage | src/app/shared/components/product-card/product-card.ts:38-44 | no images give the placeholder, else the first image normalised |
| ProductCard.ReviewCount | src/app/shared/components/product-card/product-card.ts:65-71 | the card's review count equals the information panel's |
| ProductCard.RatingOf | src/app/shared/components/product-card/product-card.ts:56-58 | a populated review contributes its rating, anything else 0 |
| ProductCard.AverageRating | src/app/shared/components/product-card/product-card.ts:46-63 | the product's rating when present; else 0 without reviews; else the mean: the result times the number of reviews is the sum of the review ratings |
| ProductCard.SumOfRatings | src/app/shared/components/product-card/product-card.ts:55-60 | summing the card's review ratings equals summing the list of their ratings |
| ProductCard.CardAverageIsReviewsAverage | src/app/shared/components/product-card/product-card.ts:46-63 | without a stored rating the card shows the same average as the reviews section computes from the same ratings |
| ProductCard.StarList | src/app/shared/components/product-card/product-card.ts:73-96 | always five stars, all empty without reviews or rating, else the rating in whole and half stars |
| ProductCard.CardStarsMatchPage | src/app/shared/components/product-card/product-card.ts:73-96 | for a whole rating from 1 to 5 the card and the product page show the same stars |
| ProductCard.CategoryName | src/app/shared/components/product-card/product-card.ts:98-106 | no category gives empty, a bare id gives itself, a populated one gives its name |
| ProductCard.IsNewProduct | src/app/shared/components/product-card/product-card.ts:165-167 | new when either `isNewArrival` or `isNew` is true |
| ProductCard.IsOnSale | src/app/shared/components/product-card/product-card.ts:169-171 | on sale when a non-zero old price exceeds the price |
| ProductCard.IsLowStock | src/app/shared/components/product-card/product-card.ts:173-175 | low stock when a stock is present and from 1 to 3 |
| ProductCard.BadgesConsistent | src/app/shared/components/product-card/product-card.ts:169-175 | a low-stock product is in stock, and a sale at a non-negative price has a positive old price |
| ProductCard.AddToCart | src/app/shared/components/product-card/product-card.ts:108-138 | a busy card ignores the click; a product with an id and no known empty stock sends one item, with its first size and first colour when it has any and none otherwise, and makes the card busy |
| ProductCard.OnCartResult | src/app/shared/components/product-card/product-card.ts:138-162 | any outcome clears the busy flag; errors are worded for 401 and 404, else with the server's message or a generic text |
| ProductCard.BusyFlagDiscipline | src/app/shared/components/product-card/product-card.ts:108-162 | a second click while busy is ignored, and any outcome makes the card idle again |
| Profile.IsFormValid | src/app/features/account/components/profile/profile.ts:147-152 | the form is valid exactly when first name, last name and phone each hold a character that is not white space |
| Profile.SaveProfile | src/app/features/account/components/profile/profile.ts:70-93 | an invalid form sends nothing; a valid one sends the trimmed fields, which are themselves valid |
| Profile.SaveIsIdempotent | src/app/features/account/components/profile/profile.ts:76-80 | saving the saved values sends the same values again |
| Profile.BlankFieldRejected | src/app/features/account/components/profile/profile.ts:147-153 | a phone of spaces makes the form invalid, so nothing is sent |
| Profile.OnProfileLoaded | src/app/features/account/components/profile/profile.ts:40-57 | a loaded profile is kept and fills the form |
| Profile.ToggleEdit | src/app/features/account/components/profile/profile.ts:59-68 | the edit mode flips, and leaving it puts the loaded profile back in the form |
| Profile.CancelDiscardsEdits | src/app/features/account/components/profile/profile.ts:59-68 | opening the form, typing and closing it restores the loaded profile |
| Profile.SaveErrorMessage | src/app/features/account/components/profile/profile.ts:88-91 | a failed save shows the server's message, else a generic one |
| Profile.CheckPassword | src/app/features/account/components/profile/profile.ts:102-122 | exactly one outcome per form: a missing field, a mismatch, too short, unchanged, or the request with the current and new password |
| Profile.CheckMessage | src/app/features/account/components/profile/profile.ts:102-122 | every refusal has a warning and only the request has none |
| Profile.TogglePasswordForm | src/app/features/account/components/profile/profile.ts:95-100 | the panel flips, hiding it clears the form, and a hidden panel always holds an empty form |
| Profile.OnPasswordChanged | src/app/features/account/components/profile/profile.ts:126-136 | success hides the panel with an empty form; failure keeps it and shows the server's message or a generic one |
| Profile.ReopenedPanelAsksForFields | src/app/features/account/components/profile/profile.ts:95-106 | a freshly opened panel asks for all fields before sending anything |
| Profile.Score | src/app/features/account/components/profile/profile.ts:177-183 | at most five points, at most three under six characters, at least three with eight characters and both cases |
| Profile.PasswordStrength | src/app/features/account/components/profile/profile.ts:172-192 | empty for an empty password; otherwise weak up to two points, medium at three, strong from four, with 33, 66 and 100 percent |
| Profile.ShortNeverStrong | src/app/features/account/components/profile/profile.ts:172-192 | a password under six characters is never strong |
| Profile.ScoreMonotone | src/app/features/account/components/profile/profile.ts:177-183 | appending characters never lowers the score |
| Profile.AcceptedMixedIsStrong | src/app/features/account/components/profile/profile.ts:102-192 | an accepted new password of eight characters with both cases and a digit is strong |
| AccountAddresses.IsFormValid | src/app/features/account/components/addresses/addresses.ts:154-160 | the form is valid exactly when street, city and state each hold a character that is not white space; the phone does not matter |
| AccountAddresses.ResetForm | src/app/features/account/components/addresses/addresses.ts:142-152 | the form returns to its defaults with nothing being edited, and nothing else changes |
| AccountAddresses.ToggleAddForm | src/app/features/account/components/addresses/addresses.ts:48-53 | the form flips, and closing it resets it |
| AccountAddresses.EditAddress | src/app/features/account/components/addresses/addresses.ts:55-70 | the form opens on a copy of the address, with an empty phone and no default flag when missing |
| AccountAddresses.Submit | src/app/features/account/components/addresses/addresses.ts:110-140 | an invalid form only warns; an edited address with an id is updated; anything else is created; the fields are sent as typed |
| AccountAddresses.OnSubmitResult | src/app/features/account/components/addresses/addresses.ts:117-139 | success closes and resets the form; failure keeps everything |
| AccountAddresses.SubmitErrorMessage | src/app/features/account/components/addresses/addresses.ts:123-137 | a failed update has a fixed message; a failed creation shows the server's message, else a generic one |
| AccountAddresses.EditThenSubmitUpdates | src/app/features/account/components/addresses/addresses.ts:55-152 | editing an address with an id and submitting valid fields updates it, and a closed form refuses the next submit |
| AccountAddresses.AskDelete | src/app/features/account/components/addresses/addresses.ts:72-75 | the id is kept and the confirmation shown |
| AccountAddresses.ConfirmDelete | src/app/features/account/components/addresses/addresses.ts:77-80 | the confirmation closes and the kept id, if any, is deleted |
| AccountAddresses.OnDeleteResult | src/app/features/account/components/addresses/addresses.ts:82-91 | success or failure forgets the id |
| AccountAddresses.CancelDelete | src/app/features/account/components/addresses/addresses.ts:94-97 | the confirmation closes and the id is forgotten |
| AccountAddresses.DeleteNeedsConfirmation | src/app/features/account/components/addresses/addresses.ts:72-97 | a cancelled request deletes nothing, and a confirmed one deletes exactly the asked id |
| AccountAddresses.AddressType | src/app/features/account/components/addresses/addresses.ts:162-169 | the three known kinds are capitalised and any other is shown as given |
| AccountAddresses.FullAddress | src/app/features/account/components/addresses/addresses.ts:171-178 | for every address, the street, city and state with empty parts skipped and the rest joined by ", " (stated against the part-by-part reference `Js.JoinKept`); empty exactly when all three are empty |
| AccountAddresses.FullAddressParts | src/app/features/account/components/addresses/addresses.ts:171-178 | the parts are joined by a comma and a space, and a missing city leaves no doubled separator |
| WishlistCount.Fetched | src/app/core/services/wishlist.ts:15-21 | the count becomes the server's count, else 0 |
| WishlistCount.Added | src/app/core/services/wishlist.ts:23-29 | an addition adds one |
| WishlistCount.Removed | src/app/core/services/wishlist.ts:31-37 | a removal takes one off but never goes below zero |
| WishlistCount.CountInvariant | src/app/core/services/wishlist.ts:23-37 | the count stays non-negative and a removal undoes an addition |
| WishlistPage.OnLoaded | src/app/features/account/components/wishlist/wishlist.ts:55-72 | the list becomes the response's array, else empty; an error keeps the old list; loading ends either way |
| WishlistPage.Level | src/app/features/account/components/wishlist/wishlist.ts:155-165 | out at exactly 0, low up to 3 (a negative stock included), in stock above |
| WishlistPage.StockStatus | src/app/features/account/components/wishlist/wishlist.ts:155-159 | the wording of each level |
| WishlistPage.StockClass | src/app/features/account/components/wishlist/wishlist.ts:161-165 | the style of each level |
| WishlistPage.StatusAndClassAgree | src/app/features/account/components/wishlist/wishlist.ts:155-165 | two stocks have the same wording exactly when they have the same style |
| WishlistPage.MoveErrorMessage | src/app/features/account/components/wishlist/wishlist.ts:137-147 | 401 has its own message, else the server's message, else a generic one |
| WishlistPage.MoveToCart | src/app/features/account/components/wishlist/wishlist.ts:117-149 | a stock of 0 or less only warns; otherwise one item is added, and on success the entry is removed and the list reloaded, on failure the error shown |
| WishlistPage.MoveToCartGuards | src/app/features/account/components/wishlist/wishlist.ts:117-149 | an out-of-stock item never reaches the cart, and the removal's outcome does not change what the page does |
| WishlistPage.AskRemove | src/app/features/account/components/wishlist/wishlist.ts:89-92 | the id is kept and the confirmation shown |
| WishlistPage.ConfirmRemove | src/app/features/account/components/wishlist/wishlist.ts:94-97 | the confirmation closes and the kept id, if any, is removed |
| WishlistPage.OnRemoved | src/app/features/account/components/wishlist/wishlist.ts:99-109 | the id is forgotten either way and the list reloaded only on success |
| WishlistPage.CancelRemove | src/app/features/account/components/wishlist/wishlist.ts:112-115 | the confirmation closes and the id is forgotten |
| WishlistPage.RemoveNeedsConfirmation | src/app/features/account/components/wishlist/wishlist.ts:89-115 | a cancelled request removes nothing, and a confirmed one removes exactly the asked id |
| WishlistPage.ProductImage | src/app/features/account/components/wishlist/wishlist.ts:74-87 | no images give the placeholder; otherwise the first image made absolute |
| WishlistPage.StarList | src/app/features/account/components/wishlist/wishlist.ts:171-191 | five symbols, all empty without a rating, else the rating in whole and half stars |
| FaqPage.Filtered | src/app/features/faq/faq.ts:111-129 | the shown questions are exactly those in the active category that contain the query in the question or answer ignoring case, in order; both stages together equal one filter by both tests |
| FaqPage.TwoStagesAreOneFilter | src/app/features/faq/faq.ts:111-129 | the category stage followed by the search stage keeps exactly what one filter by both tests keeps |
| FaqPage.SearchIgnoresCase | src/app/features/faq/faq.ts:120-126 | lower-casing the query shows the same questions |
| FaqPage.NoFilterShowsAll | src/app/features/faq/faq.ts:111-129 | the "all" tab with no search shows every question |
| FaqPage.ToggleFaq | src/app/features/faq/faq.ts:131-133 | the chosen question opens or closes and nothing else changes |
| FaqPage.ToggleTwice | src/app/features/faq/faq.ts:111-133 | toggling twice restores the list, and opening an answer does not change how many questions are shown |
| AdminSidebar.FullName | src/app/layouts/admin/components/admin-sidebar/admin-sidebar.ts:42-53 | "first last" when both names are present, else whichever is present, else the email, else "Admin User"; never empty |
| AdminSidebar.Initial | src/app/layouts/admin/components/admin-sidebar/admin-sidebar.ts:55-71 | exactly one character: "A" without a user; else the upper-cased first letter of the first non-empty of first name, last name and email; "A" when all three are missing or empty |
| AdminSidebar.InitialStartsName | src/app/layouts/admin/components/admin-sidebar/admin-sidebar.ts:42-71 | the initial is the full name's first letter upper-cased whenever the name comes from the user |
| AdminSidebar.Ask | src/app/layouts/admin/components/admin-sidebar/admin-sidebar.ts:73-78 | the action waits and the modal opens |
| AdminSidebar.Confirm | src/app/layouts/admin/components/admin-sidebar/admin-sidebar.ts:80-86 | the modal closes and the waiting action, if any, runs and is forgotten |
| AdminSidebar.Cancel | src/app/layouts/admin/components/admin-sidebar/admin-sidebar.ts:88-91 | the modal closes and the action is forgotten unrun |
| AdminSidebar.ActionRunsOnce | src/app/layouts/admin/components/admin-sidebar/admin-sidebar.ts:73-91 | a confirmed action runs once, a second confirmation runs nothing, and a cancelled one never runs |
| AdminHeader.UserName | src/app/layouts/admin/components/admin-header/admin-header.ts:58-61 | "Admin" without a user; else the trimmed "first last" when it is not blank; else the email, including when the names are present but only white space |
| AdminHeader.UserNameOfNamedUser | src/app/layouts/admin/components/admin-header/admin-header.ts:58-61 | a user with unpadded names is shown as "first last" |
| AdminHeader.Initials | src/app/layouts/admin/components/admin-header/admin-header.ts:63-68 | "A" without a user; the upper-cased first letters of the names when either is non-empty; else the upper-cased first character of the email ("" for an empty email); a type error, modelled as no value, when the email is missing too |
| AdminHeader.FirstTitle | src/app/layouts/admin/components/admin-header/admin-header.ts:72-79 | no title exactly when no keyword occurs in the path; otherwise the title of the first keyword that does |
| AdminHeader.PageTitle | src/app/layouts/admin/components/admin-header/admin-header.ts:70-82 | outside a browser or with no keyword, "Admin Panel"; otherwise the first matching keyword's title |
| AdminHeader.EarlierKeywordWins | src/app/layouts/admin/components/admin-header/admin-header.ts:73-79 | a path naming users and orders gets the orders title, which is tried first |
| AdminHeader.ToggleUserMenu | src/app/layouts/admin/components/admin-header/admin-header.ts:84-89 | the user menu flips, opening it closes the notifications, and at most one stays open |
| AdminHeader.DocumentClick | src/app/layouts/admin/components/admin-header/admin-header.ts:103-112 | a click outside the header items closes both menus; inside changes nothing |
| AdminHeader.ToggleTwice | src/app/layouts/admin/components/admin-header/admin-header.ts:84-89 | toggling twice restores the user menu flag |
| Stars.Row | src/app/features/home/home.ts:123-125 | a rating from 0 to 5 gives five symbols, full up to the rating and empty after; any other rating is a range error |
| Stars.RowCountsRating | src/app/features/home/home.ts:123-125 | the number of full symbols in a row is the rating |
| Stars.RowInjective | src/app/features/home/home.ts:123-125 | different ratings give different rows |
| Stars.Rated | src/app/features/product-details/product-details.ts:287-292 | a missing or zero rating gives five empty stars; a rating from 1 to 5 gives its row; any other rating is a range error |
| Stars.RatedZeroIsRowZero | src/app/features/product-details/components/product-info/product-info.ts:55-64 | the zero special case renders exactly like the row for 0 |
| Stars.Halves | src/app/shared/components/product-card/product-card.ts:73-96 | five symbols, all empty for zero; otherwise full for each whole star and one more when the fraction is at least a half |
| Stars.HalvesAgreeWithRow | src/app/shared/components/product-card/product-card.ts:73-96 | for whole ratings the fractional star list equals the row, and above 5 all five are full |
| Images.Absolutize | src/app/shared/components/product-card/product-card.ts:30-35 | absolute URLs pass through; other paths get the server origin with exactly one slash, and the result is always absolute |
| Images.AbsolutizeIdempotent | src/app/shared/components/product-card/product-card.ts:30-35 | normalising twice is normalising once |
| Images.LeadingSlashIrrelevant | src/app/shared/components/product-card/product-card.ts:34-35 | a relative path with or without its leading slash names the same address |
| Images.ImageUrl | src/app/shared/components/product-card/product-card.ts:25-36 | the placeholder exactly for an empty path, else the normalised path |
| Images.FirstImage | src/app/features/product-details/product-details.ts:294-307 | the placeholder without images, else the first image normalised |

## Left out

- HTTP, RxJS and Angular plumbing: requests are `Outcome` values, handlers are single transitions; subscription laziness and the interleaving of concurrent requests are not modelled.
- Toasts, `alert`, scrolling, `setTimeout`/`setInterval` and navigation: toasts are dropped except where a member states them, and the timers and router calls are dropped. The members whose results carry a toast's text are AccountAddresses.SubmitErrorMessage, AdminProducts.Invalid, AdminProducts.SaveProduct, AdminProducts.AddSize, AdminProducts.AddColor, AdminReviews.FinishToast, AdminUsers.CreateErrorMessage, AdminUsers.UpdateErrorMessage, AdminUsers.DeleteErrorMessage, OrderTracking.LoadErrorMessage, ProductCard.OnCartResult, ProductDetails.AddedMessage, ProductDetails.CartErrorMessage, ProductDetails.WishlistError, ProductListing.AddErrorMessage, Profile.SaveErrorMessage, Profile.OnPasswordChanged, WishlistPage.MoveErrorMessage and WishlistPage.MoveToCart; every other handler's toasts (among them the checkout page's, the remaining admin product toasts, and the information toasts of the shipping form, the products page and the product page) are not modelled.
- Confirmation modals are values (`Modal`, `showDelete`/`toDelete` fields); their templates and configuration texts are not modelled.
- localStorage persistence of the cart and the authentication service: browser storage and token decoding are foreign calls.
- Date arithmetic and every `formatDate`/`toLocaleDateString`/`toLocaleString` call: day counts are integer arguments, and locale formatting is not modelled.
- `toFixed(2)` on totals: amounts are integers, so the general rendering is not modelled; the summary cards (AdminOrders.Cards, AdminUsers.StatCards) write a whole amount with ".00", as `toFixed(2)` does.
- Floating-point averages and percentages are `real` with exact division; rounding of IEEE doubles is not modelled.
- Lower- and upper-casing map ASCII letters only; string lengths count characters rather than UTF-16 code units.
- PDF and Excel export and `printOrder` in the admin orders page: document generation.
- The admin dashboard and the account dashboard only copy server statistics and are not part of this model.
- `src/app/core/models/user.ts` is not part of this model; the user record is defined from its use in `src/app/core/services/user.ts`.
- Orders: `getStatusIcon` only maps a status to an emoji and is not modelled.
- AccountOrders: the error toast of `executeCancelOrder` is not modelled.
- OrderTracking: `onConfirmCancel` and `refreshOrder` only re-issue requests whose handlers are modelled.
- AdminCategories: delete, `toggleSubcategoryStatus` and the subcategory modals are not modelled; they repeat the request-and-reload pattern of the category toggle.
- AdminProducts: `openCreateModal`/`closeModal` are represented by the constant `NewDraft`, and delete is not modelled.
- AdminUsers: the view and delete confirmations are not modelled.
- AdminReviews: the loading of the pending and all-reviews lists is not modelled; only the list updates after approve, reject and delete are.
- AdminOrders: `updateOrderStatus` and delete are not modelled.
- AdminOrders: the success toast after a return decision (`Return request ${returnAction}d successfully!`, orders.ts:408) is not modelled; it repeats the misspelling listed under "## Findings" for a rejection.
- AdminOrders: the error toast after a failed return decision is not modelled.
- AccountAddresses: `setDefaultAddress` only shows a toast and is not modelled.
- AdminHeader: the logout confirmation (`logout`, `onLogoutConfirm`) is not modelled; it has the shape of `AdminSidebar`'s modal.
- AdminHeader.PageTitle: the header has no title for a reviews path, which falls back to "Admin Panel" like any unknown path.
- Home.Next and Home.Prev: with no reviews the index becomes NaN in the source; the model returns no index.
- Home.VisibleReviews requires a non-negative current index, which the rotation always keeps.
- ProductInfo.StockStatus: a negative stock is worded "Only -1 left!" as in the source, which only a malformed product can reach.
- WishlistPage.StockStatus: a negative stock is worded "Low Stock", as the source's comparisons give.
- AccountAddresses.AddressType: keys inherited from JavaScript's object prototype (such as "constructor") are not modelled.
- ShippingForm.AddressTypeLabel: keys inherited from JavaScript's object prototype (such as "constructor") are not modelled; the model gives "Home" for them.
- OrderReview.PaymentMethodName: prototype keys of the lookup object (such as "toString") are not modelled; the model gives the method name itself for them.
- Orders.StatusClass: prototype keys of the lookup object are not modelled; the model gives "status-default" for them.
- Orders.StatusLabel: prototype keys of the lookup object are not modelled; the model gives the status itself for them.
- AdminOrders.StatusText: prototype keys of the lookup object are not modelled; the model gives the status itself for them.
- AdminUsers.ColorOf: prototype keys of the colour table are not modelled; the model gives the empty class list for them.
- AdminUsers.ColorsCoverKnownKeys: speaks only of the table's own keys; prototype keys are outside the model.
- ProductListing.StartAddToCart: a missing stock is one case, so a `null` stock (which `null <= 0` refuses in the source) is treated like an absent one and allowed.
- ProductCard.AddToCart: a missing stock is one case, so a `null` stock (which `null <= 0` refuses in the source) is treated like an absent one and allowed.
- ProductDetails.RefIdOf: a missing reference is one case, so a `null` category or subcategory (where `typeof null === 'object'` makes the source throw on `._id`) reads as no id.
- ProductDetails.RelatedSource: inherits the `null` reference case from `ProductDetails.RefIdOf`; the source throws there instead of falling back to the category.
- ProductCard.OnCartResult: the source's separate 400 branch gives the same text as the general server-message branch and is folded into it.
- ProductCard.StarList takes the rating explicitly; the default of `getStars` when no argument is passed is `AverageRating`.
- Stars.Halves takes the fraction of a negative rating from the floor, where JavaScript's `%` truncates; ratings are never negative.
- Stars.Rated takes integer ratings; the source floors a fractional one first.
- ProductListing.SortKey: in the default sort a missing `isFeatured` is treated as false; the source compares `undefined` and `false` as different, which does not give a consistent order, so the model sorts by truthiness.

## Findings

| source | as written | input that shows it | evidently intended | confidence | as-written member | corrected member |
|---|---|---|---|---|---|---|
| src/app/features/products/products.ts:143-206 | `applyFiltersAndSort` filters `products` but never sorts, so a filter change after a client-side sort (and `loadProducts`, which re-filters the unsorted list after sorting) shows the products in server order; for the same server response the chosen sort mode makes no difference on the client (the mode is still sent to the server as `sort`) | a server response listing two products priced 200 and 100, sort "price-asc", then any filter change: the list shows 200 before 100 | the filtered list stays ordered by the chosen sort | not executed | ProductListing.SortThenFilterChangeUnsorts | ProductListing.OnFilterChangeIntended |
| src/app/features/product-details/product-details.ts:263-271 | the wishlist error handler tests "the server sent a message" before "status 400 and the message says already", so the duplicate branch can never run | status 400 with message "Product is already in your wishlist": the server's text is shown, never "Product already in wishlist!" | a duplicate is reported with the page's own message | not executed | ProductDetails.DuplicateBranchUnreachable | ProductDetails.DuplicateIsReported |
| src/app/layouts/admin/orders/orders.ts:404 | the default response is built as `Return ${returnAction}d by admin`, which appends "d" to "reject" | reject a return request and leave the response blank: "Return rejectd by admin" is sent | "Return rejected by admin" | not executed | AdminOrders.RejectNoteMisspelled | AdminOrders.ReturnDecisionIntended |

=== FILE: account_addresses.dfy ===
/** The account's address book page: the add/edit form, its validation, the
    choice between creating and updating, and deletion behind a confirmation. */
module AccountAddresses {
  import opened Js

  /** A saved address as the address service returns it. */
  datatype Saved = Saved(dbId: Option<string>, kind: string, addressLine: string, city: string, state: string,
                         phone: Option<string>, isDefault: Option<bool>)

  /** The form's fields. */
  datatype Draft = Draft(kind: string, addressLine: string, city: string, state: string, phone: string, isDefault: bool)

  const DefaultDraft := Draft("home", "", "", "", "", false)

  datatype Page = Page(showForm: bool, editing: Option<Saved>, draft: Draft, showDelete: bool, toDelete: Option<string>)

  /** `resetForm`: the default fields and no address being edited. */
  function ResetForm(p: Page): (r: Page)
    ensures r.draft == DefaultDraft && r.editing.None?
    ensures r.showForm == p.showForm && r.showDelete == p.showDelete && r.toDelete == p.toDelete
  {
    p.(draft := DefaultDraft, editing := None)
  }

  /** `toggleAddForm`: closing the form resets it. */
  function ToggleAddForm(p: Page): (r: Page)
    ensures r.showForm == !p.showForm
    ensures !r.showForm ==> r == ResetForm(p).(showForm := false)
    ensures r.showForm ==> r == p.(showForm := true)
  {
    if p.showForm then ResetForm(p).(showForm := false) else p.(showForm := true)
  }

  /** `editAddress`: the form opens on a copy of the address. */
  function EditAddress(p: Page, a: Saved): (r: Page)
    ensures r.showForm && r.editing == Some(a)
    ensures r.draft == Draft(a.kind, a.addressLine, a.city, a.state, OrStr(a.phone, ""), TruthyBool(a.isDefault))
  {
    p.(editing := Some(a), draft := Draft(a.kind, a.addressLine, a.city, a.state, OrStr(a.phone, ""), TruthyBool(a.isDefault)),
       showForm := true)
  }

  /** `isFormValid`: street, city and state non-blank; the phone is optional. */
  predicate IsFormValid(d: Draft): (b: bool)
    ensures b <==> !AllSpace(d.addressLine) && !AllSpace(d.city) && !AllSpace(d.state)
  {
    BlankIffAllSpace(d.addressLine);
    BlankIffAllSpace(d.city);
    BlankIffAllSpace(d.state);
    !IsBlank(d.addressLine) && !IsBlank(d.city) && !IsBlank(d.state)
  }

  datatype SubmitAction = Warn | Update(id: string, draft: Draft) | Create(draft: Draft)

  /** `onSubmit`: a warning for an invalid form; an update when the address
      being edited has an id; a creation otherwise. The draft is sent as typed. */
  function Submit(p: Page): (r: SubmitAction)
    ensures r.Warn? <==> !IsFormValid(p.draft)
    ensures r.Update? <==> IsFormValid(p.draft) && p.editing.Some? && TruthyStr(p.editing.value.dbId)
    ensures r.Update? ==> r.id == p.editing.value.dbId.value && r.draft == p.draft
    ensures r.Create? ==> r.draft == p.draft
  {
    if !IsFormValid(p.draft) then Warn
    else if p.editing.Some? && TruthyStr(p.editing.value.dbId) then Update(p.editing.value.dbId.value, p.draft)
    else Create(p.draft)
  }

  /** A successful submit resets and closes the form; a failed one keeps everything. */
  function OnSubmitResult(p: Page, outcome: Outcome<()>): (r: Page)
    ensures outcome.Ok? ==> !r.showForm && r.draft == DefaultDraft && r.editing.None?
    ensures outcome.Err? ==> r == p
  {
    if outcome.Ok? then ResetForm(p).(showForm := false) else p
  }

  /** The failure toast: updates have a fixed message, creations prefer the server's. */
  function SubmitErrorMessage(a: SubmitAction, e: HttpError): (r: string)
    ensures a.Update? ==> r == "Failed to update address"
    ensures !a.Update? ==> r == OrStr(e.serverMessage, "Failed to add address")
  {
    if a.Update? then "Failed to update address" else OrStr(e.serverMessage, "Failed to add address")
  }

  /** Editing a saved address and submitting valid fields updates that address;
      after the form is closed, a new submission is refused until it is filled in. */
  lemma EditThenSubmitUpdates(p: Page, a: Saved, id: string)
    requires a.dbId == Some(id) && id != ""
    requires IsFormValid(EditAddress(p, a).draft)
    ensures Submit(EditAddress(p, a)) == Update(id, EditAddress(p, a).draft)
    ensures Submit(ToggleAddForm(EditAddress(p, a))) == Warn
  {
    assert DefaultDraft.addressLine == "";
  }

  /** `deleteAddress`: the id is kept and the confirmation shown. */
  function AskDelete(p: Page, id: string): (r: Page)
    ensures r.showDelete && r.toDelete == Some(id)
  {
    p.(showDelete := true, toDelete := Some(id))
  }

  /** `onConfirmDelete`: the modal closes and the kept id, if any, is deleted. */
  function ConfirmDelete(p: Page): (r: (Page, Option<string>))
    ensures !r.0.showDelete && r.0.toDelete == p.toDelete
    ensures r.1.Some? <==> TruthyStr(p.toDelete)
    ensures r.1.Some? ==> r.1 == p.toDelete
  {
    (p.(showDelete := false), if TruthyStr(p.toDelete) then p.toDelete else None)
  }

  /** The delete request's outcome, success or not, forgets the id. */
  function OnDeleteResult(p: Page): (r: Page)
    ensures r.toDelete.None? && r.showDelete == p.showDelete
  {
    p.(toDelete := None)
  }

  /** `onCancelDelete`: the modal closes and the id is forgotten. */
  function CancelDelete(p: Page): (r: Page)
    ensures !r.showDelete && r.toDelete.None?
  {
    p.(showDelete := false, toDelete := None)
  }

  /** Confirming after a cancel deletes nothing; confirming after asking deletes exactly that id. */
  lemma DeleteNeedsConfirmation(p: Page, id: string)
    requires id != ""
    ensures ConfirmDelete(CancelDelete(AskDelete(p, id))).1.None?
    ensures ConfirmDelete(AskDelete(p, id)).1 == Some(id)
  {
  }

  /** `getAddressType`: the three known kinds get a capital; anything else is shown as it is. */
  function AddressType(kind: string): (r: string)
    ensures kind == "home" ==> r == "Home"
    ensures kind == "office" ==> r == "Office"
    ensures kind == "other" ==> r == "Other"
    ensures kind != "home" && kind != "office" && kind != "other" ==> r == kind
  {
    if kind == "home" then "Home" else if kind == "office" then "Office" else if kind == "other" then "Other" else kind
  }

  /** `getFullAddress`: the non-empty street, city and state joined by `", "`. */
  function FullAddress(a: Saved): (r: string)
    ensures r == "" <==> a.addressLine == "" && a.city == "" && a.state == ""
    ensures r == JoinKept([Some(a.addressLine), Some(a.city), Some(a.state)], ", ")
  {
    var parts := [Some(a.addressLine), Some(a.city), Some(a.state)];
    CompactJoinIsJoinKept(parts, ", ");
    assert (forall i :: 0 <= i < |parts| ==> !TruthyStr(parts[i]))
           <==> !TruthyStr(parts[0]) && !TruthyStr(parts[1]) && !TruthyStr(parts[2]);
    CompactJoin(parts, ", ")
  }

  /** With all three parts present the address reads `street, city, state`;
      a missing city leaves no doubled separator. */
  lemma FullAddressParts(a: Saved)
    requires a.addressLine != "" && a.state != ""
    ensures a.city != "" ==> FullAddress(a) == a.addressLine + ", " + a.city + ", " + a.state
    ensures a.city == "" ==> FullAddress(a) == a.addressLine + ", " + a.state
  {
    if a.city != "" {
      CompactJoinThree(a.addressLine, a.city, a.state, ", ");
    } else {
      CompactJoinSkipMiddle(a.addressLine, a.state, ", ");
    }
  }

}

=== FILE: account_orders.dfy ===
/** The account's order list: the status filter and the per-order figures. */
module AccountOrders {
  import opened Js
  import opened Orders

  /** `filteredOrders`: everything for `'all'`, otherwise the orders whose
      status equals the selection, in order. */
  function FilteredOrders(orders: seq<Order>, selected: string): (r: seq<Order>)
    ensures selected == "all" ==> r == orders
    ensures IsSubsequence(r, orders)
    ensures selected != "all" ==> forall i :: 0 <= i < |r| ==> r[i].status == selected
    ensures selected != "all" ==> forall i :: 0 <= i < |orders| && orders[i].status == selected ==> orders[i] in r
  {
    if selected == "all" then
      IsSubsequenceRefl(orders);
      orders
    else Filter((o: Order) => o.status == selected, orders)
  }

  /** `hasOrders`: the filtered list is not empty. */
  function HasOrders(orders: seq<Order>, selected: string): (b: bool)
    ensures selected == "all" ==> (b <==> orders != [])
    ensures selected != "all" ==> (b <==> exists i :: 0 <= i < |orders| && orders[i].status == selected)
  {
    var r := FilteredOrders(orders, selected);
    assert selected != "all" && (exists i :: 0 <= i < |orders| && orders[i].status == selected) ==> |r| > 0;
    |r| > 0
  }

  /** `getOrderItemCount`: the sum of the line quantities, 0 without lines. */
  function ItemCount(o: Order): (n: int)
    ensures o.items.None? || o.items.value == [] ==> n == 0
    ensures o.items.Some? && (forall i :: 0 <= i < |o.items.value| ==> o.items.value[i].quantity >= 0) ==> n >= 0
  {
    SumBy((it: OrderItem) => it.quantity, o.items.GetOr([]))
  }

  /** One more line adds its quantity to the count. */
  lemma ItemCountAppend(o: Order, items: seq<OrderItem>, it: OrderItem)
    requires o.items == Some(items)
    ensures ItemCount(o.(items := Some(items + [it]))) == ItemCount(o) + it.quantity
  {
    SumByAppend((it: OrderItem) => it.quantity, items, [it]);
  }

  /** `getOrderTotal`: `finalAmount`, then `totalAmount`, then 0. */
  function OrderTotal(o: Order): (n: int)
    ensures TruthyNum(o.finalAmount) ==> n == o.finalAmount.value
    ensures !TruthyNum(o.finalAmount) && TruthyNum(o.totalAmount) ==> n == o.totalAmount.value
    ensures !TruthyNum(o.finalAmount) && !TruthyNum(o.totalAmount) ==> n == 0
  {
    OrNum(o.finalAmount, OrNum(o.totalAmount, 0))
  }
}

=== FILE: address_record.dfy ===
/** The address record as the checkout and the account pages pass it around:
    every field optional, with the street under `address` or `addressLine`. */
module AddressRecord {
  import opened Js

  datatype Address = Address(
    dbId: Option<string>,
    addressId: Option<string>,
    kind: Option<string>,
    firstName: Option<string>,
    lastName: Option<string>,
    email: Option<string>,
    phone: Option<string>,
    address: Option<string>,
    addressLine: Option<string>,
    city: Option<string>,
    state: Option<string>,
    setAsDefault: Option<bool>,
    isDefault: Option<bool>)

  /** An address with every field missing. */
  const Blank: Address := Address(None, None, None, None, None, None, None, None, None, None, None, None, None)
}

=== FILE: admin_api.dfy ===
/** The back-office service: query parameters and the normalised shapes of the
    product table, the product editor and the image upload. */
module AdminApi {
  import opened Js
  import opened JsonValue
  import ProductApi

  type Query = ProductApi.Query

  /** `getSalesReport` and its PDF and Excel variants: each date only when given. */
  function SalesReportQuery(startDate: Option<string>, endDate: Option<string>): (q: Query)
    ensures "startDate" in q <==> TruthyStr(startDate)
    ensures "endDate" in q <==> TruthyStr(endDate)
    ensures "startDate" in q ==> q["startDate"] == startDate.value
    ensures "endDate" in q ==> q["endDate"] == endDate.value
    ensures q.Keys <= {"startDate", "endDate"}
  {
    ProductApi.SetStr(ProductApi.SetStr(map[], "startDate", startDate), "endDate", endDate)
  }

  /** `getAllProducts`' query: page and limit, then every filter whose value is
      truthy, set under its own name (a filter called `page` replaces the page). */
  function ProductsQuery(page: int, limit: int, filters: Option<map<string, string>>): (q: Query)
    ensures filters.None? ==> q == map["page" := IntToString(page), "limit" := IntToString(limit)]
    ensures forall k :: filters.Some? && k in filters.value && filters.value[k] != "" ==>
              k in q && q[k] == filters.value[k]
    ensures forall k :: k in q && k != "page" && k != "limit" ==>
              filters.Some? && k in filters.value && filters.value[k] != ""
    ensures "page" in q && "limit" in q
    ensures (filters.None? || "page" !in filters.value || filters.value["page"] == "") ==> q["page"] == IntToString(page)
  {
    var base := map["page" := IntToString(page), "limit" := IntToString(limit)];
    match filters
    case None => base
    case Some(f) => base + map k | k in f && f[k] != "" :: f[k]
  }

  /** Empty filters add nothing to the page and limit. */
  lemma EmptyFiltersAddNothing(page: int, limit: int, keys: set<string>)
    ensures ProductsQuery(page, limit, Some(map k | k in keys :: "")) == ProductsQuery(page, limit, None)
  {
  }

  /** The product table as `getAllProducts` hands it on. */
  datatype ProductsPage = ProductsPage(products: Json, totalPages: Json, total: Json, page: Json)

  /** `products: data || products || []`, `totalPages: pagination?.totalPages ||
      totalPages || 1`, `total: pagination?.total || 0`, `page: pagination?.page || page`. */
  function ProductsPageOf(response: Json, page: int): (r: Option<ProductsPage>)
    ensures r.None? <==> Nullish(response)
    ensures r.Some? ==> r.value.products == Or(Get(response, "data"), Or(Get(response, "products"), JArr([])))
    ensures r.Some? ==> Truthy(r.value.products) && Truthy(r.value.totalPages)
    ensures r.Some? ==> r.value.total == Or(Get(Get(response, "pagination"), "total"), JNum(0))
    ensures r.Some? && !Truthy(Get(Get(response, "pagination"), "page")) ==> r.value.page == JNum(page)
    ensures r.Some? && Truthy(Get(Get(response, "pagination"), "page")) ==> r.value.page == Get(Get(response, "pagination"), "page")
    ensures r.Some? && Truthy(Get(Get(response, "pagination"), "totalPages")) ==>
              r.value.totalPages == Get(Get(response, "pagination"), "totalPages")
    ensures r.Some? && !Truthy(Get(Get(response, "pagination"), "totalPages")) && Truthy(Get(response, "totalPages")) ==>
              r.value.totalPages == Get(response, "totalPages")
    ensures r.Some? && !Truthy(Get(Get(response, "pagination"), "totalPages")) && !Truthy(Get(response, "totalPages")) ==>
              r.value.totalPages == JNum(1)
  {
    if Nullish(response) then None
    else
      var pagination := Get(response, "pagination");
      Some(ProductsPage(
        Or(Get(response, "data"), Or(Get(response, "products"), JArr([]))),
        Or(Get(pagination, "totalPages"), Or(Get(response, "totalPages"), JNum(1))),
        Or(Get(pagination, "total"), JNum(0)),
        Or(Get(pagination, "page"), JNum(page))))
  }

  /** A page count of 0 anywhere reads as 1, and a nested count wins over a
      top-level one. */
  lemma TotalPagesChain(n: int, m: int)
    requires n != 0
    ensures ProductsPageOf(JObj(map["pagination" := Single("totalPages", JNum(0)), "totalPages" := JNum(0)]), 1).value.totalPages == JNum(1)
    ensures ProductsPageOf(JObj(map["pagination" := Single("totalPages", JNum(n)), "totalPages" := JNum(m)]), 1).value.totalPages == JNum(n)
  {
  }

  /** `createProduct` and `updateProduct`: `data || product || response`. */
  function SavedProduct(response: Json): (r: Option<Json>)
    ensures r.None? <==> Nullish(response)
    ensures r.Some? && Truthy(Get(response, "data")) ==> r.value == Get(response, "data")
    ensures r.Some? && !Truthy(Get(response, "data")) && Truthy(Get(response, "product")) ==> r.value == Get(response, "product")
    ensures r.Some? && !Truthy(Get(response, "data")) && !Truthy(Get(response, "product")) ==> r.value == response
  {
    if Nullish(response) then None else Some(Or(Or(Get(response, "data"), Get(response, "product")), response))
  }

  /** The back-office and storefront services read a body carrying both fields
      in opposite orders. */
  lemma SaveOrderDiffersFromStorefront(a: Json, b: Json)
    requires Truthy(a) && Truthy(b)
    ensures SavedProduct(JObj(map["data" := a, "product" := b])) == Some(a)
    ensures ProductApi.SingleProduct(JObj(map["data" := a, "product" := b])) == Some(b)
  {
  }

  datatype Upload = Upload(success: Json, imageUrls: Json, message: Json)

  /** `uploadProductImages`: `success` and `message` pass through, the URLs are
      `data || imageUrls || []`. */
  function UploadOf(response: Json): (r: Option<Upload>)
    ensures r.None? <==> Nullish(response)
    ensures r.Some? ==> r.value.success == Get(response, "success") && r.value.message == Get(response, "message")
    ensures r.Some? && Truthy(Get(response, "data")) ==> r.value.imageUrls == Get(response, "data")
    ensures r.Some? && !Truthy(Get(response, "data")) ==> r.value.imageUrls == Or(Get(response, "imageUrls"), JArr([]))
  {
    if Nullish(response) then None
    else Some(Upload(Get(response, "success"), Or(Get(response, "data"), Or(Get(response, "imageUrls"), JArr([]))), Get(response, "message")))
  }

  /** URLs sent in either field come back as sent; an empty `data` array is
      truthy, so it hides `imageUrls`. */
  lemma UploadUrls(urls: seq<Json>, other: seq<Json>)
    ensures UploadOf(Single("data", JArr(urls))).value.imageUrls == JArr(urls)
    ensures UploadOf(Single("imageUrls", JArr(urls))).value.imageUrls == JArr(urls)
    ensures UploadOf(JObj(map["data" := JArr([]), "imageUrls" := JArr(other)])).value.imageUrls == JArr([])
  {
  }
}

=== FILE: admin_categories.dfy ===
/** The back-office category manager: normalisation of server categories,
    the summary cards, the search/status/gender filter, the subcategories
    listed under each category, expanding rows, saving with a generated slug,
    and toggling a category's status. */
module AdminCategories {
  import opened Js
  import opened Catalog
  import AdminProducts

  /** A category as the page holds it. `productsCount` is the alternative
      spelling some responses use. */
  datatype AdminCategory = AdminCategory(
    dbId: Option<string>,
    id: Option<string>,
    name: Option<string>,
    slug: Option<string>,
    description: Option<string>,
    gender: Option<string>,
    productCount: Option<int>,
    productsCount: Option<int>,
    subCategoriesCount: Option<int>,
    isActive: Option<bool>,
    expanded: Option<bool>)

  /** A subcategory; its category is an id or a populated object. */
  datatype AdminSubcategory = AdminSubcategory(
    dbId: Option<string>,
    name: Option<string>,
    slug: Option<string>,
    category: Option<Ref>,
    isActive: Option<bool>)

  /** `category._id || category.id`. */
  function Key(c: AdminCategory): (r: Option<string>)
    ensures TruthyStr(c.dbId) ==> r == c.dbId
    ensures !TruthyStr(c.dbId) ==> r == c.id
  {
    OrStrOpt(c.dbId, c.id)
  }

  // ---------------------------------------------------------------------------
  // Loading

  /** The row made from a server category: `id` copied from `_id`, the
      product count from `productCount ?? productsCount ?? 0`, the
      subcategory count defaulting to 0, and collapsed. */
  function Normalise(c: AdminCategory): (r: AdminCategory)
    ensures r.id == c.dbId && r.expanded == Some(false)
    ensures c.productCount.Some? ==> r.productCount == c.productCount
    ensures c.productCount.None? ==> r.productCount == Some(Coalesce(c.productsCount, 0))
    ensures r.subCategoriesCount == Some(Coalesce(c.subCategoriesCount, 0))
    ensures r.(id := c.id, productCount := c.productCount, subCategoriesCount := c.subCategoriesCount, expanded := c.expanded) == c
  {
    c.(id := c.dbId, productCount := Some(Coalesce(c.productCount, Coalesce(c.productsCount, 0))),
       subCategoriesCount := Some(Coalesce(c.subCategoriesCount, 0)), expanded := Some(false))
  }

  /** A zero count is kept: only a missing count falls through. */
  lemma ZeroCountIsKept(c: AdminCategory)
    requires c.productCount == Some(0)
    ensures Normalise(c).productCount == Some(0)
    ensures Normalise(c.(productCount := None, productsCount := Some(7))).productCount == Some(7)
  {
  }

  /** The category list: `data`, then `categories`, then nothing. */
  datatype CategoriesResponse = CategoriesResponse(data: Option<seq<AdminCategory>>, categories: Option<seq<AdminCategory>>)

  function LoadCategories(resp: CategoriesResponse): (r: seq<AdminCategory>)
    ensures var raw := if resp.data.Some? then resp.data.value else resp.categories.GetOr([]);
            |r| == |raw| && forall i :: 0 <= i < |r| ==> r[i] == Normalise(raw[i]) && r[i].expanded == Some(false)
  {
    var raw := if resp.data.Some? then resp.data.value else resp.categories.GetOr([]);
    seq(|raw|, i requires 0 <= i < |raw| => Normalise(raw[i]))
  }

  // ---------------------------------------------------------------------------
  // Summary cards

  datatype Stats = Stats(total: nat, active: nat, inactive: nat, subcategories: nat)

  predicate IsActive(c: AdminCategory) { TruthyBool(c.isActive) }
  predicate IsInactive(c: AdminCategory) { !TruthyBool(c.isActive) }

  /** `updateStats`: all categories, the active and the inactive ones (a
      missing flag counts as inactive), and all subcategories. */
  function ComputeStats(cats: seq<AdminCategory>, subs: seq<AdminSubcategory>): (s: Stats)
    ensures s.total == |cats| && s.subcategories == |subs|
    ensures s.active == |Filter(IsActive, cats)| && s.inactive == |Filter(IsInactive, cats)|
  {
    Stats(|cats|, |Filter(IsActive, cats)|, |Filter(IsInactive, cats)|, |subs|)
  }

  /** The active and inactive counts partition the categories. */
  lemma {:induction false} ActiveInactivePartition(cats: seq<AdminCategory>)
    ensures var s := ComputeStats(cats, []);
            s.active + s.inactive == s.total
    decreases |cats|
  {
    if |cats| > 0 {
      ActiveInactivePartition(cats[1..]);
    }
  }

  // ---------------------------------------------------------------------------
  // Filtering

  /** The case-insensitive search over the name, the slug and the description. */
  predicate MatchesSearch(c: AdminCategory, term: string) {
    var t := Lower(term);
    Includes(Lower(OrStr(c.name, "")), t) || Includes(Lower(OrStr(c.slug, "")), t) || Includes(Lower(OrStr(c.description, "")), t)
  }

  /** The status filter tests the flag strictly: a category without the flag
      matches only `all`. */
  predicate MatchesStatus(c: AdminCategory, status: string) {
    status == "all" || (status == "active" && c.isActive == Some(true)) || (status == "inactive" && c.isActive == Some(false))
  }

  predicate MatchesAll(c: AdminCategory, term: string, status: string, gender: string) {
    MatchesSearch(c, term) && MatchesStatus(c, status) && (gender == "all" || c.gender == Some(gender))
  }

  /** `filteredCategories`: the categories matching the search, status and gender, in order. */
  function FilteredCategories(cats: seq<AdminCategory>, term: string, status: string, gender: string): (r: seq<AdminCategory>)
    ensures IsSubsequence(r, cats)
    ensures forall i :: 0 <= i < |r| ==> MatchesAll(r[i], term, status, gender)
    ensures forall i :: 0 <= i < |cats| && MatchesAll(cats[i], term, status, gender) ==> cats[i] in r
  {
    Filter((c: AdminCategory) => MatchesAll(c, term, status, gender), cats)
  }

  /** The `active` and `inactive` views show no more categories than the
      cards count, and exactly as many when every flag is present. */
  lemma StatusViewsMatchCards(cats: seq<AdminCategory>)
    ensures |FilteredCategories(cats, "", "active", "all")| == ComputeStats(cats, []).active
    ensures |FilteredCategories(cats, "", "inactive", "all")| <= ComputeStats(cats, []).inactive
    ensures (forall i :: 0 <= i < |cats| ==> cats[i].isActive.Some?) ==>
              |FilteredCategories(cats, "", "inactive", "all")| == ComputeStats(cats, []).inactive
  {
    forall i | 0 <= i < |cats|
      ensures MatchesSearch(cats[i], "")
    {
      assert OccursAt(Lower(OrStr(cats[i].name, "")), "", 0);
    }
    FilterCongruent((c: AdminCategory) => MatchesAll(c, "", "active", "all"), IsActive, cats);
    CountImplied((c: AdminCategory) => MatchesAll(c, "", "inactive", "all"), IsInactive, cats);
    if forall i :: 0 <= i < |cats| ==> cats[i].isActive.Some? {
      FilterCongruent((c: AdminCategory) => MatchesAll(c, "", "inactive", "all"), IsInactive, cats);
    }
  }

  /** Filtering by a stronger predicate keeps no more elements. */
  lemma {:induction false} CountImplied<T>(p: T -> bool, q: T -> bool, xs: seq<T>)
    requires forall i :: 0 <= i < |xs| ==> p(xs[i]) ==> q(xs[i])
    ensures |Filter(p, xs)| <= |Filter(q, xs)|
    decreases |xs|
  {
    if |xs| > 0 {
      CountImplied(p, q, xs[1..]);
    }
  }

  // ---------------------------------------------------------------------------
  // Subcategories and expansion

  /** A subcategory's category id: the string, or the populated object's `_id`. */
  function ParentId(s: AdminSubcategory): (r: Option<string>)
    ensures s.category.None? ==> r.None?
    ensures s.category.Some? ==> r == Some(RefKey(s.category.value))
  {
    match s.category
    case None => None
    case Some(ref) => Some(RefKey(ref))
  }

  /** `getCategorySubcategories`: the subcategories whose category id equals
      the category's key; a category without a key collects the subcategories
      without a category. */
  function SubcategoriesOf(subs: seq<AdminSubcategory>, c: AdminCategory): (r: seq<AdminSubcategory>)
    ensures IsSubsequence(r, subs)
    ensures forall i :: 0 <= i < |r| ==> ParentId(r[i]) == Key(c)
    ensures forall i :: 0 <= i < |subs| && ParentId(subs[i]) == Key(c) ==> subs[i] in r
  {
    Filter((s: AdminSubcategory) => ParentId(s) == Key(c), subs)
  }

  /** Two categories with different keys share no subcategory. */
  lemma DistinctKeysShareNothing(subs: seq<AdminSubcategory>, a: AdminCategory, b: AdminCategory)
    requires Key(a) != Key(b)
    ensures forall i, j :: 0 <= i < |SubcategoriesOf(subs, a)| && 0 <= j < |SubcategoriesOf(subs, b)| ==>
              SubcategoriesOf(subs, a)[i] != SubcategoriesOf(subs, b)[j]
  {
  }

  /** `toggleCategory`: flips whether the row is expanded (a missing flag reads as collapsed). */
  function ToggleExpanded(c: AdminCategory): (r: AdminCategory)
    ensures r.expanded == Some(!TruthyBool(c.expanded))
    ensures r.(expanded := c.expanded) == c
  {
    c.(expanded := Some(!TruthyBool(c.expanded)))
  }

  /** Toggling twice restores a row whose flag is set, as every loaded row's is. */
  lemma ToggleTwice(c: AdminCategory)
    requires c.expanded.Some?
    ensures ToggleExpanded(ToggleExpanded(c)) == c
  {
  }

  // ---------------------------------------------------------------------------
  // Saving and status

  /** What `saveCategory` and `saveSubcategory` do. */
  datatype SaveStep<T> = Nothing | Create(data: T) | Update(id: string, data: T)

  /** `saveCategory`: a slug is generated from the name when missing, then the
      category is updated under its key or created. Nothing else is checked. */
  function SaveCategory(e: Option<AdminCategory>): (r: SaveStep<AdminCategory>)
    ensures e.None? <==> r.Nothing?
    ensures r.Update? <==> e.Some? && TruthyStr(Key(e.value))
    ensures r.Update? ==> r.id == Key(e.value).value
    ensures !r.Nothing? ==> r.data.(slug := e.value.slug) == e.value
    ensures !r.Nothing? && TruthyStr(e.value.slug) ==> r.data.slug == e.value.slug
    ensures !r.Nothing? && !TruthyStr(e.value.slug) && TruthyStr(e.value.name) ==>
              r.data.slug == Some(AdminProducts.Slugify(e.value.name.value))
  {
    match e
    case None => Nothing
    case Some(c) =>
      var d := if !TruthyStr(c.slug) && TruthyStr(c.name) then c.(slug := Some(AdminProducts.Slugify(c.name.value))) else c;
      if TruthyStr(Key(c)) then Update(Key(c).value, d) else Create(d)
  }

  /** Saving a category twice sends the same data: the generated slug is a
      fixed point of slug generation. */
  lemma SaveCategoryStable(c: AdminCategory)
    ensures var r := SaveCategory(Some(c));
            SaveCategory(Some(r.data)) == r
  {
    if !TruthyStr(c.slug) && TruthyStr(c.name) {
      AdminProducts.SlugifyIdempotent(c.name.value);
    }
  }

  /** `saveSubcategory`: needs the form and its parent category; a slug is
      generated when missing; an existing subcategory is updated under its
      `_id`, a new one created under the parent's key (if any). */
  function SaveSubcategory(e: Option<AdminSubcategory>, parent: Option<AdminCategory>): (r: (SaveStep<AdminSubcategory>, Option<string>))
    ensures r.0.Nothing? <==> e.None? || parent.None?
    ensures r.0.Update? <==> e.Some? && parent.Some? && TruthyStr(e.value.dbId)
    ensures r.0.Update? ==> r.0.id == e.value.dbId.value
    ensures r.0.Create? ==> r.1 == Key(parent.value)
    ensures !r.0.Nothing? ==> r.0.data.(slug := e.value.slug) == e.value
    ensures !r.0.Nothing? && !TruthyStr(e.value.slug) && TruthyStr(e.value.name) ==>
              r.0.data.slug == Some(AdminProducts.Slugify(e.value.name.value))
    ensures !r.0.Nothing? && (TruthyStr(e.value.slug) || !TruthyStr(e.value.name)) ==> r.0.data.slug == e.value.slug
  {
    if e.None? || parent.None? then (Nothing, None)
    else
      var s := e.value;
      var d := if !TruthyStr(s.slug) && TruthyStr(s.name) then s.(slug := Some(AdminProducts.Slugify(s.name.value))) else s;
      if TruthyStr(s.dbId) then (Update(s.dbId.value, d), None) else (Create(d), Key(parent.value))
  }

  /** The first position whose key is `id`, as `findIndex` returns it. */
  function FindIndex(cats: seq<AdminCategory>, id: string): (r: int)
    ensures -1 <= r < |cats|
    ensures r == -1 <==> forall i :: 0 <= i < |cats| ==> Key(cats[i]) != Some(id)
    ensures r >= 0 ==> Key(cats[r]) == Some(id) && forall i :: 0 <= i < r ==> Key(cats[i]) != Some(id)
  {
    if |cats| == 0 then -1
    else if Key(cats[0]) == Some(id) then 0
    else var k := FindIndex(cats[1..], id); if k == -1 then -1 else k + 1
  }

  /** `toggleCategoryStatus`: the request for a category with a key asks for the opposite flag. */
  function ToggleStatusRequest(c: AdminCategory): (r: Option<(string, bool)>)
    ensures r.None? <==> !TruthyStr(Key(c))
    ensures r.Some? ==> r.value == (Key(c).value, !TruthyBool(c.isActive))
  {
    if TruthyStr(Key(c)) then Some((Key(c).value, !TruthyBool(c.isActive))) else None
  }

  /** On success the first category with that key takes the new flag; nothing else changes. */
  function OnStatusToggled(cats: seq<AdminCategory>, id: string, newStatus: bool): (r: seq<AdminCategory>)
    ensures |r| == |cats|
    ensures FindIndex(cats, id) == -1 ==> r == cats
    ensures FindIndex(cats, id) >= 0 ==> r[FindIndex(cats, id)] == cats[FindIndex(cats, id)].(isActive := Some(newStatus))
    ensures forall i :: 0 <= i < |cats| && i != FindIndex(cats, id) ==> r[i] == cats[i]
  {
    var k := FindIndex(cats, id);
    if k == -1 then cats else cats[k := cats[k].(isActive := Some(newStatus))]
  }

  /** Toggling a category's status and then toggling it back restores the list. */
  lemma ToggleBackRestores(cats: seq<AdminCategory>, c: AdminCategory)
    requires TruthyStr(Key(c)) && c in cats && c.isActive.Some?
    requires forall i :: 0 <= i < |cats| && Key(cats[i]) == Key(c) ==> cats[i] == c
    ensures var req := ToggleStatusRequest(c).value;
            var after := OnStatusToggled(cats, req.0, req.1);
            OnStatusToggled(after, req.0, !req.1) == cats
  {
    var req := ToggleStatusRequest(c).value;
    var k := FindIndex(cats, req.0);
    assert k >= 0;
    var after := OnStatusToggled(cats, req.0, req.1);
    assert forall i :: 0 <= i < |after| ==> Key(after[i]) == Key(cats[i]);
    assert FindIndex(after, req.0) == k;
    assert cats[k] == c;
  }
}

=== FILE: admin_header.dfy ===
/** The back-office header: the administrator's name and initials, the page
    title chosen from the address bar, and the user menu. */
module AdminHeader {
  import opened Js
  import opened StaffUser

  /** `getUserName`: `Admin` without a user; else the trimmed "first last",
      falling back to the email when that is blank. */
  function UserName(user: Option<User>): (r: Option<string>)
    ensures user.None? ==> r == Some("Admin")
    ensures user.Some? && Trim(OrStr(user.value.firstName, "") + " " + OrStr(user.value.lastName, "")) != "" ==>
              r == Some(Trim(OrStr(user.value.firstName, "") + " " + OrStr(user.value.lastName, "")))
    ensures user.Some? && Trim(OrStr(user.value.firstName, "") + " " + OrStr(user.value.lastName, "")) == "" ==>
              r == user.value.email
    ensures user.Some? && !TruthyStr(user.value.firstName) && !TruthyStr(user.value.lastName) ==> r == user.value.email
  {
    match user
    case None => Some("Admin")
    case Some(u) =>
      var full := Trim(OrStr(u.firstName, "") + " " + OrStr(u.lastName, ""));
      JoinedNamesBlank(u.firstName, u.lastName);
      if full != "" then Some(full) else u.email
  }

  /** A user with unpadded first and last names is shown as "first last". */
  lemma UserNameOfNamedUser(first: string, last: string, email: Option<string>)
    requires first != "" && last != ""
    requires !IsSpace(first[0]) && !IsSpace(last[|last| - 1])
    ensures UserName(Some(User(Some(first), Some(last), email))) == Some(first + " " + last)
  {
    var u := User(Some(first), Some(last), email);
    var s := first + " " + last;
    assert OrStr(u.firstName, "") + " " + OrStr(u.lastName, "") == s;
    assert s[0] == first[0] && s[|s| - 1] == last[|last| - 1];
    TrimUnpadded(s);
    assert s != "";
  }

  /** `getUserInitials`: the first letters of first and last name, upper-cased;
      the email's first letter when both are missing; `A` without a user. */
  function Initials(user: Option<User>): (r: Option<string>)
    ensures user.None? ==> r == Some("A")
    ensures user.Some? && (TruthyStr(user.value.firstName) || TruthyStr(user.value.lastName)) ==>
              r == Some(Upper(FirstChar(OrStr(user.value.firstName, "")) + FirstChar(OrStr(user.value.lastName, ""))))
    ensures user.Some? && !TruthyStr(user.value.firstName) && !TruthyStr(user.value.lastName) && user.value.email.Some? ==>
              r == Some(Upper(FirstChar(user.value.email.value)))
    ensures r.Some? ==> |r.value| <= 2
    ensures r.None? <==> user.Some? && !TruthyStr(user.value.firstName) && !TruthyStr(user.value.lastName) && user.value.email.None?
  {
    match user
    case None => Some("A")
    case Some(u) =>
      var both := Upper(FirstChar(OrStr(u.firstName, "")) + FirstChar(OrStr(u.lastName, "")));
      if both != "" then Some(both)
      else if u.email.None? then None
      else Some(Upper(FirstChar(u.email.value)))
  }

  /** The titles, in the order the header tries them: the first keyword the
      path contains decides. */
  const Titles: seq<(string, string)> := [
    ("dashboard", "\U{1F4CA} Dashboard"),
    ("products", "\U{1F4E6} Products Management"),
    ("orders", "\U{1F6D2} Orders Management"),
    ("users", "\U{1F465} Users Management"),
    ("categories", "\U{1F4C2} Categories Management"),
    ("settings", "\U{2699}\U{FE0F} Settings"),
    ("profile", "\U{1F464} Profile")
  ]

  const DefaultTitle := "Admin Panel"

  /** The title of the first entry whose keyword the path contains. */
  function FirstTitle(path: string, titles: seq<(string, string)>): (r: Option<string>)
    ensures r.None? <==> forall i :: 0 <= i < |titles| ==> !Includes(path, titles[i].0)
    ensures r.Some? ==> exists i :: 0 <= i < |titles| && Includes(path, titles[i].0) && r.value == titles[i].1
                                   && forall j :: 0 <= j < i ==> !Includes(path, titles[j].0)
  {
    if titles == [] then None
    else if Includes(path, titles[0].0) then Some(titles[0].1)
    else
      var rest := FirstTitle(path, titles[1..]);
      if rest.Some? then
        var i :| 0 <= i < |titles[1..]| && Includes(path, titles[1..][i].0) && rest.value == titles[1..][i].1
                 && forall j :: 0 <= j < i ==> !Includes(path, titles[1..][j].0);
        assert Includes(path, titles[i + 1].0) && rest.value == titles[i + 1].1;
        rest
      else rest
  }

  /** `getPageTitle`: the first matching keyword's title in a browser, `Admin
      Panel` when nothing matches or when rendered on the server. */
  function PageTitle(inBrowser: bool, path: string): (r: string)
    ensures !inBrowser ==> r == DefaultTitle
    ensures inBrowser && (forall i :: 0 <= i < |Titles| ==> !Includes(path, Titles[i].0)) ==> r == DefaultTitle
    ensures inBrowser && FirstTitle(path, Titles).Some? ==> r == FirstTitle(path, Titles).value
  {
    if inBrowser then FirstTitle(path, Titles).GetOr(DefaultTitle) else DefaultTitle
  }

  /** A path naming several sections takes the earlier section's title. */
  lemma EarlierKeywordWins()
    ensures PageTitle(true, "/admin/dashboard") == "\U{1F4CA} Dashboard"
    ensures PageTitle(true, "/admin/users/orders") == "\U{1F6D2} Orders Management"
  {
    assert OccursAt("/admin/dashboard", "dashboard", 7);
    MissingCharExcludes("/admin/users/orders", "dashboard", 3);
    MissingCharExcludes("/admin/users/orders", "products", 0);
    assert OccursAt("/admin/users/orders", "orders", 13);
  }

  /** The header's menus. */
  datatype Menus = Menus(userMenu: bool, notifications: bool)

  /** At most one of the two is open. */
  predicate MenusValid(m: Menus) {
    !(m.userMenu && m.notifications)
  }

  /** `toggleUserMenu`: opening the user menu closes the notifications. */
  function ToggleUserMenu(m: Menus): (r: Menus)
    ensures r.userMenu == !m.userMenu
    ensures r.userMenu ==> !r.notifications
    ensures !r.userMenu ==> r.notifications == m.notifications
    ensures MenusValid(m) ==> MenusValid(r)
  {
    if !m.userMenu then Menus(true, false) else m.(userMenu := false)
  }

  /** `onDocumentClick`: a click outside the header items closes both. */
  function DocumentClick(m: Menus, clickedInside: bool): (r: Menus)
    ensures clickedInside ==> r == m
    ensures !clickedInside ==> r == Menus(false, false)
    ensures MenusValid(m) ==> MenusValid(r)
  {
    if clickedInside then m else Menus(false, false)
  }

  /** Toggling twice restores the user menu flag. */
  lemma ToggleTwice(m: Menus)
    ensures ToggleUserMenu(ToggleUserMenu(m)).userMenu == m.userMenu
    ensures !m.userMenu ==> ToggleUserMenu(ToggleUserMenu(m)) == Menus(false, false)
  {
  }
}

=== FILE: admin_orders.dfy ===
/** The back-office order manager: how each server order is flattened into a
    table row, the summary cards, the search-and-status filter, the status
    texts, and the body of a return decision. */
module AdminOrders {
  import opened Js
  import Orders

  // ---------------------------------------------------------------------------
  // Server orders and table rows

  /** The order's user, when populated. */
  datatype RawUser = RawUser(firstName: Option<string>, lastName: Option<string>, name: Option<string>,
                             email: Option<string>, phone: Option<string>)

  /** An order line as the server sends it; only the quantity matters here. */
  datatype RawItem = RawItem(productName: Option<string>, quantity: Option<int>, price: Option<int>)

  /** `order.items`: missing, a list of lines, or a bare count. */
  datatype ItemsField = NoItems | ItemList(lines: seq<RawItem>) | ItemNumber(n: int)

  /** `order.shippingAddress`: missing or `null`, a string, or an address object. */
  datatype AddressField = NoAddress | AddressText(text: string)
                        | AddressObject(addressLine: Option<string>, city: Option<string>, state: Option<string>)

  /** An order as the server sends it, with every field optional. */
  datatype RawOrder = RawOrder(
    dbId: Option<string>,
    orderId: Option<string>,
    orderNumber: Option<string>,
    user: Option<RawUser>,
    customer: Option<string>,
    email: Option<string>,
    phone: Option<string>,
    createdAt: Option<string>,
    finalAmount: Option<int>,
    totalAmount: Option<int>,
    total: Option<int>,
    items: ItemsField,
    itemsData: Option<seq<RawItem>>,
    itemsCount: Option<int>,
    paymentMethod: Option<string>,
    shippingAddress: AddressField,
    address: Option<string>,
    status: string,
    returnRequest: Option<Orders.ReturnRequest>)

  /** A row of the orders table. `date` is the creation time before locale
      formatting; `None` is shown as `-`. */
  datatype Row = Row(
    dbId: Option<string>,
    orderId: Option<string>,
    customer: string,
    email: string,
    phone: string,
    date: Option<string>,
    total: int,
    items: int,
    itemsData: seq<RawItem>,
    paymentMethod: string,
    shippingAddress: string,
    status: string,
    user: Option<RawUser>,
    returnRequest: Option<Orders.ReturnRequest>)

  /** The customer's name: `first last` when the user has both, else the
      user's `name`; the order's `customer` when there is no user; `Unknown`
      otherwise. It is never empty. */
  function CustomerName(o: RawOrder): (r: string)
    ensures r != ""
    ensures o.user.Some? && TruthyStr(o.user.value.firstName) && TruthyStr(o.user.value.lastName) ==>
              r == o.user.value.firstName.value + " " + o.user.value.lastName.value
    ensures o.user.Some? && !(TruthyStr(o.user.value.firstName) && TruthyStr(o.user.value.lastName)) ==>
              r == OrStr(o.user.value.name, "Unknown")
    ensures o.user.None? ==> r == OrStr(o.customer, "Unknown")
  {
    match o.user
    case Some(u) =>
      if TruthyStr(u.firstName) && TruthyStr(u.lastName) then u.firstName.value + " " + u.lastName.value
      else if TruthyStr(u.name) then u.name.value
      else "Unknown"
    case None => if TruthyStr(o.customer) then o.customer.value else "Unknown"
  }

  /** `item.quantity || 0`. */
  function Quantity(it: RawItem): int {
    OrNum(it.quantity, 0)
  }

  /** The lines shown in the detail view: a non-empty `items` list, else a
      non-empty `itemsData` list, else none. */
  function LinesOf(o: RawOrder): (r: seq<RawItem>)
    ensures o.items.ItemList? && o.items.lines != [] ==> r == o.items.lines
    ensures !(o.items.ItemList? && o.items.lines != []) && o.itemsData.Some? && o.itemsData.value != [] ==> r == o.itemsData.value
    ensures r == [] <==> !(o.items.ItemList? && o.items.lines != []) && !(o.itemsData.Some? && o.itemsData.value != [])
  {
    if o.items.ItemList? && |o.items.lines| > 0 then o.items.lines
    else if o.itemsData.Some? && |o.itemsData.value| > 0 then o.itemsData.value
    else []
  }

  /** The item count: the quantities summed over the lines when there are
      lines, else a non-zero `itemsCount`, else a numeric `items`, else 0. */
  function ItemCount(o: RawOrder): (r: int)
    ensures LinesOf(o) != [] ==> r == SumBy(Quantity, LinesOf(o))
    ensures LinesOf(o) == [] && TruthyNum(o.itemsCount) ==> r == o.itemsCount.value
    ensures LinesOf(o) == [] && !TruthyNum(o.itemsCount) && o.items.ItemNumber? ==> r == o.items.n
    ensures LinesOf(o) == [] && !TruthyNum(o.itemsCount) && !o.items.ItemNumber? ==> r == 0
  {
    var lines := LinesOf(o);
    if |lines| > 0 then SumBy(Quantity, lines)
    else if TruthyNum(o.itemsCount) then o.itemsCount.value
    else if o.items.ItemNumber? then o.items.n
    else 0
  }

  /** Lines listed under `items` take priority over `itemsData` and over the counters. */
  lemma ItemListTakesPriority(o: RawOrder, data: seq<RawItem>, count: int)
    requires o.items.ItemList? && o.items.lines != []
    ensures ItemCount(o.(itemsData := Some(data), itemsCount := Some(count))) == ItemCount(o)
    ensures LinesOf(o.(itemsData := Some(data))) == o.items.lines
  {
  }

  /** `formatAddress`: a string as it is; an object's non-empty street, city
      and state joined by `", "`, or `-` when all are empty; `-` otherwise. */
  function FormatAddress(a: AddressField): (r: string)
    ensures a.AddressText? ==> r == a.text
    ensures a.NoAddress? ==> r == "-"
    ensures a.AddressObject? && !TruthyStr(a.addressLine) && !TruthyStr(a.city) && !TruthyStr(a.state) ==> r == "-"
    ensures a.AddressObject? && (TruthyStr(a.addressLine) || TruthyStr(a.city) || TruthyStr(a.state)) ==>
              r == CompactJoin([a.addressLine, a.city, a.state], ", ") && r != ""
    ensures !a.AddressText? ==> r != ""
  {
    match a
    case AddressText(s) => s
    case NoAddress => "-"
    case AddressObject(line, city, state) =>
      var parts := [line, city, state];
      assert (forall i :: 0 <= i < |parts| ==> !TruthyStr(parts[i]))
             <==> !TruthyStr(parts[0]) && !TruthyStr(parts[1]) && !TruthyStr(parts[2]);
      var joined := CompactJoin(parts, ", ");
      if joined == "" then "-" else joined
  }

  /** With all three parts present the address reads `street, city, state`. */
  lemma FormatCompleteAddress(line: string, city: string, state: string)
    requires line != "" && city != "" && state != ""
    ensures FormatAddress(AddressObject(Some(line), Some(city), Some(state))) == line + ", " + city + ", " + state
  {
    CompactJoinThree(line, city, state, ", ");
  }

  /** The row built from a server order. */
  function ToRow(o: RawOrder): (r: Row)
    ensures r.customer == CustomerName(o) && r.items == ItemCount(o) && r.itemsData == LinesOf(o)
    ensures r.orderId == OrStrOpt(o.orderId, OrStrOpt(o.orderNumber, o.dbId))
    ensures r.total == OrNum(o.finalAmount, OrNum(o.totalAmount, OrNum(o.total, 0)))
    ensures r.email != "" && r.phone != "" && r.paymentMethod != "" && r.shippingAddress != ""
    ensures o.user.Some? && TruthyStr(o.user.value.email) ==> r.email == o.user.value.email.value
    ensures !(o.user.Some? && TruthyStr(o.user.value.email)) && TruthyStr(o.email) ==> r.email == o.email.value
    ensures !(o.user.Some? && TruthyStr(o.user.value.email)) && !TruthyStr(o.email) ==> r.email == "-"
    ensures o.user.Some? && TruthyStr(o.user.value.phone) ==> r.phone == o.user.value.phone.value
    ensures !(o.user.Some? && TruthyStr(o.user.value.phone)) && TruthyStr(o.phone) ==> r.phone == o.phone.value
    ensures !(o.user.Some? && TruthyStr(o.user.value.phone)) && !TruthyStr(o.phone) ==> r.phone == "-"
    ensures FormatAddress(o.shippingAddress) != "" ==> r.shippingAddress == FormatAddress(o.shippingAddress)
    ensures FormatAddress(o.shippingAddress) == "" && TruthyStr(o.address) ==> r.shippingAddress == o.address.value
    ensures FormatAddress(o.shippingAddress) == "" && !TruthyStr(o.address) ==> r.shippingAddress == "-"
    ensures TruthyStr(o.paymentMethod) ==> r.paymentMethod == o.paymentMethod.value
    ensures !TruthyStr(o.paymentMethod) ==> r.paymentMethod == "Cash"
    ensures (r.date == None) <==> !TruthyStr(o.createdAt)
    ensures r.status == o.status && r.dbId == o.dbId && r.returnRequest == o.returnRequest
  {
    var userEmail := if o.user.Some? then o.user.value.email else None;
    var userPhone := if o.user.Some? then o.user.value.phone else None;
    var formatted := FormatAddress(o.shippingAddress);
    Row(o.dbId,
        OrStrOpt(o.orderId, OrStrOpt(o.orderNumber, o.dbId)),
        CustomerName(o),
        OrStr(userEmail, OrStr(o.email, "-")),
        OrStr(userPhone, OrStr(o.phone, "-")),
        if TruthyStr(o.createdAt) then o.createdAt else None,
        OrNum(o.finalAmount, OrNum(o.totalAmount, OrNum(o.total, 0))),
        ItemCount(o),
        LinesOf(o),
        OrStr(o.paymentMethod, "Cash"),
        if formatted != "" then formatted else OrStr(o.address, "-"),
        o.status,
        o.user,
        o.returnRequest)
  }

  /** `formatAddress` only returns `""` for an empty address string, so the
      order's own `address` is read in that case alone; any other shipping
      address, including a missing one (`-`), wins. */
  lemma AddressFallbackOnlyForEmptyText(o: RawOrder)
    ensures o.shippingAddress != AddressText("") ==> ToRow(o).shippingAddress == FormatAddress(o.shippingAddress)
    ensures o.shippingAddress == NoAddress ==> ToRow(o).shippingAddress == "-"
  {
  }

  /** The server's order list: `data`, then `orders`, then nothing. */
  datatype OrdersResponse = OrdersResponse(data: Option<seq<RawOrder>>, orders: Option<seq<RawOrder>>)

  /** `loadOrders`' success handler: one row per server order, in order. */
  function LoadOrders(resp: OrdersResponse): (r: seq<Row>)
    ensures var raw := if resp.data.Some? then resp.data.value else resp.orders.GetOr([]);
            |r| == |raw| && forall i :: 0 <= i < |r| ==> r[i] == ToRow(raw[i])
  {
    var raw := if resp.data.Some? then resp.data.value else resp.orders.GetOr([]);
    seq(|raw|, i requires 0 <= i < |raw| => ToRow(raw[i]))
  }

  // ---------------------------------------------------------------------------
  // Summary cards

  /** The four figures behind the summary cards. */
  datatype Stats = Stats(totalOrders: nat, pending: nat, returnRequests: nat, revenue: int)

  predicate IsPending(r: Row) { r.status == "pending" }
  predicate IsReturnRequested(r: Row) { r.status == "return-requested" }
  predicate IsDelivered(r: Row) { r.status == "delivered" }

  function RowTotal(r: Row): int { r.total }

  /** `updateStats`: all orders, pending orders, return requests, and the
      revenue of delivered orders only. */
  function ComputeStats(rows: seq<Row>): (s: Stats)
    ensures s.totalOrders == |rows|
    ensures s.pending == |Filter(IsPending, rows)| && s.returnRequests == |Filter(IsReturnRequested, rows)|
    ensures s.revenue == SumBy(RowTotal, Filter(IsDelivered, rows))
  {
    Stats(|rows|, |Filter(IsPending, rows)|, |Filter(IsReturnRequested, rows)|, SumBy(RowTotal, Filter(IsDelivered, rows)))
  }

  /** The figures of two lists together are the sums of their figures. */
  lemma StatsAdd(a: seq<Row>, b: seq<Row>)
    ensures var s := ComputeStats(a + b);
            var sa := ComputeStats(a);
            var sb := ComputeStats(b);
            s == Stats(sa.totalOrders + sb.totalOrders, sa.pending + sb.pending,
                       sa.returnRequests + sb.returnRequests, sa.revenue + sb.revenue)
  {
    FilterAppend(IsPending, a, b);
    FilterAppend(IsReturnRequested, a, b);
    FilterAppend(IsDelivered, a, b);
    SumByAppend(RowTotal, Filter(IsDelivered, a), Filter(IsDelivered, b));
  }

  /** Pending orders and return requests are disjoint, so together they never
      outnumber the orders. */
  lemma {:induction false} PendingAndReturnsBounded(rows: seq<Row>)
    ensures var s := ComputeStats(rows);
            s.pending + s.returnRequests <= s.totalOrders
    decreases |rows|
  {
    if |rows| > 0 {
      PendingAndReturnsBounded(rows[1..]);
    }
  }

  /** A summary card. */
  datatype Card = Card(title: string, value: string, color: string)

  /** The cards: counts in decimal and the revenue with two decimals and the currency. */
  function Cards(s: Stats): (r: seq<Card>)
    ensures |r| == 4
    ensures r[0] == Card("Total Orders", NatToString(s.totalOrders), "blue")
    ensures r[1] == Card("Pending", NatToString(s.pending), "yellow")
    ensures r[2] == Card("Returns", NatToString(s.returnRequests), "orange")
    ensures r[3] == Card("Revenue", IntToString(s.revenue) + ".00 EGP", "green")
  {
    [Card("Total Orders", NatToString(s.totalOrders), "blue"),
     Card("Pending", NatToString(s.pending), "yellow"),
     Card("Returns", NatToString(s.returnRequests), "orange"),
     Card("Revenue", IntToString(s.revenue) + ".00 EGP", "green")]
  }

  // ---------------------------------------------------------------------------
  // Filtering

  /** The case-insensitive search: the customer, the order id (empty when
      missing) or the email contains the search term. */
  predicate MatchesSearch(r: Row, term: string) {
    var t := Lower(term);
    Includes(Lower(r.customer), t) || Includes(Lower(OrStr(r.orderId, "")), t) || Includes(Lower(r.email), t)
  }

  predicate MatchesStatus(r: Row, status: string) {
    status == "all" || r.status == status
  }

  /** `filteredOrders`: the rows matching both the search and the status, in order. */
  function FilteredOrders(rows: seq<Row>, term: string, status: string): (r: seq<Row>)
    ensures IsSubsequence(r, rows)
    ensures forall i :: 0 <= i < |r| ==> MatchesSearch(r[i], term) && MatchesStatus(r[i], status)
    ensures forall i :: 0 <= i < |rows| && MatchesSearch(rows[i], term) && MatchesStatus(rows[i], status) ==> rows[i] in r
  {
    Filter((x: Row) => MatchesSearch(x, term) && MatchesStatus(x, status), rows)
  }

  /** Every string contains the empty string. */
  lemma IncludesEmpty(s: string)
    ensures Includes(s, "")
  {
    assert OccursAt(s, "", 0);
  }

  /** An empty search with status `all` shows every order. */
  lemma EmptySearchShowsAll(rows: seq<Row>)
    ensures FilteredOrders(rows, "", "all") == rows
  {
    forall i | 0 <= i < |rows|
      ensures MatchesSearch(rows[i], "")
    {
      IncludesEmpty(Lower(rows[i].customer));
    }
    FilterAll((x: Row) => MatchesSearch(x, "") && MatchesStatus(x, "all"), rows);
  }

  /** Lower-casing an upper-cased string is lower-casing it. */
  lemma LowerUpper(s: string)
    ensures Lower(Upper(s)) == Lower(s)
  {
  }

  /** The search ignores the case of the term. */
  lemma SearchIgnoresCase(rows: seq<Row>, term: string, status: string)
    ensures FilteredOrders(rows, Upper(term), status) == FilteredOrders(rows, term, status)
  {
    LowerUpper(term);
    FilterCongruent((x: Row) => MatchesSearch(x, Upper(term)) && MatchesStatus(x, status),
                    (x: Row) => MatchesSearch(x, term) && MatchesStatus(x, status), rows);
  }

  // ---------------------------------------------------------------------------
  // Status texts and return decisions

  /** `getStatusText`: each of the ten statuses titled; any other status is shown as it is. */
  function StatusText(status: string): (r: string)
    ensures r == status <==> status !in Orders.KnownStatuses
    ensures status in Orders.KnownStatuses ==> r == Orders.Titled(status)
  {
    Orders.KnownTitles();
    if status == "pending" then "Pending"
    else if status == "confirmed" then "Confirmed"
    else if status == "preparing" then "Preparing"
    else if status == "ready" then "Ready"
    else if status == "shipped" then "Shipped"
    else if status == "delivered" then "Delivered"
    else if status == "cancelled" then "Cancelled"
    else if status == "refused" then "Refused"
    else if status == "return-requested" then "Return Requested"
    else if status == "returned" then "Returned"
    else status
  }

  /** The back-office texts are the customer-facing labels, except that
      `ready` is shown as `Ready` rather than `Ready for Shipment`. */
  lemma StatusTextMatchesLabels(status: string)
    ensures status != "ready" ==> StatusText(status) == Orders.StatusLabel(status)
    ensures StatusText("ready") == "Ready" && Orders.StatusLabel("ready") == "Ready for Shipment"
  {
  }

  /** The decision on a return request. */
  datatype ReturnAction = Approve | Reject

  function ActionWord(a: ReturnAction): (w: string)
    ensures a.Approve? ==> w == "approve"
    ensures a.Reject? ==> w == "reject"
  {
    if a.Approve? then "approve" else "reject"
  }

  /** The body of a return decision. */
  datatype Decision = Decision(action: string, adminResponse: string)

  /** `executeReturnDecision` as written: sent only for an order with an id
      and a chosen action; the response is the trimmed text, or, when that is
      empty, `Return ` + the action word + `d by admin`, which misspells the
      rejection (see RejectNoteMisspelled). */
  function ReturnDecision(order: Option<Row>, action: Option<ReturnAction>, response: string): (r: Option<Decision>)
    ensures r.Some? <==> order.Some? && TruthyStr(order.value.dbId) && action.Some?
    ensures r.Some? ==> r.value.action == ActionWord(action.value) && r.value.adminResponse != ""
    ensures r.Some? && Trim(response) != "" ==> r.value.adminResponse == Trim(response)
    ensures r.Some? && Trim(response) == "" ==> r.value.adminResponse == "Return " + ActionWord(action.value) + "d by admin"
  {
    if order.Some? && TruthyStr(order.value.dbId) && action.Some? then
      var text := Trim(response);
      Some(Decision(ActionWord(action.value), if text != "" then text else "Return " + ActionWord(action.value) + "d by admin"))
    else None
  }

  /** Appending `d` to the action word gives `Return rejectd by admin` for a
      rejection with no typed response. */
  lemma RejectNoteMisspelled(order: Row)
    requires TruthyStr(order.dbId)
    ensures ReturnDecision(Some(order), Some(Reject), "") == Some(Decision("reject", "Return rejectd by admin"))
    ensures ReturnDecision(Some(order), Some(Approve), "") == Some(Decision("approve", "Return approved by admin"))
  {
    assert Trim("") == "";
    NoteSpellings();
  }

  /** The default notes, spelled out. */
  lemma NoteSpellings()
    ensures "Return " + "reject" + "d by admin" == "Return rejectd by admin"
    ensures "Return " + "approve" + "d by admin" == "Return approved by admin"
    ensures "Return " + "approved" + " by admin" == "Return approved by admin"
    ensures "Return " + "rejected" + " by admin" == "Return rejected by admin"
  {
  }

  /** The decision with the default note spelled as evidently intended:
      `Return approved by admin` or `Return rejected by admin`. */
  function ReturnDecisionIntended(order: Option<Row>, action: Option<ReturnAction>, response: string): (r: Option<Decision>)
    ensures r.Some? <==> order.Some? && TruthyStr(order.value.dbId) && action.Some?
    ensures r.Some? ==> r.value.action == ActionWord(action.value) && r.value.adminResponse != ""
    ensures r.Some? && Trim(response) != "" ==> r.value.adminResponse == Trim(response)
    ensures r.Some? && Trim(response) == "" && action.value.Approve? ==> r.value.adminResponse == "Return approved by admin"
    ensures r.Some? && Trim(response) == "" && action.value.Reject? ==> r.value.adminResponse == "Return rejected by admin"
  {
    if order.Some? && TruthyStr(order.value.dbId) && action.Some? then
      var text := Trim(response);
      var note := if action.value.Approve? then "Return approved by admin" else "Return rejected by admin";
      Some(Decision(ActionWord(action.value), if text != "" then text else note))
    else None
  }

  /** The corrected decision differs from the one as written only in the
      default note of a rejection. */
  lemma IntendedDiffersOnlyForRejectNote(order: Option<Row>, action: Option<ReturnAction>, response: string)
    ensures ReturnDecisionIntended(order, action, response) != ReturnDecision(order, action, response) <==>
              order.Some? && TruthyStr(order.value.dbId) && action == Some(Reject) && Trim(response) == ""
  {
    NoteSpellings();
    if order.Some? && TruthyStr(order.value.dbId) && action == Some(Reject) && Trim(response) == "" {
      assert ReturnDecisionIntended(order, action, response).value.adminResponse[13] == 'e';
      assert ReturnDecision(order, action, response).value.adminResponse[13] == 'd';
    }
  }

  /** Surrounding white space does not change the decision sent. */
  lemma DecisionIgnoresPadding(order: Option<Row>, action: Option<ReturnAction>, p: string, response: string, q: string)
    requires AllSpace(p) && AllSpace(q)
    ensures ReturnDecision(order, action, p + response + q) == ReturnDecision(order, action, response)
  {
    TrimOfPadded(p, response, q);
  }

  /** Surrounding white space does not change the corrected decision either. */
  lemma IntendedDecisionIgnoresPadding(order: Option<Row>, action: Option<ReturnAction>, p: string, response: string, q: string)
    requires AllSpace(p) && AllSpace(q)
    ensures ReturnDecisionIntended(order, action, p + response + q) == ReturnDecisionIntended(order, action, response)
  {
    TrimOfPadded(p, response, q);
  }
}

=== FILE: admin_products.dfy ===
/** The back-office product manager: the paged product table, the pager's
    window of page buttons, the create/edit form with its gender → category →
    subcategory cascade, slug and SKU generation, validation before saving,
    and the size, colour and image lists of the product being edited. */
module AdminProducts {
  import opened Js
  import opened Catalog
  import ProductFilter

  // ---------------------------------------------------------------------------
  // The product being edited

  /** The form's product (`Partial<Product>`): every field may be missing. A
      populated category or subcategory is replaced by its id when the form
      opens, so both are plain ids here. */
  datatype Draft = Draft(
    dbId: Option<string>,
    name: Option<string>,
    slug: Option<string>,
    sku: Option<string>,
    description: Option<string>,
    price: Option<int>,
    stock: Nullable<int>,
    images: Option<seq<string>>,
    category: Option<string>,
    subcategory: Option<string>,
    gender: Option<string>,
    sizes: Option<seq<string>>,
    colors: Option<seq<string>>,
    isFeatured: Option<bool>,
    isNewArrival: Option<bool>,
    isActive: Option<bool>)

  /** `openCreateModal`: the empty, active product. */
  const NewDraft: Draft := Draft(None, Some(""), Some(""), Some(""), Some(""), Some(0), Present(0), Some([]),
                                 Some(""), Some(""), None, Some([]), Some([]), Some(false), Some(false), Some(true))

  /** `openEditModal` keeps only the id of a populated reference. */
  function RefField(r: Option<Ref>): (id: Option<string>)
    ensures r.None? <==> id.None?
    ensures r.Some? ==> id.value == RefKey(r.value)
  {
    match r
    case None => None
    case Some(x) => Some(RefKey(x))
  }

  /** A toast shown to the administrator. */
  datatype Notice = Quiet | Warning(text: string) | Success(text: string) | Info(text: string)

  // ---------------------------------------------------------------------------
  // Gender → category → subcategory cascade

  /** `filterCategoriesByGender`: the categories without a gender, or for that
      gender, for both (`unisex`) or for everyone (`all`), in order. */
  function CategoriesForGender(cats: seq<Category>, gender: string): (r: seq<Category>)
    ensures IsSubsequence(r, cats)
    ensures forall i :: 0 <= i < |r| ==> ProductFilter.ShownForGender(r[i], gender)
    ensures forall i :: 0 <= i < |cats| && ProductFilter.ShownForGender(cats[i], gender) ==> cats[i] in r
  {
    Filter((c: Category) => ProductFilter.ShownForGender(c, gender), cats)
  }

  /** The form's category list together with the edited product. */
  datatype Cascade = Cascade(categories: seq<Category>, subcategories: seq<Subcategory>, draft: Draft)

  /** Some listed category has this id. */
  predicate ListsCategory(cats: seq<Category>, id: string) {
    exists i :: 0 <= i < |cats| && cats[i].dbId == id
  }

  /** Some listed subcategory has this id. */
  predicate ListsSubcategory(subs: seq<Subcategory>, id: string) {
    exists i :: 0 <= i < |subs| && subs[i].dbId == id
  }

  /** The draft's category is empty or one of the listed categories. */
  predicate CategoryConsistent(c: Cascade) {
    !TruthyStr(c.draft.category) || ListsCategory(c.categories, c.draft.category.value)
  }

  /** The draft's subcategory is empty or one of the listed subcategories. */
  predicate SubcategoryConsistent(c: Cascade) {
    !TruthyStr(c.draft.subcategory) || ListsSubcategory(c.subcategories, c.draft.subcategory.value)
  }

  /** `onGenderChange`: without a gender the category list empties and the
      category is cleared; otherwise the list is refiltered and a category that
      is no longer listed is cleared. */
  function OnGenderChange(all: seq<Category>, c: Cascade): (r: Cascade)
    ensures CategoryConsistent(r)
    ensures !TruthyStr(c.draft.gender) ==> r.categories == [] && r.draft == c.draft.(category := Some(""))
    ensures TruthyStr(c.draft.gender) ==> r.categories == CategoriesForGender(all, c.draft.gender.value)
    ensures TruthyStr(c.draft.gender) && CategoryConsistent(c.(categories := r.categories)) ==> r.draft == c.draft
    ensures r.subcategories == c.subcategories
    ensures r.draft == c.draft.(category := r.draft.category)
  {
    if !TruthyStr(c.draft.gender) then
      Cascade([], c.subcategories, c.draft.(category := Some("")))
    else
      var cats := CategoriesForGender(all, c.draft.gender.value);
      if TruthyStr(c.draft.category) && FindCategory(cats, c.draft.category.value).None? then
        Cascade(cats, c.subcategories, c.draft.(category := Some("")))
      else
        Cascade(cats, c.subcategories, c.draft)
  }

  /** The first listed category with this id, as `find` returns it. */
  function FindCategory(cats: seq<Category>, id: string): (r: Option<Category>)
    ensures r.None? <==> !ListsCategory(cats, id)
    ensures r.Some? ==> r.value.dbId == id && r.value in cats
  {
    ProductFilter.FindCategory(cats, id)
  }

  /** `filterSubcategoriesByCategory`: the subcategories of the first listed
      category with that id that are not explicitly inactive; `[]` when there
      is no such category or it has none. */
  function SubcategoriesFor(cats: seq<Category>, id: string): (r: seq<Subcategory>)
    ensures forall i :: 0 <= i < |r| ==> r[i].isActive != Some(false)
    ensures FindCategory(cats, id).None? ==> r == []
    ensures FindCategory(cats, id).Some? ==>
              var subs := FindCategory(cats, id).value.subcategories.GetOr([]);
              IsSubsequence(r, subs)
              && forall i :: 0 <= i < |subs| && subs[i].isActive != Some(false) ==> subs[i] in r
  {
    match FindCategory(cats, id)
    case None => []
    case Some(cat) =>
      var subs := cat.subcategories.GetOr([]);
      if |subs| == 0 then [] else Filter((s: Subcategory) => s.isActive != Some(false), subs)
  }

  /** `onCategoryChange`: without a category the subcategory list empties and
      the subcategory is cleared; otherwise the list is refiltered and a
      subcategory that is no longer listed is cleared. */
  function OnCategoryChange(c: Cascade): (r: Cascade)
    ensures SubcategoryConsistent(r)
    ensures !TruthyStr(c.draft.category) ==> r.subcategories == [] && r.draft == c.draft.(subcategory := Some(""))
    ensures TruthyStr(c.draft.category) ==> r.subcategories == SubcategoriesFor(c.categories, c.draft.category.value)
    ensures r.categories == c.categories
    ensures r.draft == c.draft.(subcategory := r.draft.subcategory)
  {
    if !TruthyStr(c.draft.category) then
      Cascade(c.categories, [], c.draft.(subcategory := Some("")))
    else
      var subs := SubcategoriesFor(c.categories, c.draft.category.value);
      if TruthyStr(c.draft.subcategory) && !ListsSubcategory(subs, c.draft.subcategory.value) then
        Cascade(c.categories, subs, c.draft.(subcategory := Some("")))
      else
        Cascade(c.categories, subs, c.draft)
  }

  /** Changing the gender and then the category leaves a draft whose category
      and subcategory are both offered by the form, and whose other fields are
      untouched. */
  lemma CascadeIsConsistent(all: seq<Category>, c: Cascade)
    ensures var r := OnCategoryChange(OnGenderChange(all, c));
            CategoryConsistent(r) && SubcategoryConsistent(r)
            && r.draft.(category := c.draft.category, subcategory := c.draft.subcategory) == c.draft
  {
    var g := OnGenderChange(all, c);
    assert CategoryConsistent(g);
    var r := OnCategoryChange(g);
    assert r.categories == g.categories && r.draft.category == g.draft.category;
  }

  // ---------------------------------------------------------------------------
  // Slugs

  /** The characters a slug keeps: lower-case ASCII letters and digits. */
  predicate IsSlugChar(c: char) {
    'a' <= c <= 'z' || '0' <= c <= '9'
  }

  /** Every character is a slug character or a hyphen, and no two hyphens are adjacent. */
  predicate HyphenatedShape(s: string) {
    (forall i :: 0 <= i < |s| ==> IsSlugChar(s[i]) || s[i] == '-')
    && (forall i, j :: 0 <= i < |s| && 0 <= j < |s| && j == i + 1 ==> !(s[i] == '-' && s[j] == '-'))
  }

  /** A well-formed slug: hyphenated shape, neither starting nor ending with a hyphen. */
  predicate IsSlug(s: string) {
    HyphenatedShape(s) && (s == [] || (s[0] != '-' && s[|s| - 1] != '-'))
  }

  /** Drops the leading characters that are not slug characters. */
  function DropSeparators(s: string): (r: string)
    ensures |r| <= |s| && r == s[|s| - |r|..]
    ensures r == [] || IsSlugChar(r[0])
    ensures forall i :: 0 <= i < |s| - |r| ==> !IsSlugChar(s[i])
  {
    if s != [] && !IsSlugChar(s[0]) then
      var r := DropSeparators(s[1..]);
      assert s[1..][|s| - 1 - |r|..] == s[|s| - |r|..];
      assert forall i :: 1 <= i < |s| - |r| ==> s[i] == s[1..][i - 1];
      r
    else s
  }

  /** `replace(/[^a-z0-9]+/g, '-')`: each maximal run of other characters becomes one hyphen. */
  function Hyphenate(s: string): (r: string)
    ensures HyphenatedShape(r)
    ensures |r| <= |s|
    ensures r == [] <==> s == []
    ensures r != [] ==> (r[0] == '-' <==> !IsSlugChar(s[0]))
    decreases |s|
  {
    if s == [] then []
    else if IsSlugChar(s[0]) then
      var rest := Hyphenate(s[1..]);
      ConsShape(s[0], rest);
      [s[0]] + rest
    else
      var t := DropSeparators(s[1..]);
      var rest := Hyphenate(t);
      ConsShape('-', rest);
      "-" + rest
  }

  /** A slug character, or a hyphen not followed by another, in front of a
      hyphenated string keeps it hyphenated. */
  lemma ConsShape(c: char, rest: string)
    requires HyphenatedShape(rest)
    requires IsSlugChar(c) || (c == '-' && (rest == [] || rest[0] != '-'))
    ensures HyphenatedShape([c] + rest)
  {
    var r := [c] + rest;
    assert forall i :: 1 <= i < |r| ==> r[i] == rest[i - 1];
  }

  /** `replace(/^-|-$/g, '')`: one leading and one trailing hyphen removed. */
  function StripHyphens(s: string): (r: string)
    ensures HyphenatedShape(s) ==> IsSlug(r)
    ensures |r| <= |s|
  {
    var t := if s != [] && s[0] == '-' then s[1..] else s;
    assert HyphenatedShape(s) ==> HyphenatedShape(t);
    assert HyphenatedShape(s) && t != [] ==> t[0] != '-' by {
      if HyphenatedShape(s) && t != [] && s != [] && s[0] == '-' {
        assert s[1] == t[0];
      }
    }
    if t != [] && t[|t| - 1] == '-' then t[..|t| - 1] else t
  }

  /** The slug derived from a product name: lower-cased, runs of other
      characters hyphenated, edge hyphens stripped. */
  function Slugify(name: string): (r: string)
    ensures IsSlug(r)
    ensures |r| <= |name|
  {
    StripHyphens(Hyphenate(Lower(name)))
  }

  /** Dropping separators does not change the slug characters. */
  lemma {:induction false} DropSeparatorsKeepsLetters(s: string)
    ensures Filter(IsSlugChar, DropSeparators(s)) == Filter(IsSlugChar, s)
    decreases |s|
  {
    if s != [] && !IsSlugChar(s[0]) {
      DropSeparatorsKeepsLetters(s[1..]);
    }
  }

  /** Hyphenation keeps exactly the slug characters, in order. */
  lemma {:induction false} HyphenateKeepsLetters(s: string)
    ensures Filter(IsSlugChar, Hyphenate(s)) == Filter(IsSlugChar, s)
    decreases |s|
  {
    if s == [] {
    } else if IsSlugChar(s[0]) {
      var rest := Hyphenate(s[1..]);
      HyphenateKeepsLetters(s[1..]);
      assert ([s[0]] + rest)[1..] == rest;
    } else {
      var t := DropSeparators(s[1..]);
      var rest := Hyphenate(t);
      HyphenateKeepsLetters(t);
      DropSeparatorsKeepsLetters(s[1..]);
      assert ("-" + rest)[1..] == rest;
    }
  }

  /** A string already in hyphenated shape, not starting with a hyphen, is left alone. */
  lemma {:induction false} HyphenateFixesShape(s: string)
    requires HyphenatedShape(s) && (s == [] || s[0] != '-')
    ensures Hyphenate(s) == s
    decreases |s|
  {
    if s != [] {
      var t := s[1..];
      ShapeTail(s);
      HyphenateSlugHead(s);
      if t != [] && t[0] == '-' {
        var u := t[1..];
        ShapeTail(t);
        assert u == [] || u[0] != '-' by {
          if u != [] { assert s[2] == u[0]; }
        }
        HyphenateFixesShape(u);
        HyphenateSeparatorHead(t);
        assert t == "-" + u;
      } else {
        HyphenateFixesShape(t);
      }
    }
  }

  /** A leading slug character is kept as it is. */
  lemma HyphenateSlugHead(s: string)
    requires s != [] && IsSlugChar(s[0])
    ensures Hyphenate(s) == [s[0]] + Hyphenate(s[1..])
  {
  }

  /** A hyphenated string stays hyphenated without its first character. */
  lemma ShapeTail(s: string)
    requires HyphenatedShape(s) && s != []
    ensures HyphenatedShape(s[1..])
  {
    assert forall i :: 0 <= i < |s| - 1 ==> s[1..][i] == s[i + 1];
  }

  /** A hyphen followed by a slug character or nothing is kept as one hyphen. */
  lemma HyphenateSeparatorHead(t: string)
    requires t != [] && t[0] == '-' && (|t| == 1 || IsSlugChar(t[1]))
    ensures Hyphenate(t) == "-" + Hyphenate(t[1..])
  {
    assert DropSeparators(t[1..]) == t[1..];
  }

  /** Reference for the replacement, in two independent steps: every
      character outside the slug set becomes a hyphen
      (`replace(/[^a-z0-9]/g, '-')`), ... */
  function MarkSeparators(s: string): (r: string)
    ensures |r| == |s|
    ensures forall i :: 0 <= i < |s| ==> r[i] == (if IsSlugChar(s[i]) then s[i] else '-')
  {
    if s == [] then [] else [if IsSlugChar(s[0]) then s[0] else '-'] + MarkSeparators(s[1..])
  }

  /** ... and then every run of adjacent hyphens is squeezed to one. */
  function Squeeze(t: string): (r: string)
    ensures |r| <= |t|
  {
    if |t| <= 1 then t
    else if t[0] == '-' && t[1] == '-' then Squeeze(t[1..])
    else [t[0]] + Squeeze(t[1..])
  }

  /** The run-by-run replacement equals marking every separator and then
      squeezing the hyphens. */
  lemma {:induction false} HyphenateIsReference(s: string)
    ensures Hyphenate(s) == Squeeze(MarkSeparators(s))
    decreases |s|
  {
    if s != [] {
      var m := MarkSeparators(s);
      assert m == [m[0]] + MarkSeparators(s[1..]);
      if IsSlugChar(s[0]) {
        HyphenateSlugHead(s);
        HyphenateIsReference(s[1..]);
        if |m| > 1 {
          assert m[1..] == MarkSeparators(s[1..]);
        } else {
          assert s[1..] == [];
        }
      } else {
        var d := DropSeparators(s[1..]);
        HyphenateIsReference(d);
        SqueezeLeadingHyphen(s[1..]);
      }
    }
  }

  /** A hyphen in front of marked text swallows the separators that follow it. */
  lemma {:induction false} SqueezeLeadingHyphen(u: string)
    ensures Squeeze("-" + MarkSeparators(u)) == "-" + Squeeze(MarkSeparators(DropSeparators(u)))
    decreases |u|
  {
    var m := MarkSeparators(u);
    var t := "-" + m;
    if u == [] {
      assert t == "-";
    } else {
      assert t[1..] == m;
      if IsSlugChar(u[0]) {
        assert t[1] == u[0];
      } else {
        assert m == "-" + MarkSeparators(u[1..]);
        SqueezeLeadingHyphen(u[1..]);
      }
    }
  }

  /** Text made only of slug characters is left alone by the replacement. */
  lemma SlugTextUnchanged(s: string)
    requires forall i :: 0 <= i < |s| ==> IsSlugChar(s[i])
    ensures Hyphenate(s) == s
  {
    assert HyphenatedShape(s);
    HyphenateFixesShape(s);
  }

  /** Slug characters in front are copied through the replacement. */
  lemma {:induction false} SlugPrefixCopied(a: string, t: string)
    requires forall i :: 0 <= i < |a| ==> IsSlugChar(a[i])
    ensures Hyphenate(a + t) == a + Hyphenate(t)
    decreases |a|
  {
    if a != [] {
      SlugPrefixCopied(a[1..], t);
      SlugHeadCopied(a[0], a[1..], t);
      assert [a[0]] + a[1..] == a;
    } else {
      assert a + t == t;
    }
  }

  /** One slug character in front of a copied prefix is copied too. */
  lemma SlugHeadCopied(c: char, rest: string, t: string)
    requires IsSlugChar(c)
    requires Hyphenate(rest + t) == rest + Hyphenate(t)
    ensures Hyphenate([c] + rest + t) == [c] + rest + Hyphenate(t)
  {
    var y := rest + t;
    var x := [c] + y;
    assert x[0] == c && x[1..] == y;
    HyphenateSlugHead(x);
    assert [c] + rest + t == x;
    assert [c] + (rest + Hyphenate(t)) == [c] + rest + Hyphenate(t);
  }

  /** Dropping separators in front of a word leaves exactly the word. */
  lemma {:induction false} DropSeparatorRun(x: string, b: string)
    requires forall i :: 0 <= i < |x| ==> !IsSlugChar(x[i])
    requires b == [] || IsSlugChar(b[0])
    ensures DropSeparators(x + b) == b
    decreases |x|
  {
    if x == [] {
      assert x + b == b;
    } else {
      assert (x + b)[1..] == x[1..] + b;
      DropSeparatorRun(x[1..], b);
    }
  }

  /** A leading separator becomes one hyphen and the separators after it are dropped. */
  lemma HyphenateSeparatorStep(t: string)
    requires t != [] && !IsSlugChar(t[0])
    ensures Hyphenate(t) == "-" + Hyphenate(DropSeparators(t[1..]))
  {
  }

  /** A run of separators followed by a word becomes a hyphen and the word. */
  lemma {:induction false} SeparatorRunThenWord(sep: string, b: string)
    requires forall i :: 0 <= i < |b| ==> IsSlugChar(b[i])
    requires sep != [] && forall i :: 0 <= i < |sep| ==> !IsSlugChar(sep[i])
    ensures Hyphenate(sep + b) == "-" + b
  {
    var t := sep + b;
    assert t[0] == sep[0] && t[1..] == sep[1..] + b;
    DropSeparatorRun(sep[1..], b);
    var d := DropSeparators(t[1..]);
    assert d == b;
    HyphenateSeparatorStep(t);
    SlugTextUnchanged(b);
    assert Hyphenate(t) == "-" + Hyphenate(d);
  }

  /** A run of separators between two words becomes exactly one hyphen. */
  lemma {:induction false} SeparatorRunIsOneHyphen(a: string, sep: string, b: string)
    requires forall i :: 0 <= i < |a| ==> IsSlugChar(a[i])
    requires forall i :: 0 <= i < |b| ==> IsSlugChar(b[i])
    requires sep != [] && forall i :: 0 <= i < |sep| ==> !IsSlugChar(sep[i])
    ensures Hyphenate(a + sep + b) == a + "-" + b
  {
    SlugPrefixCopied(a, sep + b);
    SeparatorRunThenWord(sep, b);
    ReplacedMiddle(a, sep, b);
  }

  /** Chaining the two replacement steps over `a + sep + b`. */
  lemma {:induction false} ReplacedMiddle(a: string, sep: string, b: string)
    requires Hyphenate(a + (sep + b)) == a + Hyphenate(sep + b)
    requires Hyphenate(sep + b) == "-" + b
    ensures Hyphenate(a + sep + b) == a + "-" + b
  {
    ConcatAssoc(a, sep, b);
    ConcatAssoc(a, "-", b);
  }

  /** Concatenation is associative. */
  lemma ConcatAssoc(x: string, y: string, z: string)
    ensures x + y + z == x + (y + z)
  {
  }

  /** Two lower-case words separated by any run of characters that stay
      outside the slug set when lower-cased give the slug "word-word". */
  lemma {:induction false} SlugOfTwoWords(a: string, sep: string, b: string)
    requires a != [] && b != []
    requires forall i :: 0 <= i < |a| ==> IsSlugChar(a[i])
    requires forall i :: 0 <= i < |b| ==> IsSlugChar(b[i])
    requires sep != [] && forall i :: 0 <= i < |sep| ==> !IsSlugChar(LowerChar(sep[i]))
    ensures Slugify(a + sep + b) == a + "-" + b
  {
    var n := a + sep + b;
    assert Lower(n) == a + Lower(sep) + b by {
      assert forall i :: 0 <= i < |a| ==> LowerChar(a[i]) == a[i];
      assert forall i :: 0 <= i < |b| ==> LowerChar(b[i]) == b[i];
    }
    SeparatorRunIsOneHyphen(a, Lower(sep), b);
    var h := a + "-" + b;
    assert h[0] == a[0] && h[|h| - 1] == b[|b| - 1];
  }

  /** The slugs are exactly the fixed points of slug generation, so generating
      a slug from a slug changes nothing. */
  lemma SlugifyFixesSlugs(s: string)
    requires IsSlug(s)
    ensures Slugify(s) == s
  {
    assert Lower(s) == s;
    HyphenateFixesShape(s);
  }

  /** Slug generation is idempotent. */
  lemma SlugifyIdempotent(name: string)
    ensures Slugify(Slugify(name)) == Slugify(name)
  {
    SlugifyFixesSlugs(Slugify(name));
  }

  /** Slug generation keeps every letter and digit of the lower-cased name, in order. */
  lemma SlugifyKeepsLetters(name: string)
    ensures Filter(IsSlugChar, Slugify(name)) == Filter(IsSlugChar, Lower(name))
  {
    HyphenateKeepsLetters(Lower(name));
    StripHyphensKeepsLetters(Hyphenate(Lower(name)));
  }

  /** Stripping edge hyphens keeps the slug characters. */
  lemma StripHyphensKeepsLetters(h: string)
    ensures Filter(IsSlugChar, StripHyphens(h)) == Filter(IsSlugChar, h)
  {
    var t := if h != [] && h[0] == '-' then h[1..] else h;
    if t != [] && t[|t| - 1] == '-' {
      assert t == t[..|t| - 1] + ['-'];
      FilterSnoc(IsSlugChar, t[..|t| - 1], '-');
    }
  }

  // ---------------------------------------------------------------------------
  // Saving

  const MsgRequired: string := "Please fill in all required fields (Name, Description)"
  const MsgCategory: string := "Please select a category"
  const MsgPrice: string := "Please enter a valid price"
  const MsgStock: string := "Please enter a valid stock quantity"

  /** The SKU built from the clock: `PRD-` and the last six digits of the time in milliseconds. */
  function SkuFor(now: nat): (r: string)
    ensures StartsWith(r, "PRD-") && 5 <= |r| <= 10
    ensures forall i :: 4 <= i < |r| ==> '0' <= r[i] <= '9'
  {
    var digits := NatToString(now);
    var tail := if |digits| <= 6 then digits else digits[|digits| - 6..];
    var r := "PRD-" + tail;
    assert r[..4] == "PRD-";
    r
  }

  /** A stock the form accepts: `stock === undefined || stock < 0` refuses,
      so a `null` stock (a cleared number box) gets through. */
  predicate StockAccepted(stock: Nullable<int>) {
    stock.Null? || (stock.Present? && stock.value >= 0)
  }

  /** The first failed check, in the order the form checks them, or `None`.
      A missing or `null` price is refused, since `null <= 0` holds. */
  function Invalid(d: Draft): (r: Option<string>)
    ensures r.None? <==> TruthyStr(d.name) && TruthyStr(d.description) && TruthyStr(d.category)
                         && d.price.Some? && d.price.value > 0 && StockAccepted(d.stock)
    ensures r.Some? ==> r.value in {MsgRequired, MsgCategory, MsgPrice, MsgStock}
    ensures !TruthyStr(d.name) ==> r == Some(MsgRequired)
  {
    if !TruthyStr(d.name) || !TruthyStr(d.description) then Some(MsgRequired)
    else if !TruthyStr(d.category) then Some(MsgCategory)
    else if d.price.None? || d.price.value <= 0 then Some(MsgPrice)
    else if d.stock.Undefined? || (d.stock.Present? && d.stock.value < 0) then Some(MsgStock)
    else None
  }

  /** The defaults filled in before sending: a slug from the name, a SKU from
      the clock, and empty image, size and colour lists. */
  function Complete(d: Draft, now: nat): (r: Draft)
    ensures TruthyStr(d.slug) ==> r.slug == d.slug
    ensures !TruthyStr(d.slug) && TruthyStr(d.name) ==> r.slug == Some(Slugify(d.name.value))
    ensures TruthyStr(d.sku) ==> r.sku == d.sku
    ensures !TruthyStr(d.sku) && TruthyStr(d.name) ==> r.sku == Some(SkuFor(now))
    ensures r.images.Some? && r.sizes.Some? && r.colors.Some?
    ensures d.sizes.Some? ==> r.sizes == d.sizes
    ensures r.(slug := d.slug, sku := d.sku, images := d.images, sizes := d.sizes, colors := d.colors) == d
  {
    var slug := if !TruthyStr(d.slug) && TruthyStr(d.name) then Some(Slugify(d.name.value)) else d.slug;
    var sku := if !TruthyStr(d.sku) && TruthyStr(d.name) then Some(SkuFor(now)) else d.sku;
    d.(slug := slug, sku := sku,
       images := Some(d.images.GetOr([])), sizes := Some(d.sizes.GetOr([])), colors := Some(d.colors.GetOr([])))
  }

  /** Completing a completed draft again, at any time, changes nothing except
      a slug that was generated empty, which is regenerated identically. */
  lemma CompleteIdempotent(d: Draft, now: nat, later: nat)
    ensures Complete(Complete(d, now), later) == Complete(d, now)
  {
    var c := Complete(d, now);
    if !TruthyStr(d.slug) && TruthyStr(d.name) && !TruthyStr(c.slug) {
      SlugifyIdempotent(d.name.value);
    }
    if !TruthyStr(d.sku) && TruthyStr(d.name) {
      assert c.sku == Some(SkuFor(now));
      assert TruthyStr(c.sku);
    }
  }

  /** The body sent to the server: the completed draft, with a non-empty
      subcategory moved from `subcategory` to `subCategory`. */
  datatype Payload = Payload(fields: Draft, subCategory: Option<string>)

  function PayloadOf(d: Draft): (p: Payload)
    ensures TruthyStr(d.subcategory) ==> p.subCategory == d.subcategory && p.fields.subcategory.None?
    ensures !TruthyStr(d.subcategory) ==> p.subCategory.None? && p.fields == d
    ensures p.fields.(subcategory := d.subcategory) == d
  {
    if TruthyStr(d.subcategory) then Payload(d.(subcategory := None), d.subcategory)
    else Payload(d, None)
  }

  /** What `saveProduct` does. */
  datatype SaveStep = NoDraft | Warn(message: string) | Create(data: Payload) | Update(id: string, data: Payload)

  /** `saveProduct`: validates, completes the defaults, and creates a product
      without an id or updates the one with that id. */
  function SaveProduct(d: Option<Draft>, now: nat): (r: SaveStep)
    ensures d.None? <==> r.NoDraft?
    ensures d.Some? ==> (r.Warn? <==> Invalid(d.value).Some?)
    ensures r.Warn? ==> r.message == Invalid(d.value).value
    ensures r.Create? || r.Update? ==>
              var sent := r.data.fields.(subcategory := d.value.subcategory);
              sent == Complete(d.value, now)
              && TruthyStr(sent.name) && TruthyStr(sent.description) && TruthyStr(sent.category)
              && sent.price.value > 0 && StockAccepted(sent.stock)
              && sent.slug.Some? && sent.sku.Some? && TruthyStr(sent.sku)
    ensures r.Update? <==> d.Some? && Invalid(d.value).None? && TruthyStr(d.value.dbId)
    ensures r.Update? ==> r.id == d.value.dbId.value
  {
    match d
    case None => NoDraft
    case Some(draft) =>
      match Invalid(draft)
      case Some(m) => Warn(m)
      case None =>
        var c := Complete(draft, now);
        var p := PayloadOf(c);
        if TruthyStr(draft.dbId) then Update(draft.dbId.value, p) else Create(p)
  }

  /** A valid product whose stock box was cleared is saved with a `null`
      stock, while one whose stock was never set is refused. */
  lemma NullStockIsSaved(d: Draft, now: nat)
    requires Invalid(d.(stock := Present(0))).None?
    ensures SaveProduct(Some(d.(stock := Null)), now).Create? || SaveProduct(Some(d.(stock := Null)), now).Update?
    ensures SaveProduct(Some(d.(stock := Undefined)), now) == Warn(MsgStock)
    ensures SaveProduct(Some(d.(stock := Present(-1))), now) == Warn(MsgStock)
  {
  }

  // ---------------------------------------------------------------------------
  // Sizes, colours and images

  /** The editor: the product being edited and the two input boxes. */
  datatype Editor = Editor(product: Option<Draft>, newSize: string, newColor: string)

  /** Appends `x` unless it is already present. */
  function AddUnique(xs: seq<string>, x: string): (r: seq<string>)
    ensures x in r
    ensures x in xs ==> r == xs
    ensures x !in xs ==> r == xs + [x]
    ensures Distinct(xs) ==> Distinct(r)
  {
    if x in xs then xs else xs + [x]
  }

  /** `addSize`: the trimmed, upper-cased size is appended unless it is blank
      or already listed; a duplicate is refused with a warning. */
  function AddSize(e: Editor): (r: (Editor, Notice))
    ensures e.product.None? || e.newSize == "" || Upper(Trim(e.newSize)) == "" ==> r == (e, Quiet)
    ensures e.product.Some? && Upper(Trim(e.newSize)) != "" ==>
              var prev := e.product.value.sizes.GetOr([]);
              var size := Upper(Trim(e.newSize));
              r.0.product == Some(e.product.value.(sizes := Some(AddUnique(prev, size))))
              && r.0.newColor == e.newColor
              && (size in prev <==> r.1.Warning?)
              && (size !in prev ==> r.0.newSize == "" && r.1 == Success("Size " + size + " added"))
              && (size in prev ==> r.0.newSize == e.newSize)
  {
    if e.newSize == "" || e.product.None? then (e, Quiet)
    else
      var size := Upper(Trim(e.newSize));
      if size == "" then (e, Quiet)
      else
        var d := e.product.value;
        var prev := d.sizes.GetOr([]);
        if size in prev then (e.(product := Some(d.(sizes := Some(prev)))), Warning("This size already exists!"))
        else (Editor(Some(d.(sizes := Some(prev + [size]))), "", e.newColor), Success("Size " + size + " added"))
  }

  /** `addColor`: the trimmed colour is appended unless it is blank or already
      listed; a duplicate is refused with a warning. Colours keep their case. */
  function AddColor(e: Editor): (r: (Editor, Notice))
    ensures e.product.None? || e.newColor == "" || Trim(e.newColor) == "" ==> r == (e, Quiet)
    ensures e.product.Some? && Trim(e.newColor) != "" ==>
              var prev := e.product.value.colors.GetOr([]);
              var color := Trim(e.newColor);
              r.0.product == Some(e.product.value.(colors := Some(AddUnique(prev, color))))
              && r.0.newSize == e.newSize
              && (color in prev <==> r.1.Warning?)
              && (color !in prev ==> r.0.newColor == "" && r.1 == Success("Color " + color + " added"))
              && (color in prev ==> r.0.newColor == e.newColor)
  {
    if e.newColor == "" || e.product.None? then (e, Quiet)
    else
      var color := Trim(e.newColor);
      if color == "" then (e, Quiet)
      else
        var d := e.product.value;
        var prev := d.colors.GetOr([]);
        if color in prev then (e.(product := Some(d.(colors := Some(prev)))), Warning("This color already exists!"))
        else (Editor(Some(d.(colors := Some(prev + [color]))), e.newSize, ""), Success("Color " + color + " added"))
  }

  /** The size and colour lists never acquire a duplicate, and typing the same
      size again is refused. */
  lemma AddingKeepsListsDistinct(e: Editor)
    requires e.product.Some?
    requires Distinct(e.product.value.sizes.GetOr([])) && Distinct(e.product.value.colors.GetOr([]))
    ensures var r := AddSize(e).0;
            r.product.Some? && Distinct(r.product.value.sizes.GetOr([])) && Distinct(r.product.value.colors.GetOr([]))
    ensures var r := AddColor(e).0;
            r.product.Some? && Distinct(r.product.value.sizes.GetOr([])) && Distinct(r.product.value.colors.GetOr([]))
    ensures Upper(Trim(e.newSize)) != "" ==>
              AddSize(AddSize(e).0.(newSize := e.newSize)).1 == Warning("This size already exists!")
  {
    AddSizeKeepsDistinct(e);
    AddColorKeepsDistinct(e);
    if Upper(Trim(e.newSize)) != "" {
      AddSizeAgainWarns(e);
    }
  }

  /** Adding a size keeps both lists free of repetitions. */
  lemma AddSizeKeepsDistinct(e: Editor)
    requires e.product.Some?
    requires Distinct(e.product.value.sizes.GetOr([])) && Distinct(e.product.value.colors.GetOr([]))
    ensures var r := AddSize(e).0;
            r.product.Some? && Distinct(r.product.value.sizes.GetOr([])) && Distinct(r.product.value.colors.GetOr([]))
  {
    var r := AddSize(e).0;
    if Upper(Trim(e.newSize)) != "" {
      var prev := e.product.value.sizes.GetOr([]);
      assert r.product.value.sizes.GetOr([]) == AddUnique(prev, Upper(Trim(e.newSize)));
      assert r.product.value.colors == e.product.value.colors;
    }
  }

  /** Adding a colour keeps both lists free of repetitions. */
  lemma AddColorKeepsDistinct(e: Editor)
    requires e.product.Some?
    requires Distinct(e.product.value.sizes.GetOr([])) && Distinct(e.product.value.colors.GetOr([]))
    ensures var r := AddColor(e).0;
            r.product.Some? && Distinct(r.product.value.sizes.GetOr([])) && Distinct(r.product.value.colors.GetOr([]))
  {
    var r := AddColor(e).0;
    if Trim(e.newColor) != "" {
      var prev := e.product.value.colors.GetOr([]);
      assert r.product.value.colors.GetOr([]) == AddUnique(prev, Trim(e.newColor));
      assert r.product.value.sizes == e.product.value.sizes;
    }
  }

  /** Typing the size just added a second time is refused. */
  lemma AddSizeAgainWarns(e: Editor)
    requires e.product.Some? && Upper(Trim(e.newSize)) != ""
    ensures AddSize(AddSize(e).0.(newSize := e.newSize)).1 == Warning("This size already exists!")
  {
    var size := Upper(Trim(e.newSize));
    var r := AddSize(e).0;
    assert size in r.product.value.sizes.value;
  }

  /** `array.splice(index, 1)` after confirmation, guarded by `0 <= index < length`. */
  function RemoveAt<T>(xs: seq<T>, index: int): (r: seq<T>)
    ensures !(0 <= index < |xs|) ==> r == xs
    ensures 0 <= index < |xs| ==>
              |r| == |xs| - 1 && r[..index] == xs[..index] && r[index..] == xs[index + 1..]
              && multiset(r) + multiset{xs[index]} == multiset(xs)
  {
    if 0 <= index < |xs| then
      assert xs == xs[..index] + [xs[index]] + xs[index + 1..];
      xs[..index] + xs[index + 1..]
    else xs
  }

  /** Removing an element that was inserted at `i` gives the list back. */
  lemma RemoveAtUndoesInsert<T>(xs: seq<T>, i: nat, x: T)
    requires i <= |xs|
    ensures RemoveAt(xs[..i] + [x] + xs[i..], i) == xs
  {
    var ys := xs[..i] + [x] + xs[i..];
    assert ys[..i] == xs[..i] && ys[i + 1..] == xs[i..];
    assert xs == xs[..i] + xs[i..];
  }

  /** `array.splice(start, 1)` without a guard, as `removeImage` calls it: a
      negative start counts from the end, a start past the end removes nothing. */
  function SpliceOne<T>(xs: seq<T>, start: int): (r: seq<T>)
    ensures 0 <= start ==> r == RemoveAt(xs, start)
    ensures -|xs| <= start < 0 ==> r == RemoveAt(xs, |xs| + start)
    ensures start < -|xs| && xs != [] ==> r == xs[1..]
  {
    var k := if start < 0 then (if |xs| + start < 0 then 0 else |xs| + start) else start;
    RemoveAt(xs, k)
  }

  /** `removeImage`, once confirmed: the image at `index` is removed when the
      product has an image list. */
  function RemoveImage(d: Option<Draft>, index: int): (r: Option<Draft>)
    ensures d.None? || d.value.images.None? ==> r == d
    ensures d.Some? && d.value.images.Some? ==> r == Some(d.value.(images := Some(SpliceOne(d.value.images.value, index))))
  {
    if d.Some? && d.value.images.Some? then Some(d.value.(images := Some(SpliceOne(d.value.images.value, index))))
    else d
  }

  /** What selecting files for upload does: nothing for no files, a warning for more than five. */
  datatype UploadStart = NoFiles | TooMany | StartUpload(count: nat)

  const MaxImages: nat := 5

  function SelectImages(count: nat): (r: UploadStart)
    ensures r.NoFiles? <==> count == 0
    ensures r.TooMany? <==> count > MaxImages
    ensures r.StartUpload? ==> r.count == count && 1 <= count <= MaxImages
  {
    if count == 0 then NoFiles else if count > MaxImages then TooMany else StartUpload(count)
  }

  /** The upload response: the URLs under `data`, or else under `imageUrls`. */
  datatype UploadResponse = UploadResponse(data: Option<seq<string>>, imageUrls: Option<seq<string>>)

  /** A completed upload appends the returned URLs, in order, to an existing image list. */
  function OnUploaded(d: Option<Draft>, resp: UploadResponse): (r: (Option<Draft>, Notice))
    ensures var urls := if resp.data.Some? then resp.data.value else resp.imageUrls.GetOr([]);
            (d.Some? && d.value.images.Some? ==> r.0 == Some(d.value.(images := Some(d.value.images.value + urls))))
            && (d.None? || d.value.images.None? ==> r.0 == d)
            && r.1 == Success(NatToString(|urls|) + " image(s) uploaded successfully!")
  {
    var urls := if resp.data.Some? then resp.data.value else resp.imageUrls.GetOr([]);
    var d' := if |urls| > 0 && d.Some? && d.value.images.Some? then Some(d.value.(images := Some(d.value.images.value + urls))) else d;
    assert urls == [] ==> d.Some? && d.value.images.Some? ==> d.value.images.value + urls == d.value.images.value;
    (d', Success(NatToString(|urls|) + " image(s) uploaded successfully!"))
  }

  // ---------------------------------------------------------------------------
  // The product table and its pager

  const PageLimit: nat := 10
  const MaxPageButtons: nat := 5

  /** The table's filters and pager. */
  datatype Table = Table(search: string, category: string, gender: string, currentPage: int, totalPages: int)

  /** The request `loadProducts` sends: page and limit always, each filter only when non-empty. */
  datatype ProductQuery = ProductQuery(page: int, limit: nat, search: Option<string>, category: Option<string>, gender: Option<string>)

  /** `Some(s)` for a non-empty `s`, otherwise nothing. */
  function IfSet(s: string): (r: Option<string>)
    ensures r.None? <==> s == ""
    ensures r.Some? ==> r.value == s
  {
    if s == "" then None else Some(s)
  }

  function QueryOf(t: Table): (q: ProductQuery)
    ensures q.page == t.currentPage && q.limit == PageLimit
    ensures !TruthyStr(q.search) <==> t.search == ""
    ensures !TruthyStr(q.category) <==> t.category == ""
    ensures !TruthyStr(q.gender) <==> t.gender == ""
    ensures TruthyStr(q.search) ==> q.search.value == t.search
  {
    ProductQuery(t.currentPage, PageLimit, IfSet(t.search), IfSet(t.category), IfSet(t.gender))
  }

  /** `onSearch`, `onFilter` and `clearFilters` go back to the first page;
      clearing also empties the three filters. */
  function ResetPage(t: Table, clear: bool): (r: Table)
    ensures r.currentPage == 1 && r.totalPages == t.totalPages
    ensures clear ==> QueryOf(r) == ProductQuery(1, PageLimit, None, None, None)
    ensures !clear ==> r.(currentPage := t.currentPage) == t
  {
    if clear then t.(search := "", category := "", gender := "", currentPage := 1)
    else t.(currentPage := 1)
  }

  /** The pager holds a page between 1 and the page count. */
  predicate PagerValid(t: Table) {
    1 <= t.currentPage <= t.totalPages
  }

  /** `nextPage`: one page on, unless on the last; the flag says whether the table reloads. */
  function NextPage(t: Table): (r: (Table, bool))
    ensures r.1 <==> t.currentPage < t.totalPages
    ensures r.1 ==> r.0 == t.(currentPage := t.currentPage + 1)
    ensures !r.1 ==> r.0 == t
    ensures PagerValid(t) ==> PagerValid(r.0)
  {
    if t.currentPage < t.totalPages then (t.(currentPage := t.currentPage + 1), true) else (t, false)
  }

  /** `prevPage`: one page back, unless on the first. */
  function PrevPage(t: Table): (r: (Table, bool))
    ensures r.1 <==> t.currentPage > 1
    ensures r.1 ==> r.0 == t.(currentPage := t.currentPage - 1)
    ensures !r.1 ==> r.0 == t
    ensures PagerValid(t) ==> PagerValid(r.0)
  {
    if t.currentPage > 1 then (t.(currentPage := t.currentPage - 1), true) else (t, false)
  }

  /** `goToPage`: moves to an existing page other than the current one. */
  function GoToPage(t: Table, page: int): (r: (Table, bool))
    ensures r.1 <==> 1 <= page <= t.totalPages && page != t.currentPage
    ensures r.1 ==> r.0 == t.(currentPage := page)
    ensures !r.1 ==> r.0 == t
    ensures PagerValid(t) ==> PagerValid(r.0)
  {
    if 1 <= page <= t.totalPages && page != t.currentPage then (t.(currentPage := page), true) else (t, false)
  }

  /** Next and previous undo each other inside the page range. */
  lemma NextPrevInverse(t: Table)
    requires PagerValid(t)
    ensures NextPage(t).1 ==> PrevPage(NextPage(t).0).0 == t
    ensures PrevPage(t).1 ==> NextPage(PrevPage(t).0).0 == t
    ensures GoToPage(t, t.currentPage).0 == t && !GoToPage(t, t.currentPage).1
  {
  }

  /** `pages` is the run `lo, lo+1, …, hi` (empty when `hi < lo`). */
  predicate IsRun(pages: seq<int>, lo: int, hi: int) {
    |pages| == (if hi < lo then 0 else hi - lo + 1)
    && forall k :: 0 <= k < |pages| ==> pages[k] == lo + k
  }

  /** `for (let i = lo; i <= hi; i++) pages.push(i)`. */
  method Run(lo: int, hi: int) returns (pages: seq<int>)
    ensures IsRun(pages, lo, hi)
  {
    pages := [];
    var i := lo;
    while i <= hi
      invariant hi < lo ==> i == lo
      invariant lo <= i <= hi + 1 || hi < lo
      invariant |pages| == i - lo
      invariant forall k :: 0 <= k < |pages| ==> pages[k] == lo + k
    {
      pages := pages + [i];
      i := i + 1;
    }
  }

  /** The `pageNumbers` getter: every page when there are at most five;
      otherwise a window of five consecutive pages around the current one,
      pinned to the first five near the start and the last five near the end. */
  method PageButtons(currentPage: int, totalPages: int) returns (pages: seq<int>)
    ensures totalPages <= MaxPageButtons ==> IsRun(pages, 1, totalPages)
    ensures totalPages > MaxPageButtons && currentPage <= 3 ==> IsRun(pages, 1, 5)
    ensures totalPages > MaxPageButtons && 3 < currentPage && totalPages - 2 <= currentPage ==>
              IsRun(pages, totalPages - 4, (if currentPage + 2 < totalPages then currentPage + 2 else totalPages))
    ensures totalPages > MaxPageButtons && 3 < currentPage < totalPages - 2 ==> IsRun(pages, currentPage - 2, currentPage + 2)
    ensures totalPages > MaxPageButtons && 1 <= currentPage <= totalPages ==>
              |pages| == MaxPageButtons && 1 <= pages[0] && pages[|pages| - 1] <= totalPages && currentPage in pages
  {
    if totalPages <= MaxPageButtons {
      pages := Run(1, totalPages);
    } else {
      var start := if currentPage - 2 > 1 then currentPage - 2 else 1;
      var end := if currentPage + 2 < totalPages then currentPage + 2 else totalPages;
      if currentPage <= 3 {
        end := MaxPageButtons;
      } else if currentPage >= totalPages - 2 {
        start := totalPages - MaxPageButtons + 1;
      }
      pages := Run(start, end);
      if 1 <= currentPage <= totalPages {
        assert pages[currentPage - start] == currentPage;
      }
    }
  }

  /** The table's response: the products under `products` or `data`, and the
      page count and total either at the top level or under `pagination`. */
  datatype Pagination = Pagination(totalPages: Option<int>, total: Option<int>)
  datatype ProductsResponse = ProductsResponse(
    products: Option<seq<Product>>,
    data: Option<seq<Product>>,
    totalPages: Option<int>,
    total: Option<int>,
    pagination: Option<Pagination>)

  /** What the table shows after a load. */
  datatype Loaded = Loaded(products: seq<Product>, totalPages: int, totalProducts: int)

  /** `loadProducts`' success handler: a missing or zero page count reads as 1
      and a missing or zero total as the number of products received. */
  function OnProductsLoaded(resp: ProductsResponse): (r: Loaded)
    ensures r.products == (if resp.products.Some? then resp.products.value else resp.data.GetOr([]))
    ensures r.totalPages != 0
    ensures TruthyNum(resp.totalPages) ==> r.totalPages == resp.totalPages.value
    ensures !TruthyNum(resp.totalPages) && (resp.pagination.None? || !TruthyNum(resp.pagination.value.totalPages)) ==> r.totalPages == 1
    ensures !TruthyNum(resp.totalPages) && resp.pagination.Some? && TruthyNum(resp.pagination.value.totalPages) ==>
              r.totalPages == resp.pagination.value.totalPages.value
    ensures TruthyNum(resp.total) ==> r.totalProducts == resp.total.value
    ensures !TruthyNum(resp.total) && (resp.pagination.None? || !TruthyNum(resp.pagination.value.total)) ==>
              r.totalProducts == |r.products|
    ensures !TruthyNum(resp.total) && resp.pagination.Some? && TruthyNum(resp.pagination.value.total) ==>
              r.totalProducts == resp.pagination.value.total.value
  {
    var products := if resp.products.Some? then resp.products.value else resp.data.GetOr([]);
    var pagesNested := if resp.pagination.Some? then resp.pagination.value.totalPages else None;
    var totalNested := if resp.pagination.Some? then resp.pagination.value.total else None;
    Loaded(products, OrNum(resp.totalPages, OrNum(pagesNested, 1)), OrNum(resp.total, OrNum(totalNested, |products|)))
  }

  /** A response that states a positive page count and total at the top level is read as stated. */
  lemma LoadedAsStated(products: seq<Product>, pages: int, total: int, nested: Option<Pagination>)
    requires pages > 0 && total > 0
    ensures OnProductsLoaded(ProductsResponse(Some(products), None, Some(pages), Some(total), nested))
            == Loaded(products, pages, total)
  {
  }
}

=== FILE: admin_reviews.dfy ===
/** The back-office review moderation page: two lists (pending reviews and all
    reviews), the set of reviews with a request in flight, and what approving,
    rejecting and deleting do to them on every outcome. */
module AdminReviews {
  import opened Js
  import Stars

  /** A review; only its id matters to the moderation lists. */
  datatype Review = Review(dbId: Option<string>, rating: int, comment: string)

  datatype Tab = PendingTab | AllTab

  /** The page: both lists, the active tab, and the ids being processed. */
  datatype Board = Board(reviews: seq<Review>, pending: seq<Review>, tab: Tab, processing: set<string>)

  /** `list.filter(r => r._id !== id)`. */
  function Without(xs: seq<Review>, id: string): (r: seq<Review>)
    ensures IsSubsequence(r, xs)
    ensures forall i :: 0 <= i < |r| ==> r[i].dbId != Some(id)
    ensures forall i :: 0 <= i < |xs| && xs[i].dbId != Some(id) ==> xs[i] in r
  {
    Filter((x: Review) => x.dbId != Some(id), xs)
  }

  /** Removing an id that is not listed changes nothing. */
  lemma WithoutAbsent(xs: seq<Review>, id: string)
    requires forall i :: 0 <= i < |xs| ==> xs[i].dbId != Some(id)
    ensures Without(xs, id) == xs
  {
    FilterAll((x: Review) => x.dbId != Some(id), xs);
  }

  /** Removing the same id twice is removing it once. */
  lemma WithoutIdempotent(xs: seq<Review>, id: string)
    ensures Without(Without(xs, id), id) == Without(xs, id)
  {
    WithoutAbsent(Without(xs, id), id);
  }

  // ---------------------------------------------------------------------------
  // Requests

  /** A moderation request and how it ended. */
  datatype Action = Approve | Reject(reason: string) | Delete

  /** The id is marked as processing when the request is sent. */
  function Start(b: Board, id: string): (r: Board)
    ensures r.processing == b.processing + {id}
    ensures r.(processing := b.processing) == b
  {
    b.(processing := b.processing + {id})
  }

  /** The request's outcome: the id leaves `processing` whatever happened. A
      success or a 404 removes the review: from the pending list after an
      approval or a rejection, from the active tab's list after a delete. Any
      other error leaves the lists as they were. */
  function Finish(b: Board, id: string, a: Action, outcome: Outcome<()>): (r: Board)
    ensures r.processing == b.processing - {id} && r.tab == b.tab
    ensures outcome.Err? && outcome.error.status != 404 ==> r.reviews == b.reviews && r.pending == b.pending
    ensures (outcome.Ok? || outcome.error.status == 404) && !a.Delete? ==>
              r.pending == Without(b.pending, id) && r.reviews == b.reviews
    ensures (outcome.Ok? || outcome.error.status == 404) && a.Delete? && b.tab.PendingTab? ==>
              r.pending == Without(b.pending, id) && r.reviews == b.reviews
    ensures (outcome.Ok? || outcome.error.status == 404) && a.Delete? && b.tab.AllTab? ==>
              r.reviews == Without(b.reviews, id) && r.pending == b.pending
  {
    var b' := b.(processing := b.processing - {id});
    if outcome.Err? && outcome.error.status != 404 then b'
    else if !a.Delete? || b.tab.PendingTab? then b'.(pending := Without(b.pending, id))
    else b'.(reviews := Without(b.reviews, id))
  }

  /** The toast shown when a request ends: a success, a warning on 404 that
      the review is probably gone already, an error naming the action otherwise. */
  function FinishToast(a: Action, outcome: Outcome<()>): (r: (Notice, string))
    ensures outcome.Ok? <==> r.0 == Success
    ensures outcome.Err? && outcome.error.status == 404 <==> r.0 == Warning
    ensures r.0 == Warning ==> StartsWith(r.1, "Review not found - it may have already been ")
    ensures r.0 == Failure ==> StartsWith(r.1, "Failed to ")
    ensures outcome.Ok? && a.Approve? ==> r.1 == "Review approved successfully!"
    ensures outcome.Ok? && a.Reject? ==> r.1 == "Review rejected successfully!"
    ensures outcome.Ok? && a.Delete? ==> r.1 == "Review deleted successfully!"
    ensures r.0 == Warning && a.Delete? ==> r.1 == "Review not found - it may have already been deleted"
    ensures r.0 == Warning && !a.Delete? ==> r.1 == "Review not found - it may have already been processed"
    ensures r.0 == Failure && a.Approve? ==> r.1 == "Failed to approve review"
    ensures r.0 == Failure && a.Reject? ==> r.1 == "Failed to reject review"
    ensures r.0 == Failure && a.Delete? ==> r.1 == "Failed to delete review"
  {
    if outcome.Ok? then
      (Success, match a
                case Approve => "Review approved successfully!"
                case Reject(_) => "Review rejected successfully!"
                case Delete => "Review deleted successfully!")
    else if outcome.error.status == 404 then
      (Warning, if a.Delete? then "Review not found - it may have already been deleted"
                else "Review not found - it may have already been processed")
    else
      (Failure, match a
                case Approve => "Failed to approve review"
                case Reject(_) => "Failed to reject review"
                case Delete => "Failed to delete review")
  }

  datatype Notice = Success | Warning | Failure

  /** A request that was not already in flight leaves `processing` as it found
      it, and after a success the review is in neither list it was removed from. */
  lemma ProcessingDiscipline(b: Board, id: string, a: Action, outcome: Outcome<()>)
    requires id !in b.processing
    ensures Finish(Start(b, id), id, a, outcome).processing == b.processing
    ensures id in Start(b, id).processing
    ensures outcome.Ok? && !a.Delete? ==>
              forall i :: 0 <= i < |Finish(Start(b, id), id, a, outcome).pending| ==>
                Finish(Start(b, id), id, a, outcome).pending[i].dbId != Some(id)
  {
  }

  /** Retrying a request after a 404 or a success changes no list further. */
  lemma RetryIsHarmless(b: Board, id: string, a: Action, o1: Outcome<()>, o2: Outcome<()>)
    requires o1.Ok? || o1.error.status == 404
    ensures var once := Finish(b, id, a, o1);
            var twice := Finish(once, id, a, o2);
            twice.pending == once.pending && twice.reviews == once.reviews
  {
    var once := Finish(b, id, a, o1);
    WithoutIdempotent(b.pending, id);
    WithoutIdempotent(b.reviews, id);
  }

  /** `rejectReview`: a cancelled prompt (`null`) does nothing; otherwise the
      confirmation quotes a non-empty reason, and the reason is sent as typed. */
  function RejectPrompt(reason: Option<string>): (r: Option<(string, Action)>)
    ensures r.None? <==> reason.None?
    ensures r.Some? ==> r.value.1 == Reject(reason.value)
    ensures r.Some? && reason.value != "" ==>
              r.value.0 == "Are you sure you want to reject this review?\n\nReason: " + reason.value
    ensures r.Some? && reason.value == "" ==> r.value.0 == "Are you sure you want to reject this review?"
  {
    match reason
    case None => None
    case Some(text) =>
      var message := if text != "" then "Are you sure you want to reject this review?\n\nReason: " + text
                     else "Are you sure you want to reject this review?";
      Some((message, Reject(text)))
  }

  /** `switchTab`: the tab changes and its own list is the one reloaded. */
  function SwitchTab(b: Board, tab: Tab): (r: (Board, Tab))
    ensures r.0 == b.(tab := tab) && r.1 == tab
  {
    (b.(tab := tab), tab)
  }

  // ---------------------------------------------------------------------------
  // Stars

  /** `getStars`: `rating` filled stars then `5 - rating` empty ones; a rating
      outside 0..5 makes `repeat` throw. */
  function StarsOf(rating: int): (r: Option<string>)
    ensures r.Some? <==> 0 <= rating <= 5
    ensures r.Some? ==> |r.value| == 5
    ensures r.Some? ==> forall i :: 0 <= i < 5 ==> r.value[i] == (if i < rating then '\U{2B50}' else '\U{2606}')
  {
    Stars.Row('\U{2B50}', '\U{2606}', rating)
  }
}

=== FILE: admin_sidebar.dfy ===
/** The back-office sidebar: the administrator's name and initial, and the
    confirmation modal that guards an action such as logging out. */
module AdminSidebar {
  import opened Js
  import opened StaffUser

  /** `getUserFullName`: both names when both are present; otherwise the first
      present of first name, last name and email; `Admin User` without a user
      or without any of them. */
  function FullName(user: Option<User>): (r: string)
    ensures r != ""
    ensures user.None? ==> r == "Admin User"
    ensures user.Some? && TruthyStr(user.value.firstName) && TruthyStr(user.value.lastName) ==>
              r == user.value.firstName.value + " " + user.value.lastName.value
    ensures user.Some? && TruthyStr(user.value.firstName) && !TruthyStr(user.value.lastName) ==>
              r == user.value.firstName.value
    ensures user.Some? && !TruthyStr(user.value.firstName) && TruthyStr(user.value.lastName) ==>
              r == user.value.lastName.value
    ensures user.Some? && !TruthyStr(user.value.firstName) && !TruthyStr(user.value.lastName) ==>
              r == OrStr(user.value.email, "Admin User")
  {
    match user
    case None => "Admin User"
    case Some(u) =>
      var first := OrStr(u.firstName, "");
      var last := OrStr(u.lastName, "");
      if first != "" && last != "" then first + " " + last
      else if first != "" then first
      else if last != "" then last
      else OrStr(u.email, "Admin User")
  }

  /** `getUserInitial`: the upper-cased first character of the first present of
      first name, last name and email, else `A`. */
  function Initial(user: Option<User>): (r: string)
    ensures |r| == 1
    ensures user.None? ==> r == "A"
    ensures user.Some? && TruthyStr(user.value.firstName) ==> r == [UpperChar(user.value.firstName.value[0])]
    ensures user.Some? && !TruthyStr(user.value.firstName) && TruthyStr(user.value.lastName) ==>
              r == [UpperChar(user.value.lastName.value[0])]
    ensures user.Some? && !TruthyStr(user.value.firstName) && !TruthyStr(user.value.lastName) && TruthyStr(user.value.email) ==>
              r == [UpperChar(user.value.email.value[0])]
    ensures user.Some? && !TruthyStr(user.value.firstName) && !TruthyStr(user.value.lastName) && !TruthyStr(user.value.email) ==>
              r == "A"
  {
    match user
    case None => "A"
    case Some(u) =>
      if TruthyStr(u.firstName) then Upper(FirstChar(u.firstName.value))
      else if TruthyStr(u.lastName) then Upper(FirstChar(u.lastName.value))
      else if TruthyStr(u.email) then Upper(FirstChar(u.email.value))
      else "A"
  }

  /** The initial is the full name's first letter, upper-cased, whenever the
      name comes from the user record. */
  lemma InitialStartsName(user: Option<User>)
    requires user.Some? && (TruthyStr(user.value.firstName) || TruthyStr(user.value.lastName) || TruthyStr(user.value.email))
    ensures Initial(user) == [UpperChar(FullName(user)[0])]
  {
  }

  /** The confirmation modal and the action waiting on it. */
  datatype Modal<A> = Modal(show: bool, pending: Option<A>)

  /** `showConfirmation`: the action waits and the modal opens. */
  function Ask<A>(m: Modal<A>, action: A): (r: Modal<A>)
    ensures r.show && r.pending == Some(action)
  {
    Modal(true, Some(action))
  }

  /** `onModalConfirm`: the modal closes, and the waiting action, if any, is run and forgotten. */
  function Confirm<A>(m: Modal<A>): (r: (Modal<A>, Option<A>))
    ensures !r.0.show && r.0.pending.None?
    ensures r.1 == m.pending
  {
    (Modal(false, None), m.pending)
  }

  /** `onModalCancel`: the modal closes and the action is forgotten without running. */
  function Cancel<A>(m: Modal<A>): (r: Modal<A>)
    ensures !r.show && r.pending.None?
  {
    Modal(false, None)
  }

  /** A confirmed action runs exactly once: a second confirmation runs nothing,
      and a cancelled action never runs. */
  lemma ActionRunsOnce<A>(m: Modal<A>, action: A)
    ensures Confirm(Ask(m, action)).1 == Some(action)
    ensures Confirm(Confirm(Ask(m, action)).0).1.None?
    ensures Confirm(Cancel(Ask(m, action))).1.None?
  {
  }
}

=== FILE: admin_users.dfy ===
/** The back-office user manager: how server users are normalised, the
    summary cards, the search/role/status filter, the badge colours, the
    create/update form with its validation and payload pruning, the status
    cycle, and the error messages of failed requests. */
module AdminUsers {
  import opened Js
  import AdminOrders

  /** A user as the table and the form hold it (`Partial<User>`): every field may be missing. */
  datatype Account = Account(
    dbId: Option<string>,
    id: Option<string>,
    name: Option<string>,
    firstName: Option<string>,
    lastName: Option<string>,
    email: Option<string>,
    phone: Option<string>,
    password: Option<string>,
    role: Option<string>,
    status: Option<string>,
    joinDate: Option<string>,
    totalOrders: Option<int>,
    totalSpent: Option<int>,
    address: Option<string>,
    createdAt: Option<string>)

  // ---------------------------------------------------------------------------
  // Loading

  /** The display name: `name`, or else `first last` with missing parts empty, trimmed. */
  function DisplayName(u: Account): (r: string)
    ensures TruthyStr(u.name) ==> r == u.name.value
    ensures !TruthyStr(u.name) ==> r == Trim(OrStr(u.firstName, "") + " " + OrStr(u.lastName, ""))
  {
    if TruthyStr(u.name) then u.name.value else Trim(OrStr(u.firstName, "") + " " + OrStr(u.lastName, ""))
  }

  /** Without a `name`, a user with only a first name, already trimmed, is called by it. */
  lemma FirstNameAlone(u: Account)
    requires !TruthyStr(u.name) && u.lastName.None?
    requires u.firstName.Some? && Trim(u.firstName.value) == u.firstName.value
    ensures DisplayName(u) == u.firstName.value
  {
    var f := u.firstName.value;
    assert f + " " + "" == f + " ";
    var t := f + " ";
    assert TrimEnd(t) == TrimEnd(f) by {
      assert t[..|t| - 1] == f;
    }
    assert Trim(f) == TrimEnd(TrimStart(f));
    if TrimStart(f) == [] {
      assert f == [];
      assert TrimStart(t) == [];
    } else {
      TrimStartOfSpaced(f);
    }
  }

  /** A trailing space does not change where `TrimStart` stops, unless everything is space. */
  lemma {:induction false} TrimStartOfSpaced(f: string)
    requires TrimStart(f) != []
    ensures TrimStart(f + " ") == TrimStart(f) + " "
    decreases |f|
  {
    assert (f + " ")[0] == f[0];
    if IsSpace(f[0]) {
      assert (f + " ")[1..] == f[1..] + " ";
      TrimStartOfSpaced(f[1..]);
    }
  }

  /** The row made from a server user: `id` copied from `_id`, the display
      name, and 0 for missing or zero order counts and spending. The join date
      keeps the creation time unformatted, `-` without one. */
  function Normalise(u: Account): (r: Account)
    ensures r.id == u.dbId && r.name == Some(DisplayName(u))
    ensures r.totalOrders == Some(OrNum(u.totalOrders, 0)) && r.totalSpent == Some(OrNum(u.totalSpent, 0))
    ensures r.joinDate == (if TruthyStr(u.createdAt) then u.createdAt else Some("-"))
    ensures r.(id := u.id, name := u.name, totalOrders := u.totalOrders, totalSpent := u.totalSpent, joinDate := u.joinDate) == u
  {
    u.(id := u.dbId, name := Some(DisplayName(u)), totalOrders := Some(OrNum(u.totalOrders, 0)),
       totalSpent := Some(OrNum(u.totalSpent, 0)), joinDate := if TruthyStr(u.createdAt) then u.createdAt else Some("-"))
  }

  /** Normalising a normalised user changes nothing once it has a non-empty name. */
  lemma NormaliseIdempotent(u: Account)
    requires TruthyStr(Normalise(u).name)
    ensures Normalise(Normalise(u)) == Normalise(u)
  {
  }

  /** The server's user list: `data`, then `users`, then nothing. */
  datatype UsersResponse = UsersResponse(data: Option<seq<Account>>, users: Option<seq<Account>>)

  function LoadUsers(resp: UsersResponse): (r: seq<Account>)
    ensures var raw := if resp.data.Some? then resp.data.value else resp.users.GetOr([]);
            |r| == |raw| && forall i :: 0 <= i < |r| ==> r[i] == Normalise(raw[i])
  {
    var raw := if resp.data.Some? then resp.data.value else resp.users.GetOr([]);
    seq(|raw|, i requires 0 <= i < |raw| => Normalise(raw[i]))
  }

  // ---------------------------------------------------------------------------
  // Summary cards

  datatype Stats = Stats(totalUsers: nat, activeUsers: nat, admins: nat, revenue: int)

  predicate IsActive(u: Account) { u.status == Some("active") }
  predicate IsAdmin(u: Account) { u.role == Some("admin") }
  function Spent(u: Account): int { OrNum(u.totalSpent, 0) }

  /** `updateStats`: all users, active users, admins, and the total spent by everyone. */
  function ComputeStats(users: seq<Account>): (s: Stats)
    ensures s.totalUsers == |users|
    ensures s.activeUsers == |Filter(IsActive, users)| && s.admins == |Filter(IsAdmin, users)|
    ensures s.activeUsers <= s.totalUsers && s.admins <= s.totalUsers
    ensures s.revenue == SumBy(Spent, users)
  {
    Stats(|users|, |Filter(IsActive, users)|, |Filter(IsAdmin, users)|, SumBy(Spent, users))
  }

  /** The figures of two lists together are the sums of their figures. */
  lemma StatsAdd(a: seq<Account>, b: seq<Account>)
    ensures var s := ComputeStats(a + b);
            var sa := ComputeStats(a);
            var sb := ComputeStats(b);
            s == Stats(sa.totalUsers + sb.totalUsers, sa.activeUsers + sb.activeUsers,
                       sa.admins + sb.admins, sa.revenue + sb.revenue)
  {
    FilterAppend(IsActive, a, b);
    FilterAppend(IsAdmin, a, b);
    SumByAppend(Spent, a, b);
  }

  /** The four cards `updateStats` shows; the revenue is written with two
      decimals, as `toFixed(2)` writes a whole amount. */
  function StatCards(s: Stats): (r: seq<AdminOrders.Card>)
    ensures |r| == 4
    ensures r[0] == AdminOrders.Card("Total Users", NatToString(s.totalUsers), "blue")
    ensures r[1] == AdminOrders.Card("Active Users", NatToString(s.activeUsers), "green")
    ensures r[2] == AdminOrders.Card("Admins", NatToString(s.admins), "purple")
    ensures r[3] == AdminOrders.Card("Total Revenue", IntToString(s.revenue) + ".00 EGP", "orange")
  {
    [AdminOrders.Card("Total Users", NatToString(s.totalUsers), "blue"),
     AdminOrders.Card("Active Users", NatToString(s.activeUsers), "green"),
     AdminOrders.Card("Admins", NatToString(s.admins), "purple"),
     AdminOrders.Card("Total Revenue", IntToString(s.revenue) + ".00 EGP", "orange")]
  }

  /** With no users loaded every card reads zero. */
  lemma NoUsersZeroCards()
    ensures StatCards(ComputeStats([])) == [AdminOrders.Card("Total Users", "0", "blue"),
                                            AdminOrders.Card("Active Users", "0", "green"),
                                            AdminOrders.Card("Admins", "0", "purple"),
                                            AdminOrders.Card("Total Revenue", "0.00 EGP", "orange")]
  {
    assert ComputeStats([]) == Stats(0, 0, 0, 0);
    assert NatToString(0) == [48 as char] == "0";
    assert IntToString(0) + ".00 EGP" == "0.00 EGP";
  }

  // ---------------------------------------------------------------------------
  // Filtering and colours

  /** The case-insensitive search over the name, email and phone (missing ones read as empty). */
  predicate MatchesSearch(u: Account, term: string) {
    var t := Lower(term);
    Includes(Lower(OrStr(u.name, "")), t) || Includes(Lower(OrStr(u.email, "")), t) || Includes(Lower(OrStr(u.phone, "")), t)
  }

  predicate MatchesFilters(u: Account, term: string, role: string, status: string) {
    MatchesSearch(u, term) && (role == "all" || u.role == Some(role)) && (status == "all" || u.status == Some(status))
  }

  /** `filteredUsers`: the users matching the search, the role and the status, in order. */
  function FilteredUsers(users: seq<Account>, term: string, role: string, status: string): (r: seq<Account>)
    ensures IsSubsequence(r, users)
    ensures forall i :: 0 <= i < |r| ==> MatchesFilters(r[i], term, role, status)
    ensures forall i :: 0 <= i < |users| && MatchesFilters(users[i], term, role, status) ==> users[i] in r
  {
    Filter((u: Account) => MatchesFilters(u, term, role, status), users)
  }

  /** With an empty search and both filters at `all`, every user is shown. */
  lemma NoFilterShowsAll(users: seq<Account>)
    ensures FilteredUsers(users, "", "all", "all") == users
  {
    forall i | 0 <= i < |users|
      ensures MatchesSearch(users[i], "")
    {
      assert OccursAt(Lower(OrStr(users[i].name, "")), "", 0);
    }
    FilterAll((u: Account) => MatchesFilters(u, "", "all", "all"), users);
  }

  /** Narrowing the role never adds users. */
  lemma RoleFilterNarrows(users: seq<Account>, term: string, role: string, status: string)
    ensures forall i :: 0 <= i < |FilteredUsers(users, term, role, status)| ==>
              FilteredUsers(users, term, role, status)[i] in FilteredUsers(users, term, "all", status)
  {
  }

  const StatusColors: map<string, string> :=
    map["active" := "bg-green-100 text-green-800", "inactive" := "bg-gray-100 text-gray-800",
        "suspended" := "bg-red-100 text-red-800"]

  const RoleColors: map<string, string> :=
    map["admin" := "bg-purple-100 text-purple-800", "customer" := "bg-blue-100 text-blue-800"]

  /** `colors[key] || ''`: the table's entry, or the empty class list for an unknown key. */
  function ColorOf(table: map<string, string>, key: string): (r: string)
    ensures key in table ==> r == table[key]
    ensures key !in table ==> r == ""
  {
    if key in table then table[key] else ""
  }

  /** Every known status and role has a colour; anything else has none. */
  lemma ColorsCoverKnownKeys(key: string)
    ensures ColorOf(StatusColors, key) != "" <==> key in {"active", "inactive", "suspended"}
    ensures ColorOf(RoleColors, key) != "" <==> key in {"admin", "customer"}
  {
  }

  // ---------------------------------------------------------------------------
  // The form

  /** `openCreateModal`: an active customer with empty fields. */
  const NewAccount: Account := Account(None, None, Some(""), None, None, Some(""), Some(""), Some(""),
                                       Some("customer"), Some("active"), None, None, None, Some(""), None)

  /** `openEditModal`: the user with the password box emptied. */
  function OpenEdit(u: Account): (r: Account)
    ensures !TruthyStr(r.password) && r.(password := u.password) == u
  {
    u.(password := Some(""))
  }

  /** An existing user is one with `_id` or `id`. */
  predicate IsExisting(u: Account) {
    TruthyStr(u.dbId) || TruthyStr(u.id)
  }

  const MsgRequired: string := "Please fill in all required fields (Name, Email)"
  const MsgPassword: string := "Password is required for new users"

  /** The fields the server derives, removed from every payload. */
  function DropDerived(u: Account): (r: Account)
    ensures r.id.None? && r.dbId.None? && r.joinDate.None? && r.totalOrders.None? && r.totalSpent.None? && r.createdAt.None?
  {
    u.(id := None, dbId := None, joinDate := None, totalOrders := None, totalSpent := None, createdAt := None)
  }

  /** The update payload: derived fields dropped, and an empty password not sent. */
  function UpdatePayload(u: Account): (r: Account)
    ensures r.id.None? && r.dbId.None? && r.joinDate.None? && r.totalOrders.None? && r.totalSpent.None? && r.createdAt.None?
    ensures TruthyStr(u.password) ==> r.password == u.password
    ensures !TruthyStr(u.password) ==> r.password.None?
    ensures r.name == u.name && r.email == u.email && r.phone == u.phone && r.role == u.role
            && r.status == u.status && r.address == u.address && r.firstName == u.firstName && r.lastName == u.lastName
  {
    var d := DropDerived(u);
    if TruthyStr(u.password) then d else d.(password := None)
  }

  /** The create payload: derived fields and the name parts dropped. */
  function CreatePayload(u: Account): (r: Account)
    ensures r.id.None? && r.dbId.None? && r.joinDate.None? && r.totalOrders.None? && r.totalSpent.None? && r.createdAt.None?
    ensures r.firstName.None? && r.lastName.None?
    ensures r.password == u.password && r.name == u.name && r.email == u.email && r.phone == u.phone
            && r.role == u.role && r.status == u.status && r.address == u.address
  {
    DropDerived(u).(firstName := None, lastName := None)
  }

  /** Pruning a payload again changes nothing. */
  lemma PayloadsArePruned(u: Account)
    ensures UpdatePayload(UpdatePayload(u)) == UpdatePayload(u)
    ensures CreatePayload(CreatePayload(u)) == CreatePayload(u)
  {
  }

  /** What `saveUser` does. */
  datatype SaveStep = NoUser | Warn(message: string) | Create(data: Account) | Update(id: string, data: Account)

  /** `saveUser`: a name and an email are required, and a new user also
      needs a password; an existing user is updated under `_id`, else `id`. */
  function SaveUser(e: Option<Account>): (r: SaveStep)
    ensures e.None? <==> r.NoUser?
    ensures e.Some? && !(TruthyStr(e.value.name) && TruthyStr(e.value.email)) ==> r == Warn(MsgRequired)
    ensures e.Some? && TruthyStr(e.value.name) && TruthyStr(e.value.email) && !IsExisting(e.value) && !TruthyStr(e.value.password)
            ==> r == Warn(MsgPassword)
    ensures r.Create? <==> e.Some? && TruthyStr(e.value.name) && TruthyStr(e.value.email) && !IsExisting(e.value) && TruthyStr(e.value.password)
    ensures r.Create? ==> r.data == CreatePayload(e.value) && TruthyStr(r.data.password)
    ensures r.Update? <==> e.Some? && TruthyStr(e.value.name) && TruthyStr(e.value.email) && IsExisting(e.value)
    ensures r.Update? ==> r.data == UpdatePayload(e.value) && r.id == OrStr(e.value.dbId, e.value.id.GetOr("")) && r.id != ""
  {
    match e
    case None => NoUser
    case Some(u) =>
      if !TruthyStr(u.name) || !TruthyStr(u.email) then Warn(MsgRequired)
      else if !IsExisting(u) && !TruthyStr(u.password) then Warn(MsgPassword)
      else if IsExisting(u) then Update(if TruthyStr(u.dbId) then u.dbId.value else u.id.value, UpdatePayload(u))
      else Create(CreatePayload(u))
  }

  /** Editing a user and saving without typing a password never sends one. */
  lemma EditKeepsPassword(u: Account)
    requires IsExisting(u) && TruthyStr(u.name) && TruthyStr(u.email)
    ensures SaveUser(Some(OpenEdit(u))).Update?
    ensures SaveUser(Some(OpenEdit(u))).data.password.None?
  {
  }

  /** A created user always carries a password, and a new form cannot be
      saved until a name, an email and a password are typed. */
  lemma NewFormNeedsInput()
    ensures SaveUser(Some(NewAccount)) == Warn(MsgRequired)
    ensures SaveUser(Some(NewAccount.(name := Some("A"), email := Some("a@b")))) == Warn(MsgPassword)
  {
  }

  /** Each validation error as `field: message`, in order. */
  function FieldMessages(es: seq<(string, string)>): (r: seq<string>)
    ensures |r| == |es|
    ensures forall i :: 0 <= i < |es| ==> r[i] == es[i].0 + ": " + es[i].1
  {
    seq(|es|, i requires 0 <= i < |es| => es[i].0 + ": " + es[i].1)
  }

  /** The message for a failed create: the server's message, else the
      validation errors as `field: message` joined by `", "`, else a generic one. */
  function CreateErrorMessage(serverMessage: Option<string>, errors: Option<seq<(string, string)>>): (r: string)
    ensures TruthyStr(serverMessage) ==> r == serverMessage.value
    ensures !TruthyStr(serverMessage) && errors.None? ==> r == "Failed to create user"
    ensures !TruthyStr(serverMessage) && errors.Some? ==> StartsWith(r, "Validation failed: ")
    ensures !TruthyStr(serverMessage) && errors.Some? ==> r == "Validation failed: " + Join(FieldMessages(errors.value), ", ")
  {
    if TruthyStr(serverMessage) then serverMessage.value
    else if errors.Some? then
      var r := "Validation failed: " + Join(FieldMessages(errors.value), ", ");
      assert r[..19] == "Validation failed: ";
      r
    else "Failed to create user"
  }

  /** Two validation errors read `Validation failed: f: m, g: n`; none leave
      the prefix alone. */
  lemma CreateErrorOfTwoFields(f: string, m: string, g: string, n: string)
    ensures CreateErrorMessage(None, Some([(f, m), (g, n)])) == "Validation failed: " + f + ": " + m + ", " + g + ": " + n
    ensures CreateErrorMessage(None, Some([])) == "Validation failed: "
  {
    var ms := FieldMessages([(f, m), (g, n)]);
    assert ms[..1] == [f + ": " + m];
  }

  /** The toast after a failed update: the server's message, else the
      error's own message (`undefined` when it has none), after a fixed prefix. */
  function UpdateErrorMessage(e: HttpError): (r: string)
    ensures |r| >= 23 && r[..23] == "Failed to update user: "
    ensures TruthyStr(e.serverMessage) ==> r[23..] == e.serverMessage.value
    ensures !TruthyStr(e.serverMessage) && e.message.Some? ==> r[23..] == e.message.value
    ensures !TruthyStr(e.serverMessage) && e.message.None? ==> r[23..] == "undefined"
  {
    var detail := if TruthyStr(e.serverMessage) then e.serverMessage.value
                  else if e.message.Some? then e.message.value else "undefined";
    "Failed to update user: " + detail
  }

  /** The message for a failed delete: a 404 means the user is already gone. */
  function DeleteErrorMessage(e: HttpError): (r: string)
    ensures e.status == 404 ==> r == "User not found. It may have already been deleted."
    ensures e.status != 404 ==> r == OrStr(e.serverMessage, "Failed to delete user")
  {
    if e.status == 404 then "User not found. It may have already been deleted."
    else if TruthyStr(e.serverMessage) then e.serverMessage.value
    else "Failed to delete user"
  }

  // ---------------------------------------------------------------------------
  // Status cycle

  /** `toggleUserStatus`' next status: active → inactive → suspended → active;
      any other status becomes active. */
  function NextStatus(s: Option<string>): (r: string)
    ensures s == Some("active") ==> r == "inactive"
    ensures s == Some("inactive") ==> r == "suspended"
    ensures s != Some("active") && s != Some("inactive") ==> r == "active"
  {
    if s == Some("active") then "inactive" else if s == Some("inactive") then "suspended" else "active"
  }

  /** Three steps of the cycle return any of the three statuses to itself;
      every status reaches `active` within three steps. */
  lemma StatusCycle(s: string)
    ensures s in {"active", "inactive", "suspended"} ==> NextStatus(Some(NextStatus(Some(NextStatus(Some(s)))))) == s
    ensures NextStatus(Some(s)) in {"active", "inactive", "suspended"}
  {
  }

  /** The verb the confirmation asks about for each new status. */
  function StatusVerb(newStatus: string): (r: string)
    ensures newStatus == "active" ==> r == "activate"
    ensures newStatus == "inactive" ==> r == "deactivate"
    ensures newStatus == "suspended" ==> r == "suspend"
  {
    if newStatus == "active" then "activate" else if newStatus == "inactive" then "deactivate" else "suspend"
  }

  /** The status change requested for a user: nothing without an id. */
  function ToggleStatus(u: Account): (r: Option<(string, string)>)
    ensures r.None? <==> !IsExisting(u)
    ensures r.Some? ==> r.value.0 == OrStr(u.dbId, u.id.GetOr("")) && r.value.1 == NextStatus(u.status)
  {
    if TruthyStr(u.dbId) then Some((u.dbId.value, NextStatus(u.status)))
    else if TruthyStr(u.id) then Some((u.id.value, NextStatus(u.status)))
    else None
  }

  /** The outcome of the status change: the row takes the new status only on success. */
  function OnStatusChanged(u: Account, newStatus: string, ok: bool): (r: Account)
    ensures ok ==> r == u.(status := Some(newStatus))
    ensures !ok ==> r == u
  {
    if ok then u.(status := Some(newStatus)) else u
  }
}

=== FILE: cart_item_view.dfy ===
/** One cart line: the quantity stepper, the line total and display fallbacks. */
module CartItemView {
  import opened Js
  import opened Catalog
  import opened CartStore
  import Images

  /** `increaseQuantity`: emits `quantity + 1` unless a truthy stock is exceeded;
      a stock of 0 or a missing stock imposes no cap. */
  function IncreaseQuantity(quantity: int, stock: Option<int>): (r: Option<int>)
    ensures r.Some? <==> !(TruthyNum(stock) && quantity + 1 > stock.value)
    ensures r.Some? ==> r.value == quantity + 1
  {
    if TruthyNum(stock) && quantity + 1 > stock.value then None else Some(quantity + 1)
  }

  /** With a positive stock, a quantity within stock stays within stock. */
  lemma IncreaseStaysWithinStock(quantity: int, stock: int)
    requires stock > 0 && quantity <= stock
    ensures var r := IncreaseQuantity(quantity, Some(stock)); r.Some? ==> r.value <= stock
    ensures IncreaseQuantity(stock, Some(stock)) == None
  {
  }

  /** A stock of 0 does not cap the stepper. */
  lemma ZeroStockIsUncapped(quantity: int)
    ensures IncreaseQuantity(quantity, Some(0)) == Some(quantity + 1)
    ensures IncreaseQuantity(quantity, None) == Some(quantity + 1)
  {
  }

  /** `decreaseQuantity`: emits `quantity - 1` only above 1, so never below 1. */
  function DecreaseQuantity(quantity: int): (r: Option<int>)
    ensures r.Some? <==> quantity > 1
    ensures r.Some? ==> r.value == quantity - 1 && r.value >= 1
  {
    if quantity > 1 then Some(quantity - 1) else None
  }

  /** Stepping down undoes stepping up, and stepping up undoes stepping down,
      whenever both steps are allowed. */
  lemma StepsAreInverse(quantity: int, stock: Option<int>)
    ensures quantity >= 1 && IncreaseQuantity(quantity, stock).Some? ==>
              DecreaseQuantity(IncreaseQuantity(quantity, stock).value) == Some(quantity)
    ensures DecreaseQuantity(quantity).Some? ==>
              IncreaseQuantity(DecreaseQuantity(quantity).value, stock) == Some(quantity)
              || (TruthyNum(stock) && quantity > stock.value)
  {
  }

  /** `getItemTotal`: unit price times quantity. */
  function ItemTotal(item: CartItem): int {
    item.price * item.quantity
  }

  /** Every extra unit adds one unit price to the line total. */
  lemma ItemTotalStep(item: CartItem)
    ensures ItemTotal(item.(quantity := item.quantity + 1)) == ItemTotal(item) + item.price
    ensures item.quantity == 0 ==> ItemTotal(item) == 0
  {
  }

  /** `getProductImage`: the cart line strips one leading `/` and always inserts
      one, which is the shared normalisation in another form. */
  function ProductImage(item: CartItem): (r: string)
    ensures item.product.None? || item.product.value.images == [] ==> r == Images.Placeholder
    ensures item.product.Some? && item.product.value.images != [] ==>
              r == Images.Absolutize(item.product.value.images[0])
  {
    if item.product.None? || item.product.value.images == [] then Images.Placeholder
    else
      var p := item.product.value.images[0];
      if Images.IsAbsolute(p) then p
      else
        var clean := if StartsWith(p, "/") then p[1..] else p;
        assert StartsWith(p, "/") ==> p == "/" + clean;
        Images.BaseUrl + "/" + clean
  }

  /** `getProductName`: the product's name, or `'Product'`. */
  function ProductName(item: CartItem): (r: string)
    ensures r != ""
    ensures item.product.Some? && item.product.value.name != "" ==> r == item.product.value.name
  {
    if item.product.Some? && item.product.value.name != "" then item.product.value.name else "Product"
  }

  /** `getSize`: `size`, then `selectedSize`, then `'-'`; never empty. */
  function Size(item: CartItem): (r: string)
    ensures r != ""
    ensures TruthyStr(item.size) ==> r == item.size.value
    ensures !TruthyStr(item.size) && TruthyStr(item.selectedSize) ==> r == item.selectedSize.value
    ensures !TruthyStr(item.size) && !TruthyStr(item.selectedSize) ==> r == "-"
  {
    OrStr(item.size, OrStr(item.selectedSize, "-"))
  }

  /** `getColor`: `color`, then `selectedColor`, then `'-'`; never empty. */
  function Color(item: CartItem): (r: string)
    ensures r != ""
    ensures TruthyStr(item.color) ==> r == item.color.value
    ensures !TruthyStr(item.color) && TruthyStr(item.selectedColor) ==> r == item.selectedColor.value
    ensures !TruthyStr(item.color) && !TruthyStr(item.selectedColor) ==> r == "-"
  {
    OrStr(item.color, OrStr(item.selectedColor, "-"))
  }
}

=== FILE: cart_page.dfy ===
/** The cart page: forwarding of item edits to the store, and the gate in
    front of the checkout. */
module CartPage {
  import opened Js
  import opened CartStore

  /** `trackByItemId`: an item is tracked by its `_id`. */
  function TrackByItemId(index: int, item: CartItem): (k: string)
    ensures k == item.dbId
  {
    item.dbId
  }

  /** `onQuantityChange`: the store update for the item, keyed by its `_id`. */
  function OnQuantityChange(item: CartItem, quantity: int): (op: CartOp)
    ensures op == UpdateQuantity(item.dbId, quantity)
  {
    UpdateQuantity(item.dbId, quantity)
  }

  /** `onRemoveItem`: the store removal for the item, keyed by its `_id`. */
  function OnRemoveItem(item: CartItem): (op: CartOp)
    ensures op == RemoveItem(item.dbId)
  {
    RemoveItem(item.dbId)
  }

  /** What `proceedToCheckout` does. */
  datatype CheckoutGate = RefuseEmpty | RefusePriceChanged | GoToCheckout

  /** Some line is flagged as having changed price. */
  predicate AnyPriceChanged(items: seq<CartItem>) {
    exists i | 0 <= i < |items| :: TruthyBool(items[i].priceChanged)
  }

  /** `proceedToCheckout`: an empty cart is refused first, then a cart with a
      changed price; only a non-empty cart with no changed price proceeds. */
  function ProceedToCheckout(c: Cart): (g: CheckoutGate)
    ensures g == GoToCheckout <==> c.items != [] && forall i :: 0 <= i < |c.items| ==> !TruthyBool(c.items[i].priceChanged)
    ensures c.items == [] ==> g == RefuseEmpty
    ensures g == RefusePriceChanged ==> exists i :: 0 <= i < |c.items| && TruthyBool(c.items[i].priceChanged)
  {
    if |c.items| == 0 then RefuseEmpty
    else if |Filter((it: CartItem) => TruthyBool(it.priceChanged), c.items)| > 0 then RefusePriceChanged
    else GoToCheckout
  }

  /** The empty cart the store starts with never reaches the checkout. */
  lemma EmptyStoreCannotCheckOut()
    ensures ProceedToCheckout(Initial.cart) == RefuseEmpty
    ensures ProceedToCheckout(ClearCart(Initial, true).cart) == RefuseEmpty
  {
  }
}

=== FILE: cart_store.dfy ===
/** The shopping-cart store (`Carts`): the cart record, the normalisation of the
    server's cart responses, and the store's state machine over
    `(cart, isLoading, cartLoaded)`. Each request handler is one atomic step
    taken when the request's outcome is known. */
module CartStore {
  import opened Js
  import opened Catalog

  datatype CartItem = CartItem(
    dbId: string,
    product: Option<Product>,
    quantity: int,
    selectedSize: Option<string>,
    selectedColor: Option<string>,
    size: Option<string>,
    color: Option<string>,
    price: int,
    priceChanged: Option<bool>)

  datatype Cart = Cart(items: seq<CartItem>, subtotal: int, shipping: int, discount: int, total: int, couponCode: Option<string>)

  /** The cart fields as the server may send them: any may be missing, and
      shipping may be called `shippingCost` or `shipping`. */
  datatype CartFields = CartFields(
    items: Nullable<seq<CartItem>>,
    subtotal: Option<int>,
    shippingCost: Option<int>,
    shipping: Option<int>,
    discount: Option<int>,
    total: Option<int>)

  /** A cart response: either wrapped (`{success, data}`) or the bare cart fields.
      A `null` response is the one whose every field is missing. */
  datatype CartResponse = CartResponse(success: Option<bool>, data: Option<CartFields>, bare: CartFields)

  /** The store's state. */
  datatype Store = Store(cart: Cart, isLoading: bool, cartLoaded: bool)

  const EmptyCart: Cart := Cart([], 0, 0, 0, 0, None)

  /** Initially the cart is empty and nothing is loading or loaded. */
  const Initial: Store := Store(EmptyCart, false, false)

  /** The items of a fields record: a missing or null list reads as `[]`. */
  function ItemsOf(f: CartFields): (r: seq<CartItem>)
    ensures f.items.Present? ==> r == f.items.value
    ensures !f.items.Present? ==> r == []
  {
    if f.items.Present? then f.items.value else []
  }

  /** One cart built from a fields record, with 0 for every missing or zero amount. */
  function FromFields(f: CartFields): (c: Cart)
    ensures c.items == ItemsOf(f)
    ensures c.subtotal == OrNum(f.subtotal, 0)
    ensures c.shipping == OrNum(f.shippingCost, OrNum(f.shipping, 0))
    ensures c.discount == OrNum(f.discount, 0) && c.total == OrNum(f.total, 0)
    ensures c.couponCode == None
  {
    Cart(ItemsOf(f), OrNum(f.subtotal, 0), OrNum(f.shippingCost, OrNum(f.shipping, 0)),
         OrNum(f.discount, 0), OrNum(f.total, 0), None)
  }

  /** The response is wrapped: `success` is true and `data` is present. */
  predicate IsWrapped(r: CartResponse) {
    TruthyBool(r.success) && r.data.Some?
  }

  /** `extractCartFromResponse`. */
  function Extract(resp: CartResponse): (c: Cart)
    ensures IsWrapped(resp) ==> c == FromFields(resp.data.value)
    ensures !IsWrapped(resp) && !resp.bare.items.Undefined? ==> c == FromFields(resp.bare)
    ensures !IsWrapped(resp) && resp.bare.items.Undefined? ==> c == EmptyCart
    ensures c.couponCode == None
  {
    if IsWrapped(resp) then FromFields(resp.data.value)
    else if !resp.bare.items.Undefined? then FromFields(resp.bare)
    else EmptyCart
  }

  /** A wrapped response takes priority: the bare fields beside it are ignored. */
  lemma WrappedTakesPriority(success: Option<bool>, data: CartFields, bare1: CartFields, bare2: CartFields)
    requires TruthyBool(success)
    ensures Extract(CartResponse(success, Some(data), bare1)) == Extract(CartResponse(success, Some(data), bare2))
    ensures Extract(CartResponse(success, Some(data), bare1)).items == ItemsOf(data)
  {
  }

  /** Shipping is `shippingCost`, then `shipping`, then 0, whichever shape the response has. */
  lemma ShippingFallback(resp: CartResponse)
    ensures var c := Extract(resp);
            var f := if IsWrapped(resp) then resp.data.value else resp.bare;
            (IsWrapped(resp) || !resp.bare.items.Undefined?) ==>
              (TruthyNum(f.shippingCost) ==> c.shipping == f.shippingCost.value)
              && (!TruthyNum(f.shippingCost) && TruthyNum(f.shipping) ==> c.shipping == f.shipping.value)
              && (!TruthyNum(f.shippingCost) && !TruthyNum(f.shipping) ==> c.shipping == 0)
  {
  }

  /** The fields record a server would send for `c`. */
  function FieldsOf(c: Cart): (f: CartFields)
    ensures f.items == Present(c.items) && f.subtotal == Some(c.subtotal)
  {
    CartFields(Present(c.items), Some(c.subtotal), None, Some(c.shipping), Some(c.discount), Some(c.total))
  }

  /** Normalisation recovers any cart without a coupon from both response shapes. */
  lemma ExtractRoundTrip(c: Cart, other: CartFields)
    requires c.couponCode == None
    ensures Extract(CartResponse(Some(true), Some(FieldsOf(c)), other)) == c
    ensures Extract(CartResponse(None, None, FieldsOf(c))) == c
    ensures Extract(CartResponse(Some(false), Some(other), FieldsOf(c))) == c
  {
  }

  /** Any response whose items are undefined and which is not wrapped yields the empty cart. */
  lemma UnknownShapeIsEmpty(success: Option<bool>, data: Option<CartFields>, bare: CartFields)
    requires !(TruthyBool(success) && data.Some?)
    requires bare.items == Undefined
    ensures Extract(CartResponse(success, data, bare)) == EmptyCart
    ensures Extract(CartResponse(success, data, bare)).items == []
  {
  }

  /** `cartItemsCount`: the sum of the item quantities. */
  function ItemsCount(c: Cart): (n: int)
    ensures c.items == [] ==> n == 0
    ensures (forall i :: 0 <= i < |c.items| ==> c.items[i].quantity >= 0) ==> n >= 0
  {
    SumBy((it: CartItem) => it.quantity, c.items)
  }

  /** Adding a line adds its quantity to the count. */
  lemma {:induction false} ItemsCountAppend(items: seq<CartItem>, it: CartItem, rest: Cart)
    ensures ItemsCount(rest.(items := items + [it])) == ItemsCount(rest.(items := items)) + it.quantity
    decreases |items|
  {
    if items == [] {
      assert items + [it] == [it];
    } else {
      assert (items + [it])[1..] == items[1..] + [it];
      ItemsCountAppend(items[1..], it, rest);
    }
  }

  /** `loadCart`: a no-op while a load is in flight or once the cart is loaded;
      otherwise the response (or the empty cart, on failure) replaces the cart. */
  function LoadCart(s: Store, outcome: Outcome<CartResponse>): (s': Store)
    ensures s.isLoading || s.cartLoaded ==> s' == s
    ensures !s.isLoading && !s.cartLoaded ==>
              s'.cartLoaded && !s'.isLoading
              && (outcome.Ok? ==> s'.cart == Extract(outcome.value))
              && (outcome.Err? ==> s'.cart == EmptyCart)
  {
    if s.isLoading || s.cartLoaded then s
    else
      var c := if outcome.Ok? then Extract(outcome.value) else EmptyCart;
      Store(c, false, true)
  }

  /** Whether `loadCart` issues a request at all. */
  function LoadCartRequests(s: Store): (b: bool)
    ensures b <==> !s.isLoading && !s.cartLoaded
  {
    !(s.isLoading || s.cartLoaded)
  }

  /** The cart mutations; each carries the values it sends. No client-side
      bound is put on `quantity`: any number is forwarded. */
  datatype CartOp =
    | AddToCart(productId: string, quantity: int, size: Option<string>, color: Option<string>)
    | UpdateQuantity(itemId: string, quantity: int)
    | RemoveItem(itemId: string)
    | ApplyCoupon(code: string)

  /** A step's new state and what the returned observable delivers. */
  datatype Step = Step(store: Store, emitted: Outcome<Cart>)

  /** Completion of `addToCart`, `updateQuantity`, `removeItem` or `applyCoupon`. */
  function Mutate(op: CartOp, s: Store, outcome: Outcome<CartResponse>): (r: Step)
    ensures !r.store.isLoading
    ensures outcome.Ok? ==> r.store.cart == Extract(outcome.value) && r.emitted == Ok(r.store.cart)
    ensures outcome.Ok? && op.AddToCart? ==> r.store.cartLoaded
    ensures outcome.Ok? && !op.AddToCart? ==> r.store.cartLoaded == s.cartLoaded
    ensures outcome.Err? ==> r.store == s.(isLoading := false) && r.emitted.Err?
  {
    match outcome
    case Ok(resp) =>
      var c := Extract(resp);
      Step(Store(c, false, if op.AddToCart? then true else s.cartLoaded), Ok(c))
    case Err(e) =>
      Step(s.(isLoading := false), Err(e))
  }

  /** `clearCart`: both outcomes leave the empty cart with nothing loading; only
      a success forgets that the cart was loaded, and the error is swallowed. */
  function ClearCart(s: Store, ok: bool): (s': Store)
    ensures s'.cart == EmptyCart && ItemsCount(s'.cart) == 0
    ensures !s'.isLoading
    ensures ok ==> !s'.cartLoaded
    ensures !ok ==> s'.cartLoaded == s.cartLoaded
  {
    Store(EmptyCart, false, if ok then false else s.cartLoaded)
  }

  /** After a successful clear the next `loadCart` fetches again; after a failed
      clear of a loaded cart it does not. */
  lemma ClearThenLoad(s: Store)
    ensures LoadCartRequests(ClearCart(s, true))
    ensures s.cartLoaded ==> !LoadCartRequests(ClearCart(s, false))
  {
  }
}

=== FILE: cart_summary.dfy ===
/** The cart summary: the coupon guard and the shipping texts. */
module CartSummary {
  import opened Js

  const FreeShippingThreshold: int := 500

  /** `onApplyDiscount`: the trimmed code is emitted unless it is empty or is
      the coupon already applied. */
  function OnApplyDiscount(input: string, couponCode: Option<string>): (emitted: Option<string>)
    ensures emitted.Some? <==> Trim(input) != "" && couponCode != Some(Trim(input))
    ensures emitted.Some? ==> emitted.value == Trim(input)
  {
    var code := Trim(input);
    if code == "" then None
    else if couponCode == Some(code) then None
    else Some(code)
  }

  /** Padding the code with any white space does not change what is emitted. */
  lemma ApplyDiscountIgnoresPadding(p: string, code: string, q: string, couponCode: Option<string>)
    requires AllSpace(p) && AllSpace(q)
    ensures OnApplyDiscount(p + code + q, couponCode) == OnApplyDiscount(code, couponCode)
  {
    TrimOfPadded(p, code, q);
  }

  /** `getShippingText`: `'Free'` exactly when shipping is 0, else the amount in EGP. */
  function ShippingText(shipping: int): (r: string)
    ensures r == "Free" <==> shipping == 0
    ensures shipping != 0 ==> r == IntToString(shipping) + " EGP"
  {
    if shipping == 0 then "Free" else IntToString(shipping) + " EGP"
  }

  /** What `getShippingInfo` tells the shopper. */
  datatype ShippingInfo = QualifiesForFree | AddMore(remaining: int)

  /** `getShippingInfo`: free shipping from 500 on, otherwise the (positive)
      amount still missing, which brings the subtotal exactly to 500. */
  function ShippingInfoFor(subtotal: int): (r: ShippingInfo)
    ensures r.QualifiesForFree? <==> subtotal >= FreeShippingThreshold
    ensures r.AddMore? ==> r.remaining > 0 && subtotal + r.remaining == FreeShippingThreshold
  {
    if subtotal >= FreeShippingThreshold then QualifiesForFree else AddMore(FreeShippingThreshold - subtotal)
  }
}

=== FILE: catalog.dfy ===
/** The catalogue records shared by the storefront and the back-office:
    products, categories and subcategories. A product's category and
    subcategory are either a bare id string or a populated object. */
module Catalog {
  import opened Js

  /** A category or subcategory reference: an id, or a populated object. */
  datatype Ref = RefId(id: string) | RefObj(dbId: string, name: string)

  /** A review as it appears on a product: a bare id or a populated review. */
  datatype ReviewRef = ReviewId(id: string) | ReviewObj(rating: int)

  datatype Subcategory = Subcategory(dbId: string, name: string, slug: string, category: Option<Ref>, isActive: Option<bool>)

  datatype Category = Category(dbId: string, name: string, slug: string, gender: Option<string>, subcategories: Option<seq<Subcategory>>)

  /** A product. `dbId` is the server's `_id`; `id` is the alternative spelling some
      endpoints use. Money and ratings are whole numbers; `createdAt` is a timestamp. */
  datatype Product = Product(
    dbId: Option<string>,
    id: Option<string>,
    name: string,
    slug: string,
    description: Option<string>,
    price: int,
    oldPrice: Option<int>,
    stock: Option<int>,
    images: seq<string>,
    sizes: Option<seq<string>>,
    colors: Option<seq<string>>,
    rating: Option<int>,
    reviewCount: Option<int>,
    reviews: Option<seq<ReviewRef>>,
    isFeatured: Option<bool>,
    isNewArrival: Option<bool>,
    isNew: Option<bool>,
    category: Option<Ref>,
    subcategory: Option<Ref>,
    subCategory: Option<Ref>,
    createdAt: Option<int>)

  /** The id a reference carries: the object's `_id`, or the string itself. */
  function RefKey(r: Ref): (k: string)
    ensures r.RefId? ==> k == r.id
    ensures r.RefObj? ==> k == r.dbId
  {
    match r
    case RefId(s) => s
    case RefObj(s, _) => s
  }

  /** `product._id || product.id`: the identifier the storefront sends to the server. */
  function ProductId(p: Product): (r: Option<string>)
    ensures TruthyStr(p.dbId) ==> r == p.dbId
    ensures !TruthyStr(p.dbId) ==> r == p.id
  {
    OrStrOpt(p.dbId, p.id)
  }
}

=== FILE: checkout.dfy ===
/** The checkout page: a three-step flow (shipping, payment, review) and the
    busy flag that guards placing the order. A new address is given a
    temporary id and saved on the server just before the order is placed. */
module Checkout {
  import opened Js
  import opened AddressRecord
  import opened LineItems
  import Images
  import CartStore

  /** What `loadCheckoutData` copies from the cart, and whether it sends the shopper back. */
  datatype Loaded = Loaded(items: seq<CartStore.CartItem>, subtotal: int, shipping: int, discount: int, total: int, redirectToCart: bool)

  /** `loadCheckoutData`: the totals are the cart's (a normalised cart has no
      missing amounts), and an empty cart redirects to `/cart`. */
  function LoadCheckoutData(c: CartStore.Cart): (r: Loaded)
    ensures r.items == c.items
    ensures r.subtotal == c.subtotal && r.shipping == c.shipping
    ensures r.discount == c.discount && r.total == c.total
    ensures r.redirectToCart <==> c.items == []
  {
    var items := c.items;
    Loaded(items, OrNum(Some(c.subtotal), 0), OrNum(Some(c.shipping), 0),
           OrNum(Some(c.discount), 0), OrNum(Some(c.total), 0), |items| == 0)
  }

  /** The address data saved for a new address before the order is placed. */
  datatype FullAddressData = FullAddressData(kind: string, addressLine: Option<string>, city: Option<string>,
                                             state: Option<string>, phone: Option<string>, isDefault: bool)

  /** The chosen shipping address, its (possibly temporary) id, and the data to
      save when the id is temporary. */
  datatype ShippingChoice = ShippingChoice(address: Address, addressId: Option<string>, full: Option<FullAddressData>)

  datatype State = State(step: int, shipping: Option<ShippingChoice>, paymentMethod: string, notes: string, isPlacingOrder: bool)

  const Initial: State := State(1, None, "cod", "", false)

  const TempPrefix: string := "temp-"

  /** The address id is a temporary one, made up by the client. */
  predicate IsTemp(id: Option<string>) {
    id.Some? && StartsWith(id.value, TempPrefix)
  }

  /** The data saved for a new address: type lower-cased (default `home`), the
      street from `address` or `addressLine`, and the default flag from either
      `setAsDefault` or `isDefault`. */
  function NewAddressData(a: Address): (d: FullAddressData)
    ensures d.kind != ""
    ensures TruthyStr(a.kind) ==> d.kind == Lower(a.kind.value)
    ensures !TruthyStr(a.kind) ==> d.kind == "home"
    ensures TruthyStr(a.address) ==> d.addressLine == a.address
    ensures !TruthyStr(a.address) ==> d.addressLine == a.addressLine
    ensures d.city == a.city && d.state == a.state && d.phone == a.phone
    ensures d.isDefault <==> TruthyBool(a.setAsDefault) || TruthyBool(a.isDefault)
  {
    var kind := if a.kind.Some? then Lower(a.kind.value) else "";
    FullAddressData(if kind != "" then kind else "home", OrStrOpt(a.address, a.addressLine),
                    a.city, a.state, a.phone, TruthyBool(a.setAsDefault) || TruthyBool(a.isDefault))
  }

  /** `onShippingSubmit`: a saved address keeps its id; a new one gets the id
      `temp-<now>` and its data to save. Both move on to step 2. */
  function OnShippingSubmit(s: State, a: Address, now: nat): (s': State)
    ensures s'.step == 2 && s'.shipping.Some? && s'.shipping.value.address == a
    ensures s'.paymentMethod == s.paymentMethod && s'.notes == s.notes && s'.isPlacingOrder == s.isPlacingOrder
    ensures TruthyStr(a.addressId) ==> s'.shipping.value.addressId == a.addressId && s'.shipping.value.full.None?
    ensures !TruthyStr(a.addressId) ==>
              IsTemp(s'.shipping.value.addressId)
              && s'.shipping.value.addressId == Some(TempPrefix + NatToString(now))
              && s'.shipping.value.full == Some(NewAddressData(a))
  {
    var choice :=
      if TruthyStr(a.addressId) then ShippingChoice(a, a.addressId, None)
      else ShippingChoice(a, Some(TempPrefix + NatToString(now)), Some(NewAddressData(a)));
    assert !TruthyStr(a.addressId) ==> (TempPrefix + NatToString(now))[..|TempPrefix|] == TempPrefix;
    s.(step := 2, shipping := Some(choice))
  }

  /** `onPaymentSelect`: records the method and moves on to step 3. */
  function OnPaymentSelect(s: State, m: string): (s': State)
    ensures s'.step == 3 && s'.paymentMethod == m
    ensures s'.shipping == s.shipping && s'.isPlacingOrder == s.isPlacingOrder
  {
    s.(paymentMethod := m, step := 3)
  }

  /** `goToStep`: only going back is allowed. */
  function GoToStep(s: State, step: int): (s': State)
    ensures step < s.step ==> s' == s.(step := step)
    ensures step >= s.step ==> s' == s
    ensures s'.step <= s.step
  {
    if step < s.step then s.(step := step) else s
  }

  /** The order request. */
  datatype OrderPayload = OrderPayload(addressId: Option<string>, paymentMethod: string, notes: Option<string>)

  /** The order payload: always cash payment, whatever method was chosen, and
      no notes rather than empty notes. */
  function Payload(s: State): (p: OrderPayload)
    requires s.shipping.Some?
    ensures p.addressId == s.shipping.value.addressId
    ensures p.paymentMethod == "cash"
    ensures p.notes.None? <==> s.notes == ""
    ensures p.notes.Some? ==> p.notes.value == s.notes
  {
    OrderPayload(s.shipping.value.addressId, "cash", if s.notes != "" then Some(s.notes) else None)
  }

  /** What `onPlaceOrder` sets in motion. */
  datatype PlaceAction =
    | WaitBusy
    | AskForAddress
    | SaveAddressFirst(data: Option<FullAddressData>)
    | SubmitOrder(payload: OrderPayload)

  /** `onPlaceOrder`: refused while busy; without an address it returns to step 1;
      otherwise it sets the busy flag and saves a temporary address first or
      submits the order directly. */
  function OnPlaceOrder(s: State): (r: (State, PlaceAction))
    ensures s.isPlacingOrder ==> r == (s, WaitBusy)
    ensures !s.isPlacingOrder && s.shipping.None? ==> r == (s.(step := 1), AskForAddress) && !r.0.isPlacingOrder
    ensures !s.isPlacingOrder && s.shipping.Some? ==> r.0 == s.(isPlacingOrder := true)
    ensures !s.isPlacingOrder && s.shipping.Some? && IsTemp(s.shipping.value.addressId) ==>
              r.1 == SaveAddressFirst(s.shipping.value.full)
    ensures !s.isPlacingOrder && s.shipping.Some? && !IsTemp(s.shipping.value.addressId) ==>
              r.1 == SubmitOrder(Payload(s))
  {
    if s.isPlacingOrder then (s, WaitBusy)
    else if s.shipping.None? then (s.(step := 1), AskForAddress)
    else
      var s1 := s.(isPlacingOrder := true);
      if IsTemp(s.shipping.value.addressId) then (s1, SaveAddressFirst(s.shipping.value.full))
      else (s1, SubmitOrder(Payload(s)))
  }

  /** The body of a successful address save: `data`, which carries the
      new address's `_id`, may be missing. */
  datatype SavedAddress = SavedAddress(data: Option<SavedAddressData>)
  datatype SavedAddressData = SavedAddressData(dbId: Option<string>)

  /** Completion of the address save: on success the server's id replaces the
      temporary one and the order is submitted with it; a success without
      `data` throws while reading `response.data._id`, so nothing is submitted
      and the busy flag stays set; on failure the busy flag is cleared and
      nothing is submitted. */
  function OnAddressSaved(s: State, outcome: Outcome<SavedAddress>): (r: (State, Option<OrderPayload>))
    requires s.shipping.Some?
    ensures outcome.Ok? && outcome.value.data.Some? ==>
              var id := outcome.value.data.value.dbId;
              r.0.shipping.Some? && r.0.shipping.value.addressId == id
              && r.1 == Some(Payload(r.0)) && r.1.value.addressId == id
              && r.0.isPlacingOrder == s.isPlacingOrder
    ensures outcome.Ok? && outcome.value.data.None? ==> r == (s, None)
    ensures outcome.Err? ==> r == (s.(isPlacingOrder := false), None)
    ensures r.1.Some? <==> outcome.Ok? && outcome.value.data.Some?
  {
    match outcome
    case Ok(resp) =>
      if resp.data.None? then (s, None)
      else
        var s1 := s.(shipping := Some(s.shipping.value.(addressId := resp.data.value.dbId)));
        (s1, Some(Payload(s1)))
    case Err(_) => (s.(isPlacingOrder := false), None)
  }

  /** The ids an order record may carry. */
  datatype OrderIds = OrderIds(dbId: Option<string>, orderId: Option<string>)

  /** The `data` of the place-order response, possibly wrapping an `order`. */
  datatype PlacedData = PlacedData(ids: OrderIds, order: Option<OrderIds>)

  /** The place-order response: bare ids, or a `data` field. */
  datatype PlaceOrderResponse = PlaceOrderResponse(top: OrderIds, data: Option<PlacedData>)

  /** The order record: `data.order`, then `data`, then the response itself. */
  function PlacedOrder(resp: PlaceOrderResponse): (o: OrderIds)
    ensures resp.data.Some? && resp.data.value.order.Some? ==> o == resp.data.value.order.value
    ensures resp.data.Some? && resp.data.value.order.None? ==> o == resp.data.value.ids
    ensures resp.data.None? ==> o == resp.top
  {
    match resp.data
    case Some(d) => if d.order.Some? then d.order.value else d.ids
    case None => resp.top
  }

  /** What the end of `placeOrderNow` does. */
  datatype PlaceEffect = ClearCartAndTrack(orderId: string) | MissingOrderId | Failed(message: string)

  const DefaultOrderError: string := "Failed to place order. Please try again."

  /** The error shown when placing fails: the server's message, then the
      client's, then a default. */
  function PlaceOrderError(e: HttpError): (m: string)
    ensures TruthyStr(e.serverMessage) ==> m == e.serverMessage.value
    ensures !TruthyStr(e.serverMessage) && TruthyStr(e.message) ==> m == e.message.value
    ensures !TruthyStr(e.serverMessage) && !TruthyStr(e.message) ==> m == DefaultOrderError
    ensures m != ""
  {
    OrStr(e.serverMessage, OrStr(e.message, DefaultOrderError))
  }

  /** Completion of `placeOrderNow`: every outcome clears the busy flag; only a
      response with an order id (`_id`, then `orderId`) clears the cart and
      opens the order's tracking page. */
  function OnOrderPlaced(s: State, outcome: Outcome<PlaceOrderResponse>): (r: (State, PlaceEffect))
    ensures r.0 == s.(isPlacingOrder := false)
    ensures r.1.ClearCartAndTrack? <==>
              outcome.Ok? && TruthyStr(OrStrOpt(PlacedOrder(outcome.value).dbId, PlacedOrder(outcome.value).orderId))
    ensures r.1.ClearCartAndTrack? ==> r.1.orderId != ""
    ensures outcome.Err? ==> r.1 == Failed(PlaceOrderError(outcome.error))
  {
    var s1 := s.(isPlacingOrder := false);
    match outcome
    case Ok(resp) =>
      var o := PlacedOrder(resp);
      var id := OrStrOpt(o.dbId, o.orderId);
      if TruthyStr(id) then (s1, ClearCartAndTrack(id.value)) else (s1, MissingOrderId)
    case Err(e) => (s1, Failed(PlaceOrderError(e)))
  }

  /** Placing with a saved address submits that address's id, and whatever the
      server answers, the busy flag ends cleared. */
  lemma SavedAddressFlow(s: State, outcome: Outcome<PlaceOrderResponse>)
    requires !s.isPlacingOrder && s.shipping.Some? && !IsTemp(s.shipping.value.addressId)
    ensures var (s1, act) := OnPlaceOrder(s);
            s1.isPlacingOrder && act.SubmitOrder? && act.payload.addressId == s.shipping.value.addressId
            && !OnOrderPlaced(s1, outcome).0.isPlacingOrder
  {
  }

  /** Placing with a new address saves it first; a failed save ends the
      attempt, a successful one submits the order with the server's id, and a
      success without `data` leaves the page busy with no order sent. */
  lemma NewAddressFlow(s: State, now: nat, a: Address, saved: Outcome<SavedAddress>)
    requires !s.isPlacingOrder && !TruthyStr(a.addressId)
    ensures var s1 := OnShippingSubmit(s, a, now);
            var (s2, act) := OnPlaceOrder(s1);
            act == SaveAddressFirst(Some(NewAddressData(a))) && s2.isPlacingOrder
            && (saved.Err? ==> !OnAddressSaved(s2, saved).0.isPlacingOrder && OnAddressSaved(s2, saved).1.None?)
            && (saved.Ok? && saved.value.data.Some? ==>
                  OnAddressSaved(s2, saved).1 == Some(OrderPayload(saved.value.data.value.dbId, "cash", if s.notes == "" then None else Some(s.notes))))
            && (saved.Ok? && saved.value.data.None? ==>
                  OnAddressSaved(s2, saved).0.isPlacingOrder && OnAddressSaved(s2, saved).1.None?)
  {
  }

  /** `getProductImage`: the product's images, then the line's own, then none. */
  function ProductImage(item: LineItem): (r: string)
    ensures item.product.Some? ==> r == Images.FirstImage(Some(item.product.value.images))
    ensures item.product.None? ==> r == Images.FirstImage(item.images)
  {
    if item.product.Some? then Images.FirstImage(Some(item.product.value.images))
    else Images.FirstImage(item.images)
  }

  /** `getProductName`: the product's name, then the line's `name`, then `'Unknown Product'`. */
  function ProductName(item: LineItem): (r: string)
    ensures r != ""
    ensures TruthyStr(ProductNameOf(item)) ==> r == item.product.value.name
    ensures !TruthyStr(ProductNameOf(item)) && TruthyStr(item.name) ==> r == item.name.value
    ensures !TruthyStr(ProductNameOf(item)) && !TruthyStr(item.name) ==> r == "Unknown Product"
  {
    OrStr(ProductNameOf(item), OrStr(item.name, "Unknown Product"))
  }

  /** `getProductPrice`: the product's price, then the line's `price`, then 0. */
  function ProductPrice(item: LineItem): (r: int)
    ensures TruthyNum(ProductPriceOf(item)) ==> r == item.product.value.price
    ensures !TruthyNum(ProductPriceOf(item)) && TruthyNum(item.price) ==> r == item.price.value
    ensures !TruthyNum(ProductPriceOf(item)) && !TruthyNum(item.price) ==> r == 0
  {
    OrNum(ProductPriceOf(item), OrNum(item.price, 0))
  }
}

=== FILE: faq.dfy ===
/** The FAQ page: the list narrowed by category and by a case-insensitive
    search, and the open/closed state of each answer. */
module FaqPage {
  import opened Js

  datatype Faq = Faq(question: string, answer: string, category: string, isOpen: bool)

  /** The category tab that shows every question. */
  const AllCategories := "all"

  /** The active tab admits the question. */
  predicate InCategory(active: string, f: Faq) {
    active == AllCategories || f.category == active
  }

  /** The question or the answer contains the query, ignoring (ASCII) case; an
      empty query matches everything. */
  predicate Matches(query: string, f: Faq) {
    query == "" || Includes(Lower(f.question), Lower(query)) || Includes(Lower(f.answer), Lower(query))
  }

  /** The category filter as a predicate on questions. */
  function ByCategory(active: string): Faq -> bool {
    f => InCategory(active, f)
  }

  /** The search filter as a predicate on questions. */
  function BySearch(query: string): Faq -> bool {
    f => Matches(query, f)
  }

  /** Both filters at once. */
  function ByBoth(active: string, query: string): Faq -> bool {
    f => InCategory(active, f) && Matches(query, f)
  }

  /** `filteredFaqs`: the category filter, then the search filter, each applied
      only when it is set. The result is the list filtered once by both tests. */
  function Filtered(faqs: seq<Faq>, active: string, query: string): (r: seq<Faq>)
    ensures r == Filter(ByBoth(active, query), faqs)
    ensures IsSubsequence(r, faqs)
    ensures forall i :: 0 <= i < |r| ==> InCategory(active, r[i]) && Matches(query, r[i])
    ensures forall i :: 0 <= i < |faqs| && InCategory(active, faqs[i]) && Matches(query, faqs[i]) ==> faqs[i] in r
  {
    var byCategory := if active != AllCategories then Filter(ByCategory(active), faqs) else faqs;
    var r := if query != "" then Filter(BySearch(query), byCategory) else byCategory;
    TwoStagesAreOneFilter(faqs, active, query);
    r
  }

  /** The two stages keep exactly the questions both tests admit, in order. */
  lemma TwoStagesAreOneFilter(faqs: seq<Faq>, active: string, query: string)
    ensures var byCategory := if active != AllCategories then Filter(ByCategory(active), faqs) else faqs;
            (if query != "" then Filter(BySearch(query), byCategory) else byCategory) == Filter(ByBoth(active, query), faqs)
  {
    if active != AllCategories && query != "" {
      BothStages(faqs, active, query);
    } else if active != AllCategories {
      OnlyOneStage(faqs, ByCategory(active), ByBoth(active, query));
    } else if query != "" {
      OnlyOneStage(faqs, BySearch(query), ByBoth(active, query));
    } else {
      FilterAll(ByBoth(active, query), faqs);
    }
  }

  /** Category then search is one filter by both. */
  lemma BothStages(faqs: seq<Faq>, active: string, query: string)
    ensures Filter(BySearch(query), Filter(ByCategory(active), faqs)) == Filter(ByBoth(active, query), faqs)
  {
    FilterFilter(ByCategory(active), BySearch(query), faqs);
    FilterCongruent(x => ByCategory(active)(x) && BySearch(query)(x), ByBoth(active, query), faqs);
  }

  /** When one test is always passed, filtering by the other is filtering by both. */
  lemma OnlyOneStage(faqs: seq<Faq>, stage: Faq -> bool, both: Faq -> bool)
    requires forall f :: both(f) == stage(f)
    ensures Filter(stage, faqs) == Filter(both, faqs)
  {
    FilterCongruent(stage, both, faqs);
  }

  /** Upper- or lower-casing the query changes nothing. */
  lemma SearchIgnoresCase(faqs: seq<Faq>, active: string, query: string)
    ensures Filtered(faqs, active, Lower(query)) == Filtered(faqs, active, query)
  {
    assert Lower(Lower(query)) == Lower(query);
    assert forall i :: 0 <= i < |faqs| ==> Matches(Lower(query), faqs[i]) == Matches(query, faqs[i]);
    FilterCongruent(ByBoth(active, Lower(query)), ByBoth(active, query), faqs);
  }

  /** The "all" tab with no search shows every question. */
  lemma NoFilterShowsAll(faqs: seq<Faq>)
    ensures Filtered(faqs, AllCategories, "") == faqs
  {
  }

  /** `toggleFaq`: the chosen question opens or closes; nothing else changes. */
  function ToggleFaq(faqs: seq<Faq>, i: nat): (r: seq<Faq>)
    requires i < |faqs|
    ensures |r| == |faqs| && r[i].isOpen == !faqs[i].isOpen
    ensures r[i].(isOpen := faqs[i].isOpen) == faqs[i]
    ensures forall j :: 0 <= j < |faqs| && j != i ==> r[j] == faqs[j]
  {
    faqs[i := faqs[i].(isOpen := !faqs[i].isOpen)]
  }

  /** Toggling twice restores the list, and the filtered view does not depend
      on which answers are open. */
  lemma ToggleTwice(faqs: seq<Faq>, i: nat, active: string, query: string)
    requires i < |faqs|
    ensures ToggleFaq(ToggleFaq(faqs, i), i) == faqs
    ensures |Filtered(ToggleFaq(faqs, i), active, query)| == |Filtered(faqs, active, query)|
  {
    CountSameShape(ByBoth(active, query), faqs, ToggleFaq(faqs, i));
  }

  /** Two lists alike but for the open flags keep as many questions. */
  lemma {:induction false} CountSameShape(keep: Faq -> bool, a: seq<Faq>, b: seq<Faq>)
    requires |a| == |b|
    requires forall j :: 0 <= j < |a| ==> a[j].(isOpen := b[j].isOpen) == b[j]
    requires forall f: Faq, o: bool :: keep(f) == keep(f.(isOpen := o))
    ensures Count(keep, a) == Count(keep, b)
    decreases |a|
  {
    if |a| > 0 {
      assert keep(a[0]) == keep(b[0]) by {
        assert keep(a[0]) == keep(a[0].(isOpen := b[0].isOpen));
      }
      CountSameShape(keep, a[1..], b[1..]);
    }
  }
}

=== FILE: home.dfy ===
/** The storefront home page: the customer-review carousel, its names and
    initials, the star row, and the guards on the search box. */
module Home {
  import opened Js
  import Stars
  import Images

  /** A review's `user` and `product`: missing, a bare id, or a populated object. */
  datatype Author = NoAuthor | AuthorId(id: string) | AuthorObj(firstName: Option<string>, lastName: Option<string>)
  datatype Reviewed = NoProduct | ProductRefId(id: string) | ProductObj(name: Option<string>)

  datatype Review = Review(dbId: Option<string>, rating: int, user: Author, product: Reviewed)

  const MinRating := 4
  const MaxReviews := 6

  // ---------------------------------------------------------------------------
  // Loading and rotating reviews

  predicate IsHighlyRated(r: Review) {
    r.rating >= MinRating
  }

  /** `data.filter(r => r.rating >= 4).slice(0, 6)`: the first six highly rated
      reviews, in the order received. */
  function Highlights(data: seq<Review>): (r: seq<Review>)
    ensures |r| <= MaxReviews
    ensures forall i :: 0 <= i < |r| ==> IsHighlyRated(r[i])
    ensures IsSubsequence(r, data)
    ensures |r| <= |Filter(IsHighlyRated, data)| && r == Filter(IsHighlyRated, data)[..|r|]
    ensures |r| == if |Filter(IsHighlyRated, data)| < MaxReviews then |Filter(IsHighlyRated, data)| else MaxReviews
  {
    var kept := Filter(IsHighlyRated, data);
    var r := if |kept| <= MaxReviews then kept else kept[..MaxReviews];
    PrefixIsSubsequence(kept, |r|);
    assert r == kept[..|r|];
    IsSubsequenceTrans(r, kept, data);
    r
  }

  /** Receiving six or fewer highly rated reviews keeps all of them. */
  lemma FewHighlightsAllKept(data: seq<Review>)
    requires |Filter(IsHighlyRated, data)| <= MaxReviews
    ensures Highlights(data) == Filter(IsHighlyRated, data)
  {
  }

  /** The carousel: its reviews, the current index (`None` once the index has
      become `NaN`) and whether the five-second rotation has been started. */
  datatype Carousel = Carousel(reviews: seq<Review>, index: Option<int>, rotating: bool, loading: bool)

  datatype ReviewsResponse = ReviewsResponse(success: bool, data: Option<seq<Review>>)

  /** `loadRecentReviews`: a successful response with data replaces the reviews
      and starts the rotation when any are kept; loading ends on every outcome. */
  function OnReviewsLoaded(c: Carousel, outcome: Outcome<ReviewsResponse>): (r: Carousel)
    ensures !r.loading && r.index == c.index
    ensures outcome.Ok? && outcome.value.success && outcome.value.data.Some? ==>
              r.reviews == Highlights(outcome.value.data.value)
              && r.rotating == (c.rotating || r.reviews != [])
    ensures !(outcome.Ok? && outcome.value.success && outcome.value.data.Some?) ==>
              r == c.(loading := false)
  {
    match outcome
    case Ok(resp) =>
      if resp.success && resp.data.Some? then
        var kept := Highlights(resp.data.value);
        Carousel(kept, c.index, c.rotating || kept != [], false)
      else c.(loading := false)
    case Err(_) => c.(loading := false)
  }

  /** `nextReview`: one on, wrapping; with no reviews `x % 0` is `NaN`. */
  function Next(index: Option<int>, n: int): (r: Option<int>)
    requires n >= 0
    ensures n == 0 || index.None? <==> r.None?
    ensures r.Some? && 0 <= index.value < n ==> 0 <= r.value < n
  {
    if n == 0 || index.None? then None else Some(Rem(index.value + 1, n))
  }

  /** `previousReview`: one back, wrapping through `+ n`. */
  function Prev(index: Option<int>, n: int): (r: Option<int>)
    requires n >= 0
    ensures n == 0 || index.None? <==> r.None?
    ensures r.Some? && 0 <= index.value < n ==> 0 <= r.value < n
  {
    if n == 0 || index.None? then None else Some(Rem(index.value - 1 + n, n))
  }

  /** Forward and back undo each other on a valid index. */
  lemma NextPrevInverse(i: int, n: int)
    requires 0 <= i < n
    ensures Prev(Next(Some(i), n), n) == Some(i)
    ensures Next(Prev(Some(i), n), n) == Some(i)
  {
    RemOneWrap(i + 1, n);
    RemOneWrap(i - 1 + n, n);
    var j := Rem(i + 1, n);
    RemOneWrap(j - 1 + n, n);
    var k := Rem(i - 1 + n, n);
    RemOneWrap(k + 1, n);
  }

  /** The rotation timer's tick: `nextReview`, but only while there are reviews. */
  function Tick(c: Carousel): (r: Carousel)
    ensures r.reviews == c.reviews
    ensures c.reviews == [] ==> r == c
    ensures c.reviews != [] ==> r.index == Next(c.index, |c.reviews|)
  {
    if c.reviews == [] then c else c.(index := Next(c.index, |c.reviews|))
  }

  /** The three reviews from the current index on, wrapping. */
  function Ring(reviews: seq<Review>, index: int): (c: seq<Review>)
    requires reviews != [] && index >= 0
    ensures |c| == 3
  {
    seq(3, k requires 0 <= k < 3 => reviews[(index + k) % |reviews|])
  }

  /** The ids a list of reviews carries. */
  function IdsOf(rs: seq<Review>): (ids: set<Option<string>>)
    ensures forall a :: 0 <= a < |rs| ==> rs[a].dbId in ids
  {
    if rs == [] then {} else IdsOf(rs[..|rs| - 1]) + {rs[|rs| - 1].dbId}
  }

  /** Each review of `c` whose id has not been seen before it, in order: the
      reference the loop of `getVisibleReviews` follows. */
  function FirstById(c: seq<Review>): seq<Review>
  {
    if c == [] then []
    else
      var prev := FirstById(c[..|c| - 1]);
      if c[|c| - 1].dbId in IdsOf(prev) then prev else prev + [c[|c| - 1]]
  }

  /** `FirstById` draws from `c`, at most as many, starting with its first review. */
  lemma {:induction false} FirstByIdDraws(c: seq<Review>)
    ensures var r := FirstById(c);
            && |r| <= |c|
            && (c != [] ==> |r| >= 1 && r[0] == c[0])
            && (forall a :: 0 <= a < |r| ==> r[a] in c)
  {
    if c != [] {
      var init := c[..|c| - 1];
      FirstByIdDraws(init);
      if init != [] {
        assert c[0] == init[0];
      }
    }
  }

  /** `FirstById` keeps ids distinct and loses none. */
  lemma {:induction false} FirstByIdDistinct(c: seq<Review>)
    ensures var r := FirstById(c);
            && (forall a, b :: 0 <= a < b < |r| ==> r[a].dbId != r[b].dbId)
            && IdsOf(r) == IdsOf(c)
  {
    if c != [] {
      var init := c[..|c| - 1];
      FirstByIdDistinct(init);
      IdsOfSnoc(init, c[|c| - 1]);
      var prev := FirstById(init);
      if c[|c| - 1].dbId !in IdsOf(prev) {
        IdsOfSnoc(prev, c[|c| - 1]);
      }
    }
  }

  lemma IdsOfSnoc(rs: seq<Review>, x: Review)
    ensures IdsOf(rs + [x]) == IdsOf(rs) + {x.dbId}
  {
    assert (rs + [x])[..|rs|] == rs;
  }

  /** Every id in `IdsOf(rs)` belongs to some review of `rs`. */
  lemma {:induction false} IdsOfHas(rs: seq<Review>)
    ensures forall x :: x in IdsOf(rs) ==> exists j :: 0 <= j < |rs| && rs[j].dbId == x
  {
    if rs != [] {
      IdsOfHas(rs[..|rs| - 1]);
    }
  }

  /** One more candidate either repeats a seen id and is skipped, or is kept. */
  lemma FirstByIdStep(c: seq<Review>, i: int)
    requires 0 <= i < |c|
    ensures var prev := FirstById(c[..i]);
            FirstById(c[..i + 1]) == if c[i].dbId in IdsOf(prev) then prev else prev + [c[i]]
  {
    assert c[..i + 1][..i] == c[..i];
  }

  /** What the deduplicated ring holds: one to three reviews with distinct
      ids, starting at the current one, drawn from the ring and covering its ids. */
  lemma RingFacts(reviews: seq<Review>, index: int)
    requires reviews != [] && index >= 0
    ensures var c := Ring(reviews, index);
            var r := FirstById(c);
            && 1 <= |r| <= 3 && r[0] == reviews[index % |reviews|]
            && (forall a, b :: 0 <= a < b < |r| ==> r[a].dbId != r[b].dbId)
            && (forall a :: 0 <= a < |r| ==> r[a] in c)
            && IdsOf(r) == IdsOf(c)
  {
    var c := Ring(reviews, index);
    assert c[0] == reviews[index % |reviews|];
    FirstByIdDraws(c);
    FirstByIdDistinct(c);
  }

  /** `getVisibleReviews`: up to three reviews from the current index on,
      wrapping, skipping any whose id was already taken. */
  method VisibleReviews(reviews: seq<Review>, index: int) returns (r: seq<Review>)
    requires index >= 0
    ensures reviews == [] ==> r == []
    ensures reviews != [] ==> 1 <= |r| <= 3 && r[0] == reviews[index % |reviews|]
    ensures forall a, b :: 0 <= a < b < |r| ==> r[a].dbId != r[b].dbId
    ensures reviews != [] ==> forall a :: 0 <= a < |r| ==> r[a] in Ring(reviews, index)
    ensures reviews != [] ==> IdsOf(r) == IdsOf(Ring(reviews, index))
  {
    if reviews == [] {
      return [];
    }
    var n := |reviews|;
    ghost var c := Ring(reviews, index);
    r := [];
    var seen: set<Option<string>> := {};
    var i := 0;
    while i < 3
      invariant 0 <= i <= 3
      invariant r == FirstById(c[..i]) && seen == IdsOf(r)
    {
      var review := reviews[(index + i) % n];
      assert review == c[i];
      FirstByIdStep(c, i);
      if review.dbId !in seen {
        IdsOfSnoc(r, review);
        r := r + [review];
        seen := seen + {review.dbId};
      }
      i := i + 1;
    }
    assert c[..3] == c;
    RingFacts(reviews, index);
  }

  // ---------------------------------------------------------------------------
  // Names, stars, pictures

  /** `getStars` on the home page: filled `★` then empty `☆`. */
  function StarsOf(rating: int): (r: Option<string>)
    ensures r.Some? <==> 0 <= rating <= 5
    ensures r.Some? ==> |r.value| == 5
    ensures r.Some? ==> forall i :: 0 <= i < 5 ==> r.value[i] == (if i < rating then '\U{2605}' else '\U{2606}')
  {
    Stars.Row('\U{2605}', '\U{2606}', rating)
  }

  /** `getUserName`: the trimmed `"first last"` of a populated user, else `Anonymous`. */
  function UserName(review: Review): (r: string)
    ensures r != ""
    ensures !review.user.AuthorObj? ==> r == "Anonymous"
    ensures review.user.AuthorObj? && !TruthyStr(review.user.firstName) && !TruthyStr(review.user.lastName) ==> r == "Anonymous"
    ensures review.user.AuthorObj? && Trim(OrStr(review.user.firstName, "") + " " + OrStr(review.user.lastName, "")) != "" ==>
              r == Trim(OrStr(review.user.firstName, "") + " " + OrStr(review.user.lastName, ""))
    ensures review.user.AuthorObj? && Trim(OrStr(review.user.firstName, "") + " " + OrStr(review.user.lastName, "")) == "" ==>
              r == "Anonymous"
  {
    match review.user
    case AuthorObj(first, last) =>
      var full := Trim(OrStr(first, "") + " " + OrStr(last, ""));
      JoinedNamesBlank(first, last);
      if full != "" then full else "Anonymous"
    case _ => "Anonymous"
  }

  /** `getUserInitials`: the first characters of the first two space-separated
      words of the name, or its first character when it is one word. */
  function Initials(name: string): (r: string)
    ensures |r| <= 2
    ensures name != "" && ' ' !in name ==> r == [name[0]]
  {
    var words := Split(name, ' ');
    if |words| >= 2 then FirstChar(words[0]) + FirstChar(words[1])
    else FirstChar(name)
  }

  /** The shown name never starts or ends with white space. */
  lemma {:induction false} UserNameTrimmed(review: Review)
    ensures Trim(UserName(review)) == UserName(review)
  {
    if review.user.AuthorObj? {
      TrimIdempotent(OrStr(review.user.firstName, "") + " " + OrStr(review.user.lastName, ""));
    }
    TrimUnpadded("Anonymous");
  }

  /** White space before the first name or after the last name is never shown. */
  lemma {:induction false} UserNameIgnoresPadding(p: string, first: string, last: string, q: string, id: Option<string>, rating: int, product: Reviewed)
    requires AllSpace(p) && AllSpace(q) && first != "" && last != ""
    ensures UserName(Review(id, rating, AuthorObj(Some(p + first), Some(last + q)), product))
            == UserName(Review(id, rating, AuthorObj(Some(first), Some(last)), product))
  {
    assert OrStr(Some(p + first), "") == p + first && OrStr(Some(last + q), "") == last + q;
    TrimOfPaddedNames(p, first, last, q);
    UserNameFollowsTrim(Review(id, rating, AuthorObj(Some(p + first), Some(last + q)), product),
                        Review(id, rating, AuthorObj(Some(first), Some(last)), product));
  }

  /** Two authors whose joined names trim alike are shown alike. */
  lemma UserNameFollowsTrim(a: Review, b: Review)
    requires a.user.AuthorObj? && b.user.AuthorObj?
    requires Trim(OrStr(a.user.firstName, "") + " " + OrStr(a.user.lastName, ""))
             == Trim(OrStr(b.user.firstName, "") + " " + OrStr(b.user.lastName, ""))
    ensures UserName(a) == UserName(b)
  {
  }

  /** A populated user's name is `"first last"` when neither part has padding. */
  lemma UserNameOfNamedUser(first: string, last: string, id: Option<string>, rating: int, product: Reviewed)
    requires first != "" && last != ""
    requires !IsSpace(first[0]) && !IsSpace(last[|last| - 1])
    ensures UserName(Review(id, rating, AuthorObj(Some(first), Some(last)), product)) == first + " " + last
  {
    var full := first + " " + last;
    assert OrStr(Some(first), "") + " " + OrStr(Some(last), "") == full;
    assert full[0] == first[0] && full[|full| - 1] == last[|last| - 1];
    TrimUnpadded(full);
    assert full != "";
  }

  /** Two one-word names give both initials; `Anonymous` gives `A`. */
  lemma InitialsOfTwoWords(first: string, last: string)
    requires first != "" && last != "" && ' ' !in first && ' ' !in last
    ensures Initials(first + " " + last) == [first[0], last[0]]
    ensures Initials("Anonymous") == "A"
  {
    assert first + " " + last == first + [' '] + last;
    SplitTwo(first, last, ' ');
    assert ' ' !in "Anonymous";
  }

  /** `getProductName`: a populated product's name, else `Product`. */
  function ProductName(review: Review): (r: string)
    ensures r != ""
    ensures review.product.ProductObj? && TruthyStr(review.product.name) ==> r == review.product.name.value
    ensures !(review.product.ProductObj? && TruthyStr(review.product.name)) ==> r == "Product"
  {
    match review.product
    case ProductObj(name) => OrStr(name, "Product")
    case _ => "Product"
  }

  /** `getProductImageUrl`: a first image starting with `http` passes through;
      any other is appended to the origin as it stands, without inserting `/`. */
  function ProductImageUrl(images: Option<seq<string>>): (r: string)
    ensures (images.None? || images.value == [] || images.value[0] == "") ==> r == Images.Placeholder
    ensures images.Some? && images.value != [] && StartsWith(images.value[0], "http") ==> r == images.value[0]
    ensures images.Some? && images.value != [] && images.value[0] != "" && !StartsWith(images.value[0], "http") ==>
              r == Images.BaseUrl + images.value[0]
  {
    if images.Some? && images.value != [] && images.value[0] != "" then
      var p := images.value[0];
      if StartsWith(p, "http") then p else Images.BaseUrl + p
    else Images.Placeholder
  }

  /** For a path with its leading `/`, the home page builds the same URL as the
      shared normaliser; without it, the two differ. */
  lemma ProductImageAgreesOnRootedPaths(p: string)
    requires StartsWith(p, "/")
    ensures ProductImageUrl(Some([p])) == Images.Absolutize(p)
  {
    assert p[0] == '/';
    assert !StartsWith(p, "http");
    assert !Images.IsAbsolute(p);
  }

  // ---------------------------------------------------------------------------
  // Search box

  datatype SearchAction = Warn | Navigate(search: string)

  /** `searchProducts`: a blank query warns; otherwise the trimmed query is searched. */
  function Search(query: string): (r: SearchAction)
    ensures r.Warn? <==> Trim(query) == ""
    ensures r.Navigate? ==> r.search == Trim(query) && r.search != ""
  {
    if query == "" || |Trim(query)| == 0 then Warn else Navigate(Trim(query))
  }

  /** What typing in the search box does: clear the suggestions, or ask for five
      products matching the trimmed text. */
  datatype SuggestAction = ClearSuggestions | Suggest(search: string, limit: int)

  /** `onSearchInput`: fewer than two characters after trimming clears the
      suggestions without a request. */
  function OnSearchInput(query: string): (r: SuggestAction)
    ensures r.ClearSuggestions? <==> |Trim(query)| < 2
    ensures r.Suggest? ==> r.search == Trim(query) && r.limit == 5
  {
    var q := Trim(query);
    if |q| < 2 then ClearSuggestions else Suggest(q, 5)
  }

  /** Padding never changes what the search box does. */
  lemma SearchIgnoresPadding(p: string, query: string, q: string)
    requires AllSpace(p) && AllSpace(q)
    ensures Search(p + query + q) == Search(query)
    ensures OnSearchInput(p + query + q) == OnSearchInput(query)
  {
    TrimOfPadded(p, query, q);
  }
}

=== FILE: images.dfy ===
/** Product-image URL normalisation. Server image paths are either absolute
    URLs, passed through, or paths on the image server, which are prefixed with
    the image server's origin. The same function is repeated in the product
    card, the product listing, the image gallery, the product page, the
    checkout, the order review, the order pages and the wishlist. */
module Images {
  import opened Js

  const Placeholder: string := "assets/images/placeholder.png"
  const BaseUrl: string := "http://localhost:5000"

  /** The path is already an absolute http or https URL. */
  predicate IsAbsolute(p: string) {
    StartsWith(p, "http://") || StartsWith(p, "https://")
  }

  /** An absolute URL passes through; any other path gets the origin prepended,
      with a `/` inserted unless the path already starts with one. */
  function Absolutize(p: string): (r: string)
    ensures IsAbsolute(p) ==> r == p
    ensures !IsAbsolute(p) && StartsWith(p, "/") ==> r == BaseUrl + p
    ensures !IsAbsolute(p) && !StartsWith(p, "/") ==> r == BaseUrl + "/" + p
    ensures IsAbsolute(r)
  {
    if IsAbsolute(p) then p
    else
      var r := BaseUrl + (if StartsWith(p, "/") then p else "/" + p);
      assert r[..7] == "http://";
      r
  }

  /** Normalising twice is normalising once: the result is always absolute. */
  lemma AbsolutizeIdempotent(p: string)
    ensures Absolutize(Absolutize(p)) == Absolutize(p)
  {
  }

  /** A relative path with or without its leading `/` names the same URL. */
  lemma LeadingSlashIrrelevant(p: string)
    requires !IsAbsolute(p) && !StartsWith(p, "/")
    ensures Absolutize("/" + p) == Absolutize(p)
  {
    assert !IsAbsolute("/" + p) by {
      assert ("/" + p)[0] == '/';
    }
    assert StartsWith("/" + p, "/");
    assert BaseUrl + ("/" + p) == BaseUrl + "/" + p;
  }

  /** `getImageUrl`: the placeholder for an empty path, otherwise the normalised path. */
  function ImageUrl(p: string): (r: string)
    ensures p == "" <==> r == Placeholder
    ensures p != "" ==> r == Absolutize(p)
  {
    if p == "" then Placeholder
    else
      assert !IsAbsolute(Placeholder) by {
        assert Placeholder[0] == 'a';
      }
      Absolutize(p)
  }

  /** `getProductImage`: the placeholder when there is no image, otherwise the
      first image normalised (an empty first path is not special-cased). */
  function FirstImage(images: Option<seq<string>>): (r: string)
    ensures (images.None? || images.value == []) ==> r == Placeholder
    ensures images.Some? && images.value != [] ==> r == Absolutize(images.value[0])
  {
    if images.None? || images.value == [] then Placeholder else Absolutize(images.value[0])
  }
}

=== FILE: js.dfy ===
/** Shared vocabulary for the storefront model: optional values, JavaScript
    truthiness, the string operations the components call (trim, case mapping,
    substring search, split/join, repeat) and the sequence combinators behind
    `filter`, `reduce`, `indexOf` and `sort`. */
module Js {

  /** A TypeScript optional value (`T | undefined`). */
  datatype Option<+T> = None | Some(value: T) {
    function GetOr(default: T): T {
      match this
      case Some(v) => v
      case None => default
    }
  }

  /** A value that distinguishes `undefined` from `null` (for `!== undefined` tests). */
  datatype Nullable<+T> = Undefined | Null | Present(value: T)

  /** A failed HTTP request: its status, the server's `error.message` and the
      client-side `message`, either of which may be missing. */
  datatype HttpError = HttpError(status: int, serverMessage: Option<string>, message: Option<string>)

  /** The outcome of an HTTP request, delivered to `next` or to `error`. */
  datatype Outcome<+T> = Ok(value: T) | Err(error: HttpError)

  // ---------------------------------------------------------------------------
  // Truthiness

  /** An optional string is truthy iff it is present and non-empty. */
  predicate TruthyStr(s: Option<string>) {
    s.Some? && s.value != ""
  }

  /** An optional number is truthy iff it is present and not zero (NaN is not modelled). */
  predicate TruthyNum(n: Option<int>) {
    n.Some? && n.value != 0
  }

  /** An optional flag is truthy iff it is present and `true`. */
  predicate TruthyBool(b: Option<bool>) {
    b.Some? && b.value
  }

  /** `a || b` on an optional string. */
  function OrStr(a: Option<string>, b: string): (r: string)
    ensures TruthyStr(a) ==> r == a.value
    ensures !TruthyStr(a) ==> r == b
  {
    if TruthyStr(a) then a.value else b
  }

  /** `a || b` on optional strings, where the result may still be absent. */
  function OrStrOpt(a: Option<string>, b: Option<string>): (r: Option<string>)
    ensures TruthyStr(a) ==> r == a
    ensures !TruthyStr(a) ==> r == b
  {
    if TruthyStr(a) then a else b
  }

  /** `a || b` on an optional number. */
  function OrNum(a: Option<int>, b: int): (r: int)
    ensures TruthyNum(a) ==> r == a.value
    ensures !TruthyNum(a) ==> r == b
  {
    if TruthyNum(a) then a.value else b
  }

  /** `a || b` on optional numbers, where the result may still be absent. */
  function OrNumOpt(a: Option<int>, b: Option<int>): (r: Option<int>)
    ensures TruthyNum(a) ==> r == a
    ensures !TruthyNum(a) ==> r == b
  {
    if TruthyNum(a) then a else b
  }

  /** `a ?? b`: only an absent value falls through, so 0 and "" are kept. */
  function Coalesce<T>(a: Option<T>, b: T): (r: T)
    ensures a.Some? ==> r == a.value
    ensures a.None? ==> r == b
  {
    match a
    case Some(v) => v
    case None => b
  }

  // ---------------------------------------------------------------------------
  // Characters and strings

  /** The characters `String.prototype.trim` removes: ECMAScript white space and line terminators. */
  predicate IsSpace(c: char) {
    var n := c as int;
    n == 0x09 || n == 0x0A || n == 0x0B || n == 0x0C || n == 0x0D || n == 0x20
    || n == 0xA0 || n == 0x1680 || (0x2000 <= n <= 0x200A) || n == 0x2028
    || n == 0x2029 || n == 0x202F || n == 0x205F || n == 0x3000 || n == 0xFEFF
  }

  /** ASCII lower-casing of one character. */
  function LowerChar(c: char): (r: char)
    ensures 'A' <= c <= 'Z' ==> r as int == c as int + 32
    ensures !('A' <= c <= 'Z') ==> r == c
  {
    if 'A' <= c <= 'Z' then (c as int + 32) as char else c
  }

  /** ASCII upper-casing of one character. */
  function UpperChar(c: char): (r: char)
    ensures 'a' <= c <= 'z' ==> r as int == c as int - 32
    ensures !('a' <= c <= 'z') ==> r == c
  {
    if 'a' <= c <= 'z' then (c as int - 32) as char else c
  }

  /** `toLowerCase`, on the ASCII letters. */
  function Lower(s: string): (r: string)
    ensures |r| == |s|
    ensures forall i :: 0 <= i < |s| ==> r[i] == LowerChar(s[i])
  {
    seq(|s|, i requires 0 <= i < |s| => LowerChar(s[i]))
  }

  /** `toUpperCase`, on the ASCII letters. */
  function Upper(s: string): (r: string)
    ensures |r| == |s|
    ensures forall i :: 0 <= i < |s| ==> r[i] == UpperChar(s[i])
  {
    seq(|s|, i requires 0 <= i < |s| => UpperChar(s[i]))
  }

  /** Drops the leading white space. */
  function TrimStart(s: string): (r: string)
    ensures |r| <= |s| && r == s[|s| - |r|..]
    ensures r == [] || !IsSpace(r[0])
    ensures forall i :: 0 <= i < |s| - |r| ==> IsSpace(s[i])
  {
    if |s| > 0 && IsSpace(s[0]) then TrimStart(s[1..]) else s
  }

  /** Drops the trailing white space. */
  function TrimEnd(s: string): (r: string)
    ensures |r| <= |s| && r == s[..|r|]
    ensures r == [] || !IsSpace(r[|r| - 1])
    ensures forall i :: |r| <= i < |s| ==> IsSpace(s[i])
  {
    if |s| > 0 && IsSpace(s[|s| - 1]) then TrimEnd(s[..|s| - 1]) else s
  }

  /** `String.prototype.trim`: the longest slice of `s` that neither starts nor
      ends with white space, obtained by removing only white space. */
  function Trim(s: string): (r: string)
    ensures |r| <= |s|
    ensures exists k :: TrimmedAt(s, r, k)
    ensures r == [] || (!IsSpace(r[0]) && !IsSpace(r[|r| - 1]))
  {
    var t := TrimStart(s);
    var r := TrimEnd(t);
    var k := |s| - |t|;
    assert r == s[k..k + |r|];
    assert TrimmedAt(s, r, k);
    r
  }

  /** `r` is the slice of `s` starting at `k`, and everything outside it is white space. */
  predicate TrimmedAt(s: string, r: string, k: int) {
    0 <= k <= |s| - |r| && r == s[k..k + |r|]
    && (forall i :: 0 <= i < k ==> IsSpace(s[i]))
    && (forall i :: k + |r| <= i < |s| ==> IsSpace(s[i]))
  }

  /** A string is blank when trimming leaves nothing. */
  predicate IsBlank(s: string) {
    Trim(s) == ""
  }

  /** A string is blank exactly when every character is white space. */
  lemma BlankIffAllSpace(s: string)
    ensures IsBlank(s) <==> AllSpace(s)
  {
    var t := TrimStart(s);
    assert t != [] ==> t[0] == s[|s| - |t|];
    assert t != [] ==> TrimEnd(t) != [];
  }

  /** `s.includes(t)`: `t` occurs as a contiguous substring of `s`. */
  predicate Includes(s: string, t: string) {
    exists i | 0 <= i <= |s| - |t| :: OccursAt(s, t, i)
  }

  /** `t` occurs in `s` at position `i`. */
  predicate OccursAt(s: string, t: string, i: int) {
    0 <= i <= |s| - |t| && s[i..i + |t|] == t
  }

  /** A string lacking one of `t`'s characters does not contain `t`. */
  lemma MissingCharExcludes(s: string, t: string, k: int)
    requires 0 <= k < |t| && t[k] !in s
    ensures !Includes(s, t)
  {
    forall i | 0 <= i <= |s| - |t|
      ensures !OccursAt(s, t, i)
    {
      assert s[i + k] in s;
    }
  }

  /** `s.startsWith(p)`. */
  predicate StartsWith(s: string, p: string) {
    |p| <= |s| && s[..|p|] == p
  }

  /** `s.charAt(0)`: the first character, or "" for an empty string. */
  function FirstChar(s: string): (r: string)
    ensures s == [] ==> r == []
    ensures s != [] ==> r == [s[0]]
  {
    if s == [] then [] else [s[0]]
  }

  /** `a.join(sep)`. */
  function Join(parts: seq<string>, sep: string): (r: string)
    ensures parts == [] ==> r == []
    ensures |parts| == 1 ==> r == parts[0]
    ensures |parts| >= 2 ==> r == Join(parts[..|parts| - 1], sep) + sep + parts[|parts| - 1]
  {
    if |parts| == 0 then []
    else if |parts| == 1 then parts[0]
    else Join(parts[..|parts| - 1], sep) + sep + parts[|parts| - 1]
  }

  /** `[a, b, ...].filter(Boolean).join(sep)`: the present, non-empty parts joined. */
  function CompactJoin(parts: seq<Option<string>>, sep: string): (r: string)
    ensures r == "" <==> forall i :: 0 <= i < |parts| ==> !TruthyStr(parts[i])
  {
    var kept := Filter(TruthyStr, parts);
    var vals := seq(|kept|, i requires 0 <= i < |kept| => kept[i].value);
    JoinEmptyIff(vals, sep);
    Join(vals, sep)
  }

  /** Reference for `CompactJoin`, built part by part: a missing or empty part
      adds nothing, the first kept part starts the text, and every later kept
      part is appended after the separator. */
  function JoinKept(parts: seq<Option<string>>, sep: string): string
    decreases |parts|
  {
    if parts == [] then ""
    else
      var acc := JoinKept(parts[..|parts| - 1], sep);
      var p := OrStr(parts[|parts| - 1], "");
      if p == "" then acc else if acc == "" then p else acc + sep + p
  }

  /** Filtering then joining agrees with the part-by-part reference on every input. */
  lemma {:induction false} CompactJoinIsJoinKept(parts: seq<Option<string>>, sep: string)
    ensures CompactJoin(parts, sep) == JoinKept(parts, sep)
    decreases |parts|
  {
    if parts != [] {
      var init := parts[..|parts| - 1];
      assert parts == init + [parts[|parts| - 1]];
      CompactJoinIsJoinKept(init, sep);
      CompactJoinSnoc(init, parts[|parts| - 1], sep);
    }
  }

  /** One more part: kept after the separator when it is non-empty, or alone
      when nothing came before. */
  lemma CompactJoinSnoc(init: seq<Option<string>>, x: Option<string>, sep: string)
    ensures !TruthyStr(x) ==> CompactJoin(init + [x], sep) == CompactJoin(init, sep)
    ensures TruthyStr(x) && CompactJoin(init, sep) == "" ==> CompactJoin(init + [x], sep) == x.value
    ensures TruthyStr(x) && CompactJoin(init, sep) != "" ==>
              CompactJoin(init + [x], sep) == CompactJoin(init, sep) + sep + x.value
  {
    FilterSnoc(TruthyStr, init, x);
    if TruthyStr(x) {
      var k0 := Filter(TruthyStr, init);
      var v0 := seq(|k0|, i requires 0 <= i < |k0| => k0[i].value);
      JoinEmptyIff(v0, sep);
      var k := k0 + [x];
      var v := seq(|k|, i requires 0 <= i < |k| => k[i].value);
      assert v == v0 + [x.value];
      assert v[..|v| - 1] == v0;
    }
  }

  /** Every character is white space. */
  predicate AllSpace(s: string) {
    forall i :: 0 <= i < |s| ==> IsSpace(s[i])
  }

  /** Trimming is unaffected by any white space added before and after the string. */
  lemma TrimOfPadded(p: string, s: string, q: string)
    requires AllSpace(p) && AllSpace(q)
    ensures Trim(p + s + q) == Trim(s)
  {
    assert p + s + q == p + (s + q);
    TrimStartSpacePrefix(p, s + q);
    TrimStartSpaceSuffix(s, q);
    if TrimStart(s) != [] {
      TrimEndSpaceSuffix(TrimStart(s), q);
    }
  }

  /** White space before the first of two space-joined names and after the
      second trims away. */
  lemma TrimOfPaddedNames(p: string, first: string, last: string, q: string)
    requires AllSpace(p) && AllSpace(q)
    ensures Trim((p + first) + " " + (last + q)) == Trim(first + " " + last)
  {
    assert (p + first) + " " + (last + q) == p + (first + " " + last) + q;
    TrimOfPadded(p, first + " " + last, q);
  }

  /** `TrimStart` skips a white-space prefix. */
  lemma {:induction false} TrimStartSpacePrefix(p: string, s: string)
    requires AllSpace(p)
    ensures TrimStart(p + s) == TrimStart(s)
    decreases |p|
  {
    if p == [] {
      assert p + s == s;
    } else {
      assert (p + s)[0] == p[0];
      assert (p + s)[1..] == p[1..] + s;
      TrimStartSpacePrefix(p[1..], s);
    }
  }

  /** Appended white space survives `TrimStart` unless the string is all white space. */
  lemma {:induction false} TrimStartSpaceSuffix(s: string, q: string)
    requires AllSpace(q)
    ensures TrimStart(s) != [] ==> TrimStart(s + q) == TrimStart(s) + q
    ensures TrimStart(s) == [] ==> TrimStart(s + q) == []
    decreases |s|
  {
    if s == [] {
      assert s + q == q;
      TrimStartSpacePrefix(q, []);
      assert q + [] == q;
    } else {
      assert (s + q)[0] == s[0];
      assert (s + q)[1..] == s[1..] + q;
      if IsSpace(s[0]) {
        TrimStartSpaceSuffix(s[1..], q);
      }
    }
  }

  /** `TrimEnd` removes appended white space. */
  lemma {:induction false} TrimEndSpaceSuffix(s: string, q: string)
    requires AllSpace(q)
    ensures TrimEnd(s + q) == TrimEnd(s)
    decreases |q|
  {
    if q == [] {
      assert s + q == s;
    } else {
      var x := s + q;
      assert x[|x| - 1] == q[|q| - 1];
      assert x[..|x| - 1] == s + q[..|q| - 1];
      TrimEndSpaceSuffix(s, q[..|q| - 1]);
    }
  }

  /** Trimming is idempotent: a trimmed string is its own trim. */
  lemma TrimIdempotent(s: string)
    ensures Trim(Trim(s)) == Trim(s)
  {
    var r := Trim(s);
    assert TrimStart(r) == r;
    assert TrimEnd(r) == r;
  }

  /** Two missing or empty names joined by a space trim to nothing. */
  lemma JoinedNamesBlank(first: Option<string>, last: Option<string>)
    ensures !TruthyStr(first) && !TruthyStr(last) ==> Trim(OrStr(first, "") + " " + OrStr(last, "")) == ""
  {
    if !TruthyStr(first) && !TruthyStr(last) {
      assert IsSpace(' ');
      assert OrStr(first, "") + " " + OrStr(last, "") == " ";
      assert TrimStart(" ") == "";
    }
  }

  /** A string that neither starts nor ends with white space is its own trim. */
  lemma TrimUnpadded(s: string)
    requires s == [] || (!IsSpace(s[0]) && !IsSpace(s[|s| - 1]))
    ensures Trim(s) == s
  {
    assert TrimStart(s) == s;
  }

  /** Three non-empty parts are all kept and joined in order. */
  lemma CompactJoinThree(a: string, b: string, c: string, sep: string)
    requires a != "" && b != "" && c != ""
    ensures CompactJoin([Some(a), Some(b), Some(c)], sep) == a + sep + b + sep + c
  {
    var parts := [Some(a), Some(b), Some(c)];
    assert [Some(c)][1..] == [];
    assert Filter(TruthyStr, [Some(c)]) == [Some(c)];
    assert [Some(b), Some(c)][1..] == [Some(c)];
    assert Filter(TruthyStr, [Some(b), Some(c)]) == [Some(b), Some(c)];
    assert parts[1..] == [Some(b), Some(c)];
    assert Filter(TruthyStr, parts) == parts;
    var vals := seq(3, i requires 0 <= i < 3 => parts[i].value);
    assert vals == [a, b, c];
    assert vals[..2] == [a, b] && [a, b][..1] == [a];
    assert Join([a, b], sep) == a + sep + b;
  }

  /** An empty middle part is dropped with its separator. */
  lemma CompactJoinSkipMiddle(a: string, c: string, sep: string)
    requires a != "" && c != ""
    ensures CompactJoin([Some(a), Some(""), Some(c)], sep) == a + sep + c
  {
    var parts := [Some(a), Some(""), Some(c)];
    assert [Some(c)][1..] == [];
    assert Filter(TruthyStr, [Some(c)]) == [Some(c)];
    assert !TruthyStr(Some(""));
    assert [Some(""), Some(c)][1..] == [Some(c)];
    assert Filter(TruthyStr, [Some(""), Some(c)]) == [Some(c)];
    assert parts[1..] == [Some(""), Some(c)];
    var kept := Filter(TruthyStr, parts);
    assert kept == [Some(a), Some(c)];
    var vals := seq(2, i requires 0 <= i < 2 => kept[i].value);
    assert vals == [a, c];
    assert vals[..1] == [a];
  }

  /** Joining non-empty strings gives the empty string only for no strings. */
  lemma JoinEmptyIff(vals: seq<string>, sep: string)
    requires forall i :: 0 <= i < |vals| ==> vals[i] != ""
    ensures Join(vals, sep) == "" <==> vals == []
  {
    if |vals| >= 2 {
      assert |Join(vals, sep)| >= |vals[|vals| - 1]|;
    }
  }

  /** Splitting two separator-free words joined by the separator gives back the words. */
  lemma SplitTwo(a: string, b: string, sep: char)
    requires sep !in a && sep !in b
    ensures Split(a + [sep] + b, sep) == [a, b]
  {
    var s := a + [sep] + b;
    assert s[|a|] == sep;
    assert forall i :: 0 <= i < |a| ==> s[i] == a[i];
    assert FindChar(s, sep).Some?;
    var k := FindChar(s, sep).value;
    assert k == |a|;
    assert s[..k] == a;
    assert s[k + 1..] == b;
    assert FindChar(b, sep).None?;
  }

  /** Splitting at the first separator: the separator-free head is the first part. */
  lemma SplitCons(a: string, rest: string, sep: char)
    requires sep !in a
    ensures Split(a + [sep] + rest, sep) == [a] + Split(rest, sep)
  {
    var s := a + [sep] + rest;
    assert s[|a|] == sep;
    assert forall i :: 0 <= i < |a| ==> s[i] == a[i];
    assert FindChar(s, sep).Some?;
    assert FindChar(s, sep).value == |a|;
    assert s[..|a|] == a;
    assert s[|a| + 1..] == rest;
  }

  /** A string without the separator splits into itself. */
  lemma SplitNone(a: string, sep: char)
    requires sep !in a
    ensures Split(a, sep) == [a]
  {
    assert forall i :: 0 <= i < |a| ==> a[i] in a;
  }

  /** Position of the first `sep` in `s`, if any. */
  function FindChar(s: string, sep: char): (r: Option<nat>)
    ensures r.Some? ==> r.value < |s| && s[r.value] == sep
                        && forall i :: 0 <= i < r.value ==> s[i] != sep
    ensures r.None? ==> forall i :: 0 <= i < |s| ==> s[i] != sep
  {
    if |s| == 0 then None
    else if s[0] == sep then Some(0)
    else match FindChar(s[1..], sep)
      case Some(k) => Some(k + 1)
      case None => None
  }

  /** `s.split(sep)` for a one-character separator: always at least one part,
      empty parts kept and no part containing the separator. */
  function Split(s: string, sep: char): (r: seq<string>)
    ensures |r| >= 1
    ensures forall i :: 0 <= i < |r| ==> sep !in r[i]
    decreases |s|
  {
    match FindChar(s, sep)
    case None => [s]
    case Some(k) => [s[..k]] + Split(s[k + 1..], sep)
  }

  /** `s.repeat(n)` for a one-character `s`: a RangeError (`None`) for a negative count. */
  function Repeat(c: char, n: int): (r: Option<string>)
    ensures r.Some? <==> n >= 0
    ensures r.Some? ==> |r.value| == n && forall i :: 0 <= i < n ==> r.value[i] == c
  {
    if n < 0 then None else Some(seq(n, _ => c))
  }

  /** `a % b` in JavaScript: the remainder truncates toward zero, so it takes
      the sign of `a`. */
  function Rem(a: int, b: int): (r: int)
    requires b != 0
    ensures a >= 0 && b > 0 ==> r == a % b
    ensures a >= 0 ==> 0 <= r
    ensures a < 0 ==> r <= 0
    ensures -b < r < b || b < r < -b
  {
    var m := (if a >= 0 then a else -a) % (if b > 0 then b else -b);
    if a >= 0 then m else -m
  }

  /** The remainder of a count below twice the divisor: one wrap at most. */
  lemma RemOneWrap(a: int, n: int)
    requires 0 <= a < 2 * n
    ensures Rem(a, n) == if a < n then a else a - n
  {
    if a < n {
      assert a / n == 0;
    } else {
      assert a / n == 1;
    }
  }

  /** Decimal rendering of an integer, as a template literal prints it. */
  function NatToString(n: nat): (r: string)
    ensures |r| >= 1
    ensures forall i :: 0 <= i < |r| ==> '0' <= r[i] <= '9'
  {
    var d := [(48 + n % 10) as char];
    if n < 10 then d else NatToString(n / 10) + d
  }

  /** Decimal rendering of any integer, with a leading '-' for negatives. */
  function IntToString(n: int): (r: string)
    ensures n >= 0 ==> r == NatToString(n)
    ensures n < 0 ==> r == "-" + NatToString(-n)
  {
    if n >= 0 then NatToString(n) else "-" + NatToString(-n)
  }

  // ---------------------------------------------------------------------------
  // Sequences

  /** `a` is obtained from `b` by deleting elements, keeping the order. */
  predicate IsSubsequence<T(==)>(a: seq<T>, b: seq<T>)
    decreases |b|
  {
    |a| == 0 || (|b| > 0 && ((a[0] == b[0] && IsSubsequence(a[1..], b[1..])) || IsSubsequence(a, b[1..])))
  }

  /** A subsequence of a subsequence is a subsequence. */
  lemma {:induction false} IsSubsequenceTrans<T>(a: seq<T>, b: seq<T>, c: seq<T>)
    requires IsSubsequence(a, b) && IsSubsequence(b, c)
    ensures IsSubsequence(a, c)
    decreases |c|
  {
    if a != [] {
      if IsSubsequence(b, c[1..]) {
        IsSubsequenceTrans(a, b, c[1..]);
      } else if a[0] == b[0] && IsSubsequence(a[1..], b[1..]) {
        IsSubsequenceTrans(a[1..], b[1..], c[1..]);
      } else {
        IsSubsequenceTrans(a, b[1..], c[1..]);
      }
    }
  }

  /** A prefix is a subsequence. */
  lemma {:induction false} PrefixIsSubsequence<T>(xs: seq<T>, n: nat)
    requires n <= |xs|
    ensures IsSubsequence(xs[..n], xs)
    decreases n
  {
    if n > 0 {
      assert xs[..n][1..] == xs[1..][..n - 1];
      PrefixIsSubsequence(xs[1..], n - 1);
    }
  }

  /** Every sequence is a subsequence of itself. */
  lemma {:induction false} IsSubsequenceRefl<T>(xs: seq<T>)
    ensures IsSubsequence(xs, xs)
    decreases |xs|
  {
    if |xs| > 0 {
      IsSubsequenceRefl(xs[1..]);
    }
  }

  /** `xs.filter(p)`: the elements satisfying `p`, in order. */
  function Filter<T(==)>(p: T -> bool, xs: seq<T>): (r: seq<T>)
    ensures |r| <= |xs|
    ensures forall i :: 0 <= i < |r| ==> p(r[i])
    ensures forall i :: 0 <= i < |r| ==> r[i] in xs
    ensures forall i :: 0 <= i < |xs| && p(xs[i]) ==> xs[i] in r
    ensures IsSubsequence(r, xs)
    ensures |r| == Count(p, xs)
  {
    if |xs| == 0 then []
    else if p(xs[0]) then [xs[0]] + Filter(p, xs[1..])
    else Filter(p, xs[1..])
  }

  /** Filtering distributes over concatenation. */
  lemma {:induction false} FilterAppend<T>(p: T -> bool, xs: seq<T>, ys: seq<T>)
    ensures Filter(p, xs + ys) == Filter(p, xs) + Filter(p, ys)
    decreases |xs|
  {
    if |xs| == 0 {
      assert xs + ys == ys;
    } else {
      assert (xs + ys)[0] == xs[0];
      assert (xs + ys)[1..] == xs[1..] + ys;
      FilterAppend(p, xs[1..], ys);
    }
  }

  /** Filtering with a predicate every element satisfies keeps everything. */
  lemma {:induction false} FilterAll<T>(p: T -> bool, xs: seq<T>)
    requires forall i :: 0 <= i < |xs| ==> p(xs[i])
    ensures Filter(p, xs) == xs
    decreases |xs|
  {
    if |xs| > 0 {
      FilterAll(p, xs[1..]);
    }
  }

  /** Filtering with two predicates that agree on every element gives the same result. */
  lemma {:induction false} FilterCongruent<T>(p: T -> bool, q: T -> bool, xs: seq<T>)
    requires forall i :: 0 <= i < |xs| ==> p(xs[i]) == q(xs[i])
    ensures Filter(p, xs) == Filter(q, xs)
    decreases |xs|
  {
    if |xs| > 0 {
      FilterCongruent(p, q, xs[1..]);
    }
  }

  /** Filtering twice is filtering once by both predicates. */
  lemma {:induction false} FilterFilter<T>(p: T -> bool, q: T -> bool, xs: seq<T>)
    ensures Filter(q, Filter(p, xs)) == Filter(x => p(x) && q(x), xs)
    decreases |xs|
  {
    if |xs| > 0 {
      FilterFilter(p, q, xs[1..]);
      if p(xs[0]) {
        assert Filter(p, xs) == [xs[0]] + Filter(p, xs[1..]);
        assert Filter(p, xs)[0] == xs[0];
        assert Filter(p, xs)[1..] == Filter(p, xs[1..]);
      }
    }
  }

  /** Filtering a sequence extended by one element. */
  lemma FilterSnoc<T>(p: T -> bool, xs: seq<T>, x: T)
    ensures Filter(p, xs + [x]) == if p(x) then Filter(p, xs) + [x] else Filter(p, xs)
  {
    FilterAppend(p, xs, [x]);
    assert [x][1..] == [];
  }

  /** Number of elements satisfying `p`. */
  function Count<T>(p: T -> bool, xs: seq<T>): (r: nat)
    ensures r <= |xs|
  {
    if |xs| == 0 then 0 else (if p(xs[0]) then 1 else 0) + Count(p, xs[1..])
  }

  /** `xs.reduce((s, x) => s + f(x), 0)`. */
  function SumBy<T>(f: T -> int, xs: seq<T>): (r: int)
    ensures xs == [] ==> r == 0
    ensures (forall i :: 0 <= i < |xs| ==> f(xs[i]) >= 0) ==> r >= 0
  {
    if |xs| == 0 then 0 else f(xs[0]) + SumBy(f, xs[1..])
  }

  /** A sum over a concatenation is the sum of the two sums. */
  lemma {:induction false} SumByAppend<T>(f: T -> int, xs: seq<T>, ys: seq<T>)
    ensures SumBy(f, xs + ys) == SumBy(f, xs) + SumBy(f, ys)
    decreases |xs|
  {
    if |xs| == 0 {
      assert xs + ys == ys;
    } else {
      assert (xs + ys)[0] == xs[0];
      assert (xs + ys)[1..] == xs[1..] + ys;
      SumByAppend(f, xs[1..], ys);
    }
  }

  /** `xs.some(p)`. */
  predicate Some_<T>(p: T -> bool, xs: seq<T>) {
    exists i | 0 <= i < |xs| :: p(xs[i])
  }

  /** `xs.indexOf(x)`: the first position of `x`, or -1. */
  function IndexOf<T(==)>(xs: seq<T>, x: T): (r: int)
    ensures -1 <= r < |xs|
    ensures r == -1 <==> x !in xs
    ensures r >= 0 ==> xs[r] == x && forall j :: 0 <= j < r ==> xs[j] != x
  {
    if |xs| == 0 then -1
    else if xs[0] == x then 0
    else var k := IndexOf(xs[1..], x); if k == -1 then -1 else k + 1
  }

  /** No element occurs twice. */
  predicate Distinct<T(==)>(xs: seq<T>) {
    forall a, b :: 0 <= a < b < |xs| ==> xs[a] != xs[b]
  }

  /** In a sequence without repetitions, `indexOf` finds every element at its own position. */
  lemma IndexOfDistinct<T>(xs: seq<T>, i: nat)
    requires i < |xs|
    requires forall a, b :: 0 <= a < b < |xs| ==> xs[a] != xs[b]
    ensures IndexOf(xs, xs[i]) == i
  {
    assert xs[i] in xs;
    assert forall a :: 0 <= a < i ==> xs[a] != xs[i];
  }

  /** `xs.slice(0, n)` for n >= 0. */
  function Take<T>(xs: seq<T>, n: nat): (r: seq<T>)
    ensures |r| == if n < |xs| then n else |xs|
    ensures forall i :: 0 <= i < |r| ==> r[i] == xs[i]
  {
    if n < |xs| then xs[..n] else xs
  }

  /** `xs.slice(a, b)` for 0 <= a: clamps both ends to the length. */
  function Slice<T>(xs: seq<T>, a: nat, b: nat): (r: seq<T>)
    ensures |r| <= |xs| && (b >= a ==> |r| <= b - a)
    ensures a < |xs| && b >= a ==> |r| == (if b < |xs| then b else |xs|) - a
    ensures forall i :: 0 <= i < |r| ==> a + i < |xs| && r[i] == xs[a + i]
  {
    var hi := if b < |xs| then b else |xs|;
    if a >= hi then [] else xs[a..hi]
  }

  /** `set.has(x) ? set.delete(x) : set.add(x)`. */
  function Toggle<T>(s: set<T>, x: T): (r: set<T>)
    ensures x in r <==> x !in s
    ensures r - {x} == s - {x}
  {
    if x in s then s - {x} else s + {x}
  }

  /** Toggling the same element twice restores the set. */
  lemma ToggleTwice<T>(s: set<T>, x: T)
    ensures Toggle(Toggle(s, x), x) == s
  {
  }

  // ---------------------------------------------------------------------------
  // Stable sorting by a lexicographic integer key

  /** The sort key: a primary and a secondary integer, compared lexicographically. */
  type Key = (int, int)

  predicate KeyLe(a: Key, b: Key) {
    a.0 < b.0 || (a.0 == b.0 && a.1 <= b.1)
  }

  /** Every earlier element has a key at most that of every later one. */
  predicate SortedBy<T>(key: T -> Key, xs: seq<T>) {
    forall i, j :: 0 <= i < j < |xs| ==> KeyLe(key(xs[i]), key(xs[j]))
  }

  /** Inserts `x` before the first element whose key is not smaller, so that
      `x` stays ahead of the elements with an equal key. */
  function Insert<T>(key: T -> Key, x: T, xs: seq<T>): (r: seq<T>)
    requires SortedBy(key, xs)
    ensures SortedBy(key, r)
    ensures multiset(r) == multiset(xs) + multiset{x}
    ensures |r| == |xs| + 1
    ensures forall k :: 0 <= k < |r| ==> r[k] == x || r[k] in xs
  {
    if |xs| == 0 then [x]
    else if KeyLe(key(x), key(xs[0])) then [x] + xs
    else
      var rest := Insert(key, x, xs[1..]);
      assert KeyLe(key(xs[0]), key(x));
      ConsSorted(key, x, xs, rest);
      [xs[0]] + rest
  }

  /** Putting the smallest element back in front of the insertion into the
      rest keeps the order, the contents and the origin of every element. */
  lemma ConsSorted<T>(key: T -> Key, x: T, xs: seq<T>, rest: seq<T>)
    requires |xs| > 0 && SortedBy(key, xs) && KeyLe(key(xs[0]), key(x))
    requires SortedBy(key, rest) && multiset(rest) == multiset(xs[1..]) + multiset{x}
    requires forall k :: 0 <= k < |rest| ==> rest[k] == x || rest[k] in xs[1..]
    ensures SortedBy(key, [xs[0]] + rest)
    ensures multiset([xs[0]] + rest) == multiset(xs) + multiset{x}
    ensures forall k :: 0 <= k < |[xs[0]] + rest| ==> ([xs[0]] + rest)[k] == x || ([xs[0]] + rest)[k] in xs
  {
    var r := [xs[0]] + rest;
    forall k | 0 <= k < |rest| ensures KeyLe(key(xs[0]), key(rest[k])) {
      if rest[k] != x {
        var j :| 0 <= j < |xs[1..]| && xs[1..][j] == rest[k];
        assert xs[j + 1] == rest[k];
      }
    }
    forall i, j | 0 <= i < j < |r| ensures KeyLe(key(r[i]), key(r[j])) {
      assert r[j] == rest[j - 1];
      if i > 0 { assert r[i] == rest[i - 1]; }
    }
    assert xs == [xs[0]] + xs[1..];
    forall k | 0 < k < |r| ensures r[k] == x || r[k] in xs {
      assert r[k] == rest[k - 1];
    }
  }

  /** `Array.prototype.sort` with a comparator derived from `key`: an ordered
      permutation of the input. */
  function SortBy<T>(key: T -> Key, xs: seq<T>): (r: seq<T>)
    ensures SortedBy(key, r)
    ensures multiset(r) == multiset(xs)
    ensures |r| == |xs|
  {
    if |xs| == 0 then []
    else
      assert xs == [xs[0]] + xs[1..];
      Insert(key, xs[0], SortBy(key, xs[1..]))
  }

  /** The elements whose key is `k`. */
  function SameKey<T>(key: T -> Key, k: Key): T -> bool {
    (y: T) => key(y) == k
  }

  /** Filtering a sequence with a first element. */
  lemma FilterCons<T>(p: T -> bool, a: T, t: seq<T>)
    ensures Filter(p, [a] + t) == (if p(a) then [a] else []) + Filter(p, t)
  {
    assert ([a] + t)[0] == a && ([a] + t)[1..] == t;
  }

  /** The tail of an ordered sequence is ordered. */
  lemma SortedTail<T>(key: T -> Key, xs: seq<T>)
    requires |xs| > 0 && SortedBy(key, xs)
    ensures SortedBy(key, xs[1..])
  {
    forall i, j | 0 <= i < j < |xs[1..]| ensures KeyLe(key(xs[1..][i]), key(xs[1..][j])) {
      assert xs[1..][i] == xs[i + 1] && xs[1..][j] == xs[j + 1];
    }
  }

  /** Inserting an element larger than the head keeps the head in front. */
  lemma InsertPastHead<T>(key: T -> Key, x: T, xs: seq<T>)
    requires |xs| > 0 && SortedBy(key, xs) && !KeyLe(key(x), key(xs[0]))
    ensures SortedBy(key, xs[1..])
    ensures Insert(key, x, xs) == [xs[0]] + Insert(key, x, xs[1..])
    ensures key(xs[0]) != key(x)
  {
    SortedTail(key, xs);
  }

  /** Moving `x` past a head that the filter cannot keep together with it. */
  lemma FilterPastHead<T>(p: T -> bool, a: T, x: T, rest: seq<T>, tail: seq<T>)
    requires !(p(a) && p(x))
    requires Filter(p, rest) == (if p(x) then [x] else []) + Filter(p, tail)
    ensures Filter(p, [a] + rest) == (if p(x) then [x] else []) + Filter(p, [a] + tail)
  {
    FilterCons(p, a, rest);
    FilterCons(p, a, tail);
    if p(a) {
      assert Filter(p, rest) == Filter(p, tail);
    } else {
      assert Filter(p, [a] + rest) == Filter(p, rest);
      assert Filter(p, [a] + tail) == Filter(p, tail);
    }
  }

  /** Insertion places `x` ahead of every element with the same key and leaves
      the elements of any one key in their order. */
  lemma {:induction false} InsertKeepsKeyOrder<T>(key: T -> Key, x: T, xs: seq<T>, k: Key)
    requires SortedBy(key, xs)
    ensures Filter(SameKey(key, k), Insert(key, x, xs))
            == (if key(x) == k then [x] else []) + Filter(SameKey(key, k), xs)
    decreases |xs|
  {
    var p := SameKey(key, k);
    if |xs| == 0 {
    } else if KeyLe(key(x), key(xs[0])) {
      FilterCons(p, x, xs);
    } else {
      InsertPastHead(key, x, xs);
      InsertKeepsKeyOrder(key, x, xs[1..], k);
      FilterPastHead(p, xs[0], x, Insert(key, x, xs[1..]), xs[1..]);
      assert [xs[0]] + xs[1..] == xs;
    }
  }

  /** The sort is stable: the elements of any one key keep their input order. */
  lemma {:induction false} SortByIsStable<T>(key: T -> Key, xs: seq<T>, k: Key)
    ensures Filter(SameKey(key, k), SortBy(key, xs)) == Filter(SameKey(key, k), xs)
    decreases |xs|
  {
    if |xs| > 0 {
      SortByIsStable(key, xs[1..], k);
      InsertKeepsKeyOrder(key, xs[0], SortBy(key, xs[1..]), k);
    }
  }
}

=== FILE: json_value.dfy ===
/** An untyped JSON response, for the service methods that pick their result
    out of whatever shape the server sends. Property access on a non-object
    yields `undefined`; property access on `null` or `undefined` throws. */
module JsonValue {
  import opened Js

  datatype Json =
    | JUndefined
    | JNull
    | JBool(b: bool)
    | JNum(n: int)
    | JStr(s: string)
    | JArr(items: seq<Json>)
    | JObj(fields: map<string, Json>)

  /** JavaScript truthiness: arrays and objects are truthy even when empty. */
  predicate Truthy(v: Json) {
    match v
    case JUndefined => false
    case JNull => false
    case JBool(b) => b
    case JNum(n) => n != 0
    case JStr(s) => s != ""
    case JArr(_) => true
    case JObj(_) => true
  }

  predicate Nullish(v: Json) {
    v.JUndefined? || v.JNull?
  }

  /** `v?.key`: the field of an object, `undefined` for anything else. */
  function Get(v: Json, key: string): (r: Json)
    ensures v.JObj? && key in v.fields ==> r == v.fields[key]
    ensures !(v.JObj? && key in v.fields) ==> r == JUndefined
  {
    if v.JObj? && key in v.fields then v.fields[key] else JUndefined
  }

  /** `a || b`. */
  function Or(a: Json, b: Json): (r: Json)
    ensures Truthy(a) ==> r == a
    ensures !Truthy(a) ==> r == b
  {
    if Truthy(a) then a else b
  }

  /** `Array.isArray(v) ? v : undefined`, as the list normalisers read it. */
  function AsArray(v: Json): (r: Option<seq<Json>>)
    ensures r.Some? <==> v.JArr?
    ensures r.Some? ==> r.value == v.items
  {
    if v.JArr? then Some(v.items) else None
  }

  /** An object with one field. */
  function Single(key: string, v: Json): (r: Json)
    ensures r.JObj? && Get(r, key) == v
  {
    JObj(map[key := v])
  }
}

=== FILE: line_items.dfy ===
/** A line of an order or a cart as the checkout pages display it. The pages
    accept loosely typed lines, so every field is optional. */
module LineItems {
  import opened Js
  import opened Catalog

  datatype LineItem = LineItem(
    product: Option<Product>,
    productName: Option<string>,
    name: Option<string>,
    price: Option<int>,
    images: Option<seq<string>>)

  /** The product's name, whenever there is a product (empty or not). */
  function ProductNameOf(item: LineItem): (r: Option<string>)
    ensures r.Some? <==> item.product.Some?
    ensures r.Some? ==> r.value == item.product.value.name
  {
    if item.product.Some? then Some(item.product.value.name) else None
  }

  /** The product's price, when there is a product. */
  function ProductPriceOf(item: LineItem): (r: Option<int>)
    ensures r.Some? <==> item.product.Some?
    ensures r.Some? ==> r.value == item.product.value.price
  {
    if item.product.Some? then Some(item.product.value.price) else None
  }
}

=== FILE: order_review.dfy ===
/** The checkout's review step. */
module OrderReview {
  import opened Js
  import opened AddressRecord
  import opened LineItems

  /** `getPaymentMethodName`: the three known ids are named, others pass through. */
  function PaymentMethodName(m: string): (r: string)
    ensures m == "cod" ==> r == "Cash on Delivery"
    ensures m == "card" ==> r == "Credit / Debit Card"
    ensures m == "wallet" ==> r == "Mobile Wallet"
    ensures m !in {"cod", "card", "wallet"} ==> r == m
  {
    if m == "cod" then "Cash on Delivery"
    else if m == "card" then "Credit / Debit Card"
    else if m == "wallet" then "Mobile Wallet"
    else m
  }

  /** What `onPlaceOrder` does. */
  datatype ReviewGate = RefuseNoAddress | RefuseNoPayment | RefuseEmptyCart | AskConfirmation

  /** `onPlaceOrder`: the three checks in order; only when all pass is the
      confirmation dialog shown. */
  function OnPlaceOrder(address: Option<Address>, paymentMethod: string, items: Option<seq<LineItem>>): (g: ReviewGate)
    ensures g == AskConfirmation <==> address.Some? && paymentMethod != "" && items.Some? && items.value != []
    ensures address.None? ==> g == RefuseNoAddress
    ensures address.Some? && paymentMethod == "" ==> g == RefuseNoPayment
  {
    if address.None? then RefuseNoAddress
    else if paymentMethod == "" then RefuseNoPayment
    else if items.None? || |items.value| == 0 then RefuseEmptyCart
    else AskConfirmation
  }

  /** The confirmation dialog: whether it shows, and whether `placeOrder` was emitted. */
  datatype Dialog = Dialog(showing: bool, placeOrderEmitted: bool)

  /** `onConfirmOrder` hides the dialog and emits `placeOrder`. */
  function OnConfirmOrder(d: Dialog): (d': Dialog)
    ensures !d'.showing && d'.placeOrderEmitted
  {
    Dialog(false, true)
  }

  /** `onCancelOrder` only hides the dialog. */
  function OnCancelOrder(d: Dialog): (d': Dialog)
    ensures !d'.showing && d'.placeOrderEmitted == d.placeOrderEmitted
  {
    d.(showing := false)
  }

  /** `onPlaceOrder` on the dialog: it opens when the checks pass and is
      otherwise left as it was; nothing is emitted. */
  function PlaceOrder(d: Dialog, address: Option<Address>, paymentMethod: string, items: Option<seq<LineItem>>): (d': Dialog)
    ensures d'.showing <==> d.showing || (address.Some? && paymentMethod != "" && items.Some? && items.value != [])
    ensures d'.placeOrderEmitted == d.placeOrderEmitted
  {
    if OnPlaceOrder(address, paymentMethod, items) == AskConfirmation then d.(showing := true) else d
  }

  /** The shopper's answer in the confirmation dialog. */
  datatype Answer = Confirm | Cancel

  /** One review from a closed dialog: press "place order", then answer the
      dialog if it opened. The order is emitted exactly when the address,
      payment method and cart checks all pass and the shopper confirms, and
      the dialog is closed afterwards either way. */
  function Review(address: Option<Address>, paymentMethod: string, items: Option<seq<LineItem>>, answer: Answer): (d: Dialog)
    ensures d.placeOrderEmitted <==>
              address.Some? && paymentMethod != "" && items.Some? && items.value != [] && answer == Confirm
    ensures !d.showing
  {
    var asked := PlaceOrder(Dialog(false, false), address, paymentMethod, items);
    if !asked.showing then asked
    else if answer == Confirm then OnConfirmOrder(asked)
    else OnCancelOrder(asked)
  }

  /** `getProductName`: product name, then `productName`, then `name`, then `'Unknown Product'`. */
  function ProductName(item: LineItem): (r: string)
    ensures r != ""
    ensures TruthyStr(ProductNameOf(item)) ==> r == item.product.value.name
    ensures !TruthyStr(ProductNameOf(item)) && TruthyStr(item.productName) ==> r == item.productName.value
    ensures !TruthyStr(ProductNameOf(item)) && !TruthyStr(item.productName) && TruthyStr(item.name) ==> r == item.name.value
  {
    OrStr(ProductNameOf(item), OrStr(item.productName, OrStr(item.name, "Unknown Product")))
  }

  /** `getProductPrice`: the line's price first, then the product's, then 0 —
      the reverse of the checkout page's order. */
  function ProductPrice(item: LineItem): (r: int)
    ensures TruthyNum(item.price) ==> r == item.price.value
    ensures !TruthyNum(item.price) && TruthyNum(ProductPriceOf(item)) ==> r == item.product.value.price
    ensures !TruthyNum(item.price) && !TruthyNum(ProductPriceOf(item)) ==> r == 0
  {
    OrNum(item.price, OrNum(ProductPriceOf(item), 0))
  }
}

=== FILE: order_tracking.dfy ===
/** The order-tracking page: progress along the six delivery steps, line
    display fallbacks, the load error messages and the return request. */
module OrderTracking {
  import opened Js
  import opened Catalog
  import opened Orders
  import Images

  /** The delivery steps, in order. */
  const Steps: seq<string> := ["pending", "confirmed", "preparing", "ready", "shipped", "delivered"]

  /** `isStatusCompleted`: with an order, a step is completed when it comes no
      later than the current status; an order off the sequence completes
      nothing, and a check status off the sequence (index -1) always counts. */
  function IsStatusCompleted(order: Option<Order>, check: string): (b: bool)
    ensures order.None? ==> !b
    ensures order.Some? && order.value.status !in Steps ==> !b
    ensures order.Some? && order.value.status in Steps && check !in Steps ==> b
  {
    if order.None? then false
    else
      var current := IndexOf(Steps, order.value.status);
      var checkIndex := IndexOf(Steps, check);
      checkIndex <= current && current != -1
  }

  lemma StepsDistinct()
    ensures forall a, b :: 0 <= a < b < |Steps| ==> Steps[a] != Steps[b]
  {
  }

  /** For an order at step `j`, step `i` is completed exactly when `i <= j`. */
  lemma CompletedExactlyUpTo(o: Order, i: nat, j: nat)
    requires i < |Steps| && j < |Steps| && o.status == Steps[j]
    ensures IsStatusCompleted(Some(o), Steps[i]) <==> i <= j
  {
    StepsDistinct();
    IndexOfDistinct(Steps, i);
    IndexOfDistinct(Steps, j);
  }

  /** Completion is downward closed: a completed step implies every earlier step is completed. */
  lemma CompletedIsMonotone(order: Option<Order>, i: nat, j: nat)
    requires i <= j < |Steps|
    requires IsStatusCompleted(order, Steps[j])
    ensures IsStatusCompleted(order, Steps[i])
  {
    StepsDistinct();
    IndexOfDistinct(Steps, i);
    IndexOfDistinct(Steps, j);
  }

  /** `isStatusActive`: the check status is the order's current status. */
  function IsStatusActive(order: Option<Order>, check: string): (b: bool)
    ensures b <==> order.Some? && order.value.status == check
  {
    order.Some? && order.value.status == check
  }

  /** The active step is the last completed one. */
  lemma ActiveIsLastCompleted(o: Order, j: nat)
    requires j < |Steps| && IsStatusActive(Some(o), Steps[j])
    ensures IsStatusCompleted(Some(o), Steps[j])
    ensures j + 1 < |Steps| ==> !IsStatusCompleted(Some(o), Steps[j + 1])
  {
    if j + 1 < |Steps| {
      CompletedExactlyUpTo(o, j + 1, j);
    }
    CompletedExactlyUpTo(o, j, j);
  }

  /** `getProductImage`: the line's first product image, normalised, or the placeholder. */
  function ProductImage(item: OrderItem): (r: string)
    ensures item.product.None? || item.product.value.images == [] ==> r == Images.Placeholder
    ensures item.product.Some? && item.product.value.images != [] ==> r == Images.Absolutize(item.product.value.images[0])
  {
    if item.product.None? then Images.Placeholder else Images.FirstImage(Some(item.product.value.images))
  }

  /** `getProductName`: `product.name`, then `productName`, then `'Unknown Product'`. */
  function ProductName(item: OrderItem): (r: string)
    ensures r != ""
    ensures item.product.Some? && item.product.value.name != "" ==> r == item.product.value.name
    ensures !(item.product.Some? && item.product.value.name != "") && TruthyStr(item.productName) ==> r == item.productName.value
    ensures !(item.product.Some? && item.product.value.name != "") && !TruthyStr(item.productName) ==> r == "Unknown Product"
  {
    if item.product.Some? && item.product.value.name != "" then item.product.value.name
    else OrStr(item.productName, "Unknown Product")
  }

  /** `getProductPrice`: the line's `price`, then `product.price`, then 0. */
  function ProductPrice(item: OrderItem): (r: int)
    ensures item.price != 0 ==> r == item.price
    ensures item.price == 0 && item.product.Some? ==> r == item.product.value.price
    ensures item.price == 0 && item.product.None? ==> r == 0
  {
    if item.price != 0 then item.price
    else if item.product.Some? then item.product.value.price
    else 0
  }

  /** A line mapped by `getOrderById` shows a name even without a product. */
  lemma MappedLineHasName(item: OrderItem)
    requires item.product.None? && TruthyStr(item.productName)
    ensures ProductName(MapItem(item)) == item.productName.value
  {
  }

  // ---------------------------------------------------------------------------
  // Return reasons

  /** The fewest characters a return reason may have once trimmed. */
  const MinReasonLength: int := 10

  /** The verdict on a return reason. */
  datatype ReasonCheck = BlankReason | ReasonTooShort | AcceptReason(reason: string)

  /** A blank reason is refused first, then one shorter than 10 characters
      after trimming; otherwise the trimmed reason is sent. */
  function CheckReturnReason(reason: string): (r: ReasonCheck)
    ensures r.BlankReason? <==> Trim(reason) == ""
    ensures r.AcceptReason? <==> |Trim(reason)| >= MinReasonLength
    ensures r.AcceptReason? ==> r.reason == Trim(reason) && !IsSpace(r.reason[0]) && !IsSpace(r.reason[|r.reason| - 1])
  {
    var t := Trim(reason);
    if t == "" then BlankReason
    else if |t| < MinReasonLength then ReasonTooShort
    else AcceptReason(t)
  }

  /** Padding does not change the verdict, and an accepted reason is accepted unchanged again. */
  lemma ReasonCheckStable(p: string, reason: string, q: string)
    requires AllSpace(p) && AllSpace(q)
    ensures CheckReturnReason(p + reason + q) == CheckReturnReason(reason)
    ensures CheckReturnReason(reason).AcceptReason? ==>
              CheckReturnReason(CheckReturnReason(reason).reason) == CheckReturnReason(reason)
  {
    TrimOfPadded(p, reason, q);
    TrimIdempotent(reason);
  }

  // ---------------------------------------------------------------------------
  // Page state

  /** The page's state. */
  datatype Page = Page(order: Option<Order>, loading: bool, error: string, showReturnModal: bool, returnReason: string)

  /** What the page does next after a load completes. */
  datatype LoadEffect = Shown | ShowError(message: string) | RedirectToLogin

  /** The error text for a failed load, except for 401, which redirects. */
  function LoadErrorMessage(e: HttpError): (m: string)
    ensures m != ""
    ensures e.status == 404 ==> m == "Order not found"
    ensures e.status != 404 && TruthyStr(e.serverMessage) ==> m == e.serverMessage.value
    ensures e.status != 404 && !TruthyStr(e.serverMessage) ==> m == "Failed to load order details"
  {
    if e.status == 404 then "Order not found" else OrStr(e.serverMessage, "Failed to load order details")
  }

  /** `ngOnInit` without an order id: the page shows an error and loads nothing. */
  function MissingOrderId(p: Page): (p': Page)
    ensures !p'.loading && p'.error == "Order ID is required" && p'.order == p.order
  {
    p.(loading := false, error := "Order ID is required")
  }

  /** `loadOrder`: the error is cleared when the request starts. On success the
      order is shown. On a 401 the page redirects and is left loading with no
      error. Any other failure shows an error and keeps the previous order. */
  function OnOrderLoaded(p: Page, outcome: Outcome<Order>): (r: (Page, LoadEffect))
    ensures outcome.Ok? ==> r.0.order == Some(outcome.value) && !r.0.loading && r.0.error == "" && r.1 == Shown
    ensures outcome.Err? && outcome.error.status == 401 ==> r.0.loading && r.0.error == "" && r.1 == RedirectToLogin
                                                            && r.0.order == p.order
    ensures outcome.Err? && outcome.error.status != 401 ==>
              !r.0.loading && r.0.order == p.order && r.0.error == LoadErrorMessage(outcome.error)
              && r.1 == ShowError(r.0.error)
    ensures r.0.showReturnModal == p.showReturnModal && r.0.returnReason == p.returnReason
  {
    var started := p.(loading := true, error := "");
    match outcome
    case Ok(o) => (started.(order := Some(o), loading := false), Shown)
    case Err(e) =>
      if e.status == 401 then (started, RedirectToLogin)
      else
        var m := LoadErrorMessage(e);
        (started.(error := m, loading := false), ShowError(m))
  }

  /** `onSubmitReturn`: without an order nothing happens; a refused reason
      leaves the page as it is; an accepted one closes the modal and sends the
      trimmed reason. */
  function OnSubmitReturn(p: Page): (r: (Page, Option<string>))
    ensures r.1.Some? <==> p.order.Some? && CheckReturnReason(p.returnReason).AcceptReason?
    ensures r.1.Some? ==> r.1.value == Trim(p.returnReason) && |r.1.value| >= MinReasonLength && !r.0.showReturnModal
    ensures r.1.None? ==> r.0 == p
    ensures r.0.order == p.order && r.0.returnReason == p.returnReason
  {
    if p.order.None? then (p, None)
    else
      match CheckReturnReason(p.returnReason)
      case AcceptReason(t) => (p.(showReturnModal := false), Some(t))
      case _ => (p, None)
  }

  /** Completion of the return request: the reason is cleared either way, and
      only a success reloads the order. */
  function OnReturnRequested(p: Page, ok: bool): (r: (Page, bool))
    ensures r.0.returnReason == "" && r.1 == ok
    ensures r.0.order == p.order && r.0.showReturnModal == p.showReturnModal
  {
    (p.(returnReason := ""), ok)
  }
}

=== FILE: orders.dfy ===
/** The order service (`OrderService`): the order records, the normalisation
    of the list and detail responses, the cancel and return rules, and the
    status tables. Dates are whole day numbers; "today" is a parameter. */
module Orders {
  import opened Js
  import opened Catalog

  datatype ReturnRequest = ReturnRequest(requested: bool, status: string)

  /** One order line. `product` may be missing in a detail response. */
  datatype OrderItem = OrderItem(
    dbId: Option<string>,
    product: Option<Product>,
    productId: string,
    productName: Option<string>,
    quantity: int,
    size: Option<string>,
    color: Option<string>,
    price: int,
    subtotal: Option<int>)

  /** An order. `dbId` is the server's `_id`; the dates are day numbers. */
  datatype Order = Order(
    dbId: string,
    orderId: Option<string>,
    orderNumber: Option<string>,
    items: Option<seq<OrderItem>>,
    status: string,
    totalAmount: Option<int>,
    finalAmount: Option<int>,
    createdAt: int,
    estimatedDelivery: Option<int>,
    deliveredAt: Option<int>,
    returnRequest: Option<ReturnRequest>)

  /** The number of days a delivered order stays returnable. */
  const ReturnWindowDays: int := 14

  /** The days added to the creation date when no delivery date is known. */
  const DeliveryEstimateDays: int := 5

  /** `getRecentOrders`' default limit. */
  const DefaultRecentLimit: int := 3

  /** The ten statuses an order can have. */
  const KnownStatuses: seq<string> :=
    ["pending", "confirmed", "preparing", "ready", "shipped", "delivered",
     "cancelled", "refused", "return-requested", "returned"]

  // ---------------------------------------------------------------------------
  // Normalisation

  /** The displayed order number: `orderId`, then `orderNumber`, then `_id`. */
  function OrderNumberOf(o: Order): (r: string)
    ensures TruthyStr(o.orderId) ==> r == o.orderId.value
    ensures !TruthyStr(o.orderId) && TruthyStr(o.orderNumber) ==> r == o.orderNumber.value
    ensures !TruthyStr(o.orderId) && !TruthyStr(o.orderNumber) ==> r == o.dbId
  {
    OrStr(o.orderId, OrStr(o.orderNumber, o.dbId))
  }

  /** A listed order with its order number filled in and a missing item list read as `[]`. */
  function NormaliseListed(o: Order): (r: Order)
    ensures r.orderNumber == Some(OrderNumberOf(o))
    ensures r.items.Some? && (o.items.Some? ==> r.items == o.items) && (o.items.None? ==> r.items == Some([]))
    ensures r.(orderNumber := o.orderNumber, items := o.items) == o
  {
    o.(orderNumber := Some(OrderNumberOf(o)), items := Some(o.items.GetOr([])))
  }

  /** Normalising a listed order a second time changes nothing. */
  lemma NormaliseListedIdempotent(o: Order)
    ensures NormaliseListed(NormaliseListed(o)) == NormaliseListed(o)
  {
  }

  /** The list response: the orders under `data` or under `orders`. */
  datatype OrdersListResponse = OrdersListResponse(data: Option<seq<Order>>, orders: Option<seq<Order>>)

  /** `getOrders`: `data`, then `orders`, then `[]` (an array, even empty, is
      truthy), each order normalised. */
  function GetOrders(resp: OrdersListResponse): (r: seq<Order>)
    ensures resp.data.Some? ==> (|r| == |resp.data.value|
                                 && forall i :: 0 <= i < |r| ==> r[i] == NormaliseListed(resp.data.value[i]))
    ensures resp.data.None? && resp.orders.Some? ==> (|r| == |resp.orders.value|
                                 && forall i :: 0 <= i < |r| ==> r[i] == NormaliseListed(resp.orders.value[i]))
    ensures resp.data.None? && resp.orders.None? ==> r == []
  {
    var os := if resp.data.Some? then resp.data.value else resp.orders.GetOr([]);
    seq(|os|, i requires 0 <= i < |os| => NormaliseListed(os[i]))
  }

  /** The detail response: a flag and the order with its lines. */
  datatype OrderDetails = OrderDetails(order: Order, items: seq<OrderItem>)
  datatype OrderDetailsResponse = OrderDetailsResponse(success: Option<bool>, data: Option<OrderDetails>)

  /** What `getOrderById` delivers: the order, or the format error it throws. */
  datatype Fetched = Fetched(order: Order) | InvalidResponseFormat

  /** The product shown for a line whose product is missing: named after the
      line's `productName`, or `'Product'`, with an empty id and no images.
      It carries no price, which every reader treats like 0. */
  function PlaceholderProduct(productName: Option<string>): (p: Product)
    ensures p.dbId == Some("") && p.images == [] && p.price == 0
    ensures TruthyStr(productName) ==> p.name == productName.value
    ensures !TruthyStr(productName) ==> p.name == "Product"
  {
    Product(Some(""), None, OrStr(productName, "Product"), "", None, 0, None, None, [], None, None,
            None, None, None, None, None, None, None, None, None, None)
  }

  /** One line of a detail response, normalised: a product is always present,
      `productId` is the product's `_id` or `''`, and a missing or zero
      subtotal is recomputed as price times quantity. */
  function MapItem(item: OrderItem): (r: OrderItem)
    ensures r.product.Some?
    ensures item.product.Some? ==> r.product == item.product && r.productId == OrStr(item.product.value.dbId, "")
    ensures item.product.None? ==> r.product == Some(PlaceholderProduct(item.productName)) && r.productId == ""
    ensures TruthyNum(item.subtotal) ==> r.subtotal == item.subtotal
    ensures !TruthyNum(item.subtotal) ==> r.subtotal == Some(item.price * item.quantity)
    ensures r.(product := item.product, productId := item.productId, subtotal := item.subtotal) == item
  {
    var prod := if item.product.Some? then item.product.value else PlaceholderProduct(item.productName);
    var pid := if item.product.Some? then OrStr(item.product.value.dbId, "") else "";
    item.(product := Some(prod), productId := pid, subtotal := Some(OrNum(item.subtotal, item.price * item.quantity)))
  }

  /** `getOrderById`: a response without `success` or without `data` is an
      error; otherwise the order with its number filled in and its lines mapped. */
  function GetOrderById(resp: OrderDetailsResponse): (r: Fetched)
    ensures r.InvalidResponseFormat? <==> !TruthyBool(resp.success) || resp.data.None?
    ensures r.Fetched? ==>
              var d := resp.data.value;
              r.order.dbId == d.order.dbId && r.order.status == d.order.status
              && r.order.orderNumber == Some(OrderNumberOf(d.order))
              && r.order.items.Some? && |r.order.items.value| == |d.items|
              && forall i :: 0 <= i < |d.items| ==> r.order.items.value[i] == MapItem(d.items[i])
    // every other field of the order is passed through unchanged
    ensures r.Fetched? ==>
              var d := resp.data.value;
              r.order.(orderNumber := d.order.orderNumber, items := d.order.items) == d.order
  {
    if !TruthyBool(resp.success) || resp.data.None? then InvalidResponseFormat
    else
      var d := resp.data.value;
      var items := seq(|d.items|, i requires 0 <= i < |d.items| => MapItem(d.items[i]));
      Fetched(d.order.(orderNumber := Some(OrderNumberOf(d.order)), items := Some(items)))
  }

  /** Every line of a fetched order has a product and a subtotal. */
  lemma FetchedLinesComplete(resp: OrderDetailsResponse)
    requires GetOrderById(resp).Fetched?
    ensures var items := GetOrderById(resp).order.items.value;
            forall i :: 0 <= i < |items| ==> items[i].product.Some? && items[i].subtotal.Some?
  {
  }

  // ---------------------------------------------------------------------------
  // Cancel and return rules

  /** `canCancelOrder`: only a pending or confirmed order can be cancelled. */
  function CanCancel(o: Order): (b: bool)
    ensures b <==> o.status in ["pending", "confirmed"]
  {
    o.status == "pending" || o.status == "confirmed"
  }

  /** Whole days since delivery, given today's day number. */
  function DaysSinceDelivery(o: Order, today: int): (d: int)
    requires o.deliveredAt.Some?
    ensures d + o.deliveredAt.value == today
  {
    today - o.deliveredAt.value
  }

  /** A return has already been asked for. */
  predicate ReturnRequested(o: Order) {
    o.returnRequest.Some? && o.returnRequest.value.requested
  }

  /** `canReturnOrder`: not after a return request; only a delivered order with
      a delivery date; and only within 14 days of delivery. */
  function CanReturn(o: Order, today: int): (b: bool)
    ensures ReturnRequested(o) ==> !b
    ensures o.status != "delivered" || o.deliveredAt.None? ==> !b
    ensures b <==> !ReturnRequested(o) && o.status == "delivered" && o.deliveredAt.Some?
                   && today - o.deliveredAt.value <= ReturnWindowDays
  {
    if ReturnRequested(o) then false
    else if o.status != "delivered" || o.deliveredAt.None? then false
    else DaysSinceDelivery(o, today) <= ReturnWindowDays
  }

  /** `getDaysRemainingForReturn`: 0 without a delivery date, otherwise the days
      left in the window, never negative. */
  function DaysRemaining(o: Order, today: int): (n: int)
    ensures n >= 0
    ensures o.deliveredAt.None? ==> n == 0
    ensures o.deliveredAt.Some? ==> (n > 0 <==> today - o.deliveredAt.value < ReturnWindowDays)
    ensures o.deliveredAt.Some? && n > 0 ==> n + (today - o.deliveredAt.value) == ReturnWindowDays
  {
    if o.deliveredAt.None? then 0
    else
      var left := ReturnWindowDays - DaysSinceDelivery(o, today);
      if left > 0 then left else 0
  }

  /** For a delivered order with no return request, days remaining means the
      order is returnable; on the last day (day 14) it is still returnable
      with 0 days shown. */
  lemma RemainingImpliesReturnable(o: Order, today: int)
    requires o.status == "delivered" && o.deliveredAt.Some? && !ReturnRequested(o)
    ensures DaysRemaining(o, today) > 0 ==> CanReturn(o, today)
    ensures today - o.deliveredAt.value == ReturnWindowDays ==> CanReturn(o, today) && DaysRemaining(o, today) == 0
    ensures !CanReturn(o, today) ==> DaysRemaining(o, today) == 0
  {
  }

  /** Once the window has passed, the order stays non-returnable on every later day. */
  lemma ReturnWindowCloses(o: Order, today: int, later: int)
    requires today <= later && !CanReturn(o, today)
    requires o.status == "delivered" && o.deliveredAt.Some? && o.deliveredAt.value <= today
    ensures !CanReturn(o, later)
  {
  }

  // ---------------------------------------------------------------------------
  // Status tables

  /** `getStatusClass`: the class of a known status, `status-default` otherwise. */
  function StatusClass(status: string): (r: string)
    ensures status !in KnownStatuses ==> r == "status-default"
    ensures status in KnownStatuses ==> r != "status-default"
  {
    if status == "pending" then "status-pending"
    else if status == "confirmed" then "status-confirmed"
    else if status == "preparing" then "status-preparing"
    else if status == "ready" then "status-ready"
    else if status == "shipped" then "status-shipped"
    else if status == "delivered" then "status-delivered"
    else if status == "cancelled" then "status-cancelled"
    else if status == "refused" then "status-refused"
    else if status == "return-requested" then "status-return-requested"
    else if status == "returned" then "status-returned"
    else "status-default"
  }

  /** A known status's class is `status-` followed by the status itself. */
  lemma StatusClassOfKnown(s: string)
    requires s in KnownStatuses
    ensures StatusClass(s) == "status-" + s
  {
    if s in KnownStatuses[..5] { StatusClassEarly(s); } else { StatusClassLate(s); }
  }

  lemma StatusClassEarly(s: string)
    requires s in KnownStatuses[..5]
    ensures StatusClass(s) == "status-" + s
  {
    if s == "pending" { assert "status-pending" == "status-" + "pending"; }
    else if s == "confirmed" { assert "status-confirmed" == "status-" + "confirmed"; }
    else if s == "preparing" { assert "status-preparing" == "status-" + "preparing"; }
    else if s == "ready" { assert "status-ready" == "status-" + "ready"; }
    else { assert "status-shipped" == "status-" + "shipped"; }
  }

  lemma StatusClassLate(s: string)
    requires s in KnownStatuses[5..]
    ensures StatusClass(s) == "status-" + s
  {
    if s == "delivered" { assert "status-delivered" == "status-" + "delivered"; }
    else if s == "cancelled" { assert "status-cancelled" == "status-" + "cancelled"; }
    else if s == "refused" { assert "status-refused" == "status-" + "refused"; }
    else { StatusClassReturns(s); }
  }

  lemma StatusClassReturns(s: string)
    requires s in KnownStatuses[8..]
    ensures StatusClass(s) == "status-" + s
  {
    if s == "return-requested" { assert "status-return-requested" == "status-" + "return-requested"; }
    else { assert "status-returned" == "status-" + "returned"; }
  }

  /** A status written for display: every `-` read as a space and the first
      letter of each word upper-cased (`return-requested` reads `Return Requested`). */
  function Titled(s: string): (r: string)
    ensures |r| == |s|
  {
    seq(|s|, i requires 0 <= i < |s| =>
      if s[i] == '-' then ' '
      else if i == 0 || s[i - 1] == '-' then UpperChar(s[i])
      else s[i])
  }

  /** A single word is titled by upper-casing its first letter. */
  lemma TitledWord(c: char, rest: string)
    requires 'a' <= c <= 'z' && '-' !in rest
    ensures Titled([c] + rest) == [UpperChar(c)] + rest
  {
    var w := [c] + rest;
    var t := [UpperChar(c)] + rest;
    forall i | 0 < i < |w| ensures Titled(w)[i] == t[i] {
      assert w[i] == rest[i - 1];
      if i > 1 { assert w[i - 1] == rest[i - 2]; assert rest[i - 2] in rest; }
    }
  }

  /** Two words joined by `-` are titled word by word, the `-` becoming a space. */
  lemma TitledTwoWords(c: char, rest: string, d: char, tail: string)
    requires 'a' <= c <= 'z' && '-' !in rest && 'a' <= d <= 'z' && '-' !in tail
    ensures Titled([c] + rest + "-" + [d] + tail) == [UpperChar(c)] + rest + " " + [UpperChar(d)] + tail
  {
    var s := [c] + rest + "-" + [d] + tail;
    var t := [UpperChar(c)] + rest + " " + [UpperChar(d)] + tail;
    var n := |rest|;
    forall i | 0 <= i < |s| ensures Titled(s)[i] == t[i] {
      if 0 < i <= n {
        assert s[i] == rest[i - 1] && t[i] == rest[i - 1];
        if i > 1 { assert s[i - 1] == rest[i - 2]; assert rest[i - 2] in rest; }
      } else if i > n + 2 {
        assert s[i] == tail[i - n - 3] && t[i] == tail[i - n - 3];
        if i > n + 3 { assert s[i - 1] == tail[i - n - 4]; assert tail[i - n - 4] in tail; }
      }
    }
  }

  /** The titled forms of the ten statuses. */
  lemma KnownTitles()
    ensures Titled("pending") == "Pending" && Titled("confirmed") == "Confirmed"
    ensures Titled("preparing") == "Preparing" && Titled("ready") == "Ready"
    ensures Titled("shipped") == "Shipped" && Titled("delivered") == "Delivered"
    ensures Titled("cancelled") == "Cancelled" && Titled("refused") == "Refused"
    ensures Titled("return-requested") == "Return Requested" && Titled("returned") == "Returned"
  {
    KnownTitlesEarly();
    KnownTitlesMiddle();
    KnownTitlesLate();
  }

  /** The titles of the first four statuses. */
  lemma KnownTitlesEarly()
    ensures Titled("pending") == "Pending" && Titled("confirmed") == "Confirmed" && Titled("preparing") == "Preparing" && Titled("ready") == "Ready"
  {
    assert Titled("pending") == "Pending" by {
      assert "pending" == ['p'] + "ending";
      TitledWord('p', "ending");
    }
    assert Titled("confirmed") == "Confirmed" by {
      assert "confirmed" == ['c'] + "onfirmed";
      TitledWord('c', "onfirmed");
    }
    assert Titled("preparing") == "Preparing" by {
      assert "preparing" == ['p'] + "reparing";
      TitledWord('p', "reparing");
    }
    assert Titled("ready") == "Ready" by {
      assert "ready" == ['r'] + "eady";
      TitledWord('r', "eady");
    }
  }

  /** The titles of the next three statuses. */
  lemma KnownTitlesMiddle()
    ensures Titled("shipped") == "Shipped" && Titled("delivered") == "Delivered" && Titled("cancelled") == "Cancelled"
  {
    assert Titled("shipped") == "Shipped" by {
      assert "shipped" == ['s'] + "hipped";
      TitledWord('s', "hipped");
    }
    assert Titled("delivered") == "Delivered" by {
      assert "delivered" == ['d'] + "elivered";
      TitledWord('d', "elivered");
    }
    assert Titled("cancelled") == "Cancelled" by {
      assert "cancelled" == ['c'] + "ancelled";
      TitledWord('c', "ancelled");
    }
  }

  /** The titles of the return-related and refused statuses. */
  lemma KnownTitlesLate()
    ensures Titled("refused") == "Refused" && Titled("returned") == "Returned" && Titled("return-requested") == "Return Requested"
  {
    assert Titled("refused") == "Refused" by {
      assert "refused" == ['r'] + "efused";
      TitledWord('r', "efused");
    }
    assert Titled("returned") == "Returned" by {
      assert "returned" == ['r'] + "eturned";
      TitledWord('r', "eturned");
    }
    KnownTitleReturnRequested();
  }

  /** `return-requested` reads `Return Requested`. */
  lemma KnownTitleReturnRequested()
    ensures Titled("return-requested") == "Return Requested"
  {
    ReturnRequestedSpelled();
    TitledReturnRequested("return-requested");
  }

  /** The two-word status spelled as its parts. */
  lemma ReturnRequestedSpelled()
    ensures "return-requested" == ['r'] + "eturn" + "-" + ['r'] + "equested"
  {
  }

  /** The two-word status, titled through its parts. */
  lemma TitledReturnRequested(x: string)
    requires x == ['r'] + "eturn" + "-" + ['r'] + "equested"
    ensures Titled(x) == "Return Requested"
  {
    TitledTwoWords('r', "eturn", 'r', "equested");
  }

  /** `getStatusLabel`: a display label for a known status, the status itself
      otherwise; the label differs from the status exactly for the known ones.
      Every known status but `ready` is shown titled; `ready` reads
      `Ready for Shipment`. */
  function StatusLabel(status: string): (r: string)
    ensures r == status <==> status !in KnownStatuses
    ensures status in KnownStatuses && status != "ready" ==> r == Titled(status)
    ensures status == "ready" ==> r == "Ready for Shipment"
  {
    KnownTitles();
    if status == "pending" then "Pending"
    else if status == "confirmed" then "Confirmed"
    else if status == "preparing" then "Preparing"
    else if status == "ready" then "Ready for Shipment"
    else if status == "shipped" then "Shipped"
    else if status == "delivered" then "Delivered"
    else if status == "cancelled" then "Cancelled"
    else if status == "refused" then "Refused"
    else if status == "return-requested" then "Return Requested"
    else if status == "returned" then "Returned"
    else status
  }

  // ---------------------------------------------------------------------------
  // Recent orders and delivery estimate

  /** `orders.slice(0, limit)`: the first `limit` orders; a negative limit
      counts from the end, as `slice` does. */
  function RecentOrders(orders: seq<Order>, limit: int): (r: seq<Order>)
    ensures |r| <= |orders| && r == orders[..|r|]
    ensures limit >= 0 ==> |r| <= limit && (|r| < limit ==> r == orders)
    ensures limit < 0 ==> |r| == if |orders| + limit > 0 then |orders| + limit else 0
  {
    var end := if limit >= 0 then limit else |orders| + limit;
    if end <= 0 then [] else if end >= |orders| then orders else orders[..end]
  }

  /** `getEstimatedDelivery`: the delivery date, then the estimate, then five
      days after creation. */
  function EstimatedDelivery(o: Order): (d: int)
    ensures o.deliveredAt.Some? ==> d == o.deliveredAt.value
    ensures o.deliveredAt.None? && o.estimatedDelivery.Some? ==> d == o.estimatedDelivery.value
    ensures o.deliveredAt.None? && o.estimatedDelivery.None? ==> d == o.createdAt + DeliveryEstimateDays
  {
    match o.deliveredAt
    case Some(t) => t
    case None =>
      match o.estimatedDelivery
      case Some(t) => t
      case None => o.createdAt + DeliveryEstimateDays
  }

  /** Without dates recorded, the estimate is always later than the creation date. */
  lemma EstimateAfterCreation(o: Order)
    requires o.deliveredAt.None? && o.estimatedDelivery.None?
    ensures EstimatedDelivery(o) > o.createdAt
  {
  }
}

=== FILE: product_api.dfy ===
/** The storefront product service: the query parameters it sends and the
    chains that dig the product or product list out of a response. */
module ProductApi {
  import opened Js
  import opened JsonValue

  /** `HttpParams`: a query is a map from parameter name to value. */
  type Query = map<string, string>

  /** `if (value) params = params.set(key, value)` for a string. */
  function SetStr(q: Query, key: string, v: Option<string>): (r: Query)
    ensures TruthyStr(v) ==> r == q[key := v.value]
    ensures !TruthyStr(v) ==> r == q
  {
    if TruthyStr(v) then q[key := v.value] else q
  }

  /** `if (value) params = params.set(key, value.toString())` for a number. */
  function SetNum(q: Query, key: string, v: Option<int>): (r: Query)
    ensures TruthyNum(v) ==> r == q[key := IntToString(v.value)]
    ensures !TruthyNum(v) ==> r == q
  {
    if TruthyNum(v) then q[key := IntToString(v.value)] else q
  }

  /** The optional parameters of `getProducts`. */
  datatype Params = Params(
    page: Option<int>,
    limit: Option<int>,
    category: Option<string>,
    subcategory: Option<string>,
    gender: Option<string>,
    minPrice: Option<int>,
    maxPrice: Option<int>,
    search: Option<string>,
    sort: Option<string>)

  /** `getProducts`' query: each parameter whose value is truthy, and no other. */
  function ProductsQuery(params: Option<Params>): (q: Query)
    ensures params.None? ==> q == map[]
    ensures forall k :: k in q ==> k in {"page", "limit", "category", "subcategory", "gender", "minPrice", "maxPrice", "search", "sort"}
  {
    match params
    case None => map[]
    case Some(p) =>
      var q := SetNum(map[], "page", p.page);
      var q := SetNum(q, "limit", p.limit);
      var q := SetStr(q, "category", p.category);
      var q := SetStr(q, "subcategory", p.subcategory);
      var q := SetStr(q, "gender", p.gender);
      var q := SetNum(q, "minPrice", p.minPrice);
      var q := SetNum(q, "maxPrice", p.maxPrice);
      var q := SetStr(q, "search", p.search);
      SetStr(q, "sort", p.sort)
  }

  /** The nine parameter names of `getProducts` are pairwise different. */
  predicate KeysDistinct(keys: seq<string>) {
    forall a, b :: 0 <= a < b < |keys| ==> keys[a] != keys[b]
  }

  const ParamNames: seq<string> := ["page", "limit", "category", "subcategory", "gender", "minPrice", "maxPrice", "search", "sort"]

  lemma ParamNamesDistinct()
    ensures KeysDistinct(ParamNames)
  {
    var sig := seq(|ParamNames|, i requires 0 <= i < |ParamNames| => (|ParamNames[i]|, ParamNames[i][0], ParamNames[i][1]));
    assert sig == [(4, 'p', 'a'), (5, 'l', 'i'), (8, 'c', 'a'), (11, 's', 'u'), (6, 'g', 'e'), (8, 'm', 'i'), (8, 'm', 'a'), (6, 's', 'e'), (4, 's', 'o')];
    forall a, b | 0 <= a < b < |ParamNames| ensures ParamNames[a] != ParamNames[b] {
      assert sig[a] != sig[b];
    }
  }

  /** The numeric parameters are sent exactly when truthy. */
  lemma ProductsQueryNumbers(p: Params)
    ensures var q := ProductsQuery(Some(p));
            && ("page" in q <==> TruthyNum(p.page))
            && ("limit" in q <==> TruthyNum(p.limit))
            && ("minPrice" in q <==> TruthyNum(p.minPrice))
            && ("maxPrice" in q <==> TruthyNum(p.maxPrice))
  {
    PageSent(p);
    LimitSent(p);
    PricesSent(p);
  }

  /** The category filters are sent exactly when non-empty. */
  lemma ProductsQueryCategories(p: Params)
    ensures var q := ProductsQuery(Some(p));
            && ("category" in q <==> TruthyStr(p.category))
            && ("subcategory" in q <==> TruthyStr(p.subcategory))
            && ("gender" in q <==> TruthyStr(p.gender))
  {
    ParamNamesDistinct();
  }

  /** The search text and sort order are sent exactly when non-empty. */
  lemma ProductsQuerySearch(p: Params)
    ensures var q := ProductsQuery(Some(p));
            && ("search" in q <==> TruthyStr(p.search))
            && ("sort" in q <==> TruthyStr(p.sort))
  {
    ParamNamesDistinct();
  }

  /** A sent number carries the caller's value as decimal text; a price
      floor of 0 is not sent at all. */
  lemma ProductsQueryValues(p: Params)
    ensures var q := ProductsQuery(Some(p));
            && (TruthyNum(p.page) ==> q["page"] == IntToString(p.page.value))
            && (TruthyNum(p.limit) ==> q["limit"] == IntToString(p.limit.value))
            && (TruthyNum(p.minPrice) ==> q["minPrice"] == IntToString(p.minPrice.value))
            && (TruthyNum(p.maxPrice) ==> q["maxPrice"] == IntToString(p.maxPrice.value))
            && (p.minPrice == Some(0) ==> "minPrice" !in q)
  {
    PageSent(p);
    LimitSent(p);
    PricesSent(p);
  }

  /** The page number is sent exactly when truthy, as decimal text. */
  lemma PageSent(p: Params)
    ensures TruthyNum(p.page) ==> ProductsQuery(Some(p))["page"] == IntToString(p.page.value)
    ensures "page" in ProductsQuery(Some(p)) <==> TruthyNum(p.page)
  {
    PageDiffers();
  }

  /** `page` differs from every key set after it. */
  lemma PageDiffers()
    ensures "page" != "limit" && "page" != "category" && "page" != "subcategory" && "page" != "gender"
    ensures "page" != "minPrice" && "page" != "maxPrice" && "page" != "search" && "page" != "sort"
  {
    assert |"page"| == 4 && |"limit"| == 5 && |"category"| == 8 && |"subcategory"| == 11;
    assert |"gender"| == 6 && |"minPrice"| == 8 && |"maxPrice"| == 8 && |"search"| == 6;
    assert "page"[0] != "sort"[0];
  }

  /** The page size is sent exactly when truthy, as decimal text. */
  lemma LimitSent(p: Params)
    ensures TruthyNum(p.limit) ==> ProductsQuery(Some(p))["limit"] == IntToString(p.limit.value)
    ensures "limit" in ProductsQuery(Some(p)) <==> TruthyNum(p.limit)
  {
  }

  /** The price bounds are sent exactly when truthy, as decimal text. */
  lemma PricesSent(p: Params)
    ensures TruthyNum(p.minPrice) ==> ProductsQuery(Some(p))["minPrice"] == IntToString(p.minPrice.value)
    ensures TruthyNum(p.maxPrice) ==> ProductsQuery(Some(p))["maxPrice"] == IntToString(p.maxPrice.value)
    ensures p.minPrice == Some(0) ==> "minPrice" !in ProductsQuery(Some(p))
    ensures "minPrice" in ProductsQuery(Some(p)) <==> TruthyNum(p.minPrice)
    ensures "maxPrice" in ProductsQuery(Some(p)) <==> TruthyNum(p.maxPrice)
  {
    assert "minPrice"[1] != "maxPrice"[1];
  }

  /** A sent text parameter carries the caller's value; an empty search is
      not sent at all. */
  lemma ProductsQueryTextValues(p: Params)
    ensures var q := ProductsQuery(Some(p));
            && (TruthyStr(p.category) ==> q["category"] == p.category.value)
            && (TruthyStr(p.subcategory) ==> q["subcategory"] == p.subcategory.value)
            && (TruthyStr(p.gender) ==> q["gender"] == p.gender.value)
            && (TruthyStr(p.search) ==> q["search"] == p.search.value)
            && (TruthyStr(p.sort) ==> q["sort"] == p.sort.value)
            && (p.search == Some("") ==> "search" !in q)
  {
    ParamNamesDistinct();
  }

  /** `getProduct`, `getProductBySlug`, `createProduct`, `updateProduct`,
      `updateStock`, `toggleProductStatus`: `res.product || res.data || res`.
      Reading a field of a `null` body throws. */
  function SingleProduct(res: Json): (r: Option<Json>)
    ensures r.None? <==> Nullish(res)
    ensures r.Some? && Truthy(Get(res, "product")) ==> r.value == Get(res, "product")
    ensures r.Some? && !Truthy(Get(res, "product")) && Truthy(Get(res, "data")) ==> r.value == Get(res, "data")
    ensures r.Some? && !Truthy(Get(res, "product")) && !Truthy(Get(res, "data")) ==> r.value == res
  {
    if Nullish(res) then None else Some(Or(Or(Get(res, "product"), Get(res, "data")), res))
  }

  /** A product sent under `product`, under `data`, or bare comes back as sent. */
  lemma SingleProductUnwraps(p: Json)
    requires p.JObj? && !("product" in p.fields) && !("data" in p.fields)
    ensures SingleProduct(Single("product", p)) == Some(p)
    ensures SingleProduct(Single("data", p)) == Some(p)
    ensures SingleProduct(p) == Some(p)
  {
  }

  /** Featured, related and low-stock lists: the `products` array, else the
      `data` array, else the body when it is an array, else nothing. */
  function ListOf(res: Json): (r: seq<Json>)
    ensures AsArray(Get(res, "products")).Some? ==> r == Get(res, "products").items
    ensures AsArray(Get(res, "products")).None? && AsArray(Get(res, "data")).Some? ==> r == Get(res, "data").items
    ensures AsArray(Get(res, "products")).None? && AsArray(Get(res, "data")).None? ==>
              r == (if res.JArr? then res.items else [])
  {
    if Get(res, "products").JArr? then Get(res, "products").items
    else if Get(res, "data").JArr? then Get(res, "data").items
    else if res.JArr? then res.items
    else []
  }

  /** Best sellers and new arrivals: the `data` array, else the body when it is
      an array, else nothing; a `products` field is not looked at. */
  function DataListOf(res: Json): (r: seq<Json>)
    ensures Get(res, "data").JArr? ==> r == Get(res, "data").items
    ensures !Get(res, "data").JArr? ==> r == (if res.JArr? then res.items else [])
  {
    if Get(res, "data").JArr? then Get(res, "data").items
    else if res.JArr? then res.items
    else []
  }

  /** Each list normaliser gives back a list sent in any shape it accepts, and
      only the three-way one accepts a `products` field. A field that is not an
      array is never taken for a list. */
  lemma ListShapes(xs: seq<Json>, notArray: Json)
    requires !notArray.JArr?
    ensures ListOf(Single("products", JArr(xs))) == xs
    ensures ListOf(Single("data", JArr(xs))) == xs
    ensures ListOf(JArr(xs)) == xs
    ensures DataListOf(Single("data", JArr(xs))) == xs
    ensures DataListOf(JArr(xs)) == xs
    ensures DataListOf(Single("products", JArr(xs))) == []
    ensures ListOf(Single("products", notArray)) == []
  {
  }

  /** `getBestSellers(gender = 'all', limit = 8)`: both parameters are always sent. */
  function BestSellersQuery(gender: Option<string>, limit: Option<int>): (q: Query)
    ensures q.Keys == {"gender", "limit"}
    ensures q["gender"] == (if gender.Some? then gender.value else "all")
    ensures q["limit"] == IntToString(if limit.Some? then limit.value else 8)
  {
    map["gender" := gender.GetOr("all"), "limit" := IntToString(limit.GetOr(8))]
  }

  /** `getFeaturedProducts`: `isFeatured=true` always, the gender when truthy. */
  function FeaturedQuery(gender: Option<string>): (q: Query)
    ensures "isFeatured" in q && q["isFeatured"] == "true"
    ensures "gender" in q <==> TruthyStr(gender)
    ensures "gender" in q ==> q["gender"] == gender.value
    ensures q.Keys <= {"isFeatured", "gender"}
  {
    SetStr(map["isFeatured" := "true"], "gender", gender)
  }

  /** `getNewArrivals`: the limit always, the gender unless missing or `all`. */
  function NewArrivalsQuery(gender: Option<string>, limit: Option<int>): (q: Query)
    ensures "limit" in q && q["limit"] == IntToString(limit.GetOr(8))
    ensures "gender" in q <==> TruthyStr(gender) && gender.value != "all"
    ensures "gender" in q ==> q["gender"] == gender.value
    ensures q.Keys <= {"limit", "gender"}
  {
    var q := map["limit" := IntToString(limit.GetOr(8))];
    if TruthyStr(gender) && gender.value != "all" then q["gender" := gender.value] else q
  }

  /** `all` reaches the best-seller endpoint as a gender but never the new-arrival one. */
  lemma AllGenderHandling(limit: Option<int>)
    ensures BestSellersQuery(None, limit)["gender"] == "all"
    ensures "gender" !in NewArrivalsQuery(Some("all"), limit)
    ensures "gender" in FeaturedQuery(Some("all"))
  {
  }
}

=== FILE: product_card.dfy ===
/** The product card of the listings and the home page. */
module ProductCard {
  import opened Js
  import opened Catalog
  import Images
  import Stars
  import ProductInfo
  import ProductReviews

  /** `getProductImage`: the placeholder without images, else the first one normalised. */
  function ProductImage(p: Product): (r: string)
    ensures p.images == [] ==> r == Images.Placeholder
    ensures p.images != [] ==> r == Images.ImageUrl(p.images[0])
  {
    if p.images == [] then Images.Placeholder else Images.ImageUrl(p.images[0])
  }

  /** The card's review count: `reviewCount` when present, else the reviews'
      length, where an empty list (0) and a missing one agree. */
  function ReviewCount(p: Product): (r: int)
    ensures r == ProductInfo.ReviewCount(p)
    ensures p.reviewCount.None? ==> r >= 0
  {
    if p.reviewCount.Some? then p.reviewCount.value
    else OrNum(if p.reviews.Some? then Some(|p.reviews.value|) else None, 0)
  }

  /** A review's rating as the average reads it: a populated review's rating, else 0. */
  function RatingOf(r: ReviewRef): int {
    if r.ReviewObj? then r.rating else 0
  }

  /** `getAverageRating`: the product's rating when present, else the mean of its reviews. */
  function AverageRating(p: Product): (r: real)
    ensures p.rating.Some? ==> r == p.rating.value as real
    ensures p.rating.None? && (p.reviews.None? || p.reviews.value == []) ==> r == 0.0
    ensures p.rating.None? && p.reviews.Some? && p.reviews.value != [] ==>
              r * (|p.reviews.value| as real) == SumBy(RatingOf, p.reviews.value) as real
  {
    if p.rating.Some? then p.rating.value as real
    else if p.reviews.None? || p.reviews.value == [] then 0.0
    else (SumBy(RatingOf, p.reviews.value) as real) / (|p.reviews.value| as real)
  }

  /** The ratings the card reads from its review list, in order. */
  function Ratings(reviews: seq<ReviewRef>): (r: seq<int>)
    ensures |r| == |reviews| && forall i :: 0 <= i < |r| ==> r[i] == RatingOf(reviews[i])
  {
    seq(|reviews|, i requires 0 <= i < |reviews| => RatingOf(reviews[i]))
  }

  /** Summing the card's ratings is summing the ratings it reads. */
  lemma {:induction false} SumOfRatings(reviews: seq<ReviewRef>)
    ensures SumBy(RatingOf, reviews) == ProductReviews.RatingSum(Ratings(reviews))
    decreases |reviews|
  {
    if reviews != [] {
      assert Ratings(reviews)[1..] == Ratings(reviews[1..]);
      SumOfRatings(reviews[1..]);
    }
  }

  /** Without a stored rating, the card shows the same mean as the review
      panel computes over the ratings it reads. */
  lemma CardAverageIsReviewsAverage(p: Product)
    requires p.rating.None? && p.reviews.Some?
    ensures AverageRating(p) == ProductReviews.Average(Ratings(p.reviews.value))
  {
    SumOfRatings(p.reviews.value);
  }

  /** `getStars`: the fractional star list of the given rating (else the
      average), all empty when the product has no reviews. */
  function StarList(rating: real, reviewCount: int): (r: seq<char>)
    ensures |r| == 5
    ensures reviewCount == 0 || rating == 0.0 ==> forall i :: 0 <= i < 5 ==> r[i] == '\U{2606}'
    ensures reviewCount != 0 ==> r == Stars.Halves(rating)
  {
    if reviewCount == 0 then seq(5, _ => '\U{2606}') else Stars.Halves(rating)
  }

  /** A card with reviews and a whole rating of 1 to 5 shows the same stars as the product page. */
  lemma CardStarsMatchPage(n: int, reviewCount: int)
    requires 1 <= n <= 5 && reviewCount != 0
    ensures StarList(n as real, reviewCount) == Stars.Rated(Some(n)).value
  {
    Stars.HalvesAgreeWithRow(n);
  }

  /** `getCategoryName`: empty without a category, the string itself for a bare
      id, the name of a populated one. */
  function CategoryName(category: Option<Ref>): (r: string)
    ensures category.None? ==> r == ""
    ensures category.Some? && category.value.RefId? ==> r == category.value.id
    ensures category.Some? && category.value.RefObj? ==> r == category.value.name
  {
    match category
    case None => ""
    case Some(RefId(id)) => id
    case Some(RefObj(_, name)) => name
  }

  /** `isNewProduct`: `isNewArrival || isNew || false`. */
  predicate IsNewProduct(p: Product) {
    TruthyBool(p.isNewArrival) || TruthyBool(p.isNew)
  }

  /** `isOnSale`: an old price above the current one. */
  predicate IsOnSale(p: Product) {
    TruthyNum(p.oldPrice) && p.oldPrice.value > p.price
  }

  /** `isLowStock`: between 1 and 3 left. */
  predicate IsLowStock(p: Product) {
    p.stock.Some? && 0 < p.stock.value <= 3
  }

  /** A low-stock product is in stock, and a sale needs a positive old price
      when the price is not negative. */
  lemma BadgesConsistent(p: Product)
    ensures IsLowStock(p) ==> ProductInfo.IsInStock(p.stock)
    ensures IsOnSale(p) && p.price >= 0 ==> p.oldPrice.value > 0
  {
  }

  /** The card's add-to-cart request. */
  datatype CartRequest = CartRequest(productId: string, quantity: int, size: Option<string>, color: Option<string>)

  datatype AddResult = Ignored | NoId | OutOfStock | Send(request: CartRequest)

  /** `addToCart`'s guards: ignored while busy, refused without an id or with a
      known stock of zero or less; otherwise one item with the first size and
      colour, and the card becomes busy. */
  function AddToCart(busy: bool, p: Product): (r: (bool, AddResult))
    ensures busy ==> r == (true, Ignored)
    ensures r.0 <==> busy || r.1.Send?
    ensures r.1.Send? <==> !busy && TruthyStr(ProductId(p)) && !(p.stock.Some? && p.stock.value <= 0)
    ensures r.1.Send? ==> r.1.request.productId == ProductId(p).value && r.1.request.quantity == 1
    ensures r.1.Send? && p.sizes.Some? && p.sizes.value != [] ==> r.1.request.size == Some(p.sizes.value[0])
    ensures r.1.Send? && !(p.sizes.Some? && p.sizes.value != []) ==> r.1.request.size == None
    ensures r.1.Send? && p.colors.Some? && p.colors.value != [] ==> r.1.request.color == Some(p.colors.value[0])
    ensures r.1.Send? && !(p.colors.Some? && p.colors.value != []) ==> r.1.request.color == None
  {
    if busy then (true, Ignored)
    else if !TruthyStr(ProductId(p)) then (false, NoId)
    else if p.stock.Some? && p.stock.value <= 0 then (false, OutOfStock)
    else
      var size := if p.sizes.Some? && |p.sizes.value| > 0 then Some(p.sizes.value[0]) else None;
      var color := if p.colors.Some? && |p.colors.value| > 0 then Some(p.colors.value[0]) else None;
      (true, Send(CartRequest(ProductId(p).value, 1, size, color)))
  }

  /** The request's outcome clears the busy flag; the error toast prefers the
      status wording for 401 and 404, then the server's message. */
  function OnCartResult(outcome: Outcome<()>, name: string): (r: (bool, string))
    ensures !r.0
    ensures outcome.Ok? ==> r.1 == name + " added to cart!"
    ensures outcome.Err? && outcome.error.status == 401 ==> r.1 == "Please login to add items to cart."
    ensures outcome.Err? && outcome.error.status == 404 ==> r.1 == "Product not found."
    ensures outcome.Err? && outcome.error.status != 401 && outcome.error.status != 404 ==>
              r.1 == OrStr(outcome.error.serverMessage, "Failed to add item to cart. Please try again.")
  {
    match outcome
    case Ok(_) => (false, name + " added to cart!")
    case Err(e) =>
      var m := if e.status == 401 then "Please login to add items to cart."
               else if e.status == 404 then "Product not found."
               else if e.status == 400 && TruthyStr(e.serverMessage) then e.serverMessage.value
               else if TruthyStr(e.serverMessage) then e.serverMessage.value
               else "Failed to add item to cart. Please try again.";
      (false, m)
  }

  /** A request is sent only from an idle card, and any outcome makes it idle again. */
  lemma BusyFlagDiscipline(p: Product, outcome: Outcome<()>)
    requires AddToCart(false, p).1.Send?
    ensures AddToCart(AddToCart(false, p).0, p).1 == Ignored
    ensures !OnCartResult(outcome, p.name).0
  {
  }
}

=== FILE: product_filter.dfy ===
/** The listing's filter panel: the selected categories, subcategories,
    sizes and colours (each a set), the price range, and the filter record it
    emits. */
module ProductFilter {
  import opened Js
  import opened Catalog

  /** The emitted filters. The arrays the panel emits come from sets, so they
      are modelled as the sets themselves. */
  datatype Filters = Filters(
    categories: set<string>,
    subcategories: set<string>,
    minPrice: int,
    maxPrice: int,
    sizes: set<string>,
    colors: set<string>)

  const DefaultMinPrice: int := 0
  const DefaultMaxPrice: int := 5000

  /** The panel's state. */
  datatype Panel = Panel(
    categories: seq<Category>,
    expanded: set<string>,
    selectedCategories: set<string>,
    selectedSubcategories: set<string>,
    minPrice: int,
    maxPrice: int,
    selectedSizes: set<string>,
    selectedColors: set<string>)

  /** The size and colour options offered for a gender. */
  datatype Options = Options(sizes: seq<string>, colors: seq<string>)

  /** The options depend only on the gender: one list for men, another for anyone else. */
  function OptionsFor(gender: string): (o: Options)
    ensures |o.sizes| == 5 && |o.colors| == 5
    ensures gender == "men" ==> "XXL" in o.sizes && "XS" !in o.sizes
    ensures gender != "men" ==> "XS" in o.sizes && "XXL" !in o.sizes
  {
    if gender == "men" then Options(["S", "M", "L", "XL", "XXL"], ["Black", "White", "Blue", "Gray", "Navy"])
    else Options(["XS", "S", "M", "L", "XL"], ["Red", "Pink", "White", "Black", "Blue"])
  }

  /** A loaded category is shown when it has no gender, or the panel's gender,
      `unisex` or `all`. */
  predicate ShownForGender(c: Category, gender: string) {
    !TruthyStr(c.gender) || c.gender.value == gender || c.gender.value == "unisex" || c.gender.value == "all"
  }

  /** The categories response: the list under `data` or under `categories`. */
  datatype CategoriesResponse = CategoriesResponse(data: Option<seq<Category>>, categories: Option<seq<Category>>)

  /** `loadCategories`: `data`, then `categories`, then `[]`, keeping the
      categories shown for the gender, in order. */
  function LoadCategories(resp: CategoriesResponse, gender: string): (r: seq<Category>)
    ensures var all := if resp.data.Some? then resp.data.value else resp.categories.GetOr([]);
            IsSubsequence(r, all)
            && (forall i :: 0 <= i < |r| ==> ShownForGender(r[i], gender))
            && (forall i :: 0 <= i < |all| && ShownForGender(all[i], gender) ==> all[i] in r)
  {
    var all := if resp.data.Some? then resp.data.value else resp.categories.GetOr([]);
    Filter((c: Category) => ShownForGender(c, gender), all)
  }

  /** The first category with the given id, as `find` returns it. */
  function FindCategory(cats: seq<Category>, id: string): (r: Option<Category>)
    ensures r.None? <==> forall i :: 0 <= i < |cats| ==> cats[i].dbId != id
    ensures r.Some? ==> r.value.dbId == id && r.value in cats
  {
    if |cats| == 0 then None
    else if cats[0].dbId == id then Some(cats[0])
    else FindCategory(cats[1..], id)
  }

  /** The ids of a category's subcategories. */
  function SubcategoryIds(c: Category): (r: set<string>)
    ensures forall i :: c.subcategories.Some? && 0 <= i < |c.subcategories.value| ==> c.subcategories.value[i].dbId in r
    ensures forall x :: x in r ==> c.subcategories.Some? && exists i :: 0 <= i < |c.subcategories.value| && c.subcategories.value[i].dbId == x
  {
    if c.subcategories.None? then {}
    else set i | 0 <= i < |c.subcategories.value| :: c.subcategories.value[i].dbId
  }

  /** `toggleCategory`: selecting adds only the category; deselecting also
      removes every subcategory of the first category with that id. */
  function ToggleCategory(p: Panel, id: string): (r: Panel)
    ensures id in p.selectedCategories ==> r.selectedCategories == p.selectedCategories - {id}
    ensures id !in p.selectedCategories ==> r.selectedCategories == p.selectedCategories + {id}
                                            && r.selectedSubcategories == p.selectedSubcategories
    ensures id in p.selectedCategories && FindCategory(p.categories, id).Some? ==>
              r.selectedSubcategories == p.selectedSubcategories - SubcategoryIds(FindCategory(p.categories, id).value)
    ensures id in p.selectedCategories && FindCategory(p.categories, id).None? ==>
              r.selectedSubcategories == p.selectedSubcategories
    ensures r.(selectedCategories := p.selectedCategories, selectedSubcategories := p.selectedSubcategories) == p
  {
    if id in p.selectedCategories then
      var subs := match FindCategory(p.categories, id)
                  case Some(c) => SubcategoryIds(c)
                  case None => {};
      p.(selectedCategories := p.selectedCategories - {id}, selectedSubcategories := p.selectedSubcategories - subs)
    else p.(selectedCategories := p.selectedCategories + {id})
  }

  /** After deselecting a category none of its subcategories is still selected. */
  lemma DeselectCascades(p: Panel, id: string, c: Category)
    requires id in p.selectedCategories && FindCategory(p.categories, id) == Some(c)
    ensures c.subcategories.Some? ==>
              forall i :: 0 <= i < |c.subcategories.value| ==>
                c.subcategories.value[i].dbId !in ToggleCategory(p, id).selectedSubcategories
    ensures id !in ToggleCategory(p, id).selectedCategories
  {
  }

  /** `toggleSubcategory`, `toggleSize`, `toggleColor`: each flips one element of its own set. */
  function ToggleSubcategory(p: Panel, id: string): (r: Panel)
    ensures r.selectedSubcategories == Toggle(p.selectedSubcategories, id)
    ensures r.(selectedSubcategories := p.selectedSubcategories) == p
  {
    p.(selectedSubcategories := Toggle(p.selectedSubcategories, id))
  }

  function ToggleSize(p: Panel, size: string): (r: Panel)
    ensures r.selectedSizes == Toggle(p.selectedSizes, size)
    ensures r.(selectedSizes := p.selectedSizes) == p
  {
    p.(selectedSizes := Toggle(p.selectedSizes, size))
  }

  function ToggleColor(p: Panel, color: string): (r: Panel)
    ensures r.selectedColors == Toggle(p.selectedColors, color)
    ensures r.(selectedColors := p.selectedColors) == p
  {
    p.(selectedColors := Toggle(p.selectedColors, color))
  }

  /** `toggleCategoryExpansion`. */
  function ToggleExpansion(p: Panel, id: string): (r: Panel)
    ensures r.expanded == Toggle(p.expanded, id)
    ensures r.(expanded := p.expanded) == p
  {
    p.(expanded := Toggle(p.expanded, id))
  }

  /** Toggling a size, colour, subcategory or expansion twice restores the panel. */
  lemma TogglesAreInvolutions(p: Panel, x: string)
    ensures ToggleSize(ToggleSize(p, x), x) == p
    ensures ToggleColor(ToggleColor(p, x), x) == p
    ensures ToggleSubcategory(ToggleSubcategory(p, x), x) == p
    ensures ToggleExpansion(ToggleExpansion(p, x), x) == p
  {
    ToggleTwice(p.selectedSizes, x);
    ToggleTwice(p.selectedColors, x);
    ToggleTwice(p.selectedSubcategories, x);
    ToggleTwice(p.expanded, x);
  }

  /** Selecting a category and deselecting it again restores the category set;
      the subcategory set can only shrink. */
  lemma CategoryToggleTwice(p: Panel, id: string)
    requires id !in p.selectedCategories
    ensures ToggleCategory(ToggleCategory(p, id), id).selectedCategories == p.selectedCategories
    ensures ToggleCategory(ToggleCategory(p, id), id).selectedSubcategories <= p.selectedSubcategories
  {
  }

  /** `clearAllFilters`: every set empty and the price range back to 0..5000. */
  function ClearAll(p: Panel): (r: Panel)
    ensures r.selectedCategories == {} && r.selectedSubcategories == {} && r.selectedSizes == {}
            && r.selectedColors == {} && r.expanded == {}
    ensures r.minPrice == DefaultMinPrice && r.maxPrice == DefaultMaxPrice
    ensures r.categories == p.categories
  {
    Panel(p.categories, {}, {}, {}, DefaultMinPrice, DefaultMaxPrice, {}, {})
  }

  /** `emitFilterChange`: exactly the current selections and price range. */
  function Emit(p: Panel): (f: Filters)
    ensures f.categories == p.selectedCategories && f.subcategories == p.selectedSubcategories
    ensures f.sizes == p.selectedSizes && f.colors == p.selectedColors
    ensures f.minPrice == p.minPrice && f.maxPrice == p.maxPrice
  {
    Filters(p.selectedCategories, p.selectedSubcategories, p.minPrice, p.maxPrice, p.selectedSizes, p.selectedColors)
  }

  /** The filters emitted after clearing impose only the default price range. */
  lemma ClearedFiltersAreDefault(p: Panel)
    ensures Emit(ClearAll(p)) == Filters({}, {}, DefaultMinPrice, DefaultMaxPrice, {}, {})
  {
  }

  /** `getSubcategoriesCount`: the number of subcategories, 0 without a list. */
  function SubcategoriesCount(c: Category): (n: int)
    ensures c.subcategories.None? ==> n == 0
    ensures c.subcategories.Some? ==> n == |c.subcategories.value|
  {
    if c.subcategories.None? then 0 else |c.subcategories.value|
  }
}

=== FILE: product_images.dfy ===
/** The product image gallery: the selected image and its index. */
module ProductImages {
  import opened Js
  import Images

  /** `images[i]`: `undefined` outside the list. */
  function At(images: seq<string>, i: int): (r: Option<string>)
    ensures r.Some? <==> 0 <= i < |images|
    ensures r.Some? ==> r.value == images[i]
  {
    if 0 <= i < |images| then Some(images[i]) else None
  }

  datatype Gallery = Gallery(images: seq<string>, selected: Option<string>, index: int)

  /** The gallery shows the image at its index. */
  predicate Valid(g: Gallery) {
    0 <= g.index < |g.images| && g.selected == Some(g.images[g.index])
  }

  /** `ngOnInit`: the first image when there is one, with the index at 0. */
  function Init(images: seq<string>): (g: Gallery)
    ensures g.index == 0 && g.images == images
    ensures images != [] ==> Valid(g)
    ensures images == [] ==> g.selected == Some("")
  {
    Gallery(images, if images != [] then Some(images[0]) else Some(""), 0)
  }

  /** `selectImage`: sets both, unchecked. */
  function Select(g: Gallery, image: string, index: int): (r: Gallery)
    ensures r.selected == Some(image) && r.index == index && r.images == g.images
    ensures 0 <= index < |g.images| && image == g.images[index] ==> Valid(r)
  {
    g.(selected := Some(image), index := index)
  }

  /** `nextImage`: one on, unless on the last image. */
  function Next(g: Gallery): (r: Gallery)
    ensures g.index < |g.images| - 1 ==> r.index == g.index + 1 && r.selected == At(g.images, r.index)
    ensures g.index >= |g.images| - 1 ==> r == g
    ensures Valid(g) ==> Valid(r)
  {
    if g.index < |g.images| - 1 then g.(index := g.index + 1, selected := At(g.images, g.index + 1)) else g
  }

  /** `prevImage`: one back, unless on the first image. */
  function Prev(g: Gallery): (r: Gallery)
    ensures g.index > 0 ==> r.index == g.index - 1 && r.selected == At(g.images, r.index)
    ensures g.index <= 0 ==> r == g
    ensures Valid(g) ==> Valid(r)
  {
    if g.index > 0 then g.(index := g.index - 1, selected := At(g.images, g.index - 1)) else g
  }

  /** Away from the ends, next and previous undo each other. */
  lemma NextPrevInverse(g: Gallery)
    requires Valid(g)
    ensures g.index < |g.images| - 1 ==> Prev(Next(g)) == g
    ensures g.index > 0 ==> Next(Prev(g)) == g
  {
  }

  /** The gallery's `getImageUrl` is the shared normaliser. */
  function ImageUrl(path: string): (r: string)
    ensures path == "" ==> r == Images.Placeholder
    ensures path != "" ==> Images.IsAbsolute(r) && r == Images.Absolutize(path)
  {
    Images.ImageUrl(path)
  }
}

=== FILE: product_info.dfy ===
/** The product page's information panel: rating and review count, stock
    wording, and the quantity stepper bounded by the stock. */
module ProductInfo {
  import opened Js
  import opened Catalog
  import Stars
  import CartItemView

  /** A product's review count: `reviewCount` when present (even 0), else the
      number of reviews listed, else 0. */
  function ReviewCount(p: Product): (r: int)
    ensures p.reviewCount.Some? ==> r == p.reviewCount.value
    ensures p.reviewCount.None? && p.reviews.Some? ==> r == |p.reviews.value|
    ensures p.reviewCount.None? && p.reviews.None? ==> r == 0
  {
    if p.reviewCount.Some? then p.reviewCount.value
    else if p.reviews.Some? then |p.reviews.value|
    else 0
  }

  /** What the panel caches when its product changes. */
  datatype Cached = Cached(rating: int, reviewCount: int, stars: Option<string>)

  /** `calculateProductData`. */
  function Calculate(p: Product): (r: Cached)
    ensures r.rating == OrNum(p.rating, 0)
    ensures r.reviewCount == ReviewCount(p)
    ensures r.stars == Stars.Rated(Some(r.rating))
  {
    var rating := OrNum(p.rating, 0);
    Cached(rating, ReviewCount(p), Stars.Rated(Some(rating)))
  }

  /** A missing rating and a zero rating are cached alike. */
  lemma MissingRatingIsZero(p: Product)
    requires p.rating.None?
    ensures Calculate(p) == Calculate(p.(rating := Some(0)))
  {
  }

  /** `isInStock`: a stock above zero; a missing stock is not in stock. */
  predicate IsInStock(stock: Option<int>) {
    stock.Some? && stock.value > 0
  }

  datatype StockLevel = Out | Low(n: int) | Plenty

  /** The stock as the panel words it: out for a missing or zero stock, low up
      to five, plenty above. */
  function Level(stock: Option<int>): (r: StockLevel)
    ensures r.Out? <==> !TruthyNum(stock)
    ensures r.Low? <==> TruthyNum(stock) && stock.value <= 5
    ensures r.Low? ==> r.n == stock.value
    ensures r.Plenty? <==> TruthyNum(stock) && stock.value > 5
  {
    if !TruthyNum(stock) then Out else if stock.value <= 5 then Low(stock.value) else Plenty
  }

  /** `stockStatus`. */
  function StockStatus(stock: Option<int>): (r: string)
    ensures Level(stock).Out? ==> r == "Out of Stock"
    ensures Level(stock).Low? ==> r == "Only " + IntToString(stock.value) + " left!"
    ensures Level(stock).Plenty? ==> r == "In Stock"
  {
    match Level(stock)
    case Out => "Out of Stock"
    case Low(n) => "Only " + IntToString(n) + " left!"
    case Plenty => "In Stock"
  }

  /** `stockClass`, which follows the same three levels. */
  function StockClass(stock: Option<int>): (r: string)
    ensures Level(stock).Out? ==> r == "out-of-stock"
    ensures Level(stock).Low? ==> r == "low-stock"
    ensures Level(stock).Plenty? ==> r == "in-stock"
  {
    match Level(stock)
    case Out => "out-of-stock"
    case Low(_) => "low-stock"
    case Plenty => "in-stock"
  }

  /** For a non-negative stock, "in stock" and a wording other than "Out of
      Stock" coincide; a negative stock is worded as a few left while not in stock. */
  lemma StockWordsAgree(stock: Option<int>)
    ensures stock.None? || stock.value >= 0 ==> (IsInStock(stock) <==> !Level(stock).Out?)
    ensures stock == Some(-1) ==> !IsInStock(stock) && Level(stock) == Low(-1)
  {
  }

  /** `increaseQuantity`: refused (with an alert) once the quantity reaches a
      truthy stock; a missing or zero stock sets no cap. */
  function Increase(quantity: int, stock: Option<int>): (r: Option<int>)
    ensures r.None? <==> TruthyNum(stock) && quantity >= stock.value
    ensures r.Some? ==> r.value == quantity + 1
  {
    if TruthyNum(stock) && quantity >= stock.value then None else Some(quantity + 1)
  }

  /** `decreaseQuantity`: never below 1. */
  function Decrease(quantity: int): (r: Option<int>)
    ensures r.None? <==> quantity <= 1
    ensures r.Some? ==> r.value == quantity - 1 && r.value >= 1
  {
    if quantity > 1 then Some(quantity - 1) else None
  }

  /** A quantity within a positive stock stays within it, and the panel's
      stepper allows exactly what the cart line's stepper allows. */
  lemma StepperBounded(quantity: int, stock: int)
    requires 0 < stock && quantity <= stock
    ensures Increase(quantity, Some(stock)).Some? ==> Increase(quantity, Some(stock)).value <= stock
    ensures Increase(quantity, Some(stock)) == CartItemView.IncreaseQuantity(quantity, Some(stock))
  {
  }

  /** Up then down returns to the same quantity. */
  lemma UpThenDown(quantity: int, stock: Option<int>)
    requires quantity >= 1 && Increase(quantity, stock).Some?
    ensures Decrease(Increase(quantity, stock).value) == Some(quantity)
  {
  }
}

=== FILE: product_listing.dfy ===
/** The storefront's product listing: search, the filter predicate, the
    sort orders, client-side pagination and the add-to-cart busy set. */
module ProductListing {
  import opened Js
  import opened Catalog
  import opened ProductFilter
  import Images

  /** Products per page. */
  const ItemsPerPage: int := 12

  // ---------------------------------------------------------------------------
  // Search

  /** The lower-cased name, or the lower-cased description when there is one,
      contains the lower-cased query. */
  predicate MatchesSearch(p: Product, q: string) {
    Includes(Lower(p.name), Lower(q))
    || (p.description.Some? && Includes(Lower(p.description.value), Lower(q)))
  }

  /** The client-side search of `loadProducts`: no filtering for an empty query. */
  function SearchProducts(products: seq<Product>, q: string): (r: seq<Product>)
    ensures IsSubsequence(r, products)
    ensures q == "" ==> r == products
    ensures q != "" ==> forall i :: 0 <= i < |r| ==> MatchesSearch(r[i], q)
    ensures q != "" ==> forall i :: 0 <= i < |products| && MatchesSearch(products[i], q) ==> products[i] in r
  {
    if q == "" then
      IsSubsequenceRefl(products);
      products
    else Filter((p: Product) => MatchesSearch(p, q), products)
  }

  // ---------------------------------------------------------------------------
  // Filters

  /** The category id a product is filtered by: the object's `_id` or the string. */
  function CategoryIdOf(p: Product): (r: Option<string>)
    ensures r.Some? <==> p.category.Some?
    ensures r.Some? ==> r.value == RefKey(p.category.value)
  {
    if p.category.Some? then Some(RefKey(p.category.value)) else None
  }

  /** An id from one subcategory field: an object with a non-empty `_id`, or a string. */
  function RefIdIfSet(r: Option<Ref>): (id: Option<string>)
    ensures r.None? ==> id.None?
    ensures r.Some? && r.value.RefId? ==> id == Some(r.value.id)
    ensures r.Some? && r.value.RefObj? ==> (id.Some? <==> r.value.dbId != "") && (id.Some? ==> id.value == r.value.dbId)
  {
    match r
    case None => None
    case Some(RefId(s)) => Some(s)
    case Some(RefObj(d, _)) => if d != "" then Some(d) else None
  }

  /** The subcategory id a product is filtered by: `subCategory` is read before `subcategory`. */
  function SubcategoryIdOf(p: Product): (r: Option<string>)
    ensures RefIdIfSet(p.subCategory).Some? ==> r == RefIdIfSet(p.subCategory)
    ensures RefIdIfSet(p.subCategory).None? ==> r == RefIdIfSet(p.subcategory)
  {
    match RefIdIfSet(p.subCategory)
    case Some(id) => Some(id)
    case None => RefIdIfSet(p.subcategory)
  }

  /** Some listed value of the product is among the selected ones. */
  predicate SharesOne(values: Option<seq<string>>, selected: set<string>) {
    values.Some? && exists i :: 0 <= i < |values.value| && values.value[i] in selected
  }

  /** The predicate `applyFiltersAndSort` keeps a product by; an empty
      selection imposes no constraint, the price range always applies. */
  predicate PassesFilters(p: Product, f: Filters) {
    (f.categories != {} ==> CategoryIdOf(p).Some? && CategoryIdOf(p).value in f.categories)
    && (f.subcategories != {} ==> TruthyStr(SubcategoryIdOf(p)) && SubcategoryIdOf(p).value in f.subcategories)
    && f.minPrice <= p.price <= f.maxPrice
    && (f.sizes != {} ==> SharesOne(p.sizes, f.sizes))
    && (f.colors != {} ==> SharesOne(p.colors, f.colors))
  }

  /** The filtering of `applyFiltersAndSort`: the loaded products that pass, in loaded order. */
  function ApplyFilters(products: seq<Product>, f: Filters): (r: seq<Product>)
    ensures IsSubsequence(r, products)
    ensures forall i :: 0 <= i < |r| ==> f.minPrice <= r[i].price <= f.maxPrice
    ensures f.categories != {} ==> forall i :: 0 <= i < |r| ==> CategoryIdOf(r[i]).Some? && CategoryIdOf(r[i]).value in f.categories
    ensures f.subcategories != {} ==> forall i :: 0 <= i < |r| ==> SubcategoryIdOf(r[i]).Some? && SubcategoryIdOf(r[i]).value in f.subcategories
    ensures f.sizes != {} ==> forall i :: 0 <= i < |r| ==> SharesOne(r[i].sizes, f.sizes)
    ensures f.colors != {} ==> forall i :: 0 <= i < |r| ==> SharesOne(r[i].colors, f.colors)
    ensures forall i :: 0 <= i < |products| && PassesFilters(products[i], f) ==> products[i] in r
  {
    Filter((p: Product) => PassesFilters(p, f), products)
  }

  /** With the default filters only the price range 0..5000 matters. */
  lemma DefaultFiltersKeepPriceRange(products: seq<Product>)
    ensures var f := Filters({}, {}, DefaultMinPrice, DefaultMaxPrice, {}, {});
            forall i :: 0 <= i < |products| && 0 <= products[i].price <= 5000 ==> products[i] in ApplyFilters(products, f)
  {
  }

  // ---------------------------------------------------------------------------
  // Sorting

  /** The comparator of each sort mode, as a key compared lexicographically.
      `featured` (the default) puts featured products first and then orders by rating, highest first. */
  function SortKey(mode: string): Product -> Key {
    if mode == "price-asc" then (p: Product) => (p.price, 0)
    else if mode == "price-desc" then (p: Product) => (-p.price, 0)
    else if mode == "newest" then (p: Product) => (-OrNum(p.createdAt, 0), 0)
    else if mode == "rating" then (p: Product) => (-OrNum(p.rating, 0), 0)
    else (p: Product) => (if TruthyBool(p.isFeatured) then 0 else 1, -OrNum(p.rating, 0))
  }

  /** The sort modes other than the default. */
  predicate IsNamedMode(mode: string) {
    mode == "price-asc" || mode == "price-desc" || mode == "newest" || mode == "rating"
  }

  /** `sortFilteredProducts`: a permutation of the list, ordered as the mode says. */
  function SortProducts(products: seq<Product>, mode: string): (r: seq<Product>)
    ensures multiset(r) == multiset(products) && |r| == |products|
    ensures mode == "price-asc" ==> forall i, j :: 0 <= i < j < |r| ==> r[i].price <= r[j].price
    ensures mode == "price-desc" ==> forall i, j :: 0 <= i < j < |r| ==> r[i].price >= r[j].price
    ensures mode == "newest" ==> forall i, j :: 0 <= i < j < |r| ==> OrNum(r[i].createdAt, 0) >= OrNum(r[j].createdAt, 0)
    ensures mode == "rating" ==> forall i, j :: 0 <= i < j < |r| ==> OrNum(r[i].rating, 0) >= OrNum(r[j].rating, 0)
    ensures !IsNamedMode(mode) ==> forall i, j :: 0 <= i < j < |r| ==>
              (TruthyBool(r[j].isFeatured) ==> TruthyBool(r[i].isFeatured))
              && (TruthyBool(r[i].isFeatured) == TruthyBool(r[j].isFeatured) ==> OrNum(r[i].rating, 0) >= OrNum(r[j].rating, 0))
    ensures SortedBy(SortKey(mode), r)
  {
    var key := SortKey(mode);
    var r := SortBy(key, products);
    assert forall i, j :: 0 <= i < j < |r| ==> KeyLe(key(r[i]), key(r[j]));
    r
  }

  /** `Array.prototype.sort` is stable: products the comparator ranks equal
      stay in the order they were in before the sort. */
  lemma SortProductsIsStable(products: seq<Product>, mode: string, k: Key)
    ensures Filter(SameKey(SortKey(mode), k), SortProducts(products, mode))
            == Filter(SameKey(SortKey(mode), k), products)
  {
    SortByIsStable(SortKey(mode), products, k);
  }

  // ---------------------------------------------------------------------------
  // Pagination

  /** `Math.ceil(n / 12)`: the fewest pages of 12 that hold `n` products. */
  function TotalPages(n: nat): (t: nat)
    ensures t * ItemsPerPage >= n
    ensures t > 0 ==> (t - 1) * ItemsPerPage < n
    ensures t == 0 <==> n == 0
  {
    (n + ItemsPerPage - 1) / ItemsPerPage
  }

  /** `filteredProducts.slice((page - 1) * 12, page * 12)`: at most 12
      products, consecutive in the filtered list, starting at the page's first index. */
  function PageOf(filtered: seq<Product>, page: int): (r: seq<Product>)
    requires page >= 1
    ensures |r| <= ItemsPerPage
    ensures forall i :: 0 <= i < |r| ==> (page - 1) * ItemsPerPage + i < |filtered| && r[i] == filtered[(page - 1) * ItemsPerPage + i]
    ensures page <= TotalPages(|filtered|) ==> |r| > 0
    ensures page < TotalPages(|filtered|) ==> |r| == ItemsPerPage
  {
    Slice(filtered, (page - 1) * ItemsPerPage, page * ItemsPerPage)
  }

  /** Every product of the filtered list is shown on exactly the page its index falls in. */
  lemma PagesCover(filtered: seq<Product>, k: nat)
    requires k < |filtered|
    ensures var page := k / ItemsPerPage + 1;
            1 <= page <= TotalPages(|filtered|)
            && k % ItemsPerPage < |PageOf(filtered, page)|
            && PageOf(filtered, page)[k % ItemsPerPage] == filtered[k]
  {
    var page := k / ItemsPerPage + 1;
    assert (page - 1) * ItemsPerPage + k % ItemsPerPage == k;
    assert k / ItemsPerPage <= (|filtered| - 1) / ItemsPerPage;
    assert TotalPages(|filtered|) == (|filtered| - 1) / ItemsPerPage + 1;
  }

  /** `pageNumbers`: `1..totalPages`. */
  function PageNumbers(totalPages: nat): (r: seq<int>)
    ensures |r| == totalPages
    ensures forall i :: 0 <= i < |r| ==> r[i] == i + 1
  {
    seq(totalPages, i => i + 1)
  }

  // ---------------------------------------------------------------------------
  // Page state

  /** The listing's state. */
  datatype Listing = Listing(
    products: seq<Product>,
    filtered: seq<Product>,
    displayed: seq<Product>,
    filters: Filters,
    sortBy: string,
    search: string,
    currentPage: int,
    totalPages: int)

  /** The page number never drops below 1. */
  predicate Valid(s: Listing) {
    s.currentPage >= 1
  }

  /** `updateDisplayedProducts`: the page count and the current page's products. */
  function UpdateDisplayed(s: Listing): (r: Listing)
    requires Valid(s)
    ensures Valid(r) && r.totalPages == TotalPages(|s.filtered|) && r.displayed == PageOf(s.filtered, s.currentPage)
    ensures r.(displayed := s.displayed, totalPages := s.totalPages) == s
  {
    s.(totalPages := TotalPages(|s.filtered|), displayed := PageOf(s.filtered, s.currentPage))
  }

  /** The filtering step of `applyFiltersAndSort` as it is written: it
      re-filters the loaded products and does not sort. */
  function ApplyFiltersAsWritten(products: seq<Product>, f: Filters, mode: string): (r: seq<Product>)
    ensures IsSubsequence(r, products)
  {
    ApplyFilters(products, f)
  }

  /** After a client-side sort, a filter change as written reverts to the
      loaded order: the price-ascending sort is lost. */
  lemma FilterChangeLosesSort()
    ensures var cheap := Product(Some("a"), None, "A", "a", None, 100, None, None, [], None, None, None, None, None, None, None, None, None, None, None, None);
            var dear := cheap.(dbId := Some("b"), price := 200);
            var f := Filters({}, {}, DefaultMinPrice, DefaultMaxPrice, {}, {});
            SortedBy(SortKey("price-asc"), SortProducts([dear, cheap], "price-asc"))
            && !SortedBy(SortKey("price-asc"), ApplyFiltersAsWritten([dear, cheap], f, "price-asc"))
  {
    var cheap := Product(Some("a"), None, "A", "a", None, 100, None, None, [], None, None, None, None, None, None, None, None, None, None, None, None);
    var dear := cheap.(dbId := Some("b"), price := 200);
    var f := Filters({}, {}, DefaultMinPrice, DefaultMaxPrice, {}, {});
    assert PassesFilters(dear, f) && PassesFilters(cheap, f);
    assert [dear, cheap][1..] == [cheap];
    assert ApplyFilters([dear, cheap], f) == [dear, cheap];
  }

  /** `applyFiltersAndSort` as its name and callers intend: the filtered
      products in the current sort order. */
  function ApplyFiltersAndSort(products: seq<Product>, f: Filters, mode: string): (r: seq<Product>)
    ensures SortedBy(SortKey(mode), r)
    ensures multiset(r) == multiset(ApplyFilters(products, f))
    ensures forall i :: 0 <= i < |r| ==> f.minPrice <= r[i].price <= f.maxPrice
  {
    var kept := ApplyFilters(products, f);
    var r := SortProducts(kept, mode);
    assert forall i :: 0 <= i < |r| ==> r[i] in multiset(kept);
    r
  }

  /** The response of `loadProducts` arrives, as written: the searched
      products become the loaded list; the copy that `sortFilteredProducts`
      orders is then overwritten by `applyFiltersAndSort`, which re-filters
      the loaded list in its loaded order, and the page is shown. */
  function OnLoaded(s: Listing, data: seq<Product>): (r: Listing)
    requires Valid(s)
    ensures Valid(r) && r.products == SearchProducts(data, s.search)
    ensures r.filtered == ApplyFiltersAsWritten(r.products, s.filters, s.sortBy)
    ensures IsSubsequence(r.filtered, r.products)
    ensures r.displayed == PageOf(r.filtered, r.currentPage) && r.currentPage == s.currentPage
  {
    var products := SearchProducts(data, s.search);
    UpdateDisplayed(s.(products := products, filtered := ApplyFiltersAsWritten(products, s.filters, s.sortBy)))
  }

  /** `onFilterChange`, as written: new filters, back to page 1, and the
      loaded products re-filtered in their loaded order. */
  function OnFilterChange(s: Listing, f: Filters): (r: Listing)
    requires Valid(s)
    ensures Valid(r) && r.currentPage == 1 && r.filters == f && r.products == s.products
    ensures r.filtered == ApplyFiltersAsWritten(s.products, f, s.sortBy)
    ensures IsSubsequence(r.filtered, s.products)
    ensures |r.displayed| <= ItemsPerPage
  {
    UpdateDisplayed(s.(filters := f, currentPage := 1, filtered := ApplyFiltersAsWritten(s.products, f, s.sortBy)))
  }

  /** As written, neither a load nor a filter change looks at the sort mode:
      the shown order is the same whatever sort was chosen. */
  lemma SortModeIgnored(s: Listing, data: seq<Product>, f: Filters, mode: string)
    requires Valid(s)
    ensures OnLoaded(s.(sortBy := mode), data).filtered == OnLoaded(s, data).filtered
    ensures OnFilterChange(s.(sortBy := mode), f).filtered == OnFilterChange(s, f).filtered
  {
  }

  /** A filter change right after a client-side sort, as written: a listing
      sorted by ascending price shows its two products in loaded order again. */
  lemma SortThenFilterChangeUnsorts(s: Listing, cheap: Product, dear: Product)
    requires Valid(s) && s.products == [dear, cheap] && cheap.price < dear.price
    requires PassesFilters(dear, s.filters) && PassesFilters(cheap, s.filters)
    ensures SortedBy(SortKey("price-asc"), OnSortChange(s, "price-asc").filtered)
    ensures OnFilterChange(OnSortChange(s, "price-asc"), s.filters).filtered == [dear, cheap]
  {
    assert [dear, cheap][1..] == [cheap];
    assert ApplyFilters([dear, cheap], s.filters) == [dear, cheap];
  }

  /** The response of `loadProducts` as intended: the searched products,
      filtered and then sorted by the current mode. */
  function OnLoadedIntended(s: Listing, data: seq<Product>): (r: Listing)
    requires Valid(s)
    ensures Valid(r) && r.products == SearchProducts(data, s.search)
    ensures r.filtered == ApplyFiltersAndSort(r.products, s.filters, s.sortBy)
    ensures SortedBy(SortKey(s.sortBy), r.filtered)
    ensures r.displayed == PageOf(r.filtered, r.currentPage) && r.currentPage == s.currentPage
  {
    var products := SearchProducts(data, s.search);
    UpdateDisplayed(s.(products := products, filtered := ApplyFiltersAndSort(products, s.filters, s.sortBy)))
  }

  /** `onFilterChange` as intended: new filters, back to page 1, and the
      filtered products kept in the current sort order. */
  function OnFilterChangeIntended(s: Listing, f: Filters): (r: Listing)
    requires Valid(s)
    ensures Valid(r) && r.currentPage == 1 && r.filters == f
    ensures r.filtered == ApplyFiltersAndSort(s.products, f, s.sortBy)
    ensures SortedBy(SortKey(s.sortBy), r.filtered)
    ensures |r.displayed| <= ItemsPerPage
  {
    UpdateDisplayed(s.(filters := f, currentPage := 1, filtered := ApplyFiltersAndSort(s.products, f, s.sortBy)))
  }

  /** The intended and the written filter change keep the same products; they
      differ only in order. */
  lemma IntendedIsReordering(s: Listing, f: Filters)
    requires Valid(s)
    ensures multiset(OnFilterChangeIntended(s, f).filtered) == multiset(OnFilterChange(s, f).filtered)
  {
  }

  /** `onSortChange`: the filtered list re-sorted, back to page 1. */
  function OnSortChange(s: Listing, mode: string): (r: Listing)
    requires Valid(s)
    ensures Valid(r) && r.currentPage == 1 && r.sortBy == mode
    ensures multiset(r.filtered) == multiset(s.filtered) && SortedBy(SortKey(mode), r.filtered)
  {
    UpdateDisplayed(s.(sortBy := mode, currentPage := 1, filtered := SortProducts(s.filtered, mode)))
  }

  /** `goToPage`: only a page within `1..totalPages` is shown. */
  function GoToPage(s: Listing, page: int): (r: Listing)
    requires Valid(s)
    ensures Valid(r)
    ensures 1 <= page <= s.totalPages ==> r.currentPage == page && r.displayed == PageOf(s.filtered, page)
    ensures !(1 <= page <= s.totalPages) ==> r == s
  {
    if 1 <= page <= s.totalPages then UpdateDisplayed(s.(currentPage := page)) else s
  }

  // ---------------------------------------------------------------------------
  // Display helpers

  /** `getStars`: one filled star per whole rating point; a negative rating
      makes `repeat` throw. */
  function Stars(rating: Option<int>): (r: Option<string>)
    ensures r.Some? <==> OrNum(rating, 0) >= 0
    ensures r.Some? ==> |r.value| == OrNum(rating, 0)
  {
    Repeat('★', OrNum(rating, 0))
  }

  /** `getCategoryName`: `'Casual'` for a missing or empty category, the
      string itself, or the object's name (or `'Casual'`). */
  function CategoryName(c: Option<Ref>): (r: string)
    ensures r != ""
    ensures c.Some? && c.value.RefId? && c.value.id != "" ==> r == c.value.id
    ensures c.Some? && c.value.RefObj? && c.value.name != "" ==> r == c.value.name
  {
    match c
    case None => "Casual"
    case Some(RefId(s)) => if s == "" then "Casual" else s
    case Some(RefObj(_, n)) => if n == "" then "Casual" else n
  }

  // ---------------------------------------------------------------------------
  // Add to cart

  /** What `addToCart` does for a product. */
  datatype AddAttempt =
    | NoProductId
    | AlreadyAdding
    | OutOfStock
    | Request(productId: string, size: Option<string>, color: Option<string>)

  /** The first listed value, if any. */
  function FirstOf(xs: Option<seq<string>>): (r: Option<string>)
    ensures r.Some? <==> xs.Some? && xs.value != []
    ensures r.Some? ==> r.value == xs.value[0]
  {
    if xs.Some? && xs.value != [] then Some(xs.value[0]) else None
  }

  /** `addToCart`: refused without an id, ignored while the id is in flight,
      refused for a known stock of 0 or less; otherwise the id joins the busy
      set and one unit is requested with the first size and colour. */
  function StartAddToCart(busy: set<string>, p: Product): (r: (set<string>, AddAttempt))
    ensures r.1.Request? <==> (TruthyStr(ProductId(p)) && ProductId(p).value !in busy
                               && !(p.stock.Some? && p.stock.value <= 0))
    ensures r.1.Request? ==> (r.0 == busy + {r.1.productId} && r.1.productId == ProductId(p).value
                              && r.1.size == FirstOf(p.sizes) && r.1.color == FirstOf(p.colors))
    ensures !r.1.Request? ==> r.0 == busy
  {
    if !TruthyStr(ProductId(p)) then (busy, NoProductId)
    else
      var id := ProductId(p).value;
      if id in busy then (busy, AlreadyAdding)
      else if p.stock.Some? && p.stock.value <= 0 then (busy, OutOfStock)
      else (busy + {id}, Request(id, FirstOf(p.sizes), FirstOf(p.colors)))
  }

  /** The error text when adding fails. */
  function AddErrorMessage(e: HttpError): (m: string)
    ensures m != ""
    ensures e.status == 401 ==> m == "Please login to add items to cart."
    ensures e.status == 404 ==> m == "Product not found."
    ensures e.status != 401 && e.status != 404 && TruthyStr(e.serverMessage) ==> m == e.serverMessage.value
  {
    if e.status == 401 then "Please login to add items to cart."
    else if e.status == 404 then "Product not found."
    else OrStr(e.serverMessage, "Failed to add item to cart. Please try again.")
  }

  /** Completion of the request: the id leaves the busy set whatever the outcome. */
  function FinishAddToCart(busy: set<string>, productId: string): (r: set<string>)
    ensures productId !in r && r <= busy
    ensures forall x :: x in busy && x != productId ==> x in r
  {
    busy - {productId}
  }

  /** A request that starts and finishes leaves the busy set as it found it. */
  lemma AddToCartRestoresBusy(busy: set<string>, p: Product)
    requires StartAddToCart(busy, p).1.Request?
    ensures FinishAddToCart(StartAddToCart(busy, p).0, StartAddToCart(busy, p).1.productId) == busy
  {
  }

  /** While a request is in flight the same product cannot start another. */
  lemma NoDoubleAdd(busy: set<string>, p: Product)
    requires StartAddToCart(busy, p).1.Request?
    ensures StartAddToCart(StartAddToCart(busy, p).0, p).1 == AlreadyAdding
  {
  }

  /** `getImageUrl`. */
  function ImageUrl(p: string): (r: string)
    ensures p == "" ==> r == Images.Placeholder
    ensures p != "" ==> r == Images.Absolutize(p) && Images.IsAbsolute(r)
  {
    Images.ImageUrl(p)
  }
}

=== FILE: product_page.dfy ===
/** The product page: default options, the choice and filtering of related
    products, and the messages of its cart and wishlist buttons. */
module ProductDetails {
  import opened Js
  import opened Catalog
  import Stars
  import Images

  // ---------------------------------------------------------------------------
  // Default options

  /** The size and colour the page sends with "add to cart". */
  datatype Selection = Selection(size: string, color: string)

  /** After a product loads, its first size and first colour are preselected;
      a product without one leaves that choice as it was. */
  function OnProductLoaded(s: Selection, p: Product): (r: Selection)
    ensures p.sizes.Some? && p.sizes.value != [] ==> r.size == p.sizes.value[0]
    ensures p.colors.Some? && p.colors.value != [] ==> r.color == p.colors.value[0]
    ensures (p.sizes.None? || p.sizes.value == []) ==> r.size == s.size
    ensures (p.colors.None? || p.colors.value == []) ==> r.color == s.color
  {
    var size := if p.sizes.Some? && |p.sizes.value| > 0 then p.sizes.value[0] else s.size;
    var color := if p.colors.Some? && |p.colors.value| > 0 then p.colors.value[0] else s.color;
    Selection(size, color)
  }

  // ---------------------------------------------------------------------------
  // Related products

  /** A reference's id: an object's `_id`, or the string itself. */
  function RefIdOf(r: Option<Ref>): (id: Option<string>)
    ensures r.None? ==> id.None?
    ensures r.Some? ==> id == Some(RefKey(r.value))
  {
    if r.None? then None else Some(RefKey(r.value))
  }

  /** Where related products are looked for. */
  datatype RelatedQuery = NoQuery | BySubcategory(id: string) | ByCategory(id: string)

  /** `loadRelatedProducts`: the subcategory when it has an id, else the category. */
  function RelatedSource(p: Product): (q: RelatedQuery)
    ensures TruthyStr(RefIdOf(p.subcategory)) ==> q == BySubcategory(RefIdOf(p.subcategory).value)
    ensures !TruthyStr(RefIdOf(p.subcategory)) && TruthyStr(RefIdOf(p.category)) ==> q == ByCategory(RefIdOf(p.category).value)
    ensures q.NoQuery? <==> !TruthyStr(RefIdOf(p.subcategory)) && !TruthyStr(RefIdOf(p.category))
  {
    var sub := RefIdOf(p.subcategory);
    var cat := RefIdOf(p.category);
    if TruthyStr(sub) then BySubcategory(sub.value)
    else if TruthyStr(cat) then ByCategory(cat.value)
    else NoQuery
  }

  /** A related-products response: a bare array, or an object whose `data`
      (else `products`) holds the list. */
  datatype RelatedResponse = BareList(items: seq<Product>) | Wrapped(data: Option<seq<Product>>, products: Option<seq<Product>>)

  function ProductsOf(resp: RelatedResponse): (r: seq<Product>)
    ensures resp.BareList? ==> r == resp.items
    ensures resp.Wrapped? && resp.data.Some? ==> r == resp.data.value
    ensures resp.Wrapped? && resp.data.None? ==> r == resp.products.GetOr([])
  {
    match resp
    case BareList(items) => items
    case Wrapped(data, products) => if data.Some? then data.value else products.GetOr([])
  }

  const MaxRelated := 4

  /** Whether a candidate counts as related: it has an id, and not the current one. */
  predicate IsOther(current: Option<string>, p: Product) {
    TruthyStr(ProductId(p)) && ProductId(p) != current
  }

  /** The kept related products: the first four that are not the product itself. */
  function Related(products: seq<Product>, current: Option<string>): (r: seq<Product>)
    ensures |r| <= MaxRelated
    ensures IsSubsequence(r, products)
    ensures forall i :: 0 <= i < |r| ==> TruthyStr(ProductId(r[i])) && ProductId(r[i]) != current
    ensures |r| <= |Filter(p => IsOther(current, p), products)|
    ensures r == Filter(p => IsOther(current, p), products)[..|r|]
    ensures |r| < MaxRelated ==> r == Filter(p => IsOther(current, p), products)
  {
    var kept := Filter(p => IsOther(current, p), products);
    var r := if |kept| <= MaxRelated then kept else kept[..MaxRelated];
    PrefixIsSubsequence(kept, |r|);
    assert r == kept[..|r|];
    IsSubsequenceTrans(r, kept, products);
    r
  }

  /** The id the current product is known by: `_id`, else `id`, else the route's. */
  function CurrentId(p: Product, routeId: string): (r: Option<string>)
    ensures TruthyStr(ProductId(p)) ==> r == ProductId(p)
    ensures !TruthyStr(ProductId(p)) ==> r == Some(routeId)
  {
    OrStrOpt(ProductId(p), Some(routeId))
  }

  /** The related-products panel and the request the page sends next. */
  datatype Panel = Panel(related: seq<Product>, loading: bool)

  /** The subcategory request's outcome: the related list (empty on an error),
      and a fallback to the category when nothing related was found and the
      category has an id. */
  function OnSubcategoryResult(p: Product, routeId: string, outcome: Outcome<RelatedResponse>): (r: (Panel, RelatedQuery))
    ensures !r.0.loading
    ensures outcome.Ok? ==> r.0.related == Related(ProductsOf(outcome.value), CurrentId(p, routeId))
    ensures outcome.Err? ==> r.0.related == []
    ensures r.1 != NoQuery <==> r.0.related == [] && TruthyStr(RefIdOf(p.category))
    ensures r.1 != NoQuery ==> r.1 == ByCategory(RefIdOf(p.category).value)
  {
    var related := match outcome
      case Ok(resp) => Related(ProductsOf(resp), CurrentId(p, routeId))
      case Err(_) => [];
    var cat := RefIdOf(p.category);
    var next := if related == [] && TruthyStr(cat) then ByCategory(cat.value) else NoQuery;
    (Panel(related, false), next)
  }

  /** `loadRelatedProductsByCategory`'s guard: no new request while one is
      loading and products are shown. */
  function StartByCategory(panel: Panel): (r: (Panel, bool))
    ensures r.1 <==> !(panel.loading && panel.related != [])
    ensures r.1 ==> r.0 == panel.(loading := true)
    ensures !r.1 ==> r.0 == panel
  {
    if panel.loading && |panel.related| > 0 then (panel, false) else (panel.(loading := true), true)
  }

  /** The category fallback after a subcategory result is never held back by that guard. */
  lemma FallbackIsNeverBlocked(p: Product, routeId: string, outcome: Outcome<RelatedResponse>)
    ensures StartByCategory(OnSubcategoryResult(p, routeId, outcome).0).1
  {
  }

  /** The category request's outcome: the related list, empty on an error. */
  function OnCategoryResult(p: Product, routeId: string, outcome: Outcome<RelatedResponse>): (r: Panel)
    ensures !r.loading
    ensures outcome.Ok? ==> r.related == Related(ProductsOf(outcome.value), CurrentId(p, routeId))
    ensures outcome.Err? ==> r.related == []
  {
    match outcome
    case Ok(resp) => Panel(Related(ProductsOf(resp), CurrentId(p, routeId)), false)
    case Err(_) => Panel([], false)
  }

  /** The current product is never among its related products. */
  lemma NeverRelatedToItself(p: Product, routeId: string, products: seq<Product>)
    requires TruthyStr(ProductId(p))
    ensures forall i :: 0 <= i < |Related(products, CurrentId(p, routeId))| ==>
              ProductId(Related(products, CurrentId(p, routeId))[i]) != ProductId(p)
  {
  }

  // ---------------------------------------------------------------------------
  // Messages

  /** `addToCart`'s success toast: the name, then the chosen size and colour on
      their own lines when chosen. */
  function AddedMessage(name: string, s: Selection): (r: string)
    ensures StartsWith(r, name + " added to cart!")
    ensures s.size == "" && s.color == "" ==> r == name + " added to cart!"
    ensures s.size != "" && s.color == "" ==> r == name + " added to cart!" + "\nSize: " + s.size
    ensures s.size == "" && s.color != "" ==> r == name + " added to cart!" + "\nColor: " + s.color
    ensures s.size != "" && s.color != "" ==>
              r == name + " added to cart!" + "\nSize: " + s.size + "\nColor: " + s.color
  {
    var m := name + " added to cart!";
    var r := m + (if s.size != "" then "\nSize: " + s.size else "") + (if s.color != "" then "\nColor: " + s.color else "");
    assert r[..|m|] == m;
    r
  }

  /** Read line by line, the toast is the greeting, then `Size: …` when a
      size is chosen, then `Color: …` when a colour is chosen. */
  lemma {:induction false} AddedMessageLines(name: string, s: Selection)
    requires '\n' !in name && '\n' !in s.size && '\n' !in s.color
    ensures Split(AddedMessage(name, s), '\n') ==
              [name + " added to cart!"]
              + (if s.size != "" then ["Size: " + s.size] else [])
              + (if s.color != "" then ["Color: " + s.color] else [])
  {
    var head := name + " added to cart!";
    NoNewline(name, " added to cart!");
    if s.size != "" && s.color != "" {
      LabelledLines(head, s.size, s.color, AddedMessage(name, s));
    } else if s.size != "" {
      LabelledLine(head, "Size: ", s.size, AddedMessage(name, s));
    } else if s.color != "" {
      LabelledLine(head, "Color: ", s.color, AddedMessage(name, s));
    } else {
      SplitNone(head, '\n');
    }
  }

  /** A newline-free line followed by one labelled line. */
  lemma LabelledLine(a: string, title: string, v: string, m: string)
    requires '\n' !in a && '\n' !in title && '\n' !in v && m == a + ("\n" + title) + v
    ensures Split(m, '\n') == [a, title + v]
  {
    NoNewline(title, v);
    assert m == a + ['\n'] + (title + v);
    SplitTwo(a, title + v, '\n');
  }

  /** A newline-free line followed by the size and colour lines. */
  lemma LabelledLines(a: string, size: string, color: string, m: string)
    requires '\n' !in a && '\n' !in size && '\n' !in color
    requires m == a + "\nSize: " + size + "\nColor: " + color
    ensures Split(m, '\n') == [a, "Size: " + size, "Color: " + color]
  {
    var b := "Size: " + size;
    var c := "Color: " + color;
    NoNewline("Size: ", size);
    NoNewline("Color: ", color);
    assert "\nSize: " == ['\n'] + "Size: " && "\nColor: " == ['\n'] + "Color: ";
    assert m == a + ['\n'] + (b + ['\n'] + c);
    SplitTwo(b, c, '\n');
    SplitCons(a, b + ['\n'] + c, '\n');
  }

  /** Two newline-free pieces joined by a newline. */
  lemma NoNewline(a: string, b: string)
    requires '\n' !in a && '\n' !in b
    ensures '\n' !in a + b
  {
  }

  /** `addToCart`'s error toast: the server's message, else one for 401 and
      404, else a generic one. */
  function CartErrorMessage(e: HttpError): (r: string)
    ensures TruthyStr(e.serverMessage) ==> r == e.serverMessage.value
    ensures !TruthyStr(e.serverMessage) && e.status == 401 ==> r == "Please login first"
    ensures !TruthyStr(e.serverMessage) && e.status == 404 ==> r == "Product not found"
    ensures !TruthyStr(e.serverMessage) && e.status != 401 && e.status != 404 ==> r == "Failed to add item to cart"
  {
    if TruthyStr(e.serverMessage) then e.serverMessage.value
    else if e.status == 401 then "Please login first"
    else if e.status == 404 then "Product not found"
    else "Failed to add item to cart"
  }

  const AlreadyInWishlist := "Product already in wishlist!"

  /** `addToWishlist`'s error toast as written: the server's message is tested
      first, so the duplicate branch, which itself needs a server message,
      can never be reached. */
  function WishlistErrorAsWritten(e: HttpError): (r: string)
    ensures TruthyStr(e.serverMessage) ==> r == e.serverMessage.value
    ensures !TruthyStr(e.serverMessage) ==> r == (if e.status == 401 then "Please login first" else "Failed to add to wishlist")
  {
    if TruthyStr(e.serverMessage) then e.serverMessage.value
    else if e.status == 401 then "Please login first"
    else if e.status == 400 && e.serverMessage.Some? && Includes(e.serverMessage.value, "already") then AlreadyInWishlist
    else "Failed to add to wishlist"
  }

  /** The duplicate message is shown only when the server itself sent exactly
      that text: a 400 whose message mentions "already" shows the server's words. */
  lemma DuplicateBranchUnreachable(e: HttpError)
    ensures WishlistErrorAsWritten(e) == AlreadyInWishlist ==> e.serverMessage == Some(AlreadyInWishlist)
    ensures WishlistErrorAsWritten(HttpError(400, Some("Product is already in your wishlist"), None)) == "Product is already in your wishlist"
  {
  }

  /** The error toast with the duplicate case tested before the server's message. */
  function WishlistError(e: HttpError): (r: string)
    ensures e.status == 400 && e.serverMessage.Some? && Includes(e.serverMessage.value, "already") ==> r == AlreadyInWishlist
    ensures !(e.status == 400 && e.serverMessage.Some? && Includes(e.serverMessage.value, "already")) ==>
              r == WishlistErrorAsWritten(e)
  {
    if e.status == 400 && e.serverMessage.Some? && Includes(e.serverMessage.value, "already") then AlreadyInWishlist
    else WishlistErrorAsWritten(e)
  }

  /** With the cases reordered, a duplicate is reported with the page's own message. */
  lemma DuplicateIsReported(message: string)
    requires Includes(message, "already")
    ensures WishlistError(HttpError(400, Some(message), None)) == AlreadyInWishlist
  {
  }

  /** `getStars` on the product page. */
  function StarsOf(rating: Option<int>): (r: Option<string>)
    ensures r.Some? ==> |r.value| == 5
    ensures r.Some? <==> !TruthyNum(rating) || 0 < rating.value <= 5
    ensures TruthyNum(rating) && 0 < rating.value <= 5 ==>
              forall i :: 0 <= i < 5 ==> r.value[i] == (if i < rating.value then '\U{2605}' else '\U{2606}')
    ensures !TruthyNum(rating) ==> r.Some? && forall i :: 0 <= i < 5 ==> r.value[i] == '\U{2606}'
  {
    Stars.Rated(rating)
  }

  /** `getProductImage` for a related product: the placeholder without a
      product or without images, else its first image normalised (an empty
      first path is not special-cased). */
  function ProductImage(p: Option<Product>): (r: string)
    ensures p.None? || p.value.images == [] ==> r == Images.Placeholder
    ensures p.Some? && p.value.images != [] ==> r == Images.Absolutize(p.value.images[0]) && Images.IsAbsolute(r)
  {
    if p.None? then Images.Placeholder else Images.FirstImage(Some(p.value.images))
  }
}

=== FILE: product_reviews.dfy ===
/** The review list under a product: which reviews are kept, names, initials,
    relative dates, stars and the rating summary. */
module ProductReviews {
  import opened Js

  datatype Author = NoAuthor | AuthorId(id: string) | AuthorObj(firstName: Option<string>, lastName: Option<string>)

  datatype Review = Review(rating: Option<int>, comment: Option<string>, user: Author, userName: Option<string>)

  /** A review worth showing: it has a rating and a comment that is not blank. */
  predicate IsShown(r: Review) {
    r.rating.Some? && TruthyStr(r.comment) && Trim(r.comment.value) != ""
  }

  /** The `reviews` setter: `(value || []).filter(...)`. */
  function Shown(value: Option<seq<Review>>): (r: seq<Review>)
    ensures value.None? ==> r == []
    ensures forall i :: 0 <= i < |r| ==> IsShown(r[i])
    ensures value.Some? ==> IsSubsequence(r, value.value)
    ensures value.Some? ==> forall i :: 0 <= i < |value.value| && IsShown(value.value[i]) ==> value.value[i] in r
  {
    Filter(IsShown, value.GetOr([]))
  }

  /** Setting the already-filtered list again changes nothing. */
  lemma ShownIdempotent(value: Option<seq<Review>>)
    ensures Shown(Some(Shown(value))) == Shown(value)
  {
    FilterAll(IsShown, Shown(value));
  }

  /** `getUserName`: a populated user's trimmed full name, else `userName`, else a placeholder. */
  function UserName(review: Review): (r: string)
    ensures r != ""
    ensures !review.user.AuthorObj? && TruthyStr(review.userName) ==> r == review.userName.value
    ensures !review.user.AuthorObj? && !TruthyStr(review.userName) ==> r == "Anonymous User"
    ensures review.user.AuthorObj? && !TruthyStr(review.user.firstName) && !TruthyStr(review.user.lastName) ==> r == "Anonymous User"
    ensures review.user.AuthorObj? && Trim(OrStr(review.user.firstName, "") + " " + OrStr(review.user.lastName, "")) != "" ==>
              r == Trim(OrStr(review.user.firstName, "") + " " + OrStr(review.user.lastName, ""))
    ensures review.user.AuthorObj? && Trim(OrStr(review.user.firstName, "") + " " + OrStr(review.user.lastName, "")) == "" ==>
              r == "Anonymous User"
  {
    match review.user
    case AuthorObj(first, last) =>
      var full := Trim(OrStr(first, "") + " " + OrStr(last, ""));
      JoinedNamesBlank(first, last);
      if full != "" then full else "Anonymous User"
    case _ => OrStr(review.userName, "Anonymous User")
  }

  /** A populated user's name, and the placeholder, never start or end with white space. */
  lemma {:induction false} UserNameTrimmed(review: Review)
    requires review.user.AuthorObj? || !TruthyStr(review.userName)
    ensures Trim(UserName(review)) == UserName(review)
  {
    if review.user.AuthorObj? {
      TrimIdempotent(OrStr(review.user.firstName, "") + " " + OrStr(review.user.lastName, ""));
    }
    PlaceholderTrimmed();
  }

  /** The placeholder name has no surrounding white space. */
  lemma PlaceholderTrimmed()
    ensures Trim("Anonymous User") == "Anonymous User"
  {
    TrimUnpadded("Anonymous User");
  }

  /** White space before the first name or after the last name is never shown. */
  lemma {:induction false} UserNameIgnoresPadding(p: string, first: string, last: string, q: string, rating: Option<int>, comment: Option<string>, userName: Option<string>)
    requires AllSpace(p) && AllSpace(q) && first != "" && last != ""
    ensures UserName(Review(rating, comment, AuthorObj(Some(p + first), Some(last + q)), userName))
            == UserName(Review(rating, comment, AuthorObj(Some(first), Some(last)), userName))
  {
    assert OrStr(Some(p + first), "") == p + first && OrStr(Some(last + q), "") == last + q;
    TrimOfPaddedNames(p, first, last, q);
    UserNameFollowsTrim(Review(rating, comment, AuthorObj(Some(p + first), Some(last + q)), userName),
                        Review(rating, comment, AuthorObj(Some(first), Some(last)), userName));
  }

  /** Two authors whose joined names trim alike are shown alike. */
  lemma UserNameFollowsTrim(a: Review, b: Review)
    requires a.user.AuthorObj? && b.user.AuthorObj?
    requires Trim(OrStr(a.user.firstName, "") + " " + OrStr(a.user.lastName, ""))
             == Trim(OrStr(b.user.firstName, "") + " " + OrStr(b.user.lastName, ""))
    ensures UserName(a) == UserName(b)
  {
  }

  /** `getUserInitials`: the first letters of the first two words, upper-cased. */
  function Initials(name: string): (r: string)
    ensures |r| <= 2
    ensures name != "" && ' ' !in name ==> r == [UpperChar(name[0])]
  {
    var words := Split(name, ' ');
    if |words| >= 2 then Upper(FirstChar(words[0]) + FirstChar(words[1]))
    else Upper(FirstChar(name))
  }

  /** A two-word name gives both initials, upper-cased. */
  lemma InitialsOfTwoWords(first: string, last: string)
    requires first != "" && last != "" && ' ' !in first && ' ' !in last
    ensures Initials(first + " " + last) == [UpperChar(first[0]), UpperChar(last[0])]
  {
    assert first + " " + last == first + [' '] + last;
    SplitTwo(first, last, ' ');
  }

  /** How long ago a review was written, by whole days. */
  datatype Ago = Today | Yesterday | DaysAgo(n: int) | WeeksAgo(n: int) | MonthsAgo(n: int) | YearsAgo(n: int)

  /** `getRelativeTime` for a difference of `days` whole days. A date in the
      future gives a negative day count, which falls in the "days" bucket. */
  function RelativeTime(days: int): (r: Ago)
    ensures days == 0 <==> r.Today?
    ensures days == 1 <==> r.Yesterday?
    ensures r.DaysAgo? <==> days < 7 && days != 0 && days != 1
    ensures r.DaysAgo? ==> r.n == days
    ensures r.WeeksAgo? ==> 1 <= r.n <= 4 && 7 * r.n <= days < 7 * r.n + 7
    ensures r.MonthsAgo? ==> 1 <= r.n <= 12 && 30 * r.n <= days < 30 * r.n + 30
    ensures r.YearsAgo? ==> r.n >= 1 && 365 * r.n <= days < 365 * r.n + 365
    ensures r.WeeksAgo? <==> 7 <= days < 30
    ensures r.MonthsAgo? <==> 30 <= days < 365
  {
    if days == 0 then Today
    else if days == 1 then Yesterday
    else if days < 7 then DaysAgo(days)
    else if days < 30 then WeeksAgo(days / 7)
    else if days < 365 then MonthsAgo(days / 30)
    else YearsAgo(days / 365)
  }

  /** The text shown. */
  function Render(a: Ago): (r: string)
    ensures a.Today? ==> r == "Today"
    ensures a.Yesterday? ==> r == "Yesterday"
    ensures a.DaysAgo? ==> r == IntToString(a.n) + " days ago"
    ensures a.WeeksAgo? ==> r == IntToString(a.n) + " weeks ago"
    ensures a.MonthsAgo? ==> r == IntToString(a.n) + " months ago"
    ensures a.YearsAgo? ==> r == IntToString(a.n) + " years ago"
  {
    match a
    case Today => "Today"
    case Yesterday => "Yesterday"
    case DaysAgo(n) => IntToString(n) + " days ago"
    case WeeksAgo(n) => IntToString(n) + " weeks ago"
    case MonthsAgo(n) => IntToString(n) + " months ago"
    case YearsAgo(n) => IntToString(n) + " years ago"
  }

  /** `getRelativeTime`'s text for a difference of `days` whole days, bucket by bucket. */
  lemma RelativeText(days: int)
    ensures days == 0 ==> Render(RelativeTime(days)) == "Today"
    ensures days == 1 ==> Render(RelativeTime(days)) == "Yesterday"
    ensures days < 7 && days != 0 && days != 1 ==> Render(RelativeTime(days)) == IntToString(days) + " days ago"
    ensures 7 <= days < 30 ==> Render(RelativeTime(days)) == IntToString(days / 7) + " weeks ago"
    ensures 30 <= days < 365 ==> Render(RelativeTime(days)) == IntToString(days / 30) + " months ago"
    ensures 365 <= days ==> Render(RelativeTime(days)) == IntToString(days / 365) + " years ago"
  {
  }

  /** The unit of the bucket, in days. */
  function Unit(a: Ago): nat {
    match a
    case Today => 0
    case Yesterday => 1
    case DaysAgo(_) => 2
    case WeeksAgo(_) => 7
    case MonthsAgo(_) => 30
    case YearsAgo(_) => 365
  }

  /** An older review never gets a finer unit than a newer one. */
  lemma UnitsGrowWithAge(d1: int, d2: int)
    requires 0 <= d1 <= d2
    ensures Unit(RelativeTime(d1)) <= Unit(RelativeTime(d2))
  {
  }

  /** `getStars` and `getEmptyStars`: `★` times the rating, `☆` times the rest. */
  function StarParts(rating: int): (r: (Option<string>, Option<string>))
    ensures r.0.Some? <==> rating >= 0
    ensures r.1.Some? <==> rating <= 5
    ensures r.0.Some? ==> |r.0.value| == rating && forall i :: 0 <= i < rating ==> r.0.value[i] == '\U{2605}'
    ensures r.1.Some? ==> |r.1.value| == 5 - rating && forall i :: 0 <= i < 5 - rating ==> r.1.value[i] == '\U{2606}'
    ensures r.0.Some? && r.1.Some? ==> |r.0.value + r.1.value| == 5
  {
    (Repeat('\U{2605}', rating), Repeat('\U{2606}', 5 - rating))
  }

  /** `getAverageRating`: 0 without reviews, else the mean rating. */
  function Average(ratings: seq<int>): (r: real)
    ensures ratings == [] ==> r == 0.0
    ensures ratings != [] ==> r * (|ratings| as real) == RatingSum(ratings) as real
    ensures (forall i :: 0 <= i < |ratings| ==> 1 <= ratings[i] <= 5) && ratings != [] ==> 1.0 <= r <= 5.0
  {
    if ratings == [] then 0.0
    else
      var sum := RatingSum(ratings);
      BoundedSum(ratings);
      MeanBounds(sum as real, |ratings| as real);
      (sum as real) / (|ratings| as real)
  }

  /** The ratings added up, as the `reduce` does. */
  function RatingSum(ratings: seq<int>): int
    decreases |ratings|
  {
    if ratings == [] then 0 else ratings[0] + RatingSum(ratings[1..])
  }

  /** `k` copies of one rating sum to `k` times it. */
  lemma {:induction false} SumOfCopies(v: int, k: nat)
    ensures RatingSum(seq(k, _ => v)) == k * v
  {
    if k > 0 {
      assert seq(k, _ => v)[1..] == seq(k - 1, _ => v);
      SumOfCopies(v, k - 1);
    }
  }

  /** Reviews that all give the same rating average to that rating. */
  lemma {:induction false} AverageOfCopies(v: int, k: nat)
    requires k > 0
    ensures Average(seq(k, _ => v)) == v as real
  {
    SumOfCopies(v, k);
    var r := Average(seq(k, _ => v));
    assert r * (k as real) == (k as real) * (v as real);
    assert (r - v as real) * (k as real) == 0.0;
  }

  /** A total between `n` and `5n` over `n` items has a mean between 1 and 5. */
  lemma MeanBounds(sum: real, n: real)
    requires 0.0 < n
    ensures n <= sum <= 5.0 * n ==> 1.0 <= sum / n <= 5.0
  {
    var q := sum / n;
    assert q * n == sum;
    if q < 1.0 { assert q * n < n; }
    if q > 5.0 { assert q * n > 5.0 * n; }
  }

  /** Ratings within 1..5 sum to between `n` and `5n`. */
  lemma {:induction false} BoundedSum(ratings: seq<int>)
    ensures (forall i :: 0 <= i < |ratings| ==> 1 <= ratings[i] <= 5) ==>
              |ratings| <= RatingSum(ratings) <= 5 * |ratings|
  {
    if ratings != [] {
      BoundedSum(ratings[1..]);
    }
  }

  /** `getRatingDistribution`: 0 without reviews, else the percentage with that many stars. */
  function Distribution(ratings: seq<int>, star: int): (r: real)
    ensures ratings == [] ==> r == 0.0
    ensures ratings != [] ==> r * (|ratings| as real) == (StarCount(ratings, star) as real) * 100.0
    ensures 0.0 <= r <= 100.0
  {
    if ratings == [] then 0.0
    else Percent(StarCount(ratings, star), |ratings|)
  }

  /** `(count / n) * 100`, written over the reals as `count * 100 / n`. */
  function Percent(count: nat, n: nat): (r: real)
    requires n > 0
    ensures r * (n as real) == (count as real) * 100.0
    ensures count <= n ==> 0.0 <= r <= 100.0
  {
    (count as real) * 100.0 / (n as real)
  }

  /** How many ratings equal `star`. */
  function StarCount(ratings: seq<int>, star: int): (c: nat)
    ensures c <= |ratings|
    decreases |ratings|
  {
    if ratings == [] then 0 else (if ratings[0] == star then 1 else 0) + StarCount(ratings[1..], star)
  }

  /** Every rating from 1 to 5 is counted under exactly one star. */
  lemma {:induction false} StarCountsCoverAll(ratings: seq<int>)
    requires forall i :: 0 <= i < |ratings| ==> 1 <= ratings[i] <= 5
    ensures StarCount(ratings, 1) + StarCount(ratings, 2) + StarCount(ratings, 3)
            + StarCount(ratings, 4) + StarCount(ratings, 5) == |ratings|
    decreases |ratings|
  {
    if ratings != [] {
      StarCountsCoverAll(ratings[1..]);
    }
  }

  /** With every rating from 1 to 5, the five bars add up to 100 percent. */
  lemma {:induction false} DistributionSumsToHundred(ratings: seq<int>)
    requires ratings != []
    requires forall i :: 0 <= i < |ratings| ==> 1 <= ratings[i] <= 5
    ensures Distribution(ratings, 1) + Distribution(ratings, 2) + Distribution(ratings, 3)
            + Distribution(ratings, 4) + Distribution(ratings, 5) == 100.0
  {
    StarCountsCoverAll(ratings);
    PercentsAddUp(StarCount(ratings, 1), StarCount(ratings, 2), StarCount(ratings, 3),
                  StarCount(ratings, 4), StarCount(ratings, 5), |ratings|);
  }

  /** Five percentages of counts that add up to the whole add up to 100. */
  lemma PercentsAddUp(c1: nat, c2: nat, c3: nat, c4: nat, c5: nat, n: nat)
    requires 0 < n && c1 + c2 + c3 + c4 + c5 == n
    ensures Percent(c1, n) + Percent(c2, n) + Percent(c3, n) + Percent(c4, n) + Percent(c5, n) == 100.0
  {
    RealSum(c1, c2, c3, c4, c5, n);
    SharesAddUp(Percent(c1, n), Percent(c2, n), Percent(c3, n), Percent(c4, n), Percent(c5, n),
                c1 as real, c2 as real, c3 as real, c4 as real, c5 as real, n as real);
  }

  /** A sum of whole numbers, read as reals. */
  lemma RealSum(c1: int, c2: int, c3: int, c4: int, c5: int, n: int)
    requires c1 + c2 + c3 + c4 + c5 == n
    ensures c1 as real + c2 as real + c3 as real + c4 as real + c5 as real == n as real
  {
  }

  /** Five shares whose scaled values are the counts times 100, over counts
      that make up the whole, add up to 100. */
  lemma SharesAddUp(d1: real, d2: real, d3: real, d4: real, d5: real,
                    c1: real, c2: real, c3: real, c4: real, c5: real, n: real)
    requires 0.0 < n && c1 + c2 + c3 + c4 + c5 == n
    requires d1 * n == c1 * 100.0 && d2 * n == c2 * 100.0 && d3 * n == c3 * 100.0
    requires d4 * n == c4 * 100.0 && d5 * n == c5 * 100.0
    ensures d1 + d2 + d3 + d4 + d5 == 100.0
  {
    var total := d1 + d2 + d3 + d4 + d5;
    assert total * n == d1 * n + d2 * n + d3 * n + d4 * n + d5 * n;
    assert total * n == (c1 + c2 + c3 + c4 + c5) * 100.0;
    assert (total - 100.0) * n == 0.0;
  }
}

=== FILE: profile.dfy ===
/** The account profile page: the edit form and its validation, the password
    change form, and the password strength meter. */
module Profile {
  import opened Js

  // ---------------------------------------------------------------------------
  // Profile form

  datatype EditForm = EditForm(firstName: string, lastName: string, phone: string)

  /** `isFormValid`: first name, last name and phone are all non-blank. */
  predicate IsFormValid(f: EditForm): (b: bool)
    ensures b <==> !AllSpace(f.firstName) && !AllSpace(f.lastName) && !AllSpace(f.phone)
  {
    BlankIffAllSpace(f.firstName);
    BlankIffAllSpace(f.lastName);
    BlankIffAllSpace(f.phone);
    !IsBlank(f.firstName) && !IsBlank(f.lastName) && !IsBlank(f.phone)
  }

  /** `saveProfile`: nothing is sent for an invalid form; otherwise the
      trimmed fields are. */
  function SaveProfile(f: EditForm): (r: Option<EditForm>)
    ensures r.Some? <==> IsFormValid(f)
    ensures r.Some? ==> IsFormValid(r.value)
    ensures r.Some? ==> r.value.firstName == Trim(f.firstName) && r.value.lastName == Trim(f.lastName)
                        && r.value.phone == Trim(f.phone)
  {
    if !IsFormValid(f) then None
    else
      TrimIdempotent(f.firstName);
      TrimIdempotent(f.lastName);
      TrimIdempotent(f.phone);
      Some(EditForm(Trim(f.firstName), Trim(f.lastName), Trim(f.phone)))
  }

  /** Saving what was saved sends the same values again. */
  lemma SaveIsIdempotent(f: EditForm)
    requires IsFormValid(f)
    ensures SaveProfile(SaveProfile(f).value) == SaveProfile(f)
  {
    TrimIdempotent(f.firstName);
    TrimIdempotent(f.lastName);
    TrimIdempotent(f.phone);
  }

  /** A field of spaces is no better than an empty one. */
  lemma BlankFieldRejected(f: EditForm)
    requires f.phone == "   "
    ensures SaveProfile(f).None?
  {
    assert IsSpace(' ');
    assert TrimStart(f.phone) == "";
  }

  /** The profile page: the loaded profile, whether the form is open, and the form. */
  datatype Editor = Editor(profile: Option<EditForm>, editing: bool, form: EditForm)

  /** `loadProfile`'s success: the form starts from the profile. */
  function OnProfileLoaded(e: Editor, p: EditForm): (r: Editor)
    ensures r.profile == Some(p) && r.form == p && r.editing == e.editing
  {
    e.(profile := Some(p), form := p)
  }

  /** `toggleEdit`: leaving edit mode puts the loaded profile back in the form. */
  function ToggleEdit(e: Editor): (r: Editor)
    ensures r.editing == !e.editing && r.profile == e.profile
    ensures e.editing && e.profile.Some? ==> r.form == e.profile.value
    ensures !(e.editing && e.profile.Some?) ==> r.form == e.form
  {
    if e.editing && e.profile.Some? then e.(editing := false, form := e.profile.value)
    else e.(editing := !e.editing)
  }

  /** Opening the form, typing anything and closing it again discards the typing. */
  lemma CancelDiscardsEdits(e: Editor, typed: EditForm)
    requires !e.editing && e.profile.Some?
    ensures ToggleEdit(ToggleEdit(e).(form := typed)).form == e.profile.value
    ensures !ToggleEdit(ToggleEdit(e).(form := typed)).editing
  {
  }

  /** The toast after a failed save: the server's message, else a generic one. */
  function SaveErrorMessage(e: HttpError): (r: string)
    ensures TruthyStr(e.serverMessage) ==> r == e.serverMessage.value
    ensures !TruthyStr(e.serverMessage) ==> r == "Failed to update profile"
  {
    OrStr(e.serverMessage, "Failed to update profile")
  }

  // ---------------------------------------------------------------------------
  // Password change

  datatype PasswordForm = PasswordForm(current: string, next: string, confirm: string)

  const EmptyPasswordForm := PasswordForm("", "", "")

  /** What `changePassword` does with the form: a warning, or the request. */
  datatype PasswordCheck = FillAll | Mismatch | TooShort | Unchanged | Submit(current: string, next: string)

  /** The checks in the order the page makes them: every field filled, the
      confirmation matching, at least six characters, and a new password. */
  function CheckPassword(f: PasswordForm): (r: PasswordCheck)
    ensures r == FillAll <==> f.current == "" || f.next == "" || f.confirm == ""
    ensures r == Mismatch <==> f.current != "" && f.next != "" && f.confirm != "" && f.next != f.confirm
    ensures r == TooShort <==> f.current != "" && f.next != "" && f.next == f.confirm && |f.next| < 6
    ensures r == Unchanged <==> f.current != "" && f.next == f.confirm && |f.next| >= 6 && f.next == f.current
    ensures r.Submit? <==> f.current != "" && f.next == f.confirm && |f.next| >= 6 && f.next != f.current
    ensures r.Submit? ==> r.current == f.current && r.next == f.next
  {
    if f.current == "" || f.next == "" || f.confirm == "" then FillAll
    else if f.next != f.confirm then Mismatch
    else if |f.next| < 6 then TooShort
    else if f.next == f.current then Unchanged
    else Submit(f.current, f.next)
  }

  /** The warning shown for a refused form. */
  function CheckMessage(c: PasswordCheck): (r: string)
    ensures c.Submit? <==> r == ""
  {
    match c
    case FillAll => "Please fill in all password fields"
    case Mismatch => "New passwords do not match"
    case TooShort => "Password must be at least 6 characters long"
    case Unchanged => "New password must be different from current password"
    case Submit(_, _) => ""
  }

  /** The password panel: shown or hidden, and the form. */
  datatype PasswordPanel = PasswordPanel(show: bool, form: PasswordForm)

  /** A hidden panel holds an empty form. */
  predicate PanelValid(p: PasswordPanel) {
    !p.show ==> p.form == EmptyPasswordForm
  }

  /** `togglePasswordForm`: hiding the panel clears the form. */
  function TogglePasswordForm(p: PasswordPanel): (r: PasswordPanel)
    ensures r.show == !p.show
    ensures p.show ==> r.form == EmptyPasswordForm
    ensures !p.show ==> r.form == p.form
    ensures PanelValid(p) ==> PanelValid(r)
  {
    if p.show then PasswordPanel(false, EmptyPasswordForm) else p.(show := true)
  }

  /** A successful change clears the form and hides the panel; a failure keeps both. */
  function OnPasswordChanged(p: PasswordPanel, outcome: Outcome<()>): (r: (PasswordPanel, string))
    ensures outcome.Ok? ==> r.0 == PasswordPanel(false, EmptyPasswordForm) && r.1 == "Password changed successfully!"
    ensures outcome.Err? ==> r.0 == p && r.1 == OrStr(outcome.error.serverMessage, "Failed to change password")
    ensures PanelValid(p) ==> PanelValid(r.0)
  {
    if outcome.Ok? then (PasswordPanel(false, EmptyPasswordForm), "Password changed successfully!")
    else (p, OrStr(outcome.error.serverMessage, "Failed to change password"))
  }

  /** A freshly opened panel asks for all fields before sending anything. */
  lemma ReopenedPanelAsksForFields(p: PasswordPanel)
    requires PanelValid(p) && !p.show
    ensures CheckPassword(TogglePasswordForm(p).form) == FillAll
  {
  }

  // ---------------------------------------------------------------------------
  // Strength meter

  predicate HasLower(s: string) { exists i :: 0 <= i < |s| && 'a' <= s[i] <= 'z' }
  predicate HasUpper(s: string) { exists i :: 0 <= i < |s| && 'A' <= s[i] <= 'Z' }
  predicate HasDigit(s: string) { exists i :: 0 <= i < |s| && '0' <= s[i] <= '9' }

  /** The punctuation the meter counts as special. */
  const Specials: string := "!@#$%^&*(),.?\":{}|<>"

  predicate HasSpecial(s: string) { exists i :: 0 <= i < |s| && s[i] in Specials }

  function Point(b: bool): nat { if b then 1 else 0 }

  /** One point each for at least 6 characters, at least 8, both cases, a digit
      and a special character. */
  function Score(p: string): (r: nat)
    ensures r <= 5
    ensures |p| < 6 ==> r <= 3
    ensures |p| >= 8 && HasLower(p) && HasUpper(p) ==> r >= 3
  {
    Point(|p| >= 6) + Point(|p| >= 8) + Point(HasLower(p) && HasUpper(p)) + Point(HasDigit(p)) + Point(HasSpecial(p))
  }

  datatype Strength = Strength(name: string, color: string, percentage: int)

  /** `getPasswordStrength`: nothing for an empty password; otherwise weak up
      to 2 points, medium at 3, strong from 4. */
  function PasswordStrength(p: string): (r: Strength)
    ensures p == "" <==> r == Strength("", "", 0)
    ensures r.name == "Weak" <==> p != "" && Score(p) <= 2
    ensures r.name == "Medium" <==> p != "" && Score(p) == 3
    ensures r.name == "Strong" <==> p != "" && Score(p) >= 4
    ensures r.name == "Weak" ==> r.percentage == 33
    ensures r.name == "Medium" ==> r.percentage == 66
    ensures r.name == "Strong" ==> r.percentage == 100
  {
    if p == "" then Strength("", "", 0)
    else if Score(p) <= 2 then Strength("Weak", "#ef4444", 33)
    else if Score(p) <= 3 then Strength("Medium", "#f59e0b", 66)
    else Strength("Strong", "#10b981", 100)
  }

  /** A password under six characters is never rated strong. */
  lemma ShortNeverStrong(p: string)
    requires |p| < 6
    ensures PasswordStrength(p).name != "Strong"
  {
  }

  /** Appending characters never lowers the score. */
  lemma ScoreMonotone(p: string, q: string)
    ensures Score(p) <= Score(p + q)
  {
    var s := p + q;
    assert forall i :: 0 <= i < |p| ==> s[i] == p[i];
    if HasLower(p) { var i :| 0 <= i < |p| && 'a' <= p[i] <= 'z'; assert s[i] == p[i]; }
    if HasUpper(p) { var i :| 0 <= i < |p| && 'A' <= p[i] <= 'Z'; assert s[i] == p[i]; }
    if HasDigit(p) { var i :| 0 <= i < |p| && '0' <= p[i] <= '9'; assert s[i] == p[i]; }
    if HasSpecial(p) { var i :| 0 <= i < |p| && p[i] in Specials; assert s[i] == p[i]; }
  }

  /** An accepted new password of eight or more characters that mixes cases and has a digit is rated strong. */
  lemma AcceptedMixedIsStrong(f: PasswordForm)
    requires CheckPassword(f).Submit? && |f.next| >= 8
    requires HasLower(f.next) && HasUpper(f.next) && HasDigit(f.next)
    ensures PasswordStrength(f.next).name == "Strong"
  {
  }
}

=== FILE: ratings.dfy ===
/** Star strings: `full.repeat(r) + empty.repeat(5 - r)`, the rating display
    several pages share with their own pair of symbols. */
module Stars {
  import opened Js

  /** Five stars: `rating` full ones then the rest empty. `repeat` throws for a
      negative count, so a rating outside 0..5 has no rendering. */
  function Row(full: char, empty: char, rating: int): (r: Option<string>)
    ensures r.Some? <==> 0 <= rating <= 5
    ensures r.Some? ==> |r.value| == 5
    ensures r.Some? ==> forall i :: 0 <= i < 5 ==> r.value[i] == (if i < rating then full else empty)
  {
    var f := Repeat(full, rating);
    var e := Repeat(empty, 5 - rating);
    if f.Some? && e.Some? then Some(f.value + e.value) else None
  }

  /** The full stars of a row count the rating, when the two symbols differ. */
  lemma RowCountsRating(full: char, empty: char, rating: int)
    requires full != empty && 0 <= rating <= 5
    ensures Count((c: char) => c == full, Row(full, empty, rating).value) == rating
  {
    CountLeading(full, empty, Row(full, empty, rating).value, rating);
  }

  /** A string of `k` full stars followed by empty ones holds `k` full stars. */
  lemma {:induction false} CountLeading(full: char, empty: char, s: string, k: int)
    requires full != empty && 0 <= k <= |s|
    requires forall i :: 0 <= i < |s| ==> s[i] == (if i < k then full else empty)
    ensures Count((c: char) => c == full, s) == k
    decreases |s|
  {
    if |s| > 0 {
      var k' := if k > 0 then k - 1 else 0;
      assert forall i :: 0 <= i < |s[1..]| ==> s[1..][i] == s[i + 1];
      CountLeading(full, empty, s[1..], k');
    }
  }

  /** Rows for different ratings differ. */
  lemma RowInjective(full: char, empty: char, a: int, b: int)
    requires full != empty && 0 <= a <= 5 && 0 <= b <= 5 && a != b
    ensures Row(full, empty, a) != Row(full, empty, b)
  {
    var m := if a < b then a else b;
    assert Row(full, empty, a).value[m] != Row(full, empty, b).value[m];
  }

  /** The product page's `getStars` and the product panel's `calculateStars`:
      five empty stars for a missing or zero rating, otherwise `★` for the
      rating then `☆`. */
  function Rated(rating: Option<int>): (r: Option<string>)
    ensures !TruthyNum(rating) ==> r == Some("\U{2606}\U{2606}\U{2606}\U{2606}\U{2606}")
    ensures TruthyNum(rating) ==> r == Row('\U{2605}', '\U{2606}', rating.value)
    ensures r.Some? <==> !TruthyNum(rating) || 0 < rating.value <= 5
  {
    if !TruthyNum(rating) then Some("\U{2606}\U{2606}\U{2606}\U{2606}\U{2606}")
    else Row('\U{2605}', '\U{2606}', rating.value)
  }

  /** A zero rating renders like the row for 0: the special case changes nothing
      but the missing rating. */
  lemma RatedZeroIsRowZero()
    ensures Rated(Some(0)) == Row('\U{2605}', '\U{2606}', 0)
    ensures Rated(None) == Rated(Some(0))
  {
    assert Row('\U{2605}', '\U{2606}', 0).value == "\U{2606}\U{2606}\U{2606}\U{2606}\U{2606}";
  }

  /** The card and wishlist star list for a fractional rating: five symbols,
      all empty for a zero rating, otherwise one full symbol per whole star and
      one more when the fraction is at least a half. */
  function Halves(rating: real): (r: seq<char>)
    ensures |r| == 5
    ensures rating == 0.0 ==> forall i :: 0 <= i < 5 ==> r[i] == '\U{2606}'
    ensures rating != 0.0 ==>
              forall i :: 0 <= i < 5 ==>
                (r[i] == '\U{2605}' <==> i < rating.Floor || (i == rating.Floor && rating - rating.Floor as real >= 0.5))
  {
    if rating == 0.0 then seq(5, _ => '\U{2606}')
    else
      var full := rating.Floor;
      var half := rating - full as real >= 0.5;
      seq(5, i => if i < full || (i == full && half) then '\U{2605}' else '\U{2606}')
  }

  /** For a whole rating of 0 to 5 the fractional star list spells the same
      five symbols as the row of that rating, and above 5 all five are full. */
  lemma HalvesAgreeWithRow(n: int)
    requires 0 <= n
    ensures n <= 5 ==> Halves(n as real) == Row('\U{2605}', '\U{2606}', n).value
    ensures n >= 5 ==> Halves(n as real) == "\U{2605}\U{2605}\U{2605}\U{2605}\U{2605}"
  {
    assert (n as real).Floor == n;
    var h := Halves(n as real);
    if n <= 5 {
      var w := Row('\U{2605}', '\U{2606}', n).value;
      assert forall i :: 0 <= i < 5 ==> h[i] == w[i];
    }
    if n >= 5 {
      assert forall i :: 0 <= i < 5 ==> h[i] == '\U{2605}';
    }
  }
}

=== FILE: shipping_form.dfy ===
/** The checkout's shipping step: saved addresses with a default selection, or
    a new address typed into a form. */
module ShippingForm {
  import opened Js
  import opened AddressRecord
  import Checkout

  /** The address-list response: `{data}`, `{addresses}`, or a bare array. */
  datatype AddressesResponse = Wrapped(data: Option<seq<Address>>, addresses: Option<seq<Address>>) | BareList(items: seq<Address>)

  /** The new-address form's fields. */
  datatype Draft = Draft(firstName: string, lastName: string, email: string, phone: string, address: string,
                         city: string, state: string, kind: string, setAsDefault: bool)

  datatype Form = Form(saved: seq<Address>, selectedId: Option<string>, showNewForm: bool, loading: bool, draft: Draft)

  /** The saved addresses: `data`, then `addresses`, then a bare array. A
      response object with neither holds no list and reads as empty. */
  function SavedList(resp: AddressesResponse): (r: seq<Address>)
    ensures resp.Wrapped? && resp.data.Some? ==> r == resp.data.value
    ensures resp.Wrapped? && resp.data.None? && resp.addresses.Some? ==> r == resp.addresses.value
    ensures resp.BareList? ==> r == resp.items
  {
    match resp
    case Wrapped(d, a) => if d.Some? then d.value else if a.Some? then a.value else []
    case BareList(xs) => xs
  }

  /** Position of the first address flagged as default. */
  function FirstDefault(saved: seq<Address>): (r: Option<nat>)
    ensures r.Some? ==> r.value < |saved| && TruthyBool(saved[r.value].isDefault)
                        && forall j :: 0 <= j < r.value ==> !TruthyBool(saved[j].isDefault)
    ensures r.None? ==> forall j :: 0 <= j < |saved| ==> !TruthyBool(saved[j].isDefault)
  {
    if |saved| == 0 then None
    else if TruthyBool(saved[0].isDefault) then Some(0)
    else match FirstDefault(saved[1..])
      case Some(k) => Some(k + 1)
      case None => None
  }

  /** The address selected by default: the first default address's id, or
      (when there is none, or its id is empty) the first address's id. */
  function DefaultSelection(saved: seq<Address>): (r: Option<string>)
    requires |saved| > 0
    ensures FirstDefault(saved).None? ==> r == saved[0].dbId
    ensures FirstDefault(saved).Some? && TruthyStr(saved[FirstDefault(saved).value].dbId) ==>
              r == saved[FirstDefault(saved).value].dbId
    ensures FirstDefault(saved).Some? && !TruthyStr(saved[FirstDefault(saved).value].dbId) ==> r == saved[0].dbId
  {
    match FirstDefault(saved)
    case Some(k) => OrStrOpt(saved[k].dbId, saved[0].dbId)
    case None => saved[0].dbId
  }

  /** `loadSavedAddresses` on completion: a non-empty list selects its default
      and hides the form; an empty list, a 404 or a 401 shows the form; other
      errors change nothing but the loading flag. */
  function OnAddressesLoaded(f: Form, outcome: Outcome<AddressesResponse>): (f': Form)
    ensures !f'.loading && f'.draft == f.draft
    ensures outcome.Ok? && SavedList(outcome.value) != [] ==>
              f'.saved == SavedList(outcome.value) && !f'.showNewForm
              && f'.selectedId == DefaultSelection(f'.saved)
    ensures outcome.Ok? && SavedList(outcome.value) == [] ==> f'.saved == [] && f'.showNewForm
    ensures outcome.Err? && outcome.error.status in {401, 404} ==> f'.saved == [] && f'.showNewForm
    ensures outcome.Err? && outcome.error.status !in {401, 404} ==> f' == f.(loading := false)
  {
    match outcome
    case Ok(resp) =>
      var saved := SavedList(resp);
      if |saved| > 0 then f.(saved := saved, selectedId := DefaultSelection(saved), showNewForm := false, loading := false)
      else f.(saved := saved, showNewForm := true, loading := false)
    case Err(e) =>
      if e.status == 404 || e.status == 401 then f.(saved := [], showNewForm := true, loading := false)
      else f.(loading := false)
  }

  /** `selectAddress`. */
  function SelectAddress(f: Form, id: string): (f': Form)
    ensures f'.selectedId == Some(id) && !f'.showNewForm && f'.saved == f.saved
  {
    f.(selectedId := Some(id), showNewForm := false)
  }

  /** `toggleNewAddressForm`: opening the form clears the selection; closing it
      selects the default (or first) saved address again, if there is one. */
  function ToggleNewAddressForm(f: Form): (f': Form)
    ensures f'.showNewForm == !f.showNewForm && f'.saved == f.saved
    ensures f'.showNewForm ==> f'.selectedId.None?
    ensures !f'.showNewForm && f.saved != [] ==> f'.selectedId == DefaultSelection(f.saved)
    ensures !f'.showNewForm && f.saved == [] ==> f'.selectedId == f.selectedId
  {
    var open := !f.showNewForm;
    if open then f.(showNewForm := true, selectedId := None)
    else if |f.saved| > 0 then f.(showNewForm := false, selectedId := DefaultSelection(f.saved))
    else f.(showNewForm := false)
  }

  /** Opening and then closing the form comes back to the default selection. */
  lemma ToggleTwiceReselects(f: Form)
    requires !f.showNewForm && f.saved != []
    ensures ToggleNewAddressForm(ToggleNewAddressForm(f)).selectedId == DefaultSelection(f.saved)
    ensures !ToggleNewAddressForm(ToggleNewAddressForm(f)).showNewForm
  {
  }

  /** `isFormValid`: a selection is enough; otherwise all seven fields must be
      non-blank. */
  function IsFormValid(f: Form): (b: bool)
    ensures TruthyStr(f.selectedId) ==> b
    ensures !TruthyStr(f.selectedId) ==>
              (b <==> Trim(f.draft.firstName) != "" && Trim(f.draft.lastName) != "" && Trim(f.draft.email) != ""
                      && Trim(f.draft.phone) != "" && Trim(f.draft.address) != "" && Trim(f.draft.city) != ""
                      && Trim(f.draft.state) != "")
  {
    if TruthyStr(f.selectedId) then true
    else
      var d := f.draft;
      Trim(d.firstName) != "" && Trim(d.lastName) != "" && Trim(d.email) != "" && Trim(d.phone) != ""
      && Trim(d.address) != "" && Trim(d.city) != "" && Trim(d.state) != ""
  }

  /** Position of the saved address with the given `_id`. */
  function FindById(saved: seq<Address>, id: string): (r: Option<nat>)
    ensures r.Some? ==> r.value < |saved| && saved[r.value].dbId == Some(id)
    ensures r.None? ==> forall j :: 0 <= j < |saved| ==> saved[j].dbId != Some(id)
  {
    if |saved| == 0 then None
    else if saved[0].dbId == Some(id) then Some(0)
    else match FindById(saved[1..], id)
      case Some(k) => Some(k + 1)
      case None => None
  }

  /** The address emitted for a filled-in form: every field trimmed, the street
      under both names, the type lower-cased, and the default flag under both names. */
  function NewAddressFrom(d: Draft): (a: Address)
    ensures a.address == Some(Trim(d.address)) && a.addressLine == Some(Trim(d.address))
    ensures a.isDefault == Some(d.setAsDefault) && a.setAsDefault == Some(d.setAsDefault)
    ensures a.addressId.None? && a.dbId.None?
    ensures a.kind == Some(Lower(d.kind))
  {
    Address(None, None, Some(Lower(d.kind)), Some(Trim(d.firstName)), Some(Trim(d.lastName)), Some(Trim(d.email)),
            Some(Trim(d.phone)), Some(Trim(d.address)), Some(Trim(d.address)), Some(Trim(d.city)),
            Some(Trim(d.state)), Some(d.setAsDefault), Some(d.setAsDefault))
  }

  /** `onSubmit`: a selected address is emitted with `addressId` set to its
      `_id`, or nothing if it is not in the list; otherwise a valid form emits
      the new address and an invalid one emits nothing. */
  function OnSubmit(f: Form): (r: Option<Address>)
    ensures TruthyStr(f.selectedId) && FindById(f.saved, f.selectedId.value).None? ==> r.None?
    ensures TruthyStr(f.selectedId) && r.Some? ==>
              r.value.addressId == r.value.dbId && r.value.dbId == f.selectedId
              && exists j :: 0 <= j < |f.saved| && r.value == f.saved[j].(addressId := f.saved[j].dbId)
    ensures !TruthyStr(f.selectedId) ==> (r.Some? <==> IsFormValid(f))
    ensures !TruthyStr(f.selectedId) && r.Some? ==> r.value == NewAddressFrom(f.draft)
  {
    if TruthyStr(f.selectedId) then
      match FindById(f.saved, f.selectedId.value)
      case Some(k) => Some(f.saved[k].(addressId := f.saved[k].dbId))
      case None => None
    else if !IsFormValid(f) then None
    else Some(NewAddressFrom(f.draft))
  }

  /** A new address typed into the form reaches the checkout as a temporary
      address whose saved data carries the trimmed street and the default flag. */
  lemma NewAddressReachesCheckout(d: Draft, s: Checkout.State, now: nat)
    requires Trim(d.address) != ""
    ensures var s' := Checkout.OnShippingSubmit(s, NewAddressFrom(d), now);
            Checkout.IsTemp(s'.shipping.value.addressId)
            && s'.shipping.value.full.value.isDefault == d.setAsDefault
            && s'.shipping.value.full.value.addressLine == Some(Trim(d.address))
  {
  }

  /** `getFullAddress`: the non-empty street (`addressLine`, else `address`),
      city and state, joined by `", "`. */
  function FullAddress(a: Address): (r: string)
    ensures r == "" <==> !TruthyStr(OrStrOpt(a.addressLine, a.address)) && !TruthyStr(a.city) && !TruthyStr(a.state)
    ensures r == JoinKept([OrStrOpt(a.addressLine, a.address), a.city, a.state], ", ")
  {
    var parts := [OrStrOpt(a.addressLine, a.address), a.city, a.state];
    CompactJoinIsJoinKept(parts, ", ");
    assert (forall i :: 0 <= i < |parts| ==> !TruthyStr(parts[i]))
           <==> !TruthyStr(parts[0]) && !TruthyStr(parts[1]) && !TruthyStr(parts[2]);
    CompactJoin(parts, ", ")
  }

  /** With all three parts present the address reads `street, city, state`. */
  lemma FullAddressOfComplete(a: Address)
    requires TruthyStr(a.addressLine) && TruthyStr(a.city) && TruthyStr(a.state)
    ensures FullAddress(a) == a.addressLine.value + ", " + a.city.value + ", " + a.state.value
  {
    assert OrStrOpt(a.addressLine, a.address) == a.addressLine;
    CompactJoinThree(a.addressLine.value, a.city.value, a.state.value, ", ");
  }

  /** `getAddressTypeLabel`: case-insensitive, `Home` for anything unknown. */
  function AddressTypeLabel(kind: Option<string>): (r: string)
    ensures kind.Some? && Lower(kind.value) == "office" ==> r == "Office"
    ensures kind.Some? && Lower(kind.value) == "other" ==> r == "Other"
    ensures r == "Home" <==> !(kind.Some? && Lower(kind.value) in {"office", "other"})
  {
    if kind.None? then "Home"
    else
      var k := Lower(kind.value);
      if k == "home" then "Home" else if k == "office" then "Office" else if k == "other" then "Other" else "Home"
  }
}

=== FILE: staff_user.dfy ===
/** The signed-in administrator as the back-office frame shows them. */
module StaffUser {
  import opened Js

  datatype User = User(firstName: Option<string>, lastName: Option<string>, email: Option<string>)
}

=== FILE: user_service.dfy ===
/** The user service's order statistics and name helpers. The user record of
    the account models is defined here from the fields the pages read. */
module UserService {
  import opened Js
  import opened Orders
  import AccountOrders

  datatype User = User(dbId: string, firstName: string, lastName: string, email: string, phone: Option<string>, role: string)

  datatype UserStats = UserStats(totalOrders: int, pendingOrders: int, completedOrders: int, wishlistItems: int, totalSpent: int)

  function IsDelivered(o: Order): bool { o.status == "delivered" }
  function IsPending(o: Order): bool { o.status == "pending" }

  /** `getUserStats` over the orders of the response (`data`, or none). */
  function GetUserStats(data: Option<seq<Order>>): (s: UserStats)
    ensures data.None? ==> s == UserStats(0, 0, 0, 0, 0)
    ensures data.Some? ==> s.totalOrders == |data.value|
    ensures data.Some? && data.value == [] ==> s == UserStats(0, 0, 0, 0, 0)
    ensures s.wishlistItems == 0
    ensures 0 <= s.pendingOrders && 0 <= s.completedOrders && s.pendingOrders + s.completedOrders <= s.totalOrders
  {
    var orders := data.GetOr([]);
    var delivered := Filter(IsDelivered, orders);
    var pending := Filter(IsPending, orders);
    PendingAndDeliveredDisjoint(orders);
    UserStats(|orders|, |pending|, |delivered|, 0, SumBy(AccountOrders.OrderTotal, delivered))
  }

  /** A pending order is never a delivered one, so the two counts fit in the total. */
  lemma {:induction false} PendingAndDeliveredDisjoint(orders: seq<Order>)
    ensures |Filter(IsPending, orders)| + |Filter(IsDelivered, orders)| <= |orders|
    decreases |orders|
  {
    if |orders| > 0 {
      PendingAndDeliveredDisjoint(orders[1..]);
    }
  }

  /** One more order: the total grows by one, the pending or completed count
      by one when it has that status, and the amount spent grows by its total
      only when it is delivered. */
  lemma StatsAppend(orders: seq<Order>, o: Order)
    ensures var before := GetUserStats(Some(orders));
            var after := GetUserStats(Some(orders + [o]));
            after.totalOrders == before.totalOrders + 1
            && after.pendingOrders == before.pendingOrders + (if o.status == "pending" then 1 else 0)
            && after.completedOrders == before.completedOrders + (if o.status == "delivered" then 1 else 0)
            && after.totalSpent == before.totalSpent + (if o.status == "delivered" then AccountOrders.OrderTotal(o) else 0)
  {
    FilterAppend(IsDelivered, orders, [o]);
    FilterAppend(IsPending, orders, [o]);
    SumByAppend(AccountOrders.OrderTotal, Filter(IsDelivered, orders), Filter(IsDelivered, [o]));
  }

  /** The statistics counted one order at a time, oldest first: an
      independent reference for `getUserStats`. */
  function Tally(orders: seq<Order>): (t: UserStats)
    ensures t.totalOrders == |orders| && t.wishlistItems == 0
    decreases |orders|
  {
    if orders == [] then UserStats(0, 0, 0, 0, 0)
    else
      var t := Tally(orders[..|orders| - 1]);
      var o := orders[|orders| - 1];
      UserStats(t.totalOrders + 1,
                t.pendingOrders + (if o.status == "pending" then 1 else 0),
                t.completedOrders + (if o.status == "delivered" then 1 else 0),
                0,
                t.totalSpent + (if o.status == "delivered" then AccountOrders.OrderTotal(o) else 0))
  }

  /** `getUserStats` agrees with the order-by-order count for every list. */
  lemma {:induction false} StatsAreTally(orders: seq<Order>)
    ensures GetUserStats(Some(orders)) == Tally(orders)
    decreases |orders|
  {
    if orders != [] {
      var front := orders[..|orders| - 1];
      var o := orders[|orders| - 1];
      assert orders == front + [o];
      StatsAreTally(front);
      StatsAppend(front, o);
    }
  }

  /** `getInitials`: `''` without a user, else the two first letters, uppercased. */
  function Initials(user: Option<User>): (r: string)
    ensures user.None? ==> r == ""
    ensures |r| <= 2
    ensures user.Some? && user.value.firstName != "" && user.value.lastName != "" ==>
              r == [UpperChar(user.value.firstName[0]), UpperChar(user.value.lastName[0])]
    ensures user.Some? && user.value.firstName == "" && user.value.lastName != "" ==>
              r == [UpperChar(user.value.lastName[0])]
    ensures user.Some? && user.value.firstName != "" && user.value.lastName == "" ==>
              r == [UpperChar(user.value.firstName[0])]
    ensures user.Some? && user.value.firstName == "" && user.value.lastName == "" ==> r == ""
  {
    if user.None? then "" else Upper(FirstChar(user.value.firstName) + FirstChar(user.value.lastName))
  }

  /** `getFullName`: `''` without a user, else `"first last"`. */
  function FullName(user: Option<User>): (r: string)
    ensures user.None? ==> r == ""
    ensures user.Some? ==> |r| == |user.value.firstName| + 1 + |user.value.lastName|
    ensures user.Some? ==> r[..|user.value.firstName|] == user.value.firstName
    ensures user.Some? ==> r[|user.value.firstName|] == ' '
    ensures user.Some? ==> r[|user.value.firstName| + 1..] == user.value.lastName
  {
    if user.None? then "" else user.value.firstName + " " + user.value.lastName
  }

  /** Splitting the full name at its space recovers both names, when neither contains a space. */
  lemma FullNameSplits(u: User)
    requires ' ' !in u.firstName && ' ' !in u.lastName
    ensures Split(FullName(Some(u)), ' ') == [u.firstName, u.lastName]
  {
    SplitTwo(u.firstName, u.lastName, ' ');
  }
}

=== FILE: view_details.dfy ===
/** The order details page: review and return eligibility, the return and
    review forms, and the local update after a cancel. */
module ViewDetails {
  import opened Js
  import opened Orders
  import OrderTracking

  /** `canReviewOrder`: only a delivered order can be reviewed. */
  function CanReviewOrder(order: Option<Order>): (b: bool)
    ensures b <==> order.Some? && order.value.status == "delivered"
  {
    order.Some? && order.value.status == "delivered"
  }

  /** `canRequestReturn` and `getDaysRemainingForReturn` without an order. */
  function CanRequestReturn(order: Option<Order>, today: int): (b: bool)
    ensures order.None? ==> !b
    ensures order.Some? ==> b == CanReturn(order.value, today)
  {
    order.Some? && CanReturn(order.value, today)
  }

  /** A returnable order can also be reviewed. */
  lemma ReturnableIsReviewable(order: Option<Order>, today: int)
    ensures CanRequestReturn(order, today) ==> CanReviewOrder(order)
  {
  }

  /** The return request `submitReturn` sends. */
  datatype ReturnPayload = ReturnPayload(orderId: string, reason: string)

  /** `submitReturn`: the same reason rules as the tracking page, sent for the order's `_id`. */
  function SubmitReturn(order: Option<Order>, reason: string): (r: Option<ReturnPayload>)
    ensures r.Some? <==> order.Some? && |Trim(reason)| >= OrderTracking.MinReasonLength
    ensures r.Some? ==> r.value == ReturnPayload(order.value.dbId, Trim(reason))
  {
    if order.None? then None
    else
      match OrderTracking.CheckReturnReason(reason)
      case AcceptReason(t) => Some(ReturnPayload(order.value.dbId, t))
      case _ => None
  }

  /** Both pages accept exactly the same return reasons and send the same text. */
  lemma SameReturnRules(o: Order, reason: string, p: OrderTracking.Page)
    requires p.order == Some(o) && p.returnReason == reason
    ensures SubmitReturn(Some(o), reason).Some? <==> OrderTracking.OnSubmitReturn(p).1.Some?
    ensures SubmitReturn(Some(o), reason).Some? ==>
              SubmitReturn(Some(o), reason).value.reason == OrderTracking.OnSubmitReturn(p).1.value
  {
  }

  /** The review `submitReview` sends. */
  datatype ReviewPayload = ReviewPayload(productId: string, rating: int, comment: string, orderId: string)

  /** What `submitReview` does. */
  datatype ReviewStep = NoTarget | WarnEmptyComment | WarnRating | MissingProductId | SendReview(payload: ReviewPayload)

  /** `submitReview`: nothing without a selected line and an order; a blank
      comment, then a rating outside 1..5, is refused; a line without a
      product id aborts and clears the busy flag; otherwise the trimmed comment
      is sent with the order's `_id`, and the form is busy. */
  function SubmitReview(item: Option<OrderItem>, order: Option<Order>, rating: int, comment: string, submitting: bool): (r: (ReviewStep, bool))
    ensures r.0.SendReview? <==> item.Some? && order.Some? && Trim(comment) != "" && 1 <= rating <= 5 && item.value.productId != ""
    ensures r.0.SendReview? ==> r.0.payload == ReviewPayload(item.value.productId, rating, Trim(comment), order.value.dbId) && r.1
    ensures r.0.MissingProductId? ==> !r.1
    ensures r.0.NoTarget? || r.0.WarnEmptyComment? || r.0.WarnRating? ==> r.1 == submitting
    ensures r.0.WarnRating? ==> rating < 1 || rating > 5
  {
    if item.None? || order.None? then (NoTarget, submitting)
    else if Trim(comment) == "" then (WarnEmptyComment, submitting)
    else if rating < 1 || rating > 5 then (WarnRating, submitting)
    else if item.value.productId == "" then (MissingProductId, false)
    else (SendReview(ReviewPayload(item.value.productId, rating, Trim(comment), order.value.dbId)), true)
  }

  /** `executeCancelOrder`: a successful cancel marks the shown order cancelled
      locally; a failure changes nothing. */
  function OnCancelled(order: Option<Order>, ok: bool): (r: Option<Order>)
    ensures r.None? <==> order.None?
    ensures ok && order.Some? ==> r.value.status == "cancelled" && r.value.(status := order.value.status) == order.value
    ensures !ok ==> r == order
  {
    if ok && order.Some? then Some(order.value.(status := "cancelled")) else order
  }

  /** A cancelled order can be neither cancelled again, nor returned, nor reviewed. */
  lemma CancelIsFinal(order: Order, today: int)
    ensures var r := OnCancelled(Some(order), true).value;
            !CanCancel(r) && !CanReturn(r, today) && !CanReviewOrder(Some(r))
  {
  }
}

=== FILE: wishlist_count.dfy ===
/** The wishlist's item counter kept by the wishlist service. */
module WishlistCount {
  import opened Js

  /** `getWishlist`: the count the server reports, or 0. */
  function Fetched(count: Option<int>): (r: int)
    ensures TruthyNum(count) ==> r == count.value
    ensures !TruthyNum(count) ==> r == 0
  {
    OrNum(count, 0)
  }

  /** `addToWishlist`: one more. */
  function Added(n: int): (r: int)
    ensures r == n + 1
  {
    n + 1
  }

  /** `removeFromWishlist`: one fewer, but never below zero. */
  function Removed(n: int): (r: int)
    ensures r >= 0
    ensures n >= 1 ==> r == n - 1
    ensures n <= 0 ==> r == 0
  {
    if n - 1 > 0 then n - 1 else 0
  }

  /** The counter stays non-negative, and a removal undoes an addition. */
  lemma CountInvariant(n: int)
    requires n >= 0
    ensures Added(n) >= 0 && Removed(n) >= 0
    ensures Removed(Added(n)) == n
    ensures Removed(0) == 0
  {
  }
}

=== FILE: wishlist_page.dfy ===
/** The account's wishlist page: stock wording, the move-to-cart flow, removal
    behind a confirmation, and the star row. */
module WishlistPage {
  import opened Js
  import Images
  import Stars

  datatype Item = Item(dbId: string, productId: string, name: string, images: seq<string>, stock: int, rating: Option<real>)

  datatype Page = Page(items: seq<Item>, loading: bool, showConfirm: bool, toRemove: Option<string>)

  /** `loadWishlist`: the response's `data` when it is an array, else empty;
      an error keeps the old list. */
  function OnLoaded(p: Page, outcome: Outcome<Option<seq<Item>>>): (r: Page)
    ensures !r.loading && r.showConfirm == p.showConfirm && r.toRemove == p.toRemove
    ensures outcome.Ok? && outcome.value.Some? ==> r.items == outcome.value.value
    ensures outcome.Ok? && outcome.value.None? ==> r.items == []
    ensures outcome.Err? ==> r.items == p.items
  {
    match outcome
    case Ok(data) => p.(items := data.GetOr([]), loading := false)
    case Err(_) => p.(loading := false)
  }

  datatype StockLevel = Out | Low | In

  /** `getStockStatus` and `getStockClass` share their levels: out at exactly
      0, low up to 3 (a negative stock included), in stock above. */
  function Level(stock: int): (r: StockLevel)
    ensures r == Out <==> stock == 0
    ensures r == Low <==> stock != 0 && stock <= 3
    ensures r == In <==> stock > 3
  {
    if stock == 0 then Out else if stock <= 3 then Low else In
  }

  function StockStatus(stock: int): (r: string)
    ensures Level(stock) == Out ==> r == "Out of Stock"
    ensures Level(stock) == Low ==> r == "Low Stock"
    ensures Level(stock) == In ==> r == "In Stock"
  {
    match Level(stock) case Out => "Out of Stock" case Low => "Low Stock" case In => "In Stock"
  }

  function StockClass(stock: int): (r: string)
    ensures Level(stock) == Out ==> r == "stock-out"
    ensures Level(stock) == Low ==> r == "stock-low"
    ensures Level(stock) == In ==> r == "stock-in"
  {
    match Level(stock) case Out => "stock-out" case Low => "stock-low" case In => "stock-in"
  }

  /** The status and the class always name the same level. */
  lemma StatusAndClassAgree(a: int, b: int)
    ensures StockStatus(a) == StockStatus(b) <==> StockClass(a) == StockClass(b)
  {
  }

  /** What the page does, in order, for "move to cart". */
  datatype Effect =
    | WarnOutOfStock
    | InfoAdding
    | AddToCart(productId: string, quantity: int)
    | Moved(message: string)
    | RemoveItem(id: string)
    | Reload
    | Failed(message: string)

  /** The cart request's error message: 401, else the server's message, else a generic one. */
  function MoveErrorMessage(e: HttpError): (r: string)
    ensures e.status == 401 ==> r == "Please login to add items to cart"
    ensures e.status != 401 ==> r == OrStr(e.serverMessage, "Failed to move item to cart")
  {
    if e.status == 401 then "Please login to add items to cart"
    else if TruthyStr(e.serverMessage) then e.serverMessage.value
    else "Failed to move item to cart"
  }

  /** `moveToCart`: nothing for a stock of 0 or less; otherwise one item is
      added, and on success the wishlist entry is removed and the list reloaded
      whether or not the removal succeeded. */
  function MoveToCart(item: Item, cart: Outcome<()>, removal: Outcome<()>): (r: seq<Effect>)
    ensures item.stock <= 0 <==> r == [WarnOutOfStock]
    ensures item.stock > 0 ==> |r| >= 3
    ensures item.stock > 0 ==> r[..2] == [InfoAdding, AddToCart(item.productId, 1)]
    ensures item.stock > 0 && cart.Ok? ==> r[2..] == [Moved(item.name + " moved to cart!"), RemoveItem(item.dbId), Reload]
    ensures item.stock > 0 && cart.Err? ==> r[2..] == [Failed(MoveErrorMessage(cart.error))]
  {
    if item.stock <= 0 then [WarnOutOfStock]
    else
      var sent := [InfoAdding, AddToCart(item.productId, 1)];
      var after := if cart.Ok? then [Moved(item.name + " moved to cart!"), RemoveItem(item.dbId), Reload]
                   else [Failed(MoveErrorMessage(cart.error))];
      assert (sent + after)[2..] == after;
      sent + after
  }

  /** An out-of-stock item never reaches the cart, and the removal's outcome
      never changes what the page does. */
  lemma MoveToCartGuards(item: Item, cart: Outcome<()>, r1: Outcome<()>, r2: Outcome<()>)
    ensures item.stock <= 0 ==> forall i :: 0 <= i < |MoveToCart(item, cart, r1)| ==> !MoveToCart(item, cart, r1)[i].AddToCart?
    ensures MoveToCart(item, cart, r1) == MoveToCart(item, cart, r2)
  {
  }

  /** `removeFromWishlist`: the id is kept and the confirmation shown. */
  function AskRemove(p: Page, id: string): (r: Page)
    ensures r.showConfirm && r.toRemove == Some(id) && r.items == p.items
  {
    p.(showConfirm := true, toRemove := Some(id))
  }

  /** `onConfirmRemove`: the modal closes and the kept id, if any, is removed. */
  function ConfirmRemove(p: Page): (r: (Page, Option<string>))
    ensures !r.0.showConfirm && r.0.items == p.items
    ensures r.1.Some? <==> TruthyStr(p.toRemove)
    ensures r.1.Some? ==> r.1 == p.toRemove
  {
    (p.(showConfirm := false), if TruthyStr(p.toRemove) then p.toRemove else None)
  }

  /** The removal's outcome: the id is forgotten, and the list reloaded only on success. */
  function OnRemoved(p: Page, outcome: Outcome<()>): (r: (Page, bool))
    ensures r.0.toRemove.None? && r.0.items == p.items
    ensures r.1 <==> outcome.Ok?
  {
    (p.(toRemove := None), outcome.Ok?)
  }

  /** `onCancelRemove`: the modal closes and the id is forgotten. */
  function CancelRemove(p: Page): (r: Page)
    ensures !r.showConfirm && r.toRemove.None? && r.items == p.items
  {
    p.(showConfirm := false, toRemove := None)
  }

  /** Nothing is removed without a confirmation of that very item. */
  lemma RemoveNeedsConfirmation(p: Page, id: string)
    requires id != ""
    ensures ConfirmRemove(CancelRemove(AskRemove(p, id))).1.None?
    ensures ConfirmRemove(AskRemove(p, id)).1 == Some(id)
  {
  }

  /** `getProductImage`: the first image normalised, or the placeholder. */
  function ProductImage(images: seq<string>): (r: string)
    ensures images == [] ==> r == Images.Placeholder
    ensures images != [] ==> r == Images.Absolutize(images[0]) && Images.IsAbsolute(r)
  {
    Images.FirstImage(Some(images))
  }

  /** `getStars`: five symbols, all empty for a missing or zero rating. */
  function StarList(rating: Option<real>): (r: seq<char>)
    ensures |r| == 5
    ensures rating.None? || rating.value == 0.0 ==> forall i :: 0 <= i < 5 ==> r[i] == '\U{2606}'
    ensures rating.Some? ==> r == Stars.Halves(rating.value)
  {
    Stars.Halves(rating.GetOr(0.0))
  }
}
